=== FILE: README.md ===
# ParrotOrganizer in Dafny

ParrotOrganizer is a browser front end for a TeknoParrot installation, with a small local HTTP server beside it. It lists every game profile the emulator ships and shows which ones are installed (have a user profile). It lets the user filter, search, sort, favourite and hide games, and install, remove and launch them. It also edits per-game settings, controls and custom overrides. This project models the logic of that application as pure functions over immutable records, and proves what each operation promises.

The model follows the program's structure: one Dafny module per source file.

- `GameModel` holds the game record the whole pipeline shares.
- `GameManager` and `FilterManager` hold the collection, the facets and the query engine: search, the fixed chain of filter stages, then the sort.
- `DataLoader` builds the collection. It parses the list files, builds the platform alias map, normalises platforms, and reads config and button records. It also settles display-name precedence.
- `CustomProfiles` and `ProfileEdit` cover the custom override layer. This is the XML writer and reader and their round trip, the shallow-merge cache, and applying a profile to a game. It also covers the form rules, including the tri-state lightgun field.
- `Preferences`, `IdSets` and `Selection` hold the preference record, the favourites and hidden-games sets, and the multi-selection.
- `ControlsEdit` and `SettingsEdit` model the controls editor and the settings editor on a list-of-elements view of the profile XML.
- `Paths`, `Launch` and `DebugLog` model icon candidates and profile paths, launch preconditions with the manual fallback command, and the bounded log buffer with its write queue.
- `GamepadNav`, `GamepadInput` and `Keyboard` model the grid, modal and menu navigation, the gamepad poller (press-edge detection, throttled moves, focus gating) and the key map.
- `UiRules` and `App` model the UI manager's decisions outside the DOM, the batch operations and refresh.
- `Server`, `StaticFiles` and `DevServer` model the two local servers. They work over an abstract file map keyed by folder and file name. `Uri` models the query-string contract between the client's `encodeURIComponent` and the server's `searchParams.get`.
- `Wrappers`, `Text` and `Seqs` hold the shared helpers: Option/Result, the JavaScript string operations, and subsequence and filter laws.

Inputs the browser or the operating system supplies are parameters:

- the clock;
- fetch and file results, as `Option`/`Result` values;
- whether a spawn throws;
- the pad reading;
- the focused element;
- `decodeURIComponent`'s outcome.

## Model

| member | source | states |
|---|---|---|
| GameManager.Initialize | js/modules/gameManager.js:16-20 | both the library and the visible list become the loaded data |
| GameManager.SetFilteredGames | js/modules/gameManager.js:39-41 | the visible list is replaced and the library kept |
| GameManager.GetGameById | js/modules/gameManager.js:46-48 | none iff no game has the id; otherwise the first game in order with that id |
| GameManager.InstalledGames | js/modules/gameManager.js:53-55 | exactly the installed games of the library |
| GameManager.NotInstalledGames | js/modules/gameManager.js:60-62 | exactly the games of the library that are not installed |
| GameManager.InstalledPartition | js/modules/gameManager.js:53-62 | installed and not-installed lists together count every game once |
| GameManager.GetStats | js/modules/gameManager.js:141-148 | total is the library size and equals installed plus not installed; filtered is the visible list's size |
| GameManager.StatsAfterInitialize | js/modules/gameManager.js:16-20 | right after initialisation every game is counted as visible |
| GameManager.Facet | js/modules/gameManager.js:67-116 | a strictly sorted list holding exactly the values of the key that some game has, other than "" and "Unknown" |
| GameManager.GetGenres | js/modules/gameManager.js:67-82 | sorted, duplicate-free, and exactly the genre values (`metadata.game_genre` else `GameGenreInternal`) some game has, excluding "Unknown" |
| GameManager.GetPlatforms | js/modules/gameManager.js:87-99 | sorted, duplicate-free, and exactly the platforms some game has, excluding "Unknown" |
| GameManager.GetEmulatorTypes | js/modules/gameManager.js:104-116 | sorted, duplicate-free, and exactly the emulator types some game has, excluding "Unknown" |
| GameManager.StrictlySortedUnique | js/modules/gameManager.js:81 | two strictly sorted lists with the same members are equal, so the facet list is determined by its members |
| GameManager.ParsedYears | js/modules/gameManager.js:122-126 | exactly the years that parse from some game's `release_year` |
| GameManager.GetYearRange | js/modules/gameManager.js:121-136 | with no parsed year the range is 2000 to the current year; otherwise both ends are parsed years and bound every parsed year |
| GameManager.ActiveQueryNotBlank | js/modules/gameManager.js:154 | a query is used iff it is not blank after trimming |
| GameManager.SearchGames | js/modules/gameManager.js:153-192 | a blank query returns the library unchanged; otherwise the order-preserving sub-list of games matching the lower-cased query in one of the nine fields |
| GameManager.SearchFindsName | js/modules/gameManager.js:161-182 | a game whose lower-cased name contains the lower-cased query is found |
| GameManager.YearSortKeyMeaning | js/modules/gameManager.js:209-212 | a year that fails to parse, is empty or parses to 0 sorts as 9999; any other parsed year sorts as itself |
| GameManager.UnknownSortIsByName | js/modules/gameManager.js:231-233 | an unknown sort field sorts by name |
| GameManager.BeforeTransitive | js/modules/gameManager.js:236-238 | the comparator's strict order is transitive in either direction |
| GameManager.BeforeIrreflexive | js/modules/gameManager.js:236-238 | no game sorts strictly before itself |
| GameManager.SortGames | js/modules/gameManager.js:197-242 | the result is sorted under the field and direction and is a permutation of the input |
| GameManager.SortSorted | js/modules/gameManager.js:197-242 | an already sorted list is returned unchanged |
| GameManager.SortStable | js/modules/gameManager.js:197-242 | the sort is stable: the games that share a sort key come out in the order they went in |
| GameManager.SortIdempotent | js/modules/gameManager.js:197-242 | sorting twice gives the same list as sorting once |
| FilterManager.WithoutHiddenMembers | js/modules/filterManager.js:43-46 | a game survives the hidden-games step iff it is listed and its id is not hidden |
| FilterManager.NothingHidden | js/modules/filterManager.js:43-46 | when no listed id is hidden, the hidden-games step passes the list through unchanged |
| FilterManager.FilterStageMembers | js/modules/filterManager.js:53-145 | one stage's filter keeps exactly the listed games its callback accepts, as an order-preserving subsequence |
| FilterManager.RunStagesMembers | js/modules/filterManager.js:53-145 | a game survives the chain of stages iff it was listed and every stage either is switched off or accepts it |
| FilterManager.AdmitsMeaningLists | js/modules/filterManager.js:53-95 | the status, genre, platform, emulator and year stages admit exactly what the reference predicates allow: an empty list is no constraint, the genre key is `metadata.game_genre` else `GameGenreInternal`, an unparseable year fails an active year filter |
| FilterManager.AdmitsMeaningFlags | js/modules/filterManager.js:97-145 | the GPU, subscription, favourites and advanced-flag stages admit exactly what the reference predicates allow |
| FilterManager.StagesAdmitKept | js/modules/filterManager.js:53-145 | a game the reference predicate keeps is admitted by every stage |
| FilterManager.AdmittedKept | js/modules/filterManager.js:53-145 | a game every stage admits is kept by the reference predicate (the converse) |
| FilterManager.SelectedMembers | js/modules/filterManager.js:40-145 | the filtered list holds exactly the base-list games the reference predicate keeps |
| FilterManager.ApplyFilters | js/modules/filterManager.js:40-150 | the result is a permutation of the filtered list, a sub-multiset of the base list, and sorted by the manager's key and direction |
| FilterManager.ApplyFiltersMembers | js/modules/filterManager.js:40-150 | a game is returned iff it is in the base list and the reference predicate keeps it |
| FilterManager.DefaultFiltersResult | js/modules/filterManager.js:9-34 | with the default filter record the result is exactly the non-hidden games, sorted |
| FilterManager.InitialManagerResult | js/modules/filterManager.js:9-34 | a fresh manager returns the non-hidden games sorted by name ascending |
| FilterManager.SearchIgnoresHidden | js/modules/filterManager.js:43-51 | with a non-blank search the result does not depend on the hidden set: hidden games reappear |
| FilterManager.BlankSearchIgnored | js/modules/filterManager.js:49-51 | a whitespace-only search gives the same result as no search |
| FilterManager.SubscriptionContradiction | js/modules/filterManager.js:115-123 | subscriptionOnly together with hideSubscription yields an empty result |
| FilterManager.StagesIgnoreSearch | js/modules/filterManager.js:53-145 | the stages after the search never consult the search text |
| FilterManager.YearFilterBounds | js/modules/filterManager.js:84-95 | under an active year filter every survivor's year parses and lies in [(yearMin or 0), (yearMax or 9999)] |
| FilterManager.GpuFilterNeutral | js/modules/filterManager.js:97-111 | with no GPU box ticked every game passes; with one ticked a game without metadata fails |
| FilterManager.EmptyListsNoConstraint | js/modules/filterManager.js:60-82 | empty genre, platform and emulator lists accept every game |
| FilterManager.ApplyFiltersAsWired | js/modules/filterManager.js:125-128 | with the hidden-games manager in the preferences slot, the call fails exactly when favoritesOnly is on and some game reaches the favourites stage |
| FilterManager.AsWiredAgreesWithoutFavorites | js/modules/filterManager.js:125-128 | with favoritesOnly off the wiring makes no difference to the result |
| FilterManager.AsWiredFavoritesThrows | js/app.js:27 | one visible game and favoritesOnly on: the wired manager throws |
| FilterManager.EarlyOffFavoritesThrows | js/app.js:27 | with no search and no earlier stage on, favoritesOnly on a lone game throws as wired |
| FilterManager.FavoritesOnlyKeepsFavorite | js/modules/filterManager.js:125-128 | given a favourites predicate, favoritesOnly keeps a favourite game |
| FilterManager.ParseKeyName | js/modules/filterManager.js:157 | every filter key is recognised by its own property name |
| FilterManager.PutFrame | js/modules/filterManager.js:158 | writing one key leaves every other key's value as it was |
| FilterManager.PutGet | js/modules/filterManager.js:158 | writing back the value a key holds gives the same record |
| FilterManager.SetFilter | js/modules/filterManager.js:156-161 | an unknown key changes nothing; a known key reads back the value written; the sort settings are kept |
| FilterManager.SetFilterFrame | js/modules/filterManager.js:156-161 | `setFilter` on one key leaves every other key's value alone |
| FilterManager.SetFilterCurrentValue | js/modules/filterManager.js:156-161 | setting a key to the value it holds changes nothing |
| FilterManager.SetSort | js/modules/filterManager.js:166-170 | both sort fields are set and the filters are kept |
| FilterManager.ToggleSortDirection | js/modules/filterManager.js:175-178 | only the direction changes, and it flips |
| FilterManager.ToggleTwice | js/modules/filterManager.js:175-178 | toggling the direction twice restores the manager |
| FilterManager.ClearAllFilters | js/modules/filterManager.js:183-205 | every key returns to its constructor default; the sort settings are kept |
| FilterManager.ClearedResult | js/modules/filterManager.js:183-205 | after clearing, the result is the non-hidden games in the kept sort order |
| FilterManager.GetFilters | js/modules/filterManager.js:210-212 | the copy holds the same value under every key |
| DataLoader.ParseList | js/modules/dataLoader.js:96-101 | every entry of a parsed list is non-empty and already trimmed |
| DataLoader.ParseListJoin | js/modules/dataLoader.js:96-101 | a list of trimmed non-empty names written one per line parses back to the same list |
| DataLoader.ParseListPadded | js/modules/dataLoader.js:96-101 | blank lines and surrounding spaces and carriage returns are dropped |
| DataLoader.UserProfileList | js/modules/dataLoader.js:111-142 | the dynamic listing wins when present; with neither listing nor static file the list is empty; otherwise the static file's trimmed non-empty lines |
| DataLoader.PlatformKeyOf | js/modules/dataLoader.js:218 | the key keeps only lower-case letters and digits and is no longer than its input |
| DataLoader.KeyLower | js/modules/dataLoader.js:218 | lower-casing keeps key characters, lowers ASCII capitals, and turns a non-ASCII character into a key character only for U+0130 (to `i`, the combining dot being dropped) and the Kelvin sign (to `k`) |
| DataLoader.PlatformKeyTrim | js/modules/dataLoader.js:217-218 | trimming the platform first does not change its key |
| DataLoader.PlatformKeyIdempotent | js/modules/dataLoader.js:218 | the key of a key is itself |
| DataLoader.BuildAliases | js/modules/dataLoader.js:392-403 | the empty key is never stored |
| DataLoader.AliasesDomain | js/modules/dataLoader.js:392-403 | a non-empty key is in the alias map iff some entry with a non-blank canonical label has it as its own key or one of its aliases' keys |
| DataLoader.AliasesLaterWins | js/modules/dataLoader.js:393-402 | a key maps to the trimmed canonical label of the last entry that writes it |
| DataLoader.AliasMapsToCanonical | js/modules/dataLoader.js:398-402 | an alias of the last entry writing its key maps to that entry's canonical label |
| DataLoader.LoadPlatformAliases | js/modules/dataLoader.js:386-407 | a map once set is kept; a missing or invalid file leaves the empty map; a built map never holds the empty key |
| DataLoader.AliasesLoadedOnce | js/modules/dataLoader.js:387 | a second load changes nothing |
| DataLoader.FirstRule | js/modules/dataLoader.js:242-244 | none iff no rule matches; otherwise the label of the first matching rule |
| DataLoader.Fallback | js/modules/dataLoader.js:247-252 | the fallback text is trimmed and has no two consecutive spaces |
| DataLoader.CollapseKeepsVisible | js/modules/dataLoader.js:251 | collapsing whitespace keeps every visible character in order |
| DataLoader.NormalizePlatform | js/modules/dataLoader.js:215-253 | an empty platform stays empty; a key found in the alias map gives its label (corrected rule list) |
| DataLoader.NormalizeRuleHit | js/modules/dataLoader.js:242-244 | with no alias hit, the first matching rule decides the label |
| DataLoader.NormalizeFallbackShape | js/modules/dataLoader.js:246-252 | with no alias and no rule hit the result is the trimmed, single-spaced fallback |
| DataLoader.NormalizePlatformAsWritten | js/modules/dataLoader.js:215-253 | the same normaliser with the rule list in the source's order |
| DataLoader.TypeX2Shadowed | js/modules/dataLoader.js:232-233 | any key containing `taitotypex2` is matched by the Type X rule, so the Type X2 rule is never the first match |
| DataLoader.TypeX2AsWritten | js/modules/dataLoader.js:232-233 | a Type X2 platform normalises to "Taito Type X" as written |
| DataLoader.TypeX2ExampleAsWritten | js/modules/dataLoader.js:232-233 | the platform `taitotypex2` normalises to "Taito Type X" as written |
| DataLoader.TypeX2Intended | js/modules/dataLoader.js:232-233 | with the Type X2 rule tried first, a Type X2 platform normalises to "Taito Type X2" |
| DataLoader.TypeX2ExampleIntended | js/modules/dataLoader.js:232-233 | the platform `taitotypex2` normalises to "Taito Type X2" with the corrected order |
| DataLoader.TypeX2Reachable | js/modules/dataLoader.js:226-244 | with the corrected order every key containing `taitotypex2` that the earlier rules miss gets "Taito Type X2" |
| DataLoader.GetXmlValue | js/modules/dataLoader.js:330-333 | a value exists iff some element has the tag |
| DataLoader.GetXmlValueFirst | js/modules/dataLoader.js:330-333 | the value is the trimmed text of the first element with the tag |
| DataLoader.FlagFirstElement | js/modules/dataLoader.js:267-271 | a flag is set iff the first element with its tag reads exactly `true` after trimming |
| DataLoader.FlagMissing | js/modules/dataLoader.js:267-271 | a missing tag gives an unset flag and empty text |
| DataLoader.ParseConfigValues | js/modules/dataLoader.js:338-359 | every kept field has a non-empty name and value |
| DataLoader.ConfigValuesMembers | js/modules/dataLoader.js:338-359 | a record is kept iff it comes from a field whose name and value are both non-empty |
| DataLoader.ConfigValuesAppend | js/modules/dataLoader.js:342-356 | fields are parsed one at a time, in order |
| DataLoader.ParseJoystickButtons | js/modules/dataLoader.js:364-381 | every kept button has a non-empty name and mapping |
| DataLoader.JoystickButtonsMembers | js/modules/dataLoader.js:364-381 | a button is kept iff both its name and mapping are non-empty |
| DataLoader.JoystickButtonsAppend | js/modules/dataLoader.js:368-378 | buttons are parsed one at a time, in order |
| DataLoader.LoadGameProfile | js/modules/dataLoader.js:258-276 | `GunGame` is set iff its text is `true`; the config values and buttons are the parsed ones |
| DataLoader.LoadUserProfile | js/modules/dataLoader.js:281-297 | a profile exists iff the document was read; its internal name is the `GameNameInternal` text |
| DataLoader.LoadGameSetup | js/modules/dataLoader.js:313-325 | a setup exists iff the document was read |
| DataLoader.NormalizeMetadata | js/modules/dataLoader.js:169-177 | (corrected rule order) a set platform is kept as `platform_original`; an unset one leaves the metadata alone; no other field changes |
| DataLoader.LoadGameData | js/modules/dataLoader.js:147-209 | (corrected rule order) the id and installed flag are the inputs; profile and metadata exist iff read; a user profile only for an installed game |
| DataLoader.DisplayNamePrecedence | js/modules/dataLoader.js:170-188 | the name is the user profile's internal name if installed and set, else the metadata name if set, else the id |
| DataLoader.PlatformOriginalKept | js/modules/dataLoader.js:172-176 | (corrected rule order) the loaded platform is the normalised original and the original is kept |
| DataLoader.LoadAllGames | js/modules/dataLoader.js:16-106 | (corrected rule order) success iff the game list was read and the probe did not answer 404; a list response that is not ok fails with "Could not load game list", a failed list fetch fails with the fetch's own error, and a 404 probe fails with the full "Server root mismatch detected. Please start via start.bat or start-node.bat so /GameProfiles is accessible."; the games come in list order, each installed iff listed in the user profile list |
| CustomProfiles.EscapeChars | js/modules/customProfileManager.js:105-113 | an escaped text holds no `<`, `>`, `"` or `'` and is no shorter than its input |
| CustomProfiles.EscapeXmlIsCharwise | js/modules/customProfileManager.js:105-113 | the five chained replacements, `&` first, escape each character on its own |
| CustomProfiles.UnescapeEscapeChars | js/modules/customProfileManager.js:105-113 | reading the entities back recovers the escaped text exactly |
| CustomProfiles.DecodeEscape | js/modules/customProfileManager.js:105-113 | a text without carriage returns survives escaping and XML decoding unchanged |
| CustomProfiles.CarriageReturnNotKept | js/modules/customProfileManager.js:105-113 | a carriage return does not survive the round trip: XML end-of-line handling turns it into a line feed |
| CustomProfiles.KeepText | js/modules/customProfileManager.js:56-96 | a text field is kept iff it is present and non-empty |
| CustomProfiles.GenerateXml | js/modules/customProfileManager.js:104-149 | the document starts with the XML declaration and ends with the closing `CustomProfile` tag |
| CustomProfiles.GenerateElems | js/modules/customProfileManager.js:115-146 | the last element is always `LastModified`, carrying the escaped stamp |
| CustomProfiles.GenerateElemsOrdered | js/modules/customProfileManager.js:117-146 | elements come in the fixed order name, description, link, tags, genre, year, last modified |
| CustomProfiles.DecodeTags | js/modules/customProfileManager.js:74-78 | parsed tags are never empty |
| CustomProfiles.DecodeEscapedTags | js/modules/customProfileManager.js:74-78 | written tags read back as the input's non-empty tags |
| CustomProfiles.ParseXml | js/modules/customProfileManager.js:49-99 | the parser never produces the lightgun, platform, emulator or GPU fields |
| CustomProfiles.ParseGenerate | js/modules/customProfileManager.js:49-149 | parsing a generated document gives back the profile as persisted: empty fields dropped, stamp set |
| CustomProfiles.LoadProfile | js/modules/customProfileManager.js:17-31 | a profile is returned and cached iff the server found the file; otherwise the cache is unchanged |
| CustomProfiles.LoadProfiles | js/modules/customProfileManager.js:37-44 | the manager is marked loaded and the cache kept |
| CustomProfiles.GetProfile | js/modules/customProfileManager.js:155-163 | a cached profile is returned without a read; otherwise the profile is loaded |
| CustomProfiles.GetAfterLoad | js/modules/customProfileManager.js:155-163 | after a successful load, later reads come from the cache |
| CustomProfiles.MergeEmpty | js/modules/customProfileManager.js:175-179 | merging with an empty profile on either side changes nothing |
| CustomProfiles.MergeIdempotent | js/modules/customProfileManager.js:175-179 | applying the same update twice equals applying it once |
| CustomProfiles.MergeAssociative | js/modules/customProfileManager.js:175-179 | two updates in turn equal their merge applied once |
| CustomProfiles.Merged | js/modules/customProfileManager.js:175-179 | the merged profile's stamp is the current time |
| CustomProfiles.SetProfile | js/modules/customProfileManager.js:168-201 | an empty id changes nothing; otherwise the id maps to the merge of the existing profile and the update, the generated document is what is written, and every other id is untouched |
| CustomProfiles.SetProfileKeeps | js/modules/customProfileManager.js:175-179 | a field absent from the update keeps its cached value |
| CustomProfiles.SetProfileDomain | js/modules/customProfileManager.js:168-182 | after a set the cached ids are the old ones plus the non-empty id |
| CustomProfiles.DeleteProfile | js/modules/customProfileManager.js:206-222 | a successful delete removes the id from the cache; a failed one changes nothing; other ids are untouched |
| CustomProfiles.HasCustomProfile | js/modules/customProfileManager.js:227-241 | a cached profile counts; otherwise the answer is whether the server found the file |
| CustomProfiles.HasAfterSet | js/modules/customProfileManager.js:168-241 | after a set with a non-empty id the game has a custom profile |
| CustomProfiles.HasAfterDelete | js/modules/customProfileManager.js:206-241 | after a successful delete only the server's later answer decides |
| CustomProfiles.ImportProfiles | js/modules/customProfileManager.js:316-340 | invalid JSON is an error; otherwise the count is the number of entries |
| CustomProfiles.ImportAll | js/modules/customProfileManager.js:326-329 | importing never drops a cached profile |
| CustomProfiles.ImportAllCovers | js/modules/customProfileManager.js:326-329 | after import the cached ids are the old ones plus every non-empty imported id |
| CustomProfiles.ApplyCustomProfile | js/modules/customProfileManager.js:247-295 | no profile leaves the game as it is; otherwise the game is marked custom, and each truthy field of the profile (name, description, link, non-empty tags, genre, year) sets its `custom*` field while an absent one keeps the game's; a custom name also replaces the name; a genre or year also rewrites that key of existing metadata, every other metadata key is kept, a game without metadata gets none, and a profile without genre or year leaves the metadata alone; identity fields are kept |
| CustomProfiles.ApplyIdempotent | js/modules/customProfileManager.js:247-295 | applying a profile twice equals applying it once |
| CustomProfiles.ApplyGenreKey | js/modules/customProfileManager.js:277-282 | with metadata, a custom genre becomes the game's genre for filtering; without metadata the genre is unchanged |
| ProfileEdit.TextValue | js/modules/profileEditManager.js:25 | a text input yields its trimmed value, or nothing exactly when it is missing or blank |
| ProfileEdit.TagsValue | js/modules/profileEditManager.js:64-68 | nothing iff the input is missing or blank; otherwise each tag is non-empty, trimmed and comma-free |
| ProfileEdit.TagsPrefillRoundTrip | js/modules/profileEditManager.js:64-68 | clean tags joined with commas read back as the same tags |
| ProfileEdit.YearValue | js/modules/profileEditManager.js:126-129 | nothing iff the input is missing or empty |
| ProfileEdit.SelectValue | js/modules/profileEditManager.js:153 | a select gives its value iff one other than "Keep Original" is chosen |
| ProfileEdit.GpuNames | js/modules/profileEditManager.js:196-202 | each vendor is listed iff its box is ticked; the list is empty iff none is |
| ProfileEdit.GpuNamesOrdered | js/modules/profileEditManager.js:198-201 | the vendors keep the order Nvidia, AMD, Intel |
| ProfileEdit.GpuValue | js/modules/profileEditManager.js:191-203 | nothing iff no box is ticked |
| ProfileEdit.SavedYear | js/modules/profileEditManager.js:130 | a year is saved iff it parsed to a non-zero number |
| ProfileEdit.SavedTags | js/modules/profileEditManager.js:69 | tags are saved iff the list is non-empty |
| ProfileEdit.CollectSingle | js/modules/profileEditManager.js:213-240 | the single form never sets a stamp and never produces `lightgun: false` |
| ProfileEdit.SingleLightgun | js/modules/profileEditManager.js:222-235 | the single form's lightgun key is `true` iff the box is ticked and absent otherwise |
| ProfileEdit.SingleOnlyTruthy | js/modules/profileEditManager.js:233-235 | every key the single form sets holds a non-empty value |
| ProfileEdit.BlankInputsNoKeys | js/modules/profileEditManager.js:25-154 | a blank name, "Keep Original" selects and a zero or unparseable year add no keys |
| ProfileEdit.BatchLightgun | js/modules/profileEditManager.js:101-112 | the tri-state saves `true` or `false` only for those options; "keep" saves nothing |
| ProfileEdit.CollectBatch | js/modules/profileEditManager.js:246-279 | the batch form never sets the name, description, link or stamp |
| ProfileEdit.BatchOnlyTruthy | js/modules/profileEditManager.js:246-279 | every text key the batch form sets holds a non-empty value |
| ProfileEdit.BatchKeepsPerGameText | js/modules/profileEditManager.js:246-279 | a batch edit never changes a game's own name, description or link |
| ProfileEdit.BatchKeepLightgun | js/modules/profileEditManager.js:255-260 | "keep" leaves each game's lightgun override as it was |
| ProfileEdit.SingleEditCannotClearLightgun | js/modules/profileEditManager.js:233-235 | as written, unticking the box does not undo an earlier `lightgun: true` |
| ProfileEdit.CollectSingleIntended | js/modules/profileEditManager.js:94-99 | the corrected single form always carries a lightgun value |
| ProfileEdit.SingleIntendedSetsLightgun | js/modules/profileEditManager.js:94-99 | with the corrected form the saved override follows the box both ways |
| Preferences.MergeWithDefaults | js/modules/preferencesManager.js:72-82 | a loaded list is kept and a missing one becomes empty |
| Preferences.MergeNothing | js/modules/preferencesManager.js:72-82 | merging an empty file gives the defaults: 5 columns, grid, dark, sort by name ascending, no favourites or hidden games |
| Preferences.MergeWritten | js/modules/preferencesManager.js:72-82 | a saved preferences record loads back unchanged |
| Preferences.MergeSubKeys | js/modules/preferencesManager.js:76-80 | each nested key is the loaded value if present and the default otherwise |
| Preferences.LoadPreferences | js/modules/preferencesManager.js:45-67 | a loaded manager returns what it holds; a failed request gives the defaults without marking loaded; no data gives the defaults marked loaded; data gives its merge marked loaded |
| Preferences.LoadTwice | js/modules/preferencesManager.js:46 | after a load that did not throw, a second load changes nothing |
| Preferences.ImportPreferences | js/modules/preferencesManager.js:327-348 | invalid JSON is an error; otherwise the preferences become the import merged with the defaults |
| Preferences.RemoveFirst | js/modules/preferencesManager.js:124-127 | `indexOf` plus `splice`: a present id loses its first occurrence (the one `indexOf` finds) and the ids before and after it keep their order; an absent id's list is left alone |
| Preferences.IndexOf | js/modules/preferencesManager.js:124-125 | `indexOf` of a present id is the position of its first occurrence |
| Preferences.RemoveFirstIsDelete | js/modules/preferencesManager.js:124-127 | on a duplicate-free list, removing the first occurrence equals the set deletion |
| Preferences.ToggleIn | js/modules/preferencesManager.js:123-133 | a present id loses one occurrence; an absent one is appended |
| Preferences.ToggleFlips | js/modules/preferencesManager.js:123-133 | on a duplicate-free list, toggling flips the id's membership and no other id's |
| Preferences.ToggleTwice | js/modules/preferencesManager.js:123-133 | toggling twice restores membership, and restores the list when the id was absent |
| Preferences.ToggleFavorite | js/modules/preferencesManager.js:123-133 | only the favourites change: a favourite loses one occurrence and any other id is appended |
| Preferences.ToggleHidden | js/modules/preferencesManager.js:175-185 | only the hidden list changes: a hidden id loses one occurrence and any other id is appended |
| Preferences.AddTo | js/modules/preferencesManager.js:138-143 | an absent id is appended and reported as a change; a present one changes nothing; no duplicates are introduced |
| Preferences.RemoveFrom | js/modules/preferencesManager.js:148-154 | a change is reported iff the id was present |
| Preferences.NotInAfterRemove | js/modules/preferencesManager.js:148-154 | on a duplicate-free list the id is gone afterwards and every other id keeps its membership |
| Preferences.AddFavorite | js/modules/preferencesManager.js:138-143 | the id is a favourite afterwards; a save happens iff it was not one, and then the id is appended; a duplicate-free list stays duplicate-free; nothing but the favourites changes |
| Preferences.RemoveFavorite | js/modules/preferencesManager.js:148-154 | a save happens iff the id was a favourite; the new list is the old one without the id's first occurrence; on a duplicate-free list the id is no longer a favourite and every other id keeps its membership; otherwise nothing changes |
| Preferences.AddThenRemoveFavorite | js/modules/preferencesManager.js:138-154 | adding a favourite that was not one and removing it again restores the preferences |
| Preferences.HideGame | js/modules/preferencesManager.js:190-195 | the id is hidden afterwards; a save happens iff it was not; nothing else changes |
| Preferences.UnhideGame | js/modules/preferencesManager.js:200-206 | a save happens iff the id was hidden; the new list is the old one without the id's first occurrence; on a duplicate-free list the id is no longer hidden and every other id keeps its membership; otherwise nothing changes |
| Preferences.HideThenUnhide | js/modules/preferencesManager.js:190-206 | hiding a game that was not hidden and showing it again restores the preferences |
| Preferences.SetLastSort | js/modules/preferencesManager.js:285-289 | only the two sort fields change |
| Preferences.SetThenGetSort | js/modules/preferencesManager.js:275-289 | the sort read back is the sort written |
| IdSets.Add | js/modules/favoritesManager.js:45-48 | the set gains the id and nothing else, stays duplicate-free, and is unchanged when the id was present |
| IdSets.Delete | js/modules/favoritesManager.js:53-56 | the set loses exactly the id, keeping the order of the rest |
| IdSets.DeleteAppended | js/modules/favoritesManager.js:45-56 | removing an id just added to a set without it restores the set |
| IdSets.FromList | js/modules/favoritesManager.js:17 | `new Set(list)` holds exactly the list's ids, without duplicates |
| IdSets.FromListNoDuplicates | js/modules/favoritesManager.js:17 | a duplicate-free stored list loads back in the same order |
| IdSets.Load | js/modules/favoritesManager.js:14-22 | a missing or unparseable stored value gives the empty set; a stored list gives its ids |
| IdSets.Save | js/modules/favoritesManager.js:27-33 | afterwards storage holds exactly the current set |
| IdSets.Insert | js/modules/favoritesManager.js:45-48 | the id is added, the set stays duplicate-free, and storage is in sync |
| IdSets.Remove | js/modules/favoritesManager.js:53-56 | the id is removed, the set stays duplicate-free, and storage is in sync |
| IdSets.Toggle | js/modules/favoritesManager.js:61-68 | the returned flag is true iff the id was absent, and equals its membership afterwards |
| IdSets.Clear | js/modules/favoritesManager.js:80-83 | the set is empty and storage holds the empty list |
| IdSets.InsertIdempotent | js/modules/favoritesManager.js:45-48 | adding an id twice equals adding it once |
| IdSets.RemoveAbsent | js/modules/favoritesManager.js:53-56 | removing an absent id changes only the stored copy |
| IdSets.ToggleTwice | js/modules/favoritesManager.js:61-68 | toggling twice restores the members, and the exact set when the id was absent |
| IdSets.LoadedValid | js/modules/hiddenGamesManager.js:14-83 | whatever was stored and whatever adds and removes follow, the set stays duplicate-free |
| IdSets.ReplaySynced | js/modules/hiddenGamesManager.js:45-56 | after any non-empty run of adds and removes, storage holds the current set |
| Selection.Enable | js/modules/selectionManager.js:14-16 | the mode is on and the selection kept |
| Selection.Disable | js/modules/selectionManager.js:21-24 | the mode is off and the selection empty |
| Selection.ToggleMode | js/modules/selectionManager.js:29-36 | the returned mode is the flipped one; switching on keeps the selection, switching off clears it |
| Selection.Select | js/modules/selectionManager.js:48-50 | the id joins the selection, nothing else changes, and no duplicate appears |
| Selection.Deselect | js/modules/selectionManager.js:55-57 | exactly the id leaves the selection |
| Selection.Toggle | js/modules/selectionManager.js:62-69 | the result is true iff the id was not selected and is selected afterwards; no other id changes |
| Selection.SelectIdempotent | js/modules/selectionManager.js:48-50 | selecting twice equals selecting once |
| Selection.DeselectIdempotent | js/modules/selectionManager.js:55-57 | deselecting twice equals deselecting once |
| Selection.SelectAll | js/modules/selectionManager.js:102-104 | the mode is kept and the selection stays duplicate-free |
| Selection.SelectAllUnion | js/modules/selectionManager.js:102-104 | afterwards the selection is the old one together with the given ids |
| Selection.SelectedCount | js/modules/selectionManager.js:81-90 | the set's size equals the length of the list `getSelected` returns |
| ControlsEdit.ButtonName | js/modules/controlsEditManager.js:594 | every button has a non-empty name; one without a standard name is called `Button <i>` |
| ControlsEdit.XInputCode | js/modules/controlsEditManager.js:716-737 | the code is 0 exactly for the triggers and for indices outside 0..15, and -32768 exactly for Y |
| ControlsEdit.CodeTablesAgree | js/modules/controlsEditManager.js:19-56 | for every non-trigger button the XInput code table names the same button as the gamepad table (L3 and R3 as LeftThumb and RightThumb) |
| ControlsEdit.GamepadBinding | js/modules/controlsEditManager.js:593-616 | a button press binds the button's XInput code, with the trigger flag set exactly for button 6 or 7, no thumb flag and no minus |
| ControlsEdit.AxisBinding | js/modules/controlsEditManager.js:621-681 | a stick move binds code 0, no trigger, minus iff the value is negative, `+` at the end iff positive, exactly one thumb flag for axes 0-3, and the device prefix |
| ControlsEdit.KeyName | js/modules/controlsEditManager.js:694-696 | space is named `Space`, a single character is upper-cased, longer key names are kept |
| ControlsEdit.KeyBinding | js/modules/controlsEditManager.js:698-703 | a key binds `Keyboard <name>` and no XInput data |
| ControlsEdit.FormatBindName | js/modules/controlsEditManager.js:254-258 | an empty binding shows `Not configured`; one without the device prefix is shown unchanged; otherwise a suffix of it |
| ControlsEdit.FormatStripsDevice | js/modules/controlsEditManager.js:254-258 | the `Input Device <n> ` prefix is removed exactly |
| ControlsEdit.FormatGamepadBinding | js/modules/controlsEditManager.js:593-616 | a captured button press displays as the button's name |
| ControlsEdit.IndexOf | js/modules/controlsEditManager.js:118 | the lookup finds the first child with the tag, or reports none iff no child has it |
| ControlsEdit.SetTextLookup | js/modules/controlsEditManager.js:117-137 | after setting a tag's text it reads back as written and every other tag reads as before |
| ControlsEdit.InsertLookup | js/modules/controlsEditManager.js:143-158 | inserting a new child leaves every other tag's lookup unchanged and makes the new one findable |
| ControlsEdit.XInputValues | js/modules/controlsEditManager.js:193-205 | eleven values; `IsButton` is false iff the binding is a trigger or a stick axis; both indices are 0 |
| ControlsEdit.XInputFields | js/modules/controlsEditManager.js:193-211 | a fresh XInputButton holds the eleven fields in order with those values |
| ControlsEdit.XInputNamesDistinct | js/modules/controlsEditManager.js:193-205 | the eleven field names are distinct |
| ControlsEdit.SetField | js/modules/controlsEditManager.js:226-235 | the field reads back as written and others are untouched |
| ControlsEdit.SetFieldsLookup | js/modules/controlsEditManager.js:238-248 | after the update each named field holds its new value |
| ControlsEdit.SetFieldsKeeps | js/modules/controlsEditManager.js:238-248 | fields not named in the update keep their values |
| ControlsEdit.UpdateButtonBinding | js/modules/controlsEditManager.js:108-113 | no container or an index out of range changes nothing; otherwise only the indexed button changes |
| ControlsEdit.UpdateSetsBindNames | js/modules/controlsEditManager.js:117-137 | both `BindName` and `BindNameXi` read back as the bound name |
| ControlsEdit.UpdateAnalogType | js/modules/controlsEditManager.js:165-178 | an existing `AnalogType` is kept; a missing one becomes `None` |
| ControlsEdit.NoXInputKeepsElement | js/modules/controlsEditManager.js:140 | a binding without XInput data leaves the XInputButton element alone |
| ControlsEdit.XInputWritten | js/modules/controlsEditManager.js:140-163 | with XInput data each of the eleven fields reads back the binding's value, whether created or updated |
| ControlsEdit.EnsureAnalogTypeLookup | js/modules/controlsEditManager.js:165-178 | ensuring `AnalogType` changes no other tag |
| ControlsEdit.SetXInputLookup | js/modules/controlsEditManager.js:140-163 | writing the XInput element changes no other tag, and a created one holds the fresh fields |
| ControlsEdit.SetFieldsFresh | js/modules/controlsEditManager.js:207-211 | setting distinct fields on an empty element gives them in order |
| ControlsEdit.GetJoystickButtons | js/modules/controlsEditManager.js:77-103 | no container gives no buttons; otherwise one entry per button, indexed in order |
| ControlsEdit.UpdateThenRead | js/modules/controlsEditManager.js:77-137 | after updating a button, reading the buttons shows the new bind names at that index |
| ControlsEdit.InGroup | js/modules/controlsEditManager.js:376-386 | a group holds exactly the buttons classified into it, in order |
| ControlsEdit.GroupsPartition | js/modules/controlsEditManager.js:376-386 | the three groups together hold every button exactly once |
| ControlsEdit.StartListening | js/modules/controlsEditManager.js:480-514 | clicking the button being listened to cancels; any other click listens to that button; the document is untouched |
| ControlsEdit.StartListeningTwice | js/modules/controlsEditManager.js:480-492 | clicking the same button twice restores the editor |
| ControlsEdit.ApplyBinding | js/modules/controlsEditManager.js:742-755 | with nothing listened to nothing changes; otherwise the listened button is updated and changes are marked unsaved |
| ControlsEdit.Capture | js/modules/controlsEditManager.js:593-616 | after a capture the editor stops listening; without a listened button the document is kept |
| ControlsEdit.CaptureBinds | js/modules/controlsEditManager.js:593-616 | a capture while listening writes the binding to the listened button |
| ControlsEdit.ClearBinding | js/modules/controlsEditManager.js:760-781 | clearing marks changes unsaved and keeps the listening state |
| ControlsEdit.ClearKeepsXInput | js/modules/controlsEditManager.js:760-765 | clearing empties both bind names but leaves the XInputButton element as it was |
| ControlsEdit.CloseModal | js/modules/controlsEditManager.js:884-903 | closing forgets the game and document, stops listening and drops the unsaved mark |
| SettingsEdit.OrDefault | js/modules/settingsEditManager.js:58-64 | a present non-empty text is kept; a missing or empty one gives the default |
| SettingsEdit.GetConfigValues | js/modules/settingsEditManager.js:52-90 | one entry per field, indexed in order, with its options; a missing category reads `General`, a missing value "", a missing type `Text` |
| SettingsEdit.SetElementText | js/modules/settingsEditManager.js:42-47 | a missing element stays missing; an existing one takes the value |
| SettingsEdit.UpdateConfigValue | js/modules/settingsEditManager.js:95-104 | an index out of range or a field without a value element changes nothing; otherwise only that field's value changes |
| SettingsEdit.UpdateThenRead | js/modules/settingsEditManager.js:52-104 | a value written to a field reads back |
| SettingsEdit.StripQuotes | js/modules/settingsEditManager.js:349-353 | an unquoted paste is only trimmed; a lone quote character becomes empty |
| SettingsEdit.StripQuotedPath | js/modules/settingsEditManager.js:349-353 | a path wrapped in matching quotes is recovered exactly |
| SettingsEdit.FormatExecutable | js/modules/settingsEditManager.js:176 | no `;` is left in the displayed executable name |
| SettingsEdit.FormatIsSplitJoin | js/modules/settingsEditManager.js:176 | every `;` becomes ` OR ` and nothing else changes |
| SettingsEdit.Categories | js/modules/settingsEditManager.js:179-209 | the section titles are sorted and are exactly the categories of fields other than `Input API` |
| SettingsEdit.SectionFields | js/modules/settingsEditManager.js:180-188 | a section lists exactly its category's shown fields, in document order |
| SettingsEdit.SectionsCover | js/modules/settingsEditManager.js:180-188 | every shown field appears in its category's section, and only shown fields appear anywhere |
| SettingsEdit.InputValue | js/modules/settingsEditManager.js:407-414 | a checkbox saves `1` iff checked and `0` otherwise |
| SettingsEdit.ApplyUpdatesField | js/modules/settingsEditManager.js:405-417 | a field with a value element takes the last input's value for its index; others keep theirs |
| SettingsEdit.SaveSettings | js/modules/settingsEditManager.js:398-417 | the game path element takes the input's text and the number of fields is kept |
| SettingsEdit.SaveUnchangedForm | js/modules/settingsEditManager.js:109-157 | saving the form as rendered writes a Bool as `1` or `0`, and keeps text fields and dropdown values that are among the options |
| SettingsEdit.RestoreDefaults | js/modules/settingsEditManager.js:367-393 | the field count is kept and an existing game path becomes the default's |
| SettingsEdit.RestoreField | js/modules/settingsEditManager.js:381-383 | each field that has a value element and a default at its index takes the default's value; others keep theirs |
| SettingsEdit.PasteGamePath | js/modules/settingsEditManager.js:340-360 | the input gets the cleaned path and the editor is marked unsaved |
| SettingsEdit.CloseModal | js/modules/settingsEditManager.js:489-507 | closing forgets the game, both documents and the original, and drops the unsaved mark |
| Paths.LastIndexOf | js/modules/pathManager.js:30 | the index of the last occurrence of the character, or -1 when there is none |
| Paths.DetectRoot | js/modules/pathManager.js:25-53 | the root is a suffix of the page's grandparent directory |
| Paths.DetectRootOf | js/modules/pathManager.js:25-53 | a page at `/<root>/<folder>/<file>` detects `<root>`, whatever the protocol |
| Paths.ProfilePath | js/modules/pathManager.js:266-268 | a profile's path lies in the user profile folder and ends in `.xml` |
| Paths.RelativePath | js/modules/pathManager.js:58-64 | every relative path starts with `../` |
| Paths.RelativePathOf | js/modules/pathManager.js:58-64 | the last folder and file name are kept under `../` |
| Paths.ProfileRelativePath | js/modules/pathManager.js:58-64 | a profile's path made relative is `../UserProfiles/<name>.xml` |
| Paths.IconPath | js/modules/pathManager.js:175-184 | no name gives no path; otherwise the path is under `../Icons/` |
| Paths.IconPathFolder | js/modules/pathManager.js:179-183 | a name given with or without the `Icons/` folder resolves to the same path |
| Paths.BaseId | js/modules/pathManager.js:205-224 | stripping the variant suffixes leaves a prefix of the id |
| Paths.Sanitize | js/modules/pathManager.js:236 | exactly the ASCII letters and digits are kept |
| Paths.SanitizeAppend | js/modules/pathManager.js:236 | sanitising works character by character: the clean form of a concatenation is the concatenation of the clean forms |
| Paths.SanitizeChar | js/modules/pathManager.js:236 | one character is kept exactly when it is an ASCII letter or digit; with SanitizeAppend, the result is the order-preserving subsequence of the input's letters and digits |
| Paths.SanitizeIdempotent | js/modules/pathManager.js:236 | sanitising twice equals sanitising once |
| Paths.BeforeParen | js/modules/pathManager.js:235 | the part before the first ` (` is a prefix, and either all of the name or followed by ` (` |
| Paths.PushUnique | js/modules/pathManager.js:199 | a non-empty path is appended unless present; earlier candidates stay in place |
| Paths.Declared | js/modules/pathManager.js:193-196 | the declared icons, user profile's then metadata's, come first |
| Paths.IconCandidates | js/modules/pathManager.js:190-241 | the declared icons lead the list, and the id's icon and the base id's `2` icon are always tried |
| Paths.IconCandidatesDistinct | js/modules/pathManager.js:198-241 | after the declared icons no candidate is tried twice |
| Paths.FirstServed | js/modules/pathManager.js:243-253 | the result is a served candidate, and none iff no candidate is served |
| Paths.FirstServedEarliest | js/modules/pathManager.js:243-251 | the icon chosen is the first served one in candidate order |
| Launch.Command | js/modules/launchManager.js:38 | the manual command runs the emulator and ends with the quoted profile file name |
| Launch.CommandNamesProfile | js/modules/launchManager.js:38 | the profile file can be read back from the command |
| Launch.LaunchGame | js/modules/launchManager.js:16-53 | a game that is not installed is an error and sends nothing; an installed one sends `/__launch` for its profile; success iff the server answered ok; otherwise the manual command names the game's profile |
| Launch.LaunchRequestProfile | js/modules/launchManager.js:28-44 | the request and the protocol link both carry `<id>.xml` as their decoded `profile` parameter |
| Launch.LaunchCommand | js/modules/launchManager.js:58-72 | a command exists iff the game is installed and has a game path, and it names the game's profile |
| Launch.ManualCommandAgrees | js/modules/launchManager.js:36-72 | when the server does not launch, the fallback carries the same command `getLaunchCommand` gives |
| DebugLog.Emoji | js/modules/debugLogger.js:96-111 | every level, known or not, has a non-empty marker |
| DebugLog.ConsoleMethod | js/modules/debugLogger.js:116-123 | the console method is one of error, warn, debug and log |
| DebugLog.UnknownLevel | js/modules/debugLogger.js:96-123 | a level outside the table gets the default marker and plain `log` |
| DebugLog.Flush | js/modules/debugLogger.js:338-354 | the queue is emptied into one batch, nothing is sent for an empty queue, and no line is lost or added |
| DebugLog.WriteToFile | js/modules/debugLogger.js:318-333 | the line is queued after all earlier ones; a queue reaching 10 lines is sent at once, otherwise a timer is pending; the queue stays below 10 |
| DebugLog.TimerFires | js/modules/debugLogger.js:331 | the pending timer sends the queue without losing a line |
| DebugLog.UnloadRequest | js/modules/debugLogger.js:365-378 | the page-unload request is made iff lines are queued |
| DebugLog.ConsoleOf | js/modules/debugLogger.js:79-91 | the console call uses the level's method and carries the message and data |
| DebugLog.Keep | js/modules/debugLogger.js:55-58 | up to 1000 entries are kept; beyond that the oldest is dropped |
| DebugLog.Log | js/modules/debugLogger.js:42-74 | the entry has the upper-cased level and the time since start; the buffer keeps the last 1000 entries ending with it; the file line is queued iff file logging is on; a console call is made iff console logging is on |
| DebugLog.LogBounded | js/modules/debugLogger.js:53-58 | the buffer never exceeds 1000 entries and ends with the new entry |
| DebugLog.Create | js/modules/debugLogger.js:7-21 | a new logger holds one INFO entry announcing itself, and queues the session header followed by that entry's line |
| DebugLog.Clear | js/modules/debugLogger.js:297-301 | afterwards the buffer holds only the INFO entry that reports how many entries were cleared |
| DebugLog.GetLogs | js/modules/debugLogger.js:190-206 | the result is the order-preserving sub-list of exactly the entries that match the level, category and time filters |
| DebugLog.GetLogsAll | js/modules/debugLogger.js:190-206 | an empty filter returns every entry |
| DebugLog.GetLogsIdempotent | js/modules/debugLogger.js:190-206 | filtering twice equals filtering once |
| DebugLog.CountBy | js/modules/debugLogger.js:283-289 | each key's count is its number of occurrences, keys are distinct, and the counts add up to the number of entries |
| DebugLog.GetStats | js/modules/debugLogger.js:274-292 | the total is the buffer size and each of the per-level and per-category tables counts every entry exactly once |
| DebugLog.TimerEndAsWritten | js/modules/debugLogger.js:179-183 | as written, the duration is measured from the logger's creation |
| DebugLog.TimerEndOverstates | js/modules/debugLogger.js:180 | a timer started after the logger reports more than the time since the timer started |
| DebugLog.TimerEnd | js/modules/debugLogger.js:175-184 | the corrected duration is the time since the timer's own start, logged as a PERF entry |
| GamepadNav.GridMove | js/gamepadIntegration.js:145-160 | up and down move by a row and left and right by one card, clamped to the first and last card |
| GamepadNav.GridMoveInRange | js/gamepadIntegration.js:145-160 | from a card on the grid a move lands on a card, at most one row away |
| GamepadNav.RightThenLeft | js/gamepadIntegration.js:154-159 | a Right move followed by a Left move returns to the same card unless it started on the last card |
| GamepadNav.ModalMove | js/gamepadIntegration.js:187-198 | up and left go to the previous focusable element and down and right to the next, both wrapping around; the result is a valid element |
| GamepadNav.ModalMoveInverse | js/gamepadIntegration.js:187-198 | within a modal, Up undoes Down and Down undoes Up |
| GamepadNav.MenuMove | js/gamepadIntegration.js:214-222 | the quick filter menu moves up and down without wrapping, stays on an option, and ignores left and right |
| GamepadNav.SliderColumns | js/gamepadIntegration.js:665-670 | the column count is never zero: a zero or unparsable slider value falls back to 5 |
| GamepadNav.Refresh | js/gamepadIntegration.js:66-99 | with no device active the selection is cleared; while using a device it lands on a card when there is one; otherwise the index is kept, clamped to the last card |
| GamepadNav.Navigate | js/gamepadIntegration.js:101-168 | clear empties the selection; while capturing, navigation does nothing else; the focus moves only inside an open modal, never with the filter menu open or while capturing |
| GamepadNav.NavigatePrecedence | js/gamepadIntegration.js:118-128 | an open filter menu takes navigation before an open modal, and neither moves the card selection |
| GamepadNav.NavigateStaysOnCards | js/gamepadIntegration.js:130-168 | with a device active and cards on the grid, navigation always leaves a card selected |
| GamepadNav.FirstMoveFromNothing | js/gamepadIntegration.js:131-139 | with nothing selected, a first Right press selects the second card, not the first |
| GamepadNav.NavigateIntended | js/gamepadIntegration.js:134-139 | with nothing selected, the first move selects the first card; every other case is as written |
| GamepadNav.ActionOf | js/gamepadIntegration.js:254-291 | a recognised action name maps back to the same name |
| GamepadNav.ActionNameRoundTrip | js/gamepadIntegration.js:254-291 | every dispatched action is recognised from its own name |
| GamepadNav.SelectedCard | js/gamepadIntegration.js:658-663 | there is a selected card exactly when the index lies on the grid, and it is that card |
| GamepadNav.IndexOfStatus | js/gamepadIntegration.js:563-564 | the position in all, installed, not-installed, or -1 exactly when the value is none of them |
| GamepadNav.NextStatus | js/gamepadIntegration.js:555-571 | the next status is always one of the three |
| GamepadNav.PreviousStatus | js/gamepadIntegration.js:573-589 | the previous status is always one of the three |
| GamepadNav.StatusCycles | js/gamepadIntegration.js:555-589 | next and previous undo each other on the three statuses; an unknown value goes to all forward and to installed backward |
| GamepadNav.StatusCycleOrder | js/gamepadIntegration.js:555-589 | three steps in either direction return to the same status |
| GamepadNav.PageJump | js/gamepadIntegration.js:591-627 | a page moves three rows, clamped to the grid, and lands on a card |
| GamepadNav.HandleAction | js/gamepadIntegration.js:237-292 | while capturing input every action is ignored and only the modal flag is refreshed; no action changes the capturing flag |
| GamepadNav.ActionBack | js/gamepadIntegration.js:340-361 | back closes the filter menu first, else the modal, else does nothing |
| GamepadNav.ActionSelect | js/gamepadIntegration.js:294-338 | in the menu the highlighted option is chosen if it exists; in a modal the focused control is pressed; on the grid a card action happens exactly when a card is selected |
| GamepadNav.ActionPage | js/gamepadIntegration.js:591-627 | paging is ignored with a modal or the menu open, and otherwise lands on a card |
| GamepadNav.CapturingIgnoresInput | js/gamepadIntegration.js:113-116 | while the controls editor captures input, no action has an effect and no navigation moves the selection |
| GamepadInput.LoadPreferences | js/gamepadManager.js:91-96 | the stored enabled, vibration and speed preferences replace the current ones and nothing else changes |
| GamepadInput.Vibrate | js/gamepadManager.js:368-379 | a rumble is played exactly when vibration is on and the pad can rumble |
| GamepadInput.HandleButton | js/gamepadManager.js:302-314 | the action fires exactly on a press edge (down now, not down before); the button's new state is recorded and every other button's record is untouched |
| GamepadInput.HandleButtons | js/gamepadManager.js:284-295 | buttons not in the list keep their records, and every event is a rumble or the action of a listed button |
| GamepadInput.HandleButtonsRecords | js/gamepadManager.js:284-314 | after a poll every listed button's record is its current state |
| GamepadInput.HandleButtonsFires | js/gamepadManager.js:284-314 | a listed button's action is dispatched exactly on its press edge |
| GamepadInput.ButtonActionsDistinct | js/gamepadManager.js:284-295 | the polled buttons are distinct and dispatch distinct actions |
| GamepadInput.ButtonActionsHandled | js/gamepadManager.js:322-366 | every action the poller dispatches is one the grid integration recognises by name |
| GamepadInput.DpadDirection | js/gamepadManager.js:244-257 | a d-pad direction is found exactly when a d-pad button is down, and it is the first of up, down, left, right that is down |
| GamepadInput.Directions | js/gamepadManager.js:242-281 | at most three moves per poll (d-pad, then stick Y, then stick X); the d-pad move comes first; there are none exactly when the d-pad is up and the stick centred |
| GamepadInput.NavigateEvents | js/gamepadManager.js:316-320 | each move becomes one navigation event carrying the current selected index |
| GamepadInput.NavigationStep | js/gamepadManager.js:242-282 | no move is dispatched until the navigation interval has passed; once due, every direction is dispatched and the time stamp is updated only when something moved |
| GamepadInput.HandleInput | js/gamepadManager.js:239-296 | a poll dispatches the throttled moves then the button actions, and changes only the time stamp and the button records |
| GamepadInput.NavigationOf | js/gamepadManager.js:316-320 | keeps exactly the navigation events |
| GamepadInput.NavigationOfAppend | js/gamepadManager.js:239-296 | the navigation events of two event lists in sequence are those of each, in order |
| GamepadInput.NoNavigationInButtons | js/gamepadManager.js:302-314 | button handling dispatches no navigation |
| GamepadInput.NavigationOfNone | js/gamepadManager.js:316-320 | a list without navigation events has none to keep |
| GamepadInput.NavigationOfInput | js/gamepadManager.js:239-296 | the navigation a poll dispatches is exactly the throttled moves |
| GamepadInput.NavigationOfNavigations | js/gamepadManager.js:316-320 | a list of navigation events is kept whole |
| GamepadInput.DpadPriority | js/gamepadManager.js:243-257 | when navigation is due and the d-pad is down, its direction is the first event and the time stamp moves to now |
| GamepadInput.ThrottleSpacing | js/gamepadManager.js:243 | after a poll that moved, no further move is dispatched within the navigation interval |
| GamepadInput.HeldButtonFiresOnce | js/gamepadManager.js:302-314 | a button held across two polls does not fire again on the second |
| GamepadInput.PressFires | js/gamepadManager.js:302-314 | a button released on one poll and down on the next fires on the next |
| GamepadInput.Poll | js/gamepadManager.js:215-237 | a paused, disabled or unfocused poller only reschedules; events come only from an active, connected poller with a fresh reading; only a connected poller whose pad has gone stops rescheduling |
| GamepadInput.OnConnected | js/gamepadManager.js:144-155 | the pad is stored and marked connected, and a 100 ms rumble follows if allowed |
| GamepadInput.OnDisconnected | js/gamepadManager.js:157-164 | the pad is dropped and marked disconnected |
| GamepadInput.CheckExisting | js/gamepadManager.js:127-142 | the poller is connected after startup exactly when it was or some slot holds a pad, and it takes the first pad found |
| GamepadInput.OnFocus | js/gamepadManager.js:179-188 | the window counts as focused; polling resumes unless input is being captured; nothing else changes |
| GamepadInput.OnBlur | js/gamepadManager.js:190-194 | losing focus pauses the poller and changes nothing else |
| GamepadInput.OnVisibility | js/gamepadManager.js:196-209 | a hidden page pauses polling; a visible page resumes it unless input is being captured |
| GamepadInput.BlurThenFocus | js/gamepadManager.js:179-194 | after losing and regaining focus the poller is active exactly when it is enabled and no input is captured |
| GamepadInput.CapturingStaysPaused | js/gamepadManager.js:181-205 | while input is captured, neither focus nor visibility resumes a paused poller |
| GamepadInput.BlurredPollIsSilent | js/gamepadManager.js:215-220 | a poller without focus only reschedules |
| GamepadInput.SetEnabled | js/gamepadManager.js:381-393 | disabling resets the index to 0 and sends a clear; enabling sends nothing; only the flag and index change |
| GamepadInput.SetVibrationEnabled | js/gamepadManager.js:395-399 | only the vibration flag changes |
| GamepadInput.SetNavigationSpeed | js/gamepadManager.js:401-405 | only the navigation interval changes |
| GamepadInput.GetStatus | js/gamepadManager.js:413-422 | reports the flags and speed as they are, and the pad's id only when a pad with a non-empty id is stored |
| GamepadInput.StatusFollowsConnection | js/gamepadManager.js:144-164 | after a connect the status shows the pad; after a disconnect the status is the earlier one without connection or id |
| GamepadInput.DisabledPollIsSilent | js/gamepadManager.js:215-220 | once disabled, a poll dispatches nothing |
| Keyboard.KeyAction | js/keyboardManager.js:38-98 | each mapped key gives a grid move (never a clear) or an action the grid integration recognises; the empty key maps to nothing |
| Keyboard.HandleKeyDown | js/keyboardManager.js:26-105 | nothing happens while disabled or while typing in a field; otherwise the lower-cased key's mapping is dispatched, and the default browser behaviour is stopped exactly when something was dispatched |
| Keyboard.KeysIgnoreCase | js/keyboardManager.js:39 | a key and its lower-case form are handled alike |
| Keyboard.SpaceAndDAgree | js/keyboardManager.js:62-65 | Space, d and D all open the details |
| Keyboard.MappedKeysAreHandled | js/keyboardManager.js:115-121 | every action the keyboard dispatches is recognised by the grid integration |
| Keyboard.Enable | js/keyboardManager.js:123-126 | keyboard navigation is on afterwards |
| Keyboard.Disable | js/keyboardManager.js:128-131 | keyboard navigation is off afterwards |
| Keyboard.DisableSilences | js/keyboardManager.js:26-27 | a disabled keyboard dispatches nothing, and re-enabling restores the initial behaviour |
| UiRules.Render | js/modules/uiManager.js:31-54 | (corrected wiring: favourites come from the favourites set) a render keeps the collection, shows the filtered list, and the header's Showing count is that list's length while Total and Installed stay as they were |
| UiRules.RenderAsWired | js/modules/uiManager.js:31-33 | with the wiring as written, a render fails with the missing-`isFavorite` TypeError exactly when favoritesOnly is on and some game reaches the favourites stage; otherwise the collection is kept |
| UiRules.RenderAsWiredAgrees | js/modules/uiManager.js:31-33 | without the favourites filter the written and the corrected wiring render the same list |
| UiRules.RenderShowsStoredGames | js/modules/uiManager.js:31-33 | every game a render shows belongs to the collection |
| UiRules.NoActiveFiltersIffDefault | js/modules/uiManager.js:829-858 | the clear-filters button hides exactly when every filter field has its default value |
| UiRules.ClearHidesButton | js/modules/uiManager.js:829-858 | after clearing all filters the clear-filters button hides |
| UiRules.SavedColumns | js/modules/uiManager.js:712-717 | the saved column count is clamped to 2..8, and a value that does not parse as a number gives 5 |
| UiRules.ColumnsSurviveReload | js/modules/uiManager.js:713-724 | a count the slider stored reads back unchanged when it is in range, and unparsable input reads back as 5 |
| UiRules.NaNDoesNotParse | js/modules/uiManager.js:713-714 | the text NaN that a non-numeric slider value stores is read back as no number |
| UiRules.GridTemplate | js/modules/uiManager.js:732-741 | list view clears the column template and grid view always sets one |
| UiRules.GridTemplateColumns | js/modules/uiManager.js:735-740 | in grid view the template names the slider's count, or 5 when there is none or it is zero |
| UiRules.CountKey | js/modules/uiManager.js:779-805 | an option's count never exceeds the number of games |
| UiRules.OptionCountMatchesFilter | js/modules/uiManager.js:771-811 | the count beside a genre, platform or emulator option is how many games that filter would keep with only that option chosen |
| UiRules.CardName | js/modules/uiManager.js:109 | a card shows the game's name, or its id when the name is empty |
| UiRules.CardGenre | js/modules/uiManager.js:110 | a card shows the genre key, or Unknown exactly when the key is empty or is Unknown |
| UiRules.CardGenreListed | js/modules/uiManager.js:110 | a genre shown on a card is one of the genre filter's options |
| Uri.Utf8 | js/modules/launchManager.js:28 | a character's UTF-8 form is one to four bytes, one exactly for ASCII, with continuation bytes in 0x80..0xBF |
| Uri.Encode | js/modules/launchManager.js:28 | an encoded parameter holds only unreserved characters and percent escapes |
| Uri.EncodeUnreserved | js/modules/launchManager.js:28 | text made only of unreserved characters encodes to itself |
| Uri.EncodeHasNoSeparator | js/app.js:289 | an encoded parameter never holds a character that would end it or start another (`&`, `=`, `+`, `?`, `#`) |
| Uri.DecodeOneUtf8 | server.js:473 | decoding the bytes of one character returns that character and its length |
| Uri.Utf8DecodeOf | server.js:473 | UTF-8 decoding undoes UTF-8 encoding |
| Uri.BytesOfEncode | js/modules/launchManager.js:28 | the percent escapes of an encoded parameter spell out its UTF-8 bytes |
| Uri.DecodeEncode | server.js:473 | decoding undoes encoding for every string |
| Uri.NameOfPlain | server.js:473 | a parameter's name is the text before its first `=` |
| Uri.QueryOfPlain | server.js:473 | the query is the text after the first `?` |
| Uri.EncodedPiece | js/app.js:289 | a parameter written as name, `=`, encoded value splits back into that name and value |
| Uri.GetPiece | server.js:473 | a lone parameter whose name decodes to the key yields its decoded value |
| Uri.GetEncoded | server.js:473 | the value the client writes with an unreserved name is the value the server reads back |
| Server.StorageFileOf | server.js:652 | a storage file name is accepted exactly when its stem is a valid game-id-shaped name followed by `.json` |
| Server.ValidIdStaysInFolder | server.js:726 | an accepted game id holds no slash, backslash, dot or colon, so it cannot leave its folder |
| Server.ValidStorageFileStaysInFolder | server.js:652 | an accepted storage file name holds no slash or backslash |
| Server.StripXml | server.js:513 | removing a trailing `.xml` in any letter case leaves a prefix, four characters shorter exactly when the suffix was there |
| Server.StripXmlOf | server.js:513-515 | the profile file of a game id strips back to that id |
| Server.Install | server.js:505-541 | a missing parameter is 400; a missing game profile is 404; an installed game is 409; otherwise the game profile is copied into UserProfiles and no other file changes; a failure changes nothing |
| Server.Remove | server.js:543-572 | a missing parameter is 400; removal succeeds exactly when the user profile exists, otherwise 404; afterwards the user profile is gone and nothing outside UserProfiles changes |
| Server.InstallThenRemove | server.js:505-572 | removing a game right after installing it succeeds and restores the files as they were |
| Server.InstallTwice | server.js:524-528 | installing the same game twice is refused with 409 |
| Server.SuffixOptional | server.js:513-551 | install and remove treat `id`, `id.xml` and `id.XML` alike |
| Server.DropLeadingSlashes | server.js:482 | dropping leading slashes leaves a suffix that does not start with a slash |
| Server.LaunchTarget | server.js:480-490 | an absolute path is used as given; a bare file name is looked up in UserProfiles; anything with a separator is taken relative to the root with forward slashes |
| Server.LeadingSlashesNeverStripped | server.js:481-482 | a path that is not absolute on Windows never starts with a slash, so the slash stripping never changes it |
| Server.RelativeTarget | server.js:481-489 | a relative parameter goes to UserProfiles exactly when it has no separator |
| Server.GameProfileLaunch | server.js:480-485 | the `<id>.xml` the client sends for a valid id is launched from UserProfiles |
| Server.Launch | server.js:471-502 | a missing parameter is 400 and starts nothing; otherwise the emulator is started on the launch target, and the reply succeeds exactly when starting it does not throw |
| Server.GetGameProfile | server.js:910-946 | an invalid id is 400; the user profile wins over the game profile; 404 exactly when neither exists |
| Server.UpdateGameSettings | server.js:949-988 | an invalid id is 400 and an uninstalled game 404; it succeeds exactly when the game is installed and the body holds XML, and then only the user profile changes |
| Server.UpdateThenGet | server.js:910-988 | after saving settings, reading the profile returns the saved XML |
| Server.StorageDefault | server.js:668 | a missing file reads as `{}` for the custom profiles and preferences files and as `[]` otherwise |
| Server.ReadContainedIffNamed | server.js:658-662 | the read containment check passes exactly when the app folder is named ParrotOrganizer |
| Server.StorageReadAsWritten | server.js:650-679 | an invalid file name is 400; a valid one is 403 exactly when the containment check against root/ParrotOrganizer/storage fails |
| Server.StorageRead | server.js:650-679 | an invalid file name is 400; a valid one returns the stored text or the default |
| Server.StorageReadsAgree | server.js:650-679 | in a folder named ParrotOrganizer the written read and the corrected read agree |
| Server.RenamedFolderRefused | server.js:658-665 | in a folder named ParrotOrganizer-1.2 the preferences read is refused as written, while the corrected read succeeds |
| Server.StorageWrite | server.js:682-721 | an invalid file name is 400; the write succeeds exactly when the name is valid and the body is JSON, and then only that file changes |
| Server.WriteThenRead | server.js:650-721 | a stored file reads back as stored (the same JSON value; the re-serialisation is not modelled) |
| Server.ReadIn | server.js:724-828 | an invalid id is 400; a missing profile reads as not found; a present one returns its text |
| Server.CustomWrite | server.js:749-780 | an invalid id is 400 and changes nothing; otherwise the profile is stored, reads back as written, and no other file changes |
| Server.CustomDelete | server.js:783-803 | an invalid id is 400; otherwise it succeeds, the profile reads as not found, and nothing outside the custom folder changes |
| Server.DeleteCustomProfiles | server.js:880-907 | every XML profile in storage/CustomProfiles is deleted and counted; nothing else changes |
| Server.ResetKeepsCreatorTier | server.js:879-882 | the reset leaves data/CustomProfiles untouched |
| Server.PushCustomProfiles | server.js:831-877 | every XML profile in storage is copied over the one in data and removed from storage, with both counts equal to their number; nothing else changes |
| Server.PushMovesProfile | server.js:831-877 | after a push a custom profile is read from the creator tier, not from storage |
| Server.ListUserProfiles | server.js:627-648 | the listing is empty without a UserProfiles folder, and otherwise names exactly the XML files, without the suffix |
| Server.InstalledListed | server.js:636-639 | a profile file in UserProfiles is listed by its id |
| Server.Latest | server.js:25-28 | at most 500 entries are kept |
| Server.Log | server.js:23-28 | the new entry is last; below the cap nothing is dropped |
| Server.LatestAppend | server.js:23-28 | trimming before or after more entries arrive gives the same log |
| Server.LogAllLatest | server.js:23-28 | logging entries one by one keeps exactly the latest 500 |
| Server.ByPath | server.js:349-991 | an endpoint picked by path is the one with that path |
| Server.Route | server.js:349-991 | a request routed to an endpoint has that endpoint's path and the method it requires |
| Server.RouteOf | server.js:349-991 | each endpoint is reached by its own path with an allowed method |
| Server.RouteStatic | server.js:349-1059 | a request falls through to the static branch exactly when no endpoint answers it |
| Server.GetOnPostEndpoint | server.js:682 | a GET on a POST-only endpoint falls through to the static branch |
| StaticFiles.BaseName | server.js:1050 | the last path segment holds no separator and is no longer than the path |
| StaticFiles.IndexHasExtension | server.js:1046-1048 | a path ending in a separator has an extension once `index.html` is appended |
| StaticFiles.UrlPath | server.js:1044-1052 | the requested path always ends up with an extension: `/` is the index page, a trailing slash gets `index.html`, a path with an extension is kept, and the decoded path is always its prefix; the extension is the Windows `extname` one, taken from the last segment after trailing separators are skipped and never from a leading drive |
| StaticFiles.TrailingBackslashKept | server.js:1044-1052 | `/a.txt\` keeps its extension, since `extname` skips the trailing backslash, so the path is served as decoded |
| StaticFiles.NamedKeeps | server.js:1053 | normalisation keeps a list of ordinary segments unchanged |
| StaticFiles.FoldPlain | server.js:1053 | without `..` segments normalisation only appends the segments |
| StaticFiles.FoldRootedNoParent | server.js:1053 | a rooted path normalises to segments without `..` |
| StaticFiles.ResolvePlain | server.js:1054 | resolving segments without `..` against the root appends them |
| StaticFiles.TailAppend | server.js:1054 | the text of a joined folder list is the text of each part, in order |
| StaticFiles.StaticAsWritten | server.js:1043-1059 | a path that fails to decode is 500; a served file is the resolved path, and its text starts with the root's text |
| StaticFiles.Static | server.js:1043-1059 | a path that fails to decode is 500; a file is served exactly when the resolved path lies in the root folder or below it |
| StaticFiles.RootedStaysInside | server.js:1053-1054 | a request path that starts at the root cannot climb above it, so it is served |
| StaticFiles.CorrectedServesLess | server.js:1056 | whatever the segment-wise check serves, the string-prefix check serves too, and serves the same file |
| StaticFiles.AbsoluteResolved | server.js:1044-1054 | the absolute-form target `http://h/../../../../../<sibling>/<file>` resolves to that file in a folder beside the root: scheme and host become two segments that the first two `..` cancel |
| StaticFiles.SiblingFolderServed | server.js:1043-1056 | a file in a sibling folder whose name extends the root's name, asked for with the absolute-form target `http://h/../../../../../<folder>/<file>`, is served as written and refused by the segment-wise check |
| StaticFiles.SiblingFolderExample | server.js:1043-1056 | with root `D:\TeknoParrot`, the request target `http://h/../../../../../TeknoParrot2/a.txt` is served from `D:\TeknoParrot2\a.txt` |
| DevServer.DevRoot | scripts/server.js:21 | the root is the folder with a trailing `\ParrotOrganizer\scripts` removed in any letter case, or the folder itself when it has no such tail |
| DevServer.DevRootStrips | scripts/server.js:21 | a folder ending in the tail has exactly that tail removed |
| DevServer.DevRootOfInstall | scripts/server.js:21 | run from `<root>\ParrotOrganizer\scripts`, the server serves `<root>` |
| DevServer.DevRoute | scripts/server.js:28-195 | a request reaches a handler only by its exact path; everything else is the static branch |
| DevServer.DevRouteAgrees | scripts/server.js:28-195 | a request the development server handles goes to the same handler on the main server |
| DevServer.DevServesFileInstead | scripts/server.js:197-213 | a request for an endpoint only the main server has is served as a static file |
| DevServer.Handle | scripts/server.js:23-229 | only install and remove change files; the static branch answers exactly the requests no handler takes |
| DevServer.InstallThenListed | scripts/server.js:59-195 | a game installed by id is then listed by that id |
| App.Tally | js/app.js:283-302 | the success count is the number of answers with `ok` true; every answer counts once, as a success or a failure; there are no failures exactly when every answer was ok |
| App.TallyAppend | js/app.js:286-302 | counting two runs of answers one after the other adds their counts |
| App.Requests | js/app.js:286-289 | one request per selected game, in selection order, each naming that game's profile file |
| App.Batch | js/app.js:273-360 | an empty selection only alerts; otherwise the user is asked; a refusal changes nothing; after a yes every game gets a request, the summary alert shows exactly when something failed, the list is refreshed and selection mode ends |
| App.SummaryCountsAll | js/app.js:304-307 | a summary reports successes and at least one failure that together add up to the selection |
| App.Serve | js/app.js:286-302 | a batch gets one answer per game |
| App.ServedProfile | js/app.js:288-289 | the server reads back the `<id>.xml` the client sent, and that names the game's profile file |
| App.BatchAddInstalls | js/app.js:273-314 | after adding a selection to the library, every selected game that has a profile is installed |
| App.BatchKeeps | js/app.js:286-302 | adding to the library never deletes a file or a folder |
| App.BatchRemoveUninstalls | js/app.js:319-360 | after removing a selection no selected game is installed, nothing outside UserProfiles is touched, and nothing is created |
| App.InsertAll | js/app.js:372-374 | the favourites afterwards are the earlier ones plus the selection, and are saved when anything was added |
| App.BatchFavorite | js/app.js:365-383 | (corrected wiring) an empty selection only alerts; otherwise every selected game becomes a favourite, the list is saved and selection mode ends |
| App.BatchFavoriteAsWired | js/app.js:365-383 | with the wiring as written, the selected games become favourites and are saved first; the re-render then throws the missing-`isFavorite` TypeError exactly when favoritesOnly is on and some game reaches the favourites stage, and in that case selection mode stays on with the selection kept; otherwise selection mode flips |
| App.BatchFavoriteAsWiredAgrees | js/app.js:365-383 | without the favourites filter the written handler equals the corrected one and throws nothing |
| App.BatchFavoriteStaysSelecting | js/app.js:378-381 | a one-game library with only favoritesOnly on: after favouriting a selection, selection mode is still on |
| App.InsertAllIdempotent | js/app.js:372-374 | favouriting the same games twice is favouriting them once |
| App.InsertAllPresent | js/app.js:372-374 | favouriting games already favourite changes nothing but the saved copy |
| App.Refresh | js/app.js:150-167 | (corrected wiring) a successful load replaces the collection and shows it filtered; a failed load keeps what was shown and reports the error |
| App.RefreshAsWritten | js/app.js:150-167 | with the wiring as written, a failed load keeps what was shown and reports it; a successful load always replaces the collection, and the refresh reports "Failed to refresh" with the TypeError's message exactly when favoritesOnly is on and some game reaches the favourites stage, leaving the new list unfiltered |
| App.RefreshAsWrittenAgrees | js/app.js:150-167 | without the favourites filter the written refresh equals the corrected one |
| App.RefreshFavoritesFails | js/app.js:150-167 | a one-game library refreshed with only favoritesOnly on reports the TypeError |
| App.RefreshForgets | js/app.js:156-159 | what a successful refresh shows does not depend on what was shown before |

## Left out

- DOM building and rendering: cards, modals, tabs, CSS classes and every `render*`/`show*` body. js/settingsManager.js and js/launchPopup.js are presentation only and are not part of this model.
- js/modules/gameScanner.js is not part of this model. It probes a fixed list of names over fetch, and its only pure part is the list parser already modelled in `DataLoader.ParseList`.
- I/O is an input, not a computation: fetch, `fs`, spawn/execSync, the PowerShell folder picker, localStorage, FileReader/Blob export and import, and `savePreferences`.
- DOMParser and XMLSerializer are replaced by a list-of-elements view of the documents. General regular expressions are replaced by the substring, prefix and suffix tests each used pattern amounts to.
- Floating point is left out: stick deadzones and the axis threshold (a stick is modelled by sign only), `setDeadzone`, parseFloat bounds of sliders, and relative-time formatting.
- Clocks and timers are left out: Date.now, setTimeout, setInterval and requestAnimationFrame become integer times and flags. The debug logger's random session id is not modelled.
- The Promise.all of `loadAllGames` is modelled as an ordered map; only its order preservation is observable.
- The server's MIME table and the file read of the static branch are left out. The model stops at the resolved path or the 403/500 answer.
- Drive-relative and UNC paths are not modelled in the static branch. The root is a drive and a list of folder names.
- Server.Install: the `profile` parameter of install and remove is not checked against path traversal, and the file map keyed by file name cannot express that.
- The main server's operating-system endpoints are routed but not modelled: serverLogs, writeDebugLog, openLogFolder, clearDebugLog, checkTeknoParrotExe, serverInfo and browseFolder. Neither are the process exit of shutdown or the tasklist query of launchStatus, which is an input.
- Preferences: the plain getters and setters (grid columns, current view, theme, last search, last viewed game) and the export are left out, because they copy a value and nothing more.
- CustomProfiles: `exportProfiles` is left out, because it is a download of the cache.
- ControlsEdit: the save request, the Input API field update done on save, serialisation, rendering and gamepad polling are left out.
- SettingsEdit: the slider listeners, rendering and the save request are left out.
- Paths: `verifyInstallation`, `getXMLFiles`, `readXMLFile` and `readJSONFile` are fetches. Their outcomes are `Option` inputs.
- DebugLog: the one-line level wrappers (`error` … `serverLog`, `logError`), `getLogsAsText` and `exportLogs` are left out, because they are formatting over `Log` and `GetLogs`.
- FilterManager.SetFilter: every setter returns `applyFilters()`. The model returns the new manager, and its list is `FilterManager.ApplyFilters` of it. A value of the wrong kind for its key cannot be written, because the filter record is typed.
- GameManager: `getAllGames` and `getFilteredGames` are plain accessors and have no member.
- The two-tier creator/user override merge is not modelled as a client operation, because no client code implements it. The creator tier appears only in the server's read, push and reset endpoints.
- Text.Lower and Text.Upper: only ASCII letters change case. JavaScript's `toLowerCase` and `toUpperCase` map every Unicode letter, and some change the length (`ß` upper-cases to `SS`, U+0130 lower-cases to `i` plus a combining dot). Where a case-insensitive regular expression is modelled with them (DevServer.DevRoot, Paths.EndsWithCI, the fallback words of DataLoader), ASCII is exact, because such a pattern without the `u` flag never matches a non-ASCII character against an ASCII one. Where the result is compared with ASCII-only text (Keyboard, ControlsEdit.GroupOf, the `.xml` test of Server, DebugLog levels), ASCII is exact too, because no non-ASCII character lower-cases to text that could complete such a match. The members below are the ones where the difference shows.
- GameManager.SearchGames: the query and the nine fields are lower-cased in ASCII only, so a query or a field with non-ASCII capitals (`É`, `Ä`) does not match the way JavaScript matches it.
- GameManager.SearchFindsName: stated for the ASCII lower-casing of Text.Lower; for names with non-ASCII capitals it is weaker than the source's case-insensitive search.
- GameManager.SortGames: the text sort keys are lower-cased in ASCII only, so names that differ only in non-ASCII capitals sort by their capitals.
- ControlsEdit.KeyName: a single-character key is upper-cased in ASCII only; JavaScript also upper-cases non-ASCII letters (`é` to `É`, `ß` to `SS`).
- DataLoader.NormalizePlatform: the alias lookup is a map membership test, so only own keys are modelled. In the program `platformAliasMap[key]` is a plain-object lookup that also finds inherited properties: the platform "Constructor" has key `constructor`, finds the inherited `Object` function and returns it, where the model falls through to the rules and returns "Constructor".
- DataLoader.NormalizePlatformAsWritten: the same own-keys-only alias lookup as DataLoader.NormalizePlatform.
- CustomProfiles.GetProfile: the cache test is a map membership test, so only own keys are modelled. In the program `this.profiles[gameId]` also finds inherited properties, so the ids `constructor` or `toString` return a function without any read, where the model loads the profile from the server.
- App.BatchFavorite: uses the corrected wiring and always leaves selection mode. As written, with favoritesOnly on the re-render throws and selection mode stays on; App.BatchFavoriteAsWired states that behaviour.
- DataLoader.NormalizeMetadata: uses the corrected rule order (DataLoader.NormalizePlatform), so a platform whose key starts with `taitotypex2` becomes "Taito Type X2". As written it becomes "Taito Type X"; DataLoader.NormalizePlatformAsWritten and DataLoader.TypeX2AsWritten state that behaviour.
- DataLoader.LoadGameData: normalises the platform with the corrected rule order, as DataLoader.NormalizeMetadata does.
- DataLoader.PlatformOriginalKept: states the loaded platform for the corrected rule order, as DataLoader.NormalizeMetadata does.
- DataLoader.LoadAllGames: loads every game with the corrected rule order, as DataLoader.NormalizeMetadata does.
- UiRules.Render: uses the corrected wiring, where the favourites stage reads the favourites set. As written the stage throws; UiRules.RenderAsWired states that behaviour.
- App.Refresh: uses the corrected wiring. As written a refresh with favoritesOnly on reports the TypeError; App.RefreshAsWritten states that behaviour.
- SettingsEdit.SaveUnchangedForm: the form is taken to hold each value exactly as rendered. In the browser a slider clamps its value to its minimum and maximum and snaps it to its step. A text value is cut at its first `"`, because `escapeHtml` leaves quotes alone inside `value="…"`. A text input also drops CR and LF. For such values the saved text differs from the stored one, and the promise holds only for slider and text values those steps leave unchanged.
- Server.StorageWrite: the file written is `JSON.stringify(JSON.parse(body), null, 2)`: re-indented, a repeated key keeping its last value, numbers re-printed (`1.0` as `1`, `1e400` as `null`). The model does not parse JSON and stores the body text, so Server.WriteThenRead promises the text stored, not that text re-serialised.
- Server.StorageRead: a stored file that is not valid JSON makes `JSON.parse` throw, and the server then answers 500 with the error's message. The model does not parse JSON and returns the stored text.
- Uri.Get: `URLSearchParams` decodes leniently. Bytes that are not well-formed UTF-8 become U+FFFD, where the model answers `Malformed`. A `%` without two hex digits already stays literal in the model. Every value the client writes with `encodeURIComponent` is well formed (Uri.GetEncoded), so only hand-written queries differ.
- Server.Install: file names are compared exactly, while Windows compares them without regard to case. With `Game.xml` installed, installing `game.xml` is refused with 409 on Windows but succeeds in the model.
- Server.Remove: file names are compared exactly. On Windows, removing `game.xml` deletes an installed `Game.xml`; in the model it answers 404.
- Server.GetGameProfile: file names are compared exactly. On Windows a request for `game` finds `Game.xml`; in the model it answers 404.

## Findings

| source | as written | input that shows it | evidently intended | confidence | as-written member | corrected member |
|---|---|---|---|---|---|---|
| js/app.js:27 | the hidden-games manager is passed in FilterManager's single preferences slot, and that object has no `isFavorite` | favoritesOnly on, one game in the collection: applyFilters throws a TypeError | favourites come from the favourites set | high, not executed | FilterManager.ApplyFiltersAsWired, FilterManager.AsWiredFavoritesThrows | FilterManager.ApplyFilters, FilterManager.FavoritesOnlyKeepsFavorite |
| server.js:661 | the storage read checks containment against `<root>\ParrotOrganizer\storage` but reads from `<appFolder>\storage` | app folder named `ParrotOrganizer-1.2`, file `preferences.json`: 403 | check against the folder actually read, as the write does | high, not executed | Server.StorageReadAsWritten, Server.RenamedFolderRefused | Server.StorageRead, Server.StorageReadsAgree |
| js/modules/dataLoader.js:232-233 | the `taitotypex` rule is tried before the `taitotypex2` rule, and every key containing `taitotypex2` also contains `taitotypex` (a key such as `taitotypesx2` matches only the X2 rule and is unaffected) | platform `Taito Type X2` normalises to `Taito Type X` | X2 keys map to `Taito Type X2` | high, not executed | DataLoader.TypeX2AsWritten, DataLoader.TypeX2Shadowed, DataLoader.TypeX2ExampleAsWritten | DataLoader.TypeX2Intended, DataLoader.TypeX2ExampleIntended |
| server.js:1056 | the static guard is a string prefix test on the resolved path (same at scripts/server.js:210) | root `D:\TeknoParrot`, request line `GET http://h/../../../../../TeknoParrot2/a.txt HTTP/1.1` (absolute form, so `req.url` keeps every `..`; scheme and host become two ordinary segments and the remaining `..` climb out of the root): `D:\TeknoParrot2\a.txt` is served | serve only the root folder and below | medium, not executed (browsers remove `..` from URLs, so a raw HTTP client is needed) | StaticFiles.StaticAsWritten, StaticFiles.SiblingFolderServed, StaticFiles.SiblingFolderExample | StaticFiles.Static, StaticFiles.RootedStaysInside |
| js/modules/profileEditManager.js:233-235 | the single-edit form skips an unticked lightgun box, so it never saves `false` | a game saved with lightgun ticked, then saved unticked in the same session: the cached override stays `true` until the page is reloaded (the XML writer never writes `lightgun` and the reader never reads it, so the stuck value does not outlive the session) | unticking saves `false` | medium, not executed | ProfileEdit.SingleEditCannotClearLightgun | ProfileEdit.CollectSingleIntended, ProfileEdit.SingleIntendedSetsLightgun |
| js/modules/debugLogger.js:180 | the `end()` of the object `startTimer(label)` returns subtracts the logger's start time (`this.startTime`), not the timer's own `startTime` | logger started at 0, `startTimer` called at 5000 ms, `end()` called at 5100 ms: reports 5100 ms | `end()` reports the time since `startTimer(label)` | high, not executed | DebugLog.TimerEndAsWritten, DebugLog.TimerEndOverstates | DebugLog.TimerEnd |
| js/gamepadIntegration.js:131-139 | `refreshGameCards` has already moved an empty selection to card 0 before the "nothing selected" branch is reached, so that branch never runs while a device is active | nothing selected, keyboard enabled, two or more cards, press Right: card 1 is selected | the first press selects the first card | high, not executed | GamepadNav.FirstMoveFromNothing | GamepadNav.NavigateIntended |

=== FILE: app.dfy ===
/** The application's batch operations on the multi-selection (add to
    library, remove from library, add to favourites) and the refresh that
    reloads the collection. */
module App {
  import opened Wrappers
  import opened Text
  import opened GameModel
  import Uri
  import Server
  import Selection
  import IdSets
  import GameManager
  import FilterManager
  import UiRules

  // ---------------------------------------------------------------------
  // Counting the answers
  // ---------------------------------------------------------------------

  /** What one request of a batch came back with: an answer whose `ok`
      is true or false, or an exception (a failed fetch or a body that is
      not JSON). */
  datatype Outcome = Answered(ok: bool) | Threw

  predicate Succeeded(o: Outcome) {
    o == Answered(true)
  }

  /** The success and failure counts of a batch: a refusal and an
      exception both count as a failure. */
  function Tally(outs: seq<Outcome>): (r: (nat, nat))
    ensures r.0 == multiset(outs)[Answered(true)]
    ensures r.0 + r.1 == |outs|
    ensures r.1 == 0 <==> forall i :: 0 <= i < |outs| ==> Succeeded(outs[i])
    decreases |outs|
  {
    if |outs| == 0 then (0, 0)
    else
      var rest := Tally(outs[1..]);
      assert forall i :: 1 <= i < |outs| ==> outs[i] == outs[1..][i - 1];
      assert outs == [outs[0]] + outs[1..];
      if Succeeded(outs[0]) then (rest.0 + 1, rest.1) else (rest.0, rest.1 + 1)
  }

  /** Counting two runs of answers one after the other adds their
      counts. */
  lemma {:induction false} TallyAppend(a: seq<Outcome>, b: seq<Outcome>)
    ensures Tally(a + b).0 == Tally(a).0 + Tally(b).0
    ensures Tally(a + b).1 == Tally(a).1 + Tally(b).1
    decreases |a|
  {
    if |a| == 0 {
      assert a + b == b;
    } else {
      TallyAppend(a[1..], b);
      assert (a + b)[1..] == a[1..] + b;
    }
  }

  // ---------------------------------------------------------------------
  // Add to and remove from the library
  // ---------------------------------------------------------------------

  /** The two batch operations that call the server. */
  datatype Kind = AddToLibrary | RemoveFromLibrary

  function EndpointOf(k: Kind): string {
    if k == AddToLibrary then "/__install" else "/__remove"
  }

  /** The request for one game: `<endpoint>?profile=<id>.xml`, with the
      file name URI-encoded. */
  function BatchRequest(k: Kind, id: string): string {
    EndpointOf(k) + "?" + "profile" + "=" + Uri.Encode(id + ".xml")
  }

  const NoneSelected := "No games selected"

  function ConfirmMessage(k: Kind, n: nat): string {
    match k
    case AddToLibrary => "Add " + IntToString(n) + " game(s) to your library?"
    case RemoveFromLibrary =>
      "Remove " + IntToString(n) + " game(s) from your library?\n\nThis will delete the UserProfile but keep your game files."
  }

  function Summary(k: Kind, success: nat, fail: nat): string {
    match k
    case AddToLibrary => "Added " + IntToString(success) + " game(s) to library. Failed: " + IntToString(fail)
    case RemoveFromLibrary => "Removed " + IntToString(success) + " game(s) from library. Failed: " + IntToString(fail)
  }

  /** What a batch did: the question asked, the alerts shown, the
      requests sent in order, whether the collection was reloaded, and
      the selection afterwards. */
  datatype Effect = Effect(
    prompt: Option<string>,
    alerts: seq<string>,
    requests: seq<string>,
    refreshed: bool,
    selection: Selection.Selection)

  function Requests(k: Kind, ids: seq<string>): (r: seq<string>)
    ensures |r| == |ids|
    ensures forall i :: 0 <= i < |ids| ==> r[i] == BatchRequest(k, ids[i])
  {
    seq(|ids|, i requires 0 <= i < |ids| => BatchRequest(k, ids[i]))
  }

  /** `handleBatchAdd()` / `handleBatchRemove()` with the user's answer
      to the confirmation and the outcome of each request.  An empty
      selection only alerts; a declined confirmation does nothing; else
      one request per selected game is sent, in order and whatever the
      earlier ones gave, a summary is alerted only when some failed, the
      collection is reloaded and selection mode is left. */
  function Batch(k: Kind, sel: Selection.Selection, confirmed: bool, outs: seq<Outcome>): (r: Effect)
    requires |outs| == |sel.selected|
    ensures |sel.selected| == 0 ==> r == Effect(None, [NoneSelected], [], false, sel)
    ensures |sel.selected| > 0 ==> r.prompt == Some(ConfirmMessage(k, |sel.selected|))
    ensures |sel.selected| > 0 && !confirmed ==> r.alerts == [] && r.requests == [] && !r.refreshed && r.selection == sel
    ensures |sel.selected| > 0 && confirmed ==>
      && |r.requests| == |sel.selected|
      && (forall i :: 0 <= i < |sel.selected| ==> r.requests[i] == BatchRequest(k, sel.selected[i]))
      && (r.alerts == [] <==> forall i :: 0 <= i < |outs| ==> Succeeded(outs[i]))
      && (r.alerts != [] ==> r.alerts == [Summary(k, Tally(outs).0, Tally(outs).1)])
      && r.refreshed
      && r.selection == Selection.ToggleMode(sel).0
  {
    var n := |sel.selected|;
    if n == 0 then Effect(None, [NoneSelected], [], false, sel)
    else if !confirmed then Effect(Some(ConfirmMessage(k, n)), [], [], false, sel)
    else
      var (success, fail) := Tally(outs);
      var alerts := if fail > 0 then [Summary(k, success, fail)] else [];
      Effect(Some(ConfirmMessage(k, n)), alerts, Requests(k, sel.selected), true, Selection.ToggleMode(sel).0)
  }

  /** The summary of a batch reports as many games as were selected. */
  lemma SummaryCountsAll(k: Kind, sel: Selection.Selection, outs: seq<Outcome>)
    requires |outs| == |sel.selected| > 0
    requires Batch(k, sel, true, outs).alerts != []
    ensures exists s: nat, f: nat :: s + f == |sel.selected| && f > 0
                              && Batch(k, sel, true, outs).alerts == [Summary(k, s, f)]
  {
    var t := Tally(outs);
    assert t.0 + t.1 == |sel.selected| && t.1 > 0;
  }

  // ---------------------------------------------------------------------
  // A batch against the server
  // ---------------------------------------------------------------------

  /** The `profile` parameter as the server reads it. */
  function ParamValue(p: Uri.Param): Option<string> {
    if p.Value? then Some(p.v) else None
  }

  /** One request of a batch, answered by the server's install or remove
      rules. */
  function ServeOne(k: Kind, fs: Server.Fs, id: string): (Outcome, Server.Fs) {
    var profile := ParamValue(Uri.Get(Uri.QueryOf(BatchRequest(k, id)), "profile"));
    var (reply, next) := if k == AddToLibrary then Server.Install(fs, profile) else Server.Remove(fs, profile);
    (Answered(reply.Success?), next)
  }

  /** The requests of a batch answered in order, each seeing the file map
      the previous one left. */
  function Serve(k: Kind, fs: Server.Fs, ids: seq<string>): (r: (seq<Outcome>, Server.Fs))
    ensures |r.0| == |ids|
    decreases |ids|
  {
    if |ids| == 0 then ([], fs)
    else
      var (o, next) := ServeOne(k, fs, ids[0]);
      var (rest, last) := Serve(k, next, ids[1..]);
      ([o] + rest, last)
  }

  /** The server reads back exactly the file name the client sent. */
  lemma ServedProfile(k: Kind, id: string)
    ensures ParamValue(Uri.Get(Uri.QueryOf(BatchRequest(k, id)), "profile")) == Some(id + ".xml")
    ensures id != "" ==> Server.ProfileFile(id + ".xml") == Server.XmlFile(id)
  {
    assert forall i :: 0 <= i < |"profile"| ==> Uri.Unreserved("profile"[i]);
    Uri.GetEncoded(EndpointOf(k), "profile", id + ".xml");
    Server.StripXmlOf(id);
  }

  /** After adding a selection to the library, every selected game that
      has a GameProfile is installed, whether or not its own request
      succeeded (it may have been installed already). */
  lemma {:induction false} BatchAddInstalls(fs: Server.Fs, ids: seq<string>)
    requires Server.UserProfiles in fs.folders
    requires forall i :: 0 <= i < |ids| ==> ids[i] != "" && (Server.GameProfiles, Server.XmlFile(ids[i])) in fs.files
    ensures forall i :: 0 <= i < |ids| ==> (Server.UserProfiles, Server.XmlFile(ids[i])) in Serve(AddToLibrary, fs, ids).1.files
    decreases |ids|
  {
    if |ids| > 0 {
      ServedProfile(AddToLibrary, ids[0]);
      var next := ServeOne(AddToLibrary, fs, ids[0]).1;
      assert (Server.UserProfiles, Server.XmlFile(ids[0])) in next.files;
      BatchAddInstalls(next, ids[1..]);
      BatchKeeps(next, ids[1..], (Server.UserProfiles, Server.XmlFile(ids[0])));
      forall i | 1 <= i < |ids|
        ensures (Server.UserProfiles, Server.XmlFile(ids[i])) in Serve(AddToLibrary, fs, ids).1.files
      {
        assert ids[i] == ids[1..][i - 1];
      }
    }
  }

  /** Adding to the library never deletes a file. */
  lemma {:induction false} BatchKeeps(fs: Server.Fs, ids: seq<string>, key: (Server.Folder, string))
    requires key in fs.files
    ensures key in Serve(AddToLibrary, fs, ids).1.files
    ensures Serve(AddToLibrary, fs, ids).1.folders == fs.folders
    decreases |ids|
  {
    if |ids| > 0 {
      BatchKeeps(ServeOne(AddToLibrary, fs, ids[0]).1, ids[1..], key);
    }
  }

  /** After removing a selection from the library, no selected game is
      installed, and nothing outside UserProfiles is touched. */
  lemma {:induction false} BatchRemoveUninstalls(fs: Server.Fs, ids: seq<string>)
    requires forall i :: 0 <= i < |ids| ==> ids[i] != ""
    ensures forall i :: 0 <= i < |ids| ==> (Server.UserProfiles, Server.XmlFile(ids[i])) !in Serve(RemoveFromLibrary, fs, ids).1.files
    ensures forall key :: key in fs.files && key.0 != Server.UserProfiles ==> key in Serve(RemoveFromLibrary, fs, ids).1.files
    ensures forall key :: key in Serve(RemoveFromLibrary, fs, ids).1.files ==> key in fs.files
    decreases |ids|
  {
    if |ids| > 0 {
      ServedProfile(RemoveFromLibrary, ids[0]);
      var next := ServeOne(RemoveFromLibrary, fs, ids[0]).1;
      BatchRemoveUninstalls(next, ids[1..]);
      forall i | 1 <= i < |ids|
        ensures (Server.UserProfiles, Server.XmlFile(ids[i])) !in Serve(RemoveFromLibrary, fs, ids).1.files
      {
        assert ids[i] == ids[1..][i - 1];
      }
    }
  }

  // ---------------------------------------------------------------------
  // Favourites
  // ---------------------------------------------------------------------

  function InsertAll(st: IdSets.Store, ids: seq<string>): (r: IdSets.Store)
    ensures IdSets.Valid(st) ==> IdSets.Valid(r)
    ensures forall y :: y in r.ids <==> y in st.ids || y in ids
    ensures |ids| > 0 ==> IdSets.Synced(r)
    decreases |ids|
  {
    if |ids| == 0 then st
    else
      assert forall y :: y in ids <==> y == ids[0] || y in ids[1..];
      InsertAll(IdSets.Insert(st, ids[0]), ids[1..])
  }

  /** `handleBatchFavorite()`: an empty selection only alerts; otherwise
      every selected game is added to the favourites (saved after each
      add) and selection mode is left, with no alert. */
  function BatchFavorite(favorites: IdSets.Store, sel: Selection.Selection): (r: (IdSets.Store, Effect))
    ensures |sel.selected| == 0 ==> r == (favorites, Effect(None, [NoneSelected], [], false, sel))
    ensures |sel.selected| > 0 ==>
      && (forall y :: y in r.0.ids <==> y in favorites.ids || y in sel.selected)
      && IdSets.Synced(r.0)
      && r.1 == Effect(None, [], [], false, Selection.ToggleMode(sel).0)
    ensures IdSets.Valid(favorites) ==> IdSets.Valid(r.0)
  {
    if |sel.selected| == 0 then (favorites, Effect(None, [NoneSelected], [], false, sel))
    else (InsertAll(favorites, sel.selected), Effect(None, [], [], false, Selection.ToggleMode(sel).0))
  }

  /** `handleBatchFavorite()` with the filter manager the application
      builds: the favourites are added first, then `render()` runs; when
      it throws the missing-`isFavorite` TypeError the handler stops there,
      so selection mode is not left and the error escapes the handler. */
  function BatchFavoriteAsWired(favorites: IdSets.Store, sel: Selection.Selection,
                                store: GameManager.GameStore, m: FilterManager.Manager,
                                hidden: set<string>): (r: (IdSets.Store, Effect, Option<string>))
    ensures |sel.selected| == 0 ==> r == (favorites, Effect(None, [NoneSelected], [], false, sel), None)
    ensures |sel.selected| > 0 ==>
      && (forall y :: y in r.0.ids <==> y in favorites.ids || y in sel.selected)
      && IdSets.Synced(r.0)
      && r.1.prompt.None? && r.1.alerts == [] && r.1.requests == []
    ensures |sel.selected| > 0 ==>
      (r.2.Some? <==> m.filters.favoritesOnly
                      && |FilterManager.RunStages(FilterManager.Base(store.games, m.filters, hidden),
                                                  m.filters, {}, FilterManager.EarlyStages)| > 0)
    ensures r.2.Some? ==> r.2 == Some(FilterManager.IsFavoriteMissing) && r.1.selection == sel
    ensures r.2.None? && |sel.selected| > 0 ==> !r.1.selection.mode == sel.mode
    ensures IdSets.Valid(favorites) ==> IdSets.Valid(r.0)
  {
    if |sel.selected| == 0 then (favorites, Effect(None, [NoneSelected], [], false, sel), None)
    else
      var added := InsertAll(favorites, sel.selected);
      match UiRules.RenderAsWired(store, m, hidden)
      case Err(e) => (added, Effect(None, [], [], false, sel), Some(e))
      case Ok(_) => (added, Effect(None, [], [], false, Selection.ToggleMode(sel).0), None)
  }

  /** With the favourites filter off, the batch favourite as written is
      the one the rest of the model uses, and nothing escapes it. */
  lemma BatchFavoriteAsWiredAgrees(favorites: IdSets.Store, sel: Selection.Selection,
                                   store: GameManager.GameStore, m: FilterManager.Manager,
                                   hidden: set<string>, favs: set<string>)
    requires !m.filters.favoritesOnly
    ensures BatchFavoriteAsWired(favorites, sel, store, m, hidden).2.None?
    ensures BatchFavoriteAsWired(favorites, sel, store, m, hidden).0 == BatchFavorite(favorites, sel).0
    ensures BatchFavoriteAsWired(favorites, sel, store, m, hidden).1 == BatchFavorite(favorites, sel).1
  {
    UiRules.RenderAsWiredAgrees(store, m, hidden, favs);
  }

  /** Favouriting a selection in a one-game library with only the
      favourites filter on leaves selection mode on. */
  lemma BatchFavoriteStaysSelecting(favorites: IdSets.Store, sel: Selection.Selection,
                                    g: Game, sortBy: string, ascending: bool)
    requires |sel.selected| > 0
    ensures BatchFavoriteAsWired(favorites, sel, GameManager.Initialize([g]),
                                 FilterManager.Manager(FilterManager.DefaultFilters.(favoritesOnly := true), sortBy, ascending),
                                 {}).1.selection
         == sel
  {
    FilterManager.AsWiredFavoritesThrows(g, sortBy, ascending);
  }

  /** Favouriting a selection twice is favouriting it once. */
  lemma {:induction false} InsertAllIdempotent(st: IdSets.Store, ids: seq<string>)
    requires |ids| > 0
    ensures InsertAll(InsertAll(st, ids), ids) == InsertAll(st, ids)
    decreases |ids|
  {
    var r := InsertAll(st, ids);
    InsertAllPresent(r, ids);
  }

  /** Inserting ids that are all present changes only the stored copy. */
  lemma {:induction false} InsertAllPresent(st: IdSets.Store, ids: seq<string>)
    requires forall i :: 0 <= i < |ids| ==> ids[i] in st.ids
    ensures InsertAll(st, ids) == (if |ids| == 0 then st else IdSets.Save(st))
    decreases |ids|
  {
    if |ids| > 0 {
      var next := IdSets.Insert(st, ids[0]);
      assert next == IdSets.Save(st);
      InsertAllPresent(next, ids[1..]);
      if |ids| > 1 {
        assert IdSets.Save(next) == IdSets.Save(st);
      }
    }
  }

  // ---------------------------------------------------------------------
  // Refresh
  // ---------------------------------------------------------------------

  /** `refresh()`: the collection is reloaded and replaces the old one
      wholesale, then the view is rendered; a load that fails keeps the
      old collection and shows the error. */
  function Refresh(
    store: GameManager.GameStore,
    loaded: Result<seq<Game>, string>,
    m: FilterManager.Manager,
    hidden: set<string>,
    favorites: set<string>): (r: (GameManager.GameStore, Option<string>))
    ensures loaded.Ok? ==> r.0.games == loaded.value && r.1.None?
    ensures loaded.Ok? ==> r.0.filteredGames == FilterManager.ApplyFilters(loaded.value, m, hidden, favorites)
    ensures loaded.Err? ==> r == (store, Some("Failed to refresh: " + loaded.error))
  {
    match loaded
    case Ok(data) => (UiRules.Render(GameManager.Initialize(data), m, hidden, favorites), None)
    case Err(e) => (store, Some("Failed to refresh: " + e))
  }

  /** What a successful refresh shows does not depend on what was shown
      before. */
  lemma RefreshForgets(a: GameManager.GameStore, b: GameManager.GameStore, data: seq<Game>,
                       m: FilterManager.Manager, hidden: set<string>, favorites: set<string>)
    ensures Refresh(a, Ok(data), m, hidden, favorites) == Refresh(b, Ok(data), m, hidden, favorites)
  {
  }

  /** `refresh()` with the filter manager the application builds: when the
      render throws, the reloaded collection is kept, the view is the
      whole collection `initialize` stored, and the error is shown. */
  function RefreshAsWritten(
    store: GameManager.GameStore,
    loaded: Result<seq<Game>, string>,
    m: FilterManager.Manager,
    hidden: set<string>): (r: (GameManager.GameStore, Option<string>))
    ensures loaded.Err? ==> r == (store, Some("Failed to refresh: " + loaded.error))
    ensures loaded.Ok? ==> r.0.games == loaded.value
    ensures loaded.Ok? ==>
              (r.1.Some? <==> m.filters.favoritesOnly
                              && |FilterManager.RunStages(FilterManager.Base(loaded.value, m.filters, hidden),
                                                          m.filters, {}, FilterManager.EarlyStages)| > 0)
    ensures loaded.Ok? && r.1.Some? ==>
              r.0.filteredGames == loaded.value
              && r.1 == Some("Failed to refresh: " + FilterManager.IsFavoriteMissing)
  {
    if loaded.Err? then (store, Some("Failed to refresh: " + loaded.error))
    else
      var reloaded := GameManager.Initialize(loaded.value);
      var shown := UiRules.RenderAsWired(reloaded, m, hidden);
      if shown.Ok? then (shown.value, None)
      else (reloaded, Some("Failed to refresh: " + shown.error))
  }

  /** With the favourites filter off, the refresh as written is the
      refresh the rest of the model uses. */
  lemma RefreshAsWrittenAgrees(store: GameManager.GameStore, loaded: Result<seq<Game>, string>,
                               m: FilterManager.Manager, hidden: set<string>, favorites: set<string>)
    requires !m.filters.favoritesOnly
    ensures RefreshAsWritten(store, loaded, m, hidden) == Refresh(store, loaded, m, hidden, favorites)
  {
    if loaded.Ok? {
      UiRules.RenderAsWiredAgrees(GameManager.Initialize(loaded.value), m, hidden, favorites);
    }
  }

  /** A library of one game refreshed with only the favourites filter on
      fails with the TypeError's message, whichever game it is. */
  lemma RefreshFavoritesFails(store: GameManager.GameStore, g: Game, sortBy: string, ascending: bool)
    ensures RefreshAsWritten(store, Ok([g]),
                             FilterManager.Manager(FilterManager.DefaultFilters.(favoritesOnly := true), sortBy, ascending),
                             {}).1
         == Some("Failed to refresh: " + FilterManager.IsFavoriteMissing)
  {
    FilterManager.AsWiredFavoritesThrows(g, sortBy, ascending);
  }
}

=== FILE: controls_edit.dfy ===
/** The controls editor: the joystick-button records of a game's user
    profile, the binding a gamepad button, an analog axis or a key
    produces, and the listening state that routes one binding to one
    button.  A profile's `JoystickButtons` container is the list of its
    button records, and each record is the list of its child elements. */
module ControlsEdit {
  import opened Wrappers
  import opened Text
  import opened Seqs

  // ---------------------------------------------------------------------
  // Button names and XInput codes

  /** `GAMEPAD_BUTTON_NAMES`: the standard-mapping name of a button of the
      W3C Gamepad specification (section "Remapping"). */
  function StandardName(i: int): Option<string> {
    match i
    case 0 => Some("A")
    case 1 => Some("B")
    case 2 => Some("X")
    case 3 => Some("Y")
    case 4 => Some("LeftShoulder")
    case 5 => Some("RightShoulder")
    case 6 => Some("LeftTrigger")
    case 7 => Some("RightTrigger")
    case 8 => Some("Back")
    case 9 => Some("Start")
    case 10 => Some("L3")
    case 11 => Some("R3")
    case 12 => Some("DPadUp")
    case 13 => Some("DPadDown")
    case 14 => Some("DPadLeft")
    case 15 => Some("DPadRight")
    case _ => None
  }

  /** The name a pressed button is bound under: the standard name, else
      `Button <i>`. */
  function ButtonName(i: nat): (r: string)
    ensures |r| > 0
    ensures StandardName(i).None? ==> IsPrefix("Button ", r)
  {
    match StandardName(i)
    case Some(n) => n
    case None => "Button " + IntToString(i)
  }

  /** `getXInputCode(i)`: the XInput code of a standard-mapping button;
      the triggers and every index outside the table give 0. */
  function XInputCode(i: int): (r: int)
    ensures !(0 <= i < 16) ==> r == 0
    ensures r == 0 <==> !(0 <= i < 16) || i == 6 || i == 7
    ensures r == -32768 <==> i == 3
  {
    match i
    case 0 => 4096
    case 1 => 8192
    case 2 => 16384
    case 3 => -32768
    case 4 => 256
    case 5 => 512
    case 8 => 32
    case 9 => 16
    case 10 => 64
    case 11 => 128
    case 12 => 1
    case 13 => 2
    case 14 => 4
    case 15 => 8
    case _ => 0
  }

  /** `XINPUT_BUTTON_CODES`: the name of each XInput code. */
  function XInputCodeName(code: int): Option<string> {
    match code
    case 1 => Some("DPadUp")
    case 2 => Some("DPadDown")
    case 4 => Some("DPadLeft")
    case 8 => Some("DPadRight")
    case 16 => Some("Start")
    case 32 => Some("Back")
    case 64 => Some("LeftThumb")
    case 128 => Some("RightThumb")
    case 256 => Some("LeftShoulder")
    case 512 => Some("RightShoulder")
    case 4096 => Some("A")
    case 8192 => Some("B")
    case 16384 => Some("X")
    case 32768 => Some("Y")
    case _ => None
  }

  function Abs(n: int): nat {
    if n < 0 then -n else n
  }

  /** The two tables agree: the code of every standard button other than a
      trigger names that button in the code table (the stick clicks L3 and
      R3 under their XInput names), and Y's code is the negated table
      entry. */
  lemma CodeTablesAgree(i: int)
    requires 0 <= i < 16 && i != 6 && i != 7
    ensures XInputCodeName(Abs(XInputCode(i))) ==
      if i == 10 then Some("LeftThumb") else if i == 11 then Some("RightThumb") else StandardName(i)
  {
  }

  // ---------------------------------------------------------------------
  // Bindings

  datatype XInputData = XInputData(
    buttonCode: int,
    isLeftThumbX: bool, isRightThumbX: bool, isLeftThumbY: bool, isRightThumbY: bool,
    isAxisMinus: bool,
    isLeftTrigger: bool, isRightTrigger: bool)

  /** What a captured input binds: the display name and, for a gamepad,
      the XInput description (`null` for a key). */
  datatype Binding = Binding(bindName: string, xInput: Option<XInputData>)

  predicate IsTrigger(d: XInputData) {
    d.isLeftTrigger || d.isRightTrigger
  }

  predicate IsAnalogAxis(d: XInputData) {
    d.isLeftThumbX || d.isLeftThumbY || d.isRightThumbX || d.isRightThumbY
  }

  function ThumbFlags(d: XInputData): nat {
    (if d.isLeftThumbX then 1 else 0) + (if d.isLeftThumbY then 1 else 0)
    + (if d.isRightThumbX then 1 else 0) + (if d.isRightThumbY then 1 else 0)
  }

  /** `Input Device <n> ` */
  function DevicePrefix(device: nat): string {
    "Input Device " + IntToString(device) + " "
  }

  /** `handleGamepadInput(device, i)`: the binding of a pressed button.
      The thumb flags and the axis sign are left unset. */
  function GamepadBinding(device: nat, i: nat): (r: Binding)
    ensures r.xInput.Some?
    ensures r.xInput.value.buttonCode == XInputCode(i)
    ensures r.xInput.value.isLeftTrigger <==> i == 6
    ensures r.xInput.value.isRightTrigger <==> i == 7
    ensures ThumbFlags(r.xInput.value) == 0 && !r.xInput.value.isAxisMinus
  {
    Binding(DevicePrefix(device) + ButtonName(i),
            Some(XInputData(XInputCode(i), false, false, false, false, false, i == 6, i == 7)))
  }

  /** The axis letter: X for the two horizontal stick axes, Y for the two
      vertical ones, `Axis<i>` otherwise. */
  function AxisName(axis: nat): string {
    if axis == 0 || axis == 2 then "X"
    else if axis == 1 || axis == 3 then "Y"
    else "Axis" + IntToString(axis)
  }

  /** `handleGamepadAxisInput(device, axis, value)`.  Only the sign of the
      axis value matters. */
  function AxisBinding(device: nat, axis: nat, value: int): (r: Binding)
    ensures r.xInput.Some? && r.xInput.value.buttonCode == 0 && !IsTrigger(r.xInput.value)
    ensures r.xInput.value.isAxisMinus <==> value < 0
    ensures |r.bindName| > 0 && (r.bindName[|r.bindName| - 1] == '+' <==> value > 0)
    ensures ThumbFlags(r.xInput.value) == if axis < 4 then 1 else 0
    ensures IsPrefix(DevicePrefix(device), r.bindName)
  {
    var direction := if value > 0 then "+" else "-";
    var thumb :=
      if axis == 0 || axis == 1 then "LeftThumb"
      else if axis == 2 || axis == 3 then "RightThumb"
      else "";
    var name :=
      if axis < 4 then DevicePrefix(device) + thumb + "Input Device " + IntToString(device) + " " + AxisName(axis) + direction
      else DevicePrefix(device) + "Axis" + IntToString(axis) + direction;
    assert IsPrefix(DevicePrefix(device), name) by {
      assert name[..|DevicePrefix(device)|] == DevicePrefix(device);
    }
    Binding(name, Some(XInputData(0, axis == 0, axis == 2, axis == 1, axis == 3, value < 0, false, false)))
  }

  /** The key name of a keyboard binding: the space bar is `Space`, a
      single character is upper-cased, a longer name is kept. */
  function KeyName(key: string): (r: string)
    ensures key == " " ==> r == "Space"
    ensures key != " " && |key| == 1 ==> r == Upper(key)
    ensures |key| != 1 ==> r == key
  {
    if key == " " then "Space" else if |key| == 1 then Upper(key) else key
  }

  /** The keyboard listener's binding: no XInput part. */
  function KeyBinding(key: string): (r: Binding)
    ensures r.xInput.None?
    ensures IsPrefix("Keyboard ", r.bindName)
  {
    Binding("Keyboard " + KeyName(key), None)
  }

  /** `formatBindName(name)`: an empty name is `Not configured`; otherwise
      one leading `Input Device <digits> ` is removed. */
  function FormatBindName(s: string): (r: string)
    ensures s == "" ==> r == "Not configured"
    ensures s != "" && !IsPrefix("Input Device ", s) ==> r == s
    ensures IsSuffix(r, s) || s == ""
  {
    if s == "" then "Not configured"
    else if IsPrefix("Input Device ", s) then
      var rest := s[13..];
      var ds := DigitPrefix(rest);
      if 0 < |ds| < |rest| && rest[|ds|] == ' ' then
        assert IsSuffix(rest[|ds| + 1..], s) by {
          assert s[|s| - |rest[|ds| + 1..]|..] == rest[|ds| + 1..];
        }
        rest[|ds| + 1..]
      else s
    else s
  }

  /** Formatting removes exactly one device prefix. */
  lemma FormatStripsDevice(device: nat, tail: string)
    ensures FormatBindName(DevicePrefix(device) + tail) == tail
  {
    var ds := IntToString(device);
    var s := DevicePrefix(device) + tail;
    NaturalDigits(device);
    assert s == "Input Device " + (ds + " " + tail);
    assert IsPrefix("Input Device ", s);
    assert s[13..] == ds + (" " + tail);
    DigitPrefixOf(ds, " " + tail);
  }

  /** The name shown for a gamepad-button binding is the button's name. */
  lemma FormatGamepadBinding(device: nat, i: nat)
    ensures FormatBindName(GamepadBinding(device, i).bindName) == ButtonName(i)
  {
    FormatStripsDevice(device, ButtonName(i));
  }

  // ---------------------------------------------------------------------
  // Button records

  datatype Field = Field(name: string, value: string)

  /** A child of a button record: a text element, or the `XInputButton`
      element with its own text children. */
  datatype Node = Leaf(tag: string, text: string) | XInputButton(fields: seq<Field>)

  type Button = seq<Node>

  function TagOf(n: Node): string {
    if n.Leaf? then n.tag else "XInputButton"
  }

  function FieldsText(fs: seq<Field>): string
    decreases |fs|
  {
    if |fs| == 0 then "" else fs[0].value + FieldsText(fs[1..])
  }

  /** `textContent`: the concatenated text under the element. */
  function TextContent(n: Node): string {
    if n.Leaf? then n.text else FieldsText(n.fields)
  }

  /** The first child with a tag (`getElementsByTagName(tag)[0]`). */
  function IndexOf(cs: seq<Node>, tag: string): (r: Option<nat>)
    ensures r.Some? ==> r.value < |cs| && TagOf(cs[r.value]) == tag
    ensures r.Some? ==> forall j :: 0 <= j < r.value ==> TagOf(cs[j]) != tag
    ensures r.None? ==> forall j :: 0 <= j < |cs| ==> TagOf(cs[j]) != tag
    decreases |cs|
  {
    if |cs| == 0 then None
    else if TagOf(cs[0]) == tag then Some(0)
    else match IndexOf(cs[1..], tag)
      case None => None
      case Some(k) => Some(k + 1)
  }

  function NodeOf(cs: seq<Node>, tag: string): Option<Node> {
    match IndexOf(cs, tag)
    case Some(k) => Some(cs[k])
    case None => None
  }

  /** `getElementsByTagName(tag)[0]?.textContent` */
  function TextOf(cs: seq<Node>, tag: string): Option<string> {
    match NodeOf(cs, tag)
    case Some(n) => Some(TextContent(n))
    case None => None
  }

  /** Setting `textContent` of the first child with a tag, or appending a
      new child with that text. */
  function SetText(cs: seq<Node>, tag: string, text: string): (r: seq<Node>)
    ensures |r| >= |cs|
  {
    match IndexOf(cs, tag)
    case Some(k) => cs[k := Leaf(tag, text)]
    case None => cs + [Leaf(tag, text)]
  }

  function InsertAt(cs: seq<Node>, k: nat, n: Node): (r: seq<Node>)
    requires k <= |cs|
    ensures |r| == |cs| + 1 && r[k] == n
    ensures forall j :: 0 <= j < k ==> r[j] == cs[j]
    ensures forall j :: k < j < |r| ==> r[j] == cs[j - 1]
  {
    cs[..k] + [n] + cs[k..]
  }

  /** The first index with a tag is the unique index that has it and has
      no earlier one. */
  lemma IndexOfIs(cs: seq<Node>, tag: string, k: nat)
    requires k < |cs| && TagOf(cs[k]) == tag
    requires forall j :: 0 <= j < k ==> TagOf(cs[j]) != tag
    ensures IndexOf(cs, tag) == Some(k)
  {
    match IndexOf(cs, tag)
    case None =>
    case Some(m) =>
  }

  /** Setting one tag's text makes that text the tag's, and leaves the
      first child of every other tag as it was. */
  lemma SetTextLookup(cs: seq<Node>, tag: string, text: string)
    ensures NodeOf(SetText(cs, tag, text), tag) == Some(Leaf(tag, text))
    ensures forall other :: other != tag ==> NodeOf(SetText(cs, tag, text), other) == NodeOf(cs, other)
  {
    var r := SetText(cs, tag, text);
    match IndexOf(cs, tag)
    case Some(k) =>
      IndexOfIs(r, tag, k);
      forall other | other != tag ensures NodeOf(r, other) == NodeOf(cs, other) {
        SameTags(cs, r, other);
      }
    case None =>
      IndexOfIs(r, tag, |cs|);
      forall other | other != tag ensures NodeOf(r, other) == NodeOf(cs, other) {
        SameTags(cs, r, other);
      }
  }

  /** Two child lists that agree up to and including the first child
      with a tag (or on all of the shorter one, when neither has it) have
      the same first child with that tag. */
  lemma SameTags(a: seq<Node>, b: seq<Node>, tag: string)
    requires |a| <= |b|
    requires forall j :: 0 <= j < |a| && (TagOf(a[j]) == tag || TagOf(b[j]) == tag) ==> a[j] == b[j]
    requires forall j :: |a| <= j < |b| ==> TagOf(b[j]) != tag
    ensures NodeOf(a, tag) == NodeOf(b, tag)
  {
    match IndexOf(a, tag)
    case Some(k) =>
      forall j | 0 <= j < k ensures TagOf(b[j]) != tag {
        assert j < |a| && TagOf(a[j]) != tag;
      }
      IndexOfIs(b, tag, k);
    case None =>
      forall j | 0 <= j < |b| ensures TagOf(b[j]) != tag {
        assert j < |a| ==> TagOf(a[j]) != tag;
      }
      assert IndexOf(b, tag).None?;
  }

  /** Inserting a child of one tag leaves the first child of every other
      tag as it was, and makes the new child the first of its tag when
      there was none. */
  lemma InsertLookup(cs: seq<Node>, k: nat, n: Node)
    requires k <= |cs|
    ensures forall other :: other != TagOf(n) ==> NodeOf(InsertAt(cs, k, n), other) == NodeOf(cs, other)
    ensures NodeOf(cs, TagOf(n)).None? ==> NodeOf(InsertAt(cs, k, n), TagOf(n)) == Some(n)
  {
    var r := InsertAt(cs, k, n);
    forall other | other != TagOf(n) ensures NodeOf(r, other) == NodeOf(cs, other) {
      match IndexOf(cs, other)
      case Some(m) =>
        if m < k {
          IndexOfIs(r, other, m);
        } else {
          assert r[m + 1] == cs[m];
          forall j | 0 <= j < m + 1 ensures TagOf(r[j]) != other {
            if j > k {
              assert r[j] == cs[j - 1];
            }
          }
          IndexOfIs(r, other, m + 1);
        }
      case None =>
        forall j | 0 <= j < |r| ensures TagOf(r[j]) != other {
          if j < k {
            assert r[j] == cs[j];
          } else if j > k {
            assert r[j] == cs[j - 1];
          }
        }
        assert IndexOf(r, other).None?;
    }
    if NodeOf(cs, TagOf(n)).None? {
      IndexOfIs(r, TagOf(n), k);
    }
  }

  // ---------------------------------------------------------------------
  // The XInputButton element

  function BoolText(b: bool): string {
    if b then "true" else "false"
  }

  /** The element names of an `XInputButton`, in the order they are
      written. */
  const XInputFieldNames: seq<string> := [
    "IsLeftThumbX", "IsRightThumbX", "IsLeftThumbY", "IsRightThumbY", "IsAxisMinus",
    "IsLeftTrigger", "IsRightTrigger", "ButtonCode", "IsButton", "ButtonIndex", "XInputIndex"]

  /** The values `createXInputButtonElement` writes, in order. */
  function XInputValues(d: XInputData): (r: seq<string>)
    ensures |r| == 11
    ensures r[8] == "false" <==> IsTrigger(d) || IsAnalogAxis(d)
    ensures r[9] == "0" && r[10] == "0"
  {
    [BoolText(d.isLeftThumbX), BoolText(d.isRightThumbX), BoolText(d.isLeftThumbY),
     BoolText(d.isRightThumbY), BoolText(d.isAxisMinus), BoolText(d.isLeftTrigger),
     BoolText(d.isRightTrigger), IntToString(d.buttonCode),
     BoolText(!(IsTrigger(d) || IsAnalogAxis(d))), "0", "0"]
  }

  function XInputFields(d: XInputData): (r: seq<Field>)
    ensures |r| == 11
    ensures forall i :: 0 <= i < 11 ==> r[i] == Field(XInputFieldNames[i], XInputValues(d)[i])
  {
    var vs := XInputValues(d);
    seq(11, i requires 0 <= i < 11 => Field(XInputFieldNames[i], vs[i]))
  }

  /** The value of the first field with a name. */
  function FieldOf(fs: seq<Field>, name: string): (r: Option<string>)
    ensures r.Some? ==> exists i :: 0 <= i < |fs| && fs[i] == Field(name, r.value)
    decreases |fs|
  {
    if |fs| == 0 then None
    else if fs[0].name == name then Some(fs[0].value)
    else FieldOf(fs[1..], name)
  }

  /** `setElement`: set the first field with the name, or append one. */
  function SetField(fs: seq<Field>, name: string, value: string): (r: seq<Field>)
    ensures FieldOf(r, name) == Some(value)
    ensures forall other :: other != name ==> FieldOf(r, other) == FieldOf(fs, other)
    decreases |fs|
  {
    if |fs| == 0 then [Field(name, value)]
    else if fs[0].name == name then [Field(name, value)] + fs[1..]
    else
      var rest := SetField(fs[1..], name, value);
      var r := [fs[0]] + rest;
      assert r[1..] == rest;
      r
  }

  /** `updateXInputButtonElement`: each field set in turn. */
  function SetFields(fs: seq<Field>, updates: seq<Field>): seq<Field>
    decreases |updates|
  {
    if |updates| == 0 then fs
    else SetFields(SetField(fs, updates[0].name, updates[0].value), updates[1..])
  }

  /** After setting a list of fields with distinct names, each name holds
      its new value and every other name keeps its old one. */
  lemma {:induction false} SetFieldsLookup(fs: seq<Field>, updates: seq<Field>, i: nat)
    requires i < |updates|
    requires forall a, b :: 0 <= a < b < |updates| ==> updates[a].name != updates[b].name
    ensures FieldOf(SetFields(fs, updates), updates[i].name) == Some(updates[i].value)
    decreases |updates|
  {
    var next := SetField(fs, updates[0].name, updates[0].value);
    if i == 0 {
      SetFieldsKeeps(next, updates[1..], updates[0].name);
    } else {
      SetFieldsLookup(next, updates[1..], i - 1);
    }
  }

  lemma {:induction false} SetFieldsKeeps(fs: seq<Field>, updates: seq<Field>, name: string)
    requires forall j :: 0 <= j < |updates| ==> updates[j].name != name
    ensures FieldOf(SetFields(fs, updates), name) == FieldOf(fs, name)
    decreases |updates|
  {
    if |updates| > 0 {
      SetFieldsKeeps(SetField(fs, updates[0].name, updates[0].value), updates[1..], name);
    }
  }

  lemma XInputNamesDistinct(d: XInputData)
    ensures forall a, b :: 0 <= a < b < 11 ==> XInputFields(d)[a].name != XInputFields(d)[b].name
  {
    var ns := XInputFieldNames;
    forall a, b | 0 <= a < b < 11 ensures ns[a] != ns[b] {
      assert ns[a][|ns[a]| - 1] != ns[b][|ns[b]| - 1] || |ns[a]| != |ns[b]| || ns[a][2] != ns[b][2]
        || ns[a][3] != ns[b][3];
    }
  }

  // ---------------------------------------------------------------------
  // updateButtonBinding

  /** An existing `XInputButton` is updated field by field; a new one is
      written whole, before `InputMapping`, else right after `ButtonName`,
      else at the end.  An `XInputButton` that holds only text is given
      the fields. */
  function SetXInput(b: Button, d: XInputData): Button {
    match IndexOf(b, "XInputButton")
    case Some(k) =>
      var prior := if b[k].XInputButton? then b[k].fields else [];
      b[k := XInputButton(SetFields(prior, XInputFields(d)))]
    case None =>
      var node := XInputButton(XInputFields(d));
      match IndexOf(b, "InputMapping")
      case Some(m) => InsertAt(b, m, node)
      case None =>
        match IndexOf(b, "ButtonName")
        case Some(n) => InsertAt(b, n + 1, node)
        case None => b + [node]
  }

  /** A missing `AnalogType` is created as `None` right after
      `InputMapping`, else at the end; an existing one is kept. */
  function EnsureAnalogType(b: Button): Button {
    if IndexOf(b, "AnalogType").Some? then b
    else
      var node := Leaf("AnalogType", "None");
      match IndexOf(b, "InputMapping")
      case Some(m) => InsertAt(b, m + 1, node)
      case None => b + [node]
  }

  /** The update applied to one button record. */
  function UpdateButton(b: Button, bd: Binding): Button {
    var named := SetText(SetText(b, "BindName", bd.bindName), "BindNameXi", bd.bindName);
    var withXInput := if bd.xInput.Some? then SetXInput(named, bd.xInput.value) else named;
    EnsureAnalogType(withXInput)
  }

  /** `updateButtonBinding(doc, index, binding)`: no container or an index
      past the last button changes nothing; otherwise only that button. */
  function UpdateButtonBinding(doc: Option<seq<Button>>, index: nat, bd: Binding): (r: Option<seq<Button>>)
    ensures doc.None? || index >= |doc.value| ==> r == doc
    ensures doc.Some? ==> r.Some? && |r.value| == |doc.value|
    ensures doc.Some? ==> forall j :: 0 <= j < |doc.value| && j != index ==> r.value[j] == doc.value[j]
  {
    match doc
    case None => None
    case Some(buttons) =>
      if index >= |buttons| then doc
      else Some(buttons[index := UpdateButton(buttons[index], bd)])
  }

  lemma EnsureAnalogTypeLookup(b: Button)
    ensures NodeOf(b, "AnalogType").Some? ==> EnsureAnalogType(b) == b
    ensures NodeOf(b, "AnalogType").None? ==> NodeOf(EnsureAnalogType(b), "AnalogType") == Some(Leaf("AnalogType", "None"))
    ensures forall other :: other != "AnalogType" ==> NodeOf(EnsureAnalogType(b), other) == NodeOf(b, other)
  {
    var node := Leaf("AnalogType", "None");
    if IndexOf(b, "AnalogType").None? {
      match IndexOf(b, "InputMapping")
      case Some(m) => InsertLookup(b, m + 1, node);
      case None =>
        InsertLookup(b, |b|, node);
        assert InsertAt(b, |b|, node) == b + [node];
    }
  }

  lemma SetXInputLookup(b: Button, d: XInputData)
    ensures forall other :: other != "XInputButton" ==> NodeOf(SetXInput(b, d), other) == NodeOf(b, other)
    ensures NodeOf(SetXInput(b, d), "XInputButton").Some?
    ensures NodeOf(b, "XInputButton").None? ==> NodeOf(SetXInput(b, d), "XInputButton") == Some(XInputButton(XInputFields(d)))
  {
    var r := SetXInput(b, d);
    match IndexOf(b, "XInputButton")
    case Some(k) =>
      IndexOfIs(r, "XInputButton", k);
      forall other | other != "XInputButton" ensures NodeOf(r, other) == NodeOf(b, other) {
        SameTags(b, r, other);
      }
    case None =>
      var node := XInputButton(XInputFields(d));
      match IndexOf(b, "InputMapping")
      case Some(m) => InsertLookup(b, m, node);
      case None =>
        match IndexOf(b, "ButtonName")
        case Some(n) => InsertLookup(b, n + 1, node);
        case None =>
          InsertLookup(b, |b|, node);
          assert InsertAt(b, |b|, node) == b + [node];
  }

  /** Both bind names hold the new name afterwards. */
  lemma UpdateSetsBindNames(b: Button, bd: Binding)
    ensures TextOf(UpdateButton(b, bd), "BindName") == Some(bd.bindName)
    ensures TextOf(UpdateButton(b, bd), "BindNameXi") == Some(bd.bindName)
  {
    var first := SetText(b, "BindName", bd.bindName);
    var named := SetText(first, "BindNameXi", bd.bindName);
    SetTextLookup(b, "BindName", bd.bindName);
    SetTextLookup(first, "BindNameXi", bd.bindName);
    var withXInput := if bd.xInput.Some? then SetXInput(named, bd.xInput.value) else named;
    if bd.xInput.Some? {
      SetXInputLookup(named, bd.xInput.value);
    }
    EnsureAnalogTypeLookup(withXInput);
  }

  /** An existing `AnalogType` is never overwritten; a missing one becomes
      `None`. */
  lemma UpdateAnalogType(b: Button, bd: Binding)
    ensures NodeOf(UpdateButton(b, bd), "AnalogType") ==
      if NodeOf(b, "AnalogType").Some? then NodeOf(b, "AnalogType") else Some(Leaf("AnalogType", "None"))
  {
    var first := SetText(b, "BindName", bd.bindName);
    var named := SetText(first, "BindNameXi", bd.bindName);
    SetTextLookup(b, "BindName", bd.bindName);
    SetTextLookup(first, "BindNameXi", bd.bindName);
    var withXInput := if bd.xInput.Some? then SetXInput(named, bd.xInput.value) else named;
    if bd.xInput.Some? {
      SetXInputLookup(named, bd.xInput.value);
    }
    EnsureAnalogTypeLookup(withXInput);
  }

  /** A binding without an XInput part (a key, or clearing) leaves the
      `XInputButton` element as it was. */
  lemma NoXInputKeepsElement(b: Button, bd: Binding)
    requires bd.xInput.None?
    ensures NodeOf(UpdateButton(b, bd), "XInputButton") == NodeOf(b, "XInputButton")
  {
    var first := SetText(b, "BindName", bd.bindName);
    var named := SetText(first, "BindNameXi", bd.bindName);
    SetTextLookup(b, "BindName", bd.bindName);
    SetTextLookup(first, "BindNameXi", bd.bindName);
    EnsureAnalogTypeLookup(named);
  }

  /** A gamepad binding leaves an `XInputButton` in which every written
      field holds the value `createXInputButtonElement` would write. */
  lemma XInputWritten(b: Button, bd: Binding, i: nat)
    requires bd.xInput.Some? && i < 11
    ensures NodeOf(UpdateButton(b, bd), "XInputButton").Some?
    ensures var n := NodeOf(UpdateButton(b, bd), "XInputButton").value;
      n.XInputButton? && FieldOf(n.fields, XInputFieldNames[i]) == Some(XInputValues(bd.xInput.value)[i])
  {
    var d := bd.xInput.value;
    var first := SetText(b, "BindName", bd.bindName);
    var named := SetText(first, "BindNameXi", bd.bindName);
    var withXInput := SetXInput(named, d);
    SetXInputLookup(named, d);
    EnsureAnalogTypeLookup(withXInput);
    XInputNamesDistinct(d);
    var fs := XInputFields(d);
    match IndexOf(named, "XInputButton")
    case Some(k) =>
      var prior := if named[k].XInputButton? then named[k].fields else [];
      IndexOfIs(withXInput, "XInputButton", k);
      SetFieldsLookup(prior, fs, i);
    case None =>
      FirstFieldOf(fs, i);
  }

  lemma FirstFieldOf(fs: seq<Field>, i: nat)
    requires i < |fs|
    requires forall a, b :: 0 <= a < b < |fs| ==> fs[a].name != fs[b].name
    ensures FieldOf(fs, fs[i].name) == Some(fs[i].value)
  {
    SetFieldsLookup([], fs, i);
    SetFieldsFresh(fs);
  }

  /** Setting distinct fields on an empty element yields them in order. */
  lemma {:induction false} SetFieldsFresh(fs: seq<Field>)
    requires forall a, b :: 0 <= a < b < |fs| ==> fs[a].name != fs[b].name
    ensures SetFields([], fs) == fs
    decreases |fs|
  {
    if |fs| > 0 {
      AppendDistinct([], fs, 0);
    }
  }

  lemma {:induction false} AppendDistinct(done: seq<Field>, fs: seq<Field>, k: nat)
    requires k <= |fs| && done == fs[..k]
    requires forall a, b :: 0 <= a < b < |fs| ==> fs[a].name != fs[b].name
    ensures SetFields(done, fs[k..]) == fs
    decreases |fs| - k
  {
    if k == |fs| {
      assert done == fs;
    } else {
      SetFieldAbsent(done, fs[k].name, fs[k].value);
      assert fs[k..][0] == fs[k] && fs[k..][1..] == fs[k + 1..];
      assert fs[..k + 1] == fs[..k] + [fs[k]];
      AppendDistinct(fs[..k + 1], fs, k + 1);
    }
  }

  lemma {:induction false} SetFieldAbsent(fs: seq<Field>, name: string, value: string)
    requires forall j :: 0 <= j < |fs| ==> fs[j].name != name
    ensures SetField(fs, name, value) == fs + [Field(name, value)]
    decreases |fs|
  {
    if |fs| > 0 {
      SetFieldAbsent(fs[1..], name, value);
      assert fs == [fs[0]] + fs[1..];
    }
  }

  // ---------------------------------------------------------------------
  // Reading the buttons

  datatype ButtonInfo = ButtonInfo(index: nat, buttonName: string, inputMapping: string, bindName: string, bindNameXi: string)

  function Info(b: Button, i: nat): ButtonInfo {
    ButtonInfo(i, TextOf(b, "ButtonName").GetOr(""), TextOf(b, "InputMapping").GetOr(""),
               TextOf(b, "BindName").GetOr(""), TextOf(b, "BindNameXi").GetOr(""))
  }

  /** `getJoystickButtons(doc)`: one record per button, numbered by
      position; no container gives none. */
  function GetJoystickButtons(doc: Option<seq<Button>>): (r: seq<ButtonInfo>)
    ensures doc.None? ==> r == []
    ensures doc.Some? ==> |r| == |doc.value|
    ensures doc.Some? ==> forall i :: 0 <= i < |r| ==> r[i].index == i && r[i] == Info(doc.value[i], i)
  {
    match doc
    case None => []
    case Some(bs) => seq(|bs|, i requires 0 <= i < |bs| => Info(bs[i], i))
  }

  /** After a binding is written to a button, reading the buttons back
      shows the new name in both bind fields of that button only. */
  lemma UpdateThenRead(doc: Option<seq<Button>>, index: nat, bd: Binding)
    requires doc.Some? && index < |doc.value|
    ensures GetJoystickButtons(UpdateButtonBinding(doc, index, bd))[index].bindName == bd.bindName
    ensures GetJoystickButtons(UpdateButtonBinding(doc, index, bd))[index].bindNameXi == bd.bindName
  {
    UpdateSetsBindNames(doc.value[index], bd);
  }

  // ---------------------------------------------------------------------
  // Grouping

  datatype Group = System | Player1 | Player2

  /** Test, service and coin buttons are system buttons; player-2 buttons
      come next; everything else belongs to player 1. */
  function GroupOf(name: string): Group {
    var n := Lower(name);
    if Contains(n, "test") || Contains(n, "service") || Contains(n, "coin") then System
    else if Contains(n, "player 2") || Contains(n, "p2") then Player2
    else Player1
  }

  /** The buttons of one group, in order. */
  function InGroup(bs: seq<ButtonInfo>, g: Group): (r: seq<ButtonInfo>)
    ensures SubseqOf(r, bs)
    ensures forall x :: x in r <==> x in bs && GroupOf(x.buttonName) == g
    decreases |bs|
  {
    if |bs| == 0 then []
    else
      var rest := InGroup(bs[1..], g);
      assert bs == [bs[0]] + bs[1..];
      SubseqSkipHead(rest, bs);
      if GroupOf(bs[0].buttonName) == g then [bs[0]] + rest else rest
  }

  lemma InGroupHead(bs: seq<ButtonInfo>, g: Group)
    requires |bs| > 0
    ensures multiset(InGroup(bs, g)) ==
      (if GroupOf(bs[0].buttonName) == g then multiset{bs[0]} else multiset{}) + multiset(InGroup(bs[1..], g))
  {
  }

  /** The three groups split the buttons: every button lands in exactly
      one of them, as often as it occurs. */
  lemma {:induction false} GroupsPartition(bs: seq<ButtonInfo>)
    ensures multiset(InGroup(bs, System)) + multiset(InGroup(bs, Player1)) + multiset(InGroup(bs, Player2)) == multiset(bs)
    decreases |bs|
  {
    if |bs| > 0 {
      GroupsPartition(bs[1..]);
      InGroupHead(bs, System);
      InGroupHead(bs, Player1);
      InGroupHead(bs, Player2);
      assert multiset(bs) == multiset{bs[0]} + multiset(bs[1..]) by {
        assert bs == [bs[0]] + bs[1..];
      }
    }
  }

  // ---------------------------------------------------------------------
  // The editor state

  /** The open profile's buttons, the button being listened to, and the
      unsaved-changes flag. */
  datatype Editor = Editor(gameId: Option<string>, doc: Option<seq<Button>>, listening: Option<nat>, unsaved: bool)

  /** `startListening(i)`: a second press on the same button cancels. */
  function StartListening(e: Editor, i: nat): (r: Editor)
    ensures e.listening == Some(i) ==> r.listening.None?
    ensures e.listening != Some(i) ==> r.listening == Some(i)
    ensures r.doc == e.doc && r.unsaved == e.unsaved
  {
    if e.listening == Some(i) then e.(listening := None) else e.(listening := Some(i))
  }

  lemma StartListeningTwice(e: Editor, i: nat)
    requires e.listening.None? || e.listening == Some(i)
    ensures StartListening(StartListening(e, i), i) == e
  {
  }

  /** `applyBinding(binding)`: a no-op unless a button is being listened
      to. */
  function ApplyBinding(e: Editor, bd: Binding): (r: Editor)
    ensures e.listening.None? ==> r == e
    ensures e.listening.Some? ==> r.unsaved && r.listening == e.listening
    ensures e.listening.Some? ==> r.doc == UpdateButtonBinding(e.doc, e.listening.value, bd)
  {
    match e.listening
    case None => e
    case Some(k) => e.(doc := UpdateButtonBinding(e.doc, k, bd), unsaved := true)
  }

  /** A captured input: the binding is applied and listening stops. */
  function Capture(e: Editor, bd: Binding): (r: Editor)
    ensures r.listening.None?
    ensures e.listening.None? ==> r.doc == e.doc && r.unsaved == e.unsaved
  {
    ApplyBinding(e, bd).(listening := None)
  }

  /** A captured input lands in the button that was being listened to. */
  lemma CaptureBinds(e: Editor, bd: Binding)
    requires e.listening.Some? && e.doc.Some? && e.listening.value < |e.doc.value|
    ensures GetJoystickButtons(Capture(e, bd).doc)[e.listening.value].bindName == bd.bindName
  {
    UpdateThenRead(e.doc, e.listening.value, bd);
  }

  /** `clearBinding(i)`: empty bind names and no XInput part. */
  function ClearBinding(e: Editor, i: nat): (r: Editor)
    ensures r.unsaved && r.listening == e.listening
  {
    e.(doc := UpdateButtonBinding(e.doc, i, Binding("", None)), unsaved := true)
  }

  /** Clearing blanks both bind names and keeps the XInput element. */
  lemma ClearKeepsXInput(e: Editor, i: nat)
    requires e.doc.Some? && i < |e.doc.value|
    ensures var b := ClearBinding(e, i).doc.value[i];
      TextOf(b, "BindName") == Some("") && TextOf(b, "BindNameXi") == Some("")
      && NodeOf(b, "XInputButton") == NodeOf(e.doc.value[i], "XInputButton")
  {
    UpdateSetsBindNames(e.doc.value[i], Binding("", None));
    NoXInputKeepsElement(e.doc.value[i], Binding("", None));
  }

  /** `closeModal()`: nothing open, nothing listened to, nothing unsaved. */
  function CloseModal(e: Editor): (r: Editor)
    ensures r.gameId.None? && r.doc.None? && r.listening.None? && !r.unsaved
  {
    Editor(None, None, None, false)
  }
}

=== FILE: custom_profiles.dfy ===
/** Custom profiles: the per-game overrides the user writes, their XML
    file format, the client-side cache and the merge of a profile into a
    game record.  The server round trips are inputs: the reply of a read
    and whether a delete succeeded are parameters, and a write's outcome
    is not, because the client only logs it. */
module CustomProfiles {
  import opened Wrappers
  import opened Text
  import opened Seqs
  import opened GameModel

  // ---------------------------------------------------------------------
  // Escaping

  /** `s.replace(/c/g, rep)` */
  function ReplaceAll(s: string, c: char, rep: string): (r: string)
    ensures c !in rep ==> c !in r
    decreases |s|
  {
    if |s| == 0 then ""
    else (if s[0] == c then rep else [s[0]]) + ReplaceAll(s[1..], c, rep)
  }

  lemma {:induction false} ReplaceAllAppend(a: string, b: string, c: char, rep: string)
    ensures ReplaceAll(a + b, c, rep) == ReplaceAll(a, c, rep) + ReplaceAll(b, c, rep)
    decreases |a|
  {
    if |a| == 0 {
      assert a + b == b;
    } else {
      var ab := a + b;
      assert ab[0] == a[0] && ab[1..] == a[1..] + b;
      ReplaceAllAppend(a[1..], b, c, rep);
    }
  }

  /** `escapeXML` as written: five global replacements, `&` first. */
  function EscapeXml(s: string): string {
    var amp := ReplaceAll(s, '&', "&amp;");
    var lt := ReplaceAll(amp, '<', "&lt;");
    var gt := ReplaceAll(lt, '>', "&gt;");
    var quot := ReplaceAll(gt, '"', "&quot;");
    ReplaceAll(quot, '\'', "&apos;")
  }

  /** The entity a character is written as. */
  function EscapeChar(c: char): string {
    if c == '&' then "&amp;"
    else if c == '<' then "&lt;"
    else if c == '>' then "&gt;"
    else if c == '"' then "&quot;"
    else if c == '\'' then "&apos;"
    else [c]
  }

  /** Escaping character by character: the reference the replacement chain
      is compared with. */
  function EscapeChars(s: string): (r: string)
    ensures '<' !in r && '>' !in r && '"' !in r && '\'' !in r
    ensures |r| >= |s|
    decreases |s|
  {
    if |s| == 0 then "" else EscapeChar(s[0]) + EscapeChars(s[1..])
  }

  lemma EscapeXmlAppend(a: string, b: string)
    ensures EscapeXml(a + b) == EscapeXml(a) + EscapeXml(b)
  {
    ReplaceAllAppend(a, b, '&', "&amp;");
    var a1, b1 := ReplaceAll(a, '&', "&amp;"), ReplaceAll(b, '&', "&amp;");
    ReplaceAllAppend(a1, b1, '<', "&lt;");
    var a2, b2 := ReplaceAll(a1, '<', "&lt;"), ReplaceAll(b1, '<', "&lt;");
    ReplaceAllAppend(a2, b2, '>', "&gt;");
    var a3, b3 := ReplaceAll(a2, '>', "&gt;"), ReplaceAll(b2, '>', "&gt;");
    ReplaceAllAppend(a3, b3, '"', "&quot;");
    var a4, b4 := ReplaceAll(a3, '"', "&quot;"), ReplaceAll(b3, '"', "&quot;");
    ReplaceAllAppend(a4, b4, '\'', "&apos;");
  }

  /** A replacement leaves a string without its character alone. */
  lemma {:induction false} ReplaceAllAbsent(s: string, c: char, rep: string)
    requires c !in s
    ensures ReplaceAll(s, c, rep) == s
    decreases |s|
  {
    if |s| > 0 {
      ReplaceAllAbsent(s[1..], c, rep);
      assert s == [s[0]] + s[1..];
    }
  }

  lemma EscapeXmlPlain(c: char)
    requires c != '&' && c != '<' && c != '>' && c != '"' && c != '\''
    ensures EscapeXml([c]) == [c]
  {
    ReplaceAllAbsent([c], '&', "&amp;");
    ReplaceAllAbsent([c], '<', "&lt;");
    ReplaceAllAbsent([c], '>', "&gt;");
    ReplaceAllAbsent([c], '"', "&quot;");
    ReplaceAllAbsent([c], '\'', "&apos;");
  }

  /** Text without the later-replaced characters, such as an entity, is
      never replaced again. */
  lemma EntityStable(e: string)
    requires '<' !in e && '>' !in e && '"' !in e && '\'' !in e
    ensures ReplaceAll(e, '<', "&lt;") == e && ReplaceAll(e, '>', "&gt;") == e
    ensures ReplaceAll(e, '"', "&quot;") == e && ReplaceAll(e, '\'', "&apos;") == e
  {
    ReplaceAllAbsent(e, '<', "&lt;");
    ReplaceAllAbsent(e, '>', "&gt;");
    ReplaceAllAbsent(e, '"', "&quot;");
    ReplaceAllAbsent(e, '\'', "&apos;");
  }

  lemma EscapeXmlChar(c: char)
    ensures EscapeXml([c]) == EscapeChar(c)
  {
    if c == '&' {
      assert ReplaceAll([c], '&', "&amp;") == "&amp;";
      EntityStable("&amp;");
    } else if c == '<' {
      ReplaceAllAbsent([c], '&', "&amp;");
      assert ReplaceAll([c], '<', "&lt;") == "&lt;";
      EntityStable("&lt;");
    } else if c == '>' {
      ReplaceAllAbsent([c], '&', "&amp;");
      ReplaceAllAbsent([c], '<', "&lt;");
      assert ReplaceAll([c], '>', "&gt;") == "&gt;";
      EntityStable("&gt;");
    } else if c == '"' {
      ReplaceAllAbsent([c], '&', "&amp;");
      ReplaceAllAbsent([c], '<', "&lt;");
      ReplaceAllAbsent([c], '>', "&gt;");
      assert ReplaceAll([c], '"', "&quot;") == "&quot;";
      EntityStable("&quot;");
    } else if c == '\'' {
      ReplaceAllAbsent([c], '&', "&amp;");
      ReplaceAllAbsent([c], '<', "&lt;");
      ReplaceAllAbsent([c], '>', "&gt;");
      ReplaceAllAbsent([c], '"', "&quot;");
      assert ReplaceAll([c], '\'', "&apos;") == "&apos;";
    } else {
      EscapeXmlPlain(c);
    }
  }

  /** Because `&` is replaced first, no entity is escaped twice and the
      chain of replacements escapes each character on its own. */
  lemma {:induction false} EscapeXmlIsCharwise(s: string)
    ensures EscapeXml(s) == EscapeChars(s)
    decreases |s|
  {
    if |s| == 0 {
      assert ReplaceAll(s, '&', "&amp;") == "";
    } else {
      assert s == [s[0]] + s[1..];
      EscapeXmlAppend([s[0]], s[1..]);
      EscapeXmlChar(s[0]);
      EscapeXmlIsCharwise(s[1..]);
    }
  }

  // ---------------------------------------------------------------------
  // Reading text back

  /** The entity at the start of `s`, if any, with the character it
      stands for and its length: the five predefined entities of section
      4.6 of XML 1.0. */
  function EntityAt(s: string): (r: Option<(char, nat)>)
    ensures r.Some? ==> 1 <= r.value.1 <= |s|
  {
    if |s| == 0 || s[0] != '&' then None
    else if IsPrefix("&amp;", s) then Some(('&', 5))
    else if IsPrefix("&lt;", s) then Some(('<', 4))
    else if IsPrefix("&gt;", s) then Some(('>', 4))
    else if IsPrefix("&quot;", s) then Some(('"', 6))
    else if IsPrefix("&apos;", s) then Some(('\'', 6))
    else None
  }

  /** What an XML parser makes of escaped text: entities are replaced by
      their characters, any other text is taken as it is. */
  function Unescape(s: string): string
    decreases |s|
  {
    if |s| == 0 then ""
    else match EntityAt(s)
      case Some((c, n)) => [c] + Unescape(s[n..])
      case None => [s[0]] + Unescape(s[1..])
  }

  /** The entity written for a character is read as that character. */
  lemma EntityOfEscape(c: char, rest: string)
    ensures EscapeChar(c) != [c] ==> EntityAt(EscapeChar(c) + rest) == Some((c, |EscapeChar(c)|))
    ensures EscapeChar(c) == [c] ==> c != '&' && EntityAt(EscapeChar(c) + rest).None?
  {
    var e := EscapeChar(c);
    var s := e + rest;
    assert s[..|e|] == e;
    if c == '<' {
      assert s[1] == 'l';
      assert |s| >= 5 ==> s[..5][1] == s[1];
    } else if c == '>' {
      assert s[1] == 'g' && s[..4][1] == s[1];
      assert |s| >= 5 ==> s[..5][1] == s[1];
    } else if c == '"' {
      assert s[1] == 'q' && s[..5][1] == s[1] && s[..4][1] == s[1];
    } else if c == '\'' {
      assert s[2] == 'p' && s[..5][2] == s[2] && s[..4][1] == s[1] && s[..6][1] == s[1];
    } else if c != '&' {
      assert s[0] == c;
    }
  }

  lemma UnescapeHead(c: char, rest: string)
    ensures Unescape(EscapeChar(c) + rest) == [c] + Unescape(rest)
  {
    var e := EscapeChar(c);
    var s := e + rest;
    EntityOfEscape(c, rest);
    assert s[|e|..] == rest;
    if e == [c] {
      assert s[0] == c && s[1..] == rest;
    }
  }

  /** Reading back what was escaped gives the original text. */
  lemma {:induction false} UnescapeEscapeChars(s: string)
    ensures Unescape(EscapeChars(s)) == s
    decreases |s|
  {
    if |s| > 0 {
      UnescapeHead(s[0], EscapeChars(s[1..]));
      UnescapeEscapeChars(s[1..]);
      assert s == [s[0]] + s[1..];
    }
  }

  /** End-of-line handling of section 2.11 of XML 1.0: `\r\n` and a lone
      `\r` both become `\n` before the text is read. */
  function NormalizeEol(s: string): (r: string)
    decreases |s|
  {
    if |s| == 0 then ""
    else if s[0] == '\r' then
      "\n" + (if |s| > 1 && s[1] == '\n' then NormalizeEol(s[2..]) else NormalizeEol(s[1..]))
    else [s[0]] + NormalizeEol(s[1..])
  }

  lemma {:induction false} NormalizeEolNoCr(s: string)
    requires '\r' !in s
    ensures NormalizeEol(s) == s
    decreases |s|
  {
    if |s| > 0 {
      assert s[0] in s;
      assert forall i :: 0 <= i < |s[1..]| ==> s[1..][i] == s[i + 1];
      NormalizeEolNoCr(s[1..]);
      assert s == [s[0]] + s[1..];
    }
  }

  lemma {:induction false} EscapeCharsNoCr(s: string)
    requires '\r' !in s
    ensures '\r' !in EscapeChars(s)
    decreases |s|
  {
    if |s| > 0 {
      assert s[0] in s;
      assert forall i :: 0 <= i < |s[1..]| ==> s[1..][i] == s[i + 1];
      EscapeCharsNoCr(s[1..]);
      assert '\r' !in EscapeChar(s[0]);
    }
  }

  /** The text content the parser delivers for an element's raw text. */
  function Decode(raw: string): string {
    Unescape(NormalizeEol(raw))
  }

  /** Text without `\r` survives being written and read back. */
  lemma DecodeEscape(s: string)
    requires '\r' !in s
    ensures Decode(EscapeXml(s)) == s
  {
    EscapeXmlIsCharwise(s);
    EscapeCharsNoCr(s);
    NormalizeEolNoCr(EscapeChars(s));
    UnescapeEscapeChars(s);
  }

  /** A lone `\r` does not survive: it is read back as `\n`. */
  lemma CarriageReturnNotKept()
    ensures Decode(EscapeXml("\r")) == "\n"
  {
    EscapeXmlPlain('\r');
    assert NormalizeEol("\r") == "\n";
    assert Unescape("\n") == "\n";
  }

  // ---------------------------------------------------------------------
  // Profiles

  /** A year as the client holds it: a number from the edit form, or the
      text read from a profile file. */
  datatype Year = YearNumber(n: int) | YearText(s: string)

  /** `String(year)` */
  function YearString(y: Year): string {
    match y
    case YearNumber(n) => IntToString(n)
    case YearText(s) => s
  }

  /** JavaScript truthiness of a year. */
  predicate YearTruthy(y: Year) {
    match y
    case YearNumber(n) => n != 0
    case YearText(s) => s != ""
  }

  /** A custom profile: every key is optional (`None` is an absent key). */
  datatype Profile = Profile(
    customName: Option<string>,
    description: Option<string>,
    youtubeLink: Option<string>,
    tags: Option<seq<string>>,
    genre: Option<string>,
    lightgun: Option<bool>,
    year: Option<Year>,
    platform: Option<string>,
    emulator: Option<string>,
    gpu: Option<string>,
    lastModified: Option<string>)

  const EmptyProfile := Profile(None, None, None, None, None, None, None, None, None, None, None)

  /** A key that is present with a truthy text value. */
  predicate Present(o: Option<string>) {
    o.Some? && o.value != ""
  }

  /** Keeps a text value only when it is truthy. */
  function KeepText(o: Option<string>): (r: Option<string>)
    ensures r.Some? <==> Present(o)
    ensures r.Some? ==> r == o
  {
    if Present(o) then o else None
  }

  predicate TagsPresent(t: Option<seq<string>>) {
    t.Some? && |t.value| > 0
  }

  predicate YearPresent(y: Option<Year>) {
    y.Some? && YearTruthy(y.value)
  }

  // ---------------------------------------------------------------------
  // The profile file

  /** A child of the `CustomProfile` root: an element with text (its raw,
      escaped text) or the `Tags` element with its `Tag` children. */
  datatype ProfileElem = Leaf(tag: string, raw: string) | TagList(raws: seq<string>)

  function TextElem(tag: string, v: Option<string>): seq<ProfileElem> {
    if Present(v) then [Leaf(tag, EscapeXml(v.value))] else []
  }

  function EscapeEach(items: seq<string>): (r: seq<string>)
    ensures |r| == |items|
    ensures forall i :: 0 <= i < |r| ==> r[i] == EscapeXml(items[i])
  {
    seq(|items|, i requires 0 <= i < |items| => EscapeXml(items[i]))
  }

  function TagsElem(tags: Option<seq<string>>): seq<ProfileElem> {
    if TagsPresent(tags) then [TagList(EscapeEach(tags.value))] else []
  }

  function YearElem(y: Option<Year>): seq<ProfileElem> {
    if YearPresent(y) then [Leaf("Year", EscapeXml(YearString(y.value)))] else []
  }

  /** `customData.lastModified || new Date().toISOString()` */
  function Stamp(p: Profile, now: string): string {
    if Present(p.lastModified) then p.lastModified.value else now
  }

  /** Where an element with a tag goes in the file. */
  function TagRank(tag: string): nat {
    if tag == "CustomName" then 0
    else if tag == "Description" then 1
    else if tag == "YouTubeLink" then 2
    else if tag == "Genre" then 4
    else if tag == "Year" then 5
    else 6
  }

  function Rank(e: ProfileElem): nat {
    match e
    case TagList(_) => 3
    case Leaf(tag, _) => TagRank(tag)
  }

  /** `generateXML` as the children of the root element: the six fields
      with a truthy value (the tag list when it is non-empty) in a fixed
      order, then the time stamp, which is always written.  Every other
      key of the profile is dropped. */
  function GenerateElems(p: Profile, now: string): (r: seq<ProfileElem>)
    ensures |r| >= 1 && r[|r| - 1] == Leaf("LastModified", EscapeXml(Stamp(p, now)))
  {
    TextElem("CustomName", p.customName) + TextElem("Description", p.description)
    + TextElem("YouTubeLink", p.youtubeLink) + TagsElem(p.tags) + TextElem("Genre", p.genre)
    + YearElem(p.year) + [Leaf("LastModified", EscapeXml(Stamp(p, now)))]
  }

  const XmlHeader := "<?xml version=\"1.0\" encoding=\"utf-8\"?>\n<CustomProfile>\n"

  function RenderTags(raws: seq<string>): string
    decreases |raws|
  {
    if |raws| == 0 then "" else "    <Tag>" + raws[0] + "</Tag>\n" + RenderTags(raws[1..])
  }

  function RenderElem(e: ProfileElem): string {
    match e
    case Leaf(tag, raw) => "  <" + tag + ">" + raw + "</" + tag + ">\n"
    case TagList(raws) => "  <Tags>\n" + RenderTags(raws) + "  </Tags>\n"
  }

  function RenderElems(es: seq<ProfileElem>): string
    decreases |es|
  {
    if |es| == 0 then "" else RenderElem(es[0]) + RenderElems(es[1..])
  }

  /** `generateXML(customData)`: the declaration, the root element and its
      children, one per line. */
  function GenerateXml(p: Profile, now: string): (r: string)
    ensures IsPrefix(XmlHeader, r) && IsSuffix("</CustomProfile>", r)
  {
    var body := RenderElems(GenerateElems(p, now));
    Enclosed(XmlHeader, body, "</CustomProfile>");
    XmlHeader + body + "</CustomProfile>"
  }

  lemma Enclosed(head: string, body: string, tail: string)
    ensures IsPrefix(head, head + body + tail) && IsSuffix(tail, head + body + tail)
  {
    var r := head + body + tail;
    assert r[..|head|] == head;
    assert r[|r| - |tail|..] == tail;
  }

  /** The raw text of the first element with the tag. */
  function FirstLeaf(doc: seq<ProfileElem>, tag: string): Option<string>
    decreases |doc|
  {
    if |doc| == 0 then None
    else if doc[0].Leaf? && doc[0].tag == tag then Some(doc[0].raw)
    else FirstLeaf(doc[1..], tag)
  }

  /** The `Tag` texts of the first `Tags` element. */
  function FirstTagList(doc: seq<ProfileElem>): Option<seq<string>>
    decreases |doc|
  {
    if |doc| == 0 then None
    else if doc[0].TagList? then Some(doc[0].raws)
    else FirstTagList(doc[1..])
  }

  /** `el && el.textContent`: the decoded text when it is non-empty. */
  function TextField(doc: seq<ProfileElem>, tag: string): Option<string> {
    match FirstLeaf(doc, tag)
    case None => None
    case Some(raw) => if Decode(raw) != "" then Some(Decode(raw)) else None
  }

  /** `Array.from(tagElements).map(tag => tag.textContent).filter(t => t)` */
  function DecodeTags(raws: seq<string>): (r: seq<string>)
    ensures forall i :: 0 <= i < |r| ==> r[i] != ""
    decreases |raws|
  {
    if |raws| == 0 then []
    else
      var t := Decode(raws[0]);
      (if t != "" then [t] else []) + DecodeTags(raws[1..])
  }

  /** `parseXML` on a parsed document: the seven keys the file format
      carries, each only when its element has text; a year comes back as
      text. */
  function ParseXml(doc: seq<ProfileElem>): (r: Profile)
    ensures r.lightgun.None? && r.platform.None? && r.emulator.None? && r.gpu.None?
  {
    Profile(
      TextField(doc, "CustomName"),
      TextField(doc, "Description"),
      TextField(doc, "YouTubeLink"),
      match FirstTagList(doc) case None => None case Some(raws) => Some(DecodeTags(raws)),
      TextField(doc, "Genre"),
      None,
      match TextField(doc, "Year") case None => None case Some(y) => Some(YearText(y)),
      None, None, None,
      TextField(doc, "LastModified"))
  }

  // ---------------------------------------------------------------------
  // The file format's properties

  /** Ranks only grow along a sequence of elements. */
  predicate Ordered(es: seq<ProfileElem>) {
    forall i, j :: 0 <= i < j < |es| ==> Rank(es[i]) < Rank(es[j])
  }

  predicate RanksBelow(es: seq<ProfileElem>, k: nat) {
    forall i :: 0 <= i < |es| ==> Rank(es[i]) < k
  }

  predicate RanksAre(es: seq<ProfileElem>, k: nat) {
    |es| <= 1 && forall i :: 0 <= i < |es| ==> Rank(es[i]) == k
  }

  lemma Extend(a: seq<ProfileElem>, b: seq<ProfileElem>, k: nat)
    requires Ordered(a) && RanksBelow(a, k) && RanksAre(b, k)
    ensures Ordered(a + b) && RanksBelow(a + b, k + 1)
  {
    var ab := a + b;
    forall i, j | 0 <= i < j < |ab| ensures Rank(ab[i]) < Rank(ab[j]) {
      if j >= |a| {
        assert ab[j] == b[j - |a|];
        assert i < |a|;
      }
    }
  }

  lemma TextElemRanked(t: string, v: Option<string>)
    ensures RanksAre(TextElem(t, v), TagRank(t))
  {
  }

  lemma PiecesRanked(p: Profile, now: string)
    ensures RanksAre(TextElem("CustomName", p.customName), 0)
    ensures RanksAre(TextElem("Description", p.description), 1)
    ensures RanksAre(TextElem("YouTubeLink", p.youtubeLink), 2)
    ensures RanksAre(TagsElem(p.tags), 3)
    ensures RanksAre(TextElem("Genre", p.genre), 4)
    ensures RanksAre(YearElem(p.year), 5)
    ensures RanksAre([Leaf("LastModified", EscapeXml(Stamp(p, now)))], 6)
  {
    TagDistinct();
    TextElemRanked("CustomName", p.customName);
    TextElemRanked("Description", p.description);
    TextElemRanked("YouTubeLink", p.youtubeLink);
    TextElemRanked("Genre", p.genre);
    assert TagRank("Year") == 5;
    assert TagRank("LastModified") == 6;
  }

  /** The generated file writes its elements in one fixed order: name,
      description, video link, tags, genre, year, time stamp. */
  lemma GenerateElemsOrdered(p: Profile, now: string)
    ensures Ordered(GenerateElems(p, now))
  {
    PiecesRanked(p, now);
    var d1 := TextElem("CustomName", p.customName);
    var d2 := TextElem("Description", p.description);
    var d3 := TextElem("YouTubeLink", p.youtubeLink);
    var d4 := TagsElem(p.tags);
    var d5 := TextElem("Genre", p.genre);
    var d6 := YearElem(p.year);
    var d7 := [Leaf("LastModified", EscapeXml(Stamp(p, now)))];
    Extend([], d1, 0);
    assert [] + d1 == d1;
    Extend(d1, d2, 1);
    Extend(d1 + d2, d3, 2);
    Extend(d1 + d2 + d3, d4, 3);
    Extend(d1 + d2 + d3 + d4, d5, 4);
    Extend(d1 + d2 + d3 + d4 + d5, d6, 5);
    Extend(d1 + d2 + d3 + d4 + d5 + d6, d7, 6);
  }

  lemma {:induction false} FirstLeafAppend(a: seq<ProfileElem>, b: seq<ProfileElem>, tag: string)
    ensures FirstLeaf(a + b, tag) == if FirstLeaf(a, tag).Some? then FirstLeaf(a, tag) else FirstLeaf(b, tag)
    decreases |a|
  {
    if |a| == 0 {
      assert a + b == b;
    } else {
      var ab := a + b;
      assert ab[0] == a[0] && ab[1..] == a[1..] + b;
      FirstLeafAppend(a[1..], b, tag);
    }
  }

  lemma {:induction false} FirstTagListAppend(a: seq<ProfileElem>, b: seq<ProfileElem>)
    ensures FirstTagList(a + b) == if FirstTagList(a).Some? then FirstTagList(a) else FirstTagList(b)
    decreases |a|
  {
    if |a| == 0 {
      assert a + b == b;
    } else {
      var ab := a + b;
      assert ab[0] == a[0] && ab[1..] == a[1..] + b;
      FirstTagListAppend(a[1..], b);
    }
  }

  /** The escaped text of a text field, when it is written. */
  function Written(v: Option<string>): Option<string> {
    if Present(v) then Some(EscapeXml(v.value)) else None
  }

  /** The leaves the generated file holds, tag by tag: the reference the
      generator is compared with. */
  function GeneratedLeaf(p: Profile, now: string, tag: string): Option<string> {
    if tag == "CustomName" then Written(p.customName)
    else if tag == "Description" then Written(p.description)
    else if tag == "YouTubeLink" then Written(p.youtubeLink)
    else if tag == "Genre" then Written(p.genre)
    else if tag == "Year" then
      (if YearPresent(p.year) then Some(EscapeXml(YearString(p.year.value))) else None)
    else if tag == "LastModified" then Some(EscapeXml(Stamp(p, now)))
    else None
  }

  lemma FirstLeafOne(t: string, raw: string, tag: string)
    ensures FirstLeaf([Leaf(t, raw)], tag) == if t == tag then Some(raw) else None
  {
    if t != tag {
      assert [Leaf(t, raw)][1..] == [];
    }
  }

  lemma FirstLeafText(t: string, v: Option<string>, tag: string)
    ensures FirstLeaf(TextElem(t, v), tag) == if t == tag then Written(v) else None
  {
    if Present(v) {
      FirstLeafOne(t, EscapeXml(v.value), tag);
    }
  }

  lemma FirstLeafTags(tags: Option<seq<string>>, tag: string)
    ensures FirstLeaf(TagsElem(tags), tag).None?
  {
    if TagsPresent(tags) {
      assert TagsElem(tags)[1..] == [];
    }
  }

  lemma FirstLeafYear(y: Option<Year>, tag: string)
    ensures FirstLeaf(YearElem(y), tag) == if tag == "Year" && YearPresent(y) then Some(EscapeXml(YearString(y.value))) else None
  {
    if YearPresent(y) {
      FirstLeafOne("Year", EscapeXml(YearString(y.value)), tag);
    }
  }

  lemma TagDistinct()
    ensures "CustomName" != "Description" && "CustomName" != "YouTubeLink" && "CustomName" != "Genre"
    ensures "CustomName" != "Year" && "CustomName" != "LastModified"
    ensures "Description" != "YouTubeLink" && "Description" != "Genre" && "Description" != "Year"
    ensures "Description" != "LastModified"
    ensures "YouTubeLink" != "Genre" && "YouTubeLink" != "Year" && "YouTubeLink" != "LastModified"
    ensures "Genre" != "Year" && "Genre" != "LastModified" && "Year" != "LastModified"
  {
    assert "Description"[0] != "YouTubeLink"[0];
  }

  /** Looking an element up in the generated file finds exactly what the
      reference says is written under that tag. */
  lemma FirstLeafGenerated(p: Profile, now: string, tag: string)
    ensures FirstLeaf(GenerateElems(p, now), tag) == GeneratedLeaf(p, now, tag)
  {
    var d1 := TextElem("CustomName", p.customName);
    var d2 := TextElem("Description", p.description);
    var d3 := TextElem("YouTubeLink", p.youtubeLink);
    var d4 := TagsElem(p.tags);
    var d5 := TextElem("Genre", p.genre);
    var d6 := YearElem(p.year);
    var d7 := [Leaf("LastModified", EscapeXml(Stamp(p, now)))];
    FirstLeafAppend(d1, d2, tag);
    FirstLeafAppend(d1 + d2, d3, tag);
    FirstLeafAppend(d1 + d2 + d3, d4, tag);
    FirstLeafAppend(d1 + d2 + d3 + d4, d5, tag);
    FirstLeafAppend(d1 + d2 + d3 + d4 + d5, d6, tag);
    FirstLeafAppend(d1 + d2 + d3 + d4 + d5 + d6, d7, tag);
    FirstLeafText("CustomName", p.customName, tag);
    FirstLeafText("Description", p.description, tag);
    FirstLeafText("YouTubeLink", p.youtubeLink, tag);
    FirstLeafTags(p.tags, tag);
    FirstLeafText("Genre", p.genre, tag);
    FirstLeafYear(p.year, tag);
    FirstLeafOne("LastModified", EscapeXml(Stamp(p, now)), tag);
    TagDistinct();
  }

  lemma FirstTagListGenerated(p: Profile, now: string)
    ensures FirstTagList(GenerateElems(p, now))
         == if TagsPresent(p.tags) then Some(EscapeEach(p.tags.value)) else None
  {
    var d1 := TextElem("CustomName", p.customName);
    var d2 := TextElem("Description", p.description);
    var d3 := TextElem("YouTubeLink", p.youtubeLink);
    var d4 := TagsElem(p.tags);
    var d5 := TextElem("Genre", p.genre);
    var d6 := YearElem(p.year);
    var d7 := [Leaf("LastModified", EscapeXml(Stamp(p, now)))];
    FirstTagListAppend(d1, d2);
    FirstTagListAppend(d1 + d2, d3);
    FirstTagListAppend(d1 + d2 + d3, d4);
    FirstTagListAppend(d1 + d2 + d3 + d4, d5);
    FirstTagListAppend(d1 + d2 + d3 + d4 + d5, d6);
    FirstTagListAppend(d1 + d2 + d3 + d4 + d5 + d6, d7);
    assert d7[1..] == [];
  }

  /** The tags kept after a read: the non-empty ones, in order. */
  function NonEmptyTags(tags: seq<string>): (r: seq<string>)
    ensures forall t :: t in r ==> t in tags && t != ""
    decreases |tags|
  {
    if |tags| == 0 then []
    else (if tags[0] != "" then [tags[0]] else []) + NonEmptyTags(tags[1..])
  }

  lemma {:induction false} DecodeEscapedTags(tags: seq<string>)
    requires forall i :: 0 <= i < |tags| ==> '\r' !in tags[i]
    ensures DecodeTags(EscapeEach(tags)) == NonEmptyTags(tags)
    decreases |tags|
  {
    if |tags| > 0 {
      var e := EscapeEach(tags);
      assert e[1..] == EscapeEach(tags[1..]);
      DecodeEscape(tags[0]);
      DecodeEscapedTags(tags[1..]);
    }
  }

  /** What survives a write and a read: the seven keys the file carries,
      each only when it is truthy; the tags without empty ones; the year
      as text; the time stamp of the write. */
  function Persisted(p: Profile, now: string): Profile {
    Profile(
      KeepText(p.customName),
      KeepText(p.description),
      KeepText(p.youtubeLink),
      if TagsPresent(p.tags) then Some(NonEmptyTags(p.tags.value)) else None,
      KeepText(p.genre),
      None,
      if YearPresent(p.year) then Some(YearText(YearString(p.year.value))) else None,
      None, None, None,
      KeepText(Some(Stamp(p, now))))
  }

  /** No text of the profile holds a carriage return. */
  predicate NoCarriageReturn(p: Profile, now: string) {
    (p.customName.Some? ==> '\r' !in p.customName.value)
    && (p.description.Some? ==> '\r' !in p.description.value)
    && (p.youtubeLink.Some? ==> '\r' !in p.youtubeLink.value)
    && (p.tags.Some? ==> forall i :: 0 <= i < |p.tags.value| ==> '\r' !in p.tags.value[i])
    && (p.genre.Some? ==> '\r' !in p.genre.value)
    && (p.year.Some? ==> '\r' !in YearString(p.year.value))
    && '\r' !in Stamp(p, now)
  }

  lemma TextFieldWritten(doc: seq<ProfileElem>, tag: string, v: Option<string>)
    requires FirstLeaf(doc, tag) == Written(v)
    requires v.Some? ==> '\r' !in v.value
    ensures TextField(doc, tag) == KeepText(v)
  {
    if Present(v) {
      DecodeEscape(v.value);
    }
  }

  lemma YearStringNonEmpty(y: Year)
    requires YearTruthy(y)
    ensures YearString(y) != ""
  {
  }

  lemma GeneratedText(p: Profile, now: string, tag: string, v: Option<string>)
    requires GeneratedLeaf(p, now, tag) == Written(v)
    requires v.Some? ==> '\r' !in v.value
    ensures TextField(GenerateElems(p, now), tag) == KeepText(v)
  {
    FirstLeafGenerated(p, now, tag);
    TextFieldWritten(GenerateElems(p, now), tag, v);
  }

  lemma GeneratedYear(p: Profile, now: string)
    requires p.year.Some? ==> '\r' !in YearString(p.year.value)
    ensures TextField(GenerateElems(p, now), "Year")
         == if YearPresent(p.year) then Some(YearString(p.year.value)) else None
  {
    TagDistinct();
    if YearPresent(p.year) {
      YearStringNonEmpty(p.year.value);
      GeneratedText(p, now, "Year", Some(YearString(p.year.value)));
    } else {
      FirstLeafGenerated(p, now, "Year");
    }
  }

  lemma GeneratedTags(p: Profile, now: string)
    requires p.tags.Some? ==> forall i :: 0 <= i < |p.tags.value| ==> '\r' !in p.tags.value[i]
    ensures (match FirstTagList(GenerateElems(p, now))
             case None => None case Some(raws) => Some(DecodeTags(raws)))
         == if TagsPresent(p.tags) then Some(NonEmptyTags(p.tags.value)) else None
  {
    FirstTagListGenerated(p, now);
    if TagsPresent(p.tags) {
      DecodeEscapedTags(p.tags.value);
    }
  }

  lemma GeneratedTexts(p: Profile, now: string)
    requires NoCarriageReturn(p, now)
    ensures TextField(GenerateElems(p, now), "CustomName") == KeepText(p.customName)
    ensures TextField(GenerateElems(p, now), "Description") == KeepText(p.description)
    ensures TextField(GenerateElems(p, now), "YouTubeLink") == KeepText(p.youtubeLink)
    ensures TextField(GenerateElems(p, now), "Genre") == KeepText(p.genre)
    ensures TextField(GenerateElems(p, now), "LastModified") == KeepText(Some(Stamp(p, now)))
  {
    TagDistinct();
    GeneratedText(p, now, "CustomName", p.customName);
    GeneratedText(p, now, "Description", p.description);
    GeneratedText(p, now, "YouTubeLink", p.youtubeLink);
    GeneratedText(p, now, "Genre", p.genre);
    GeneratedStamp(p, now);
  }

  lemma GeneratedStamp(p: Profile, now: string)
    requires '\r' !in Stamp(p, now)
    ensures TextField(GenerateElems(p, now), "LastModified") == KeepText(Some(Stamp(p, now)))
  {
    TagDistinct();
    if Stamp(p, now) != "" {
      GeneratedText(p, now, "LastModified", Some(Stamp(p, now)));
    } else {
      FirstLeafGenerated(p, now, "LastModified");
      assert EscapeXml("") == "";
    }
  }

  /** Reading back a generated file gives the keys the format carries. */
  lemma ParseGenerate(p: Profile, now: string)
    requires NoCarriageReturn(p, now)
    ensures ParseXml(GenerateElems(p, now)) == Persisted(p, now)
  {
    GeneratedTexts(p, now);
    GeneratedYear(p, now);
    GeneratedTags(p, now);
  }

  // ---------------------------------------------------------------------
  // The cache

  /** The server's reply to `/__customProfile/read`: a failed request (or
      `ok: false`), no file, or the file's parsed document. */
  datatype ReadReply = ReadFailed | ReadMissing | ReadFound(doc: seq<ProfileElem>)

  /** The manager's state: the profiles read or written so far, by game
      id, and whether `loadProfiles` has run. */
  datatype Cache = Cache(profiles: map<string, Profile>, loaded: bool)

  const EmptyCache := Cache(map[], false)

  /** `loadProfile(gameId)`: a file that exists is parsed and cached;
      otherwise nothing is cached and the result is `null`. */
  function LoadProfile(c: Cache, id: string, reply: ReadReply): (r: (Option<Profile>, Cache))
    ensures r.0.Some? <==> reply.ReadFound?
    ensures r.0.Some? ==> r.0.value == ParseXml(reply.doc) && r.1 == c.(profiles := c.profiles[id := r.0.value])
    ensures r.0.None? ==> r.1 == c
  {
    match reply
    case ReadFound(doc) =>
      var p := ParseXml(doc);
      (Some(p), c.(profiles := c.profiles[id := p]))
    case _ => (None, c)
  }

  /** `loadProfiles()`: profiles are read on demand, so this only sets the
      flag. */
  function LoadProfiles(c: Cache): (r: Cache)
    ensures r.loaded && r.profiles == c.profiles
  {
    c.(loaded := true)
  }

  /** `getProfile(gameId)`: the cached profile, else a read. */
  function GetProfile(c: Cache, id: string, reply: ReadReply): (r: (Option<Profile>, Cache))
    ensures id in c.profiles ==> r == (Some(c.profiles[id]), c)
    ensures id !in c.profiles ==> r == LoadProfile(c, id, reply)
  {
    if id in c.profiles then (Some(c.profiles[id]), c) else LoadProfile(c, id, reply)
  }

  /** Once read, a profile is served from the cache whatever the server
      would answer. */
  lemma GetAfterLoad(c: Cache, id: string, reply: ReadReply, later: ReadReply)
    requires reply.ReadFound?
    ensures GetProfile(LoadProfile(c, id, reply).1, id, later) == (Some(ParseXml(reply.doc)), LoadProfile(c, id, reply).1)
  {
  }

  /** `{...base, ...update}`: the keys present in `update` win. */
  function Merge(base: Profile, update: Profile): Profile
  {
    Profile(
      if update.customName.Some? then update.customName else base.customName,
      if update.description.Some? then update.description else base.description,
      if update.youtubeLink.Some? then update.youtubeLink else base.youtubeLink,
      if update.tags.Some? then update.tags else base.tags,
      if update.genre.Some? then update.genre else base.genre,
      if update.lightgun.Some? then update.lightgun else base.lightgun,
      if update.year.Some? then update.year else base.year,
      if update.platform.Some? then update.platform else base.platform,
      if update.emulator.Some? then update.emulator else base.emulator,
      if update.gpu.Some? then update.gpu else base.gpu,
      if update.lastModified.Some? then update.lastModified else base.lastModified)
  }

  lemma MergeEmpty(p: Profile)
    ensures Merge(p, EmptyProfile) == p
    ensures Merge(EmptyProfile, p) == p
  {
  }

  /** Applying the same update twice is applying it once. */
  lemma MergeIdempotent(base: Profile, update: Profile)
    ensures Merge(Merge(base, update), update) == Merge(base, update)
  {
  }

  /** Two updates in a row are one update with the later keys winning. */
  lemma MergeAssociative(base: Profile, u: Profile, v: Profile)
    ensures Merge(Merge(base, u), v) == Merge(base, Merge(u, v))
  {
  }

  /** The profile `setProfile` caches and writes. */
  function Merged(existing: Option<Profile>, update: Profile, now: string): (r: Profile)
    ensures r.lastModified == Some(now)
  {
    Merge(existing.GetOr(EmptyProfile), update).(lastModified := Some(now))
  }

  /** `setProfile(gameId, customData)`: for a non-empty id, the existing
      profile (cached or read) merged with the update and stamped is
      cached and written; the XML sent to the server is the second
      component.  An empty id does nothing. */
  function SetProfile(c: Cache, id: string, update: Profile, reply: ReadReply, now: string): (r: (Cache, Option<string>))
    ensures id == "" ==> r == (c, None)
    ensures id != "" ==> id in r.0.profiles && r.1 == Some(GenerateXml(r.0.profiles[id], now))
    ensures id != "" ==> r.0.profiles[id] == Merged(GetProfile(c, id, reply).0, update, now)
    ensures r.0.loaded == c.loaded
    ensures forall k :: k != id ==> (k in r.0.profiles <==> k in c.profiles)
    ensures forall k :: k != id && k in c.profiles ==> r.0.profiles[k] == c.profiles[k]
  {
    if id == "" then (c, None)
    else
      var (existing, c1) := GetProfile(c, id, reply);
      GetProfileFrame(c, id, reply);
      var merged := Merged(existing, update, now);
      var profiles := c1.profiles[id := merged];
      assert profiles[id] == merged;
      (c1.(profiles := profiles), Some(GenerateXml(merged, now)))
  }

  /** Reading a profile touches no other key. */
  lemma GetProfileFrame(c: Cache, id: string, reply: ReadReply)
    ensures GetProfile(c, id, reply).1.loaded == c.loaded
    ensures forall k :: k != id ==> (k in GetProfile(c, id, reply).1.profiles <==> k in c.profiles)
    ensures forall k :: k != id && k in c.profiles ==> GetProfile(c, id, reply).1.profiles[k] == c.profiles[k]
  {
  }

  /** A key the update leaves out keeps its cached value. */
  lemma SetProfileKeeps(c: Cache, id: string, update: Profile, reply: ReadReply, now: string)
    requires id in c.profiles && id != ""
    ensures var q := SetProfile(c, id, update, reply, now).0.profiles[id];
      (update.customName.None? ==> q.customName == c.profiles[id].customName)
      && (update.description.None? ==> q.description == c.profiles[id].description)
      && (update.tags.None? ==> q.tags == c.profiles[id].tags)
      && (update.genre.None? ==> q.genre == c.profiles[id].genre)
      && (update.year.None? ==> q.year == c.profiles[id].year)
      && (update.platform.None? ==> q.platform == c.profiles[id].platform)
  {
  }

  /** `deleteProfile(gameId)`: the cache forgets the profile only when the
      server reports success. */
  function DeleteProfile(c: Cache, id: string, ok: bool): (r: Cache)
    ensures ok ==> id !in r.profiles
    ensures !ok ==> r == c
    ensures r.loaded == c.loaded
    ensures forall k :: k != id ==> (k in r.profiles <==> k in c.profiles)
    ensures forall k :: k != id && k in c.profiles ==> r.profiles[k] == c.profiles[k]
  {
    if ok then c.(profiles := c.profiles - {id}) else c
  }

  /** `hasCustomProfile(gameId)`: a cached profile, else whether the file
      exists. */
  function HasCustomProfile(c: Cache, id: string, reply: ReadReply): (r: bool)
    ensures id in c.profiles ==> r
    ensures id !in c.profiles ==> (r <==> reply.ReadFound?)
  {
    id in c.profiles || reply.ReadFound?
  }

  /** After a write the game has a profile, whatever the server says. */
  lemma HasAfterSet(c: Cache, id: string, update: Profile, reply: ReadReply, now: string, later: ReadReply)
    requires id != ""
    ensures HasCustomProfile(SetProfile(c, id, update, reply, now).0, id, later)
  {
  }

  /** After a successful delete only the server's answer counts. */
  lemma HasAfterDelete(c: Cache, id: string, later: ReadReply)
    ensures HasCustomProfile(DeleteProfile(c, id, true), id, later) <==> later.ReadFound?
  {
  }

  /** `importProfiles(file)`: each entry of the file is written with
      `setProfile`, in order; the result is the number of entries, or an
      error when the file is not valid JSON (`None`).  The server's read
      replies are given by `read`. */
  function ImportProfiles(c: Cache, imported: Option<seq<(string, Profile)>>, read: string -> ReadReply, now: string): (r: Result<(Cache, nat), string>)
    ensures imported.None? <==> r.Err?
    ensures r.Ok? ==> r.value.1 == |imported.value|
  {
    match imported
    case None => Err("invalid JSON")
    case Some(entries) => Ok((ImportAll(c, entries, read, now), |entries|))
  }

  function ImportAll(c: Cache, entries: seq<(string, Profile)>, read: string -> ReadReply, now: string): (r: Cache)
    ensures r.loaded == c.loaded
    ensures forall k :: k in c.profiles ==> k in r.profiles
    decreases |entries|
  {
    if |entries| == 0 then c
    else
      var (id, update) := entries[0];
      ImportAll(SetProfile(c, id, update, read(id), now).0, entries[1..], read, now)
  }

  function EntryIds(entries: seq<(string, Profile)>): (r: seq<string>)
    ensures |r| == |entries|
    ensures forall i :: 0 <= i < |r| ==> r[i] == entries[i].0
  {
    seq(|entries|, i requires 0 <= i < |entries| => entries[i].0)
  }

  lemma SetProfileDomain(c: Cache, id: string, update: Profile, reply: ReadReply, now: string, k: string)
    ensures k in SetProfile(c, id, update, reply, now).0.profiles <==> k in c.profiles || (k != "" && k == id)
  {
  }

  /** Every imported game with a non-empty id ends up with a cached
      profile, and no other game gains one. */
  lemma {:induction false} ImportAllCovers(c: Cache, entries: seq<(string, Profile)>, read: string -> ReadReply, now: string, k: string)
    ensures k in ImportAll(c, entries, read, now).profiles
        <==> k in c.profiles || (k != "" && k in EntryIds(entries))
    decreases |entries|
  {
    if |entries| > 0 {
      var (id, update) := entries[0];
      var c1 := SetProfile(c, id, update, read(id), now).0;
      SetProfileDomain(c, id, update, read(id), now, k);
      ImportAllCovers(c1, entries[1..], read, now, k);
      assert EntryIds(entries) == [id] + EntryIds(entries[1..]);
    }
  }

  // ---------------------------------------------------------------------
  // Applying a profile to a game

  /** The `custom*` fields `applyCustomProfile` sets: each truthy field
      of the profile overrides its counterpart, and the game is marked as
      customised. */
  function ApplyCustomFields(c: CustomFields, q: Profile): (r: CustomFields)
    ensures r.hasCustomProfile
    ensures r.customName == if Present(q.customName) then q.customName.value else c.customName
    ensures r.customDescription == if Present(q.description) then q.description.value else c.customDescription
    ensures r.customYoutubeLink == if Present(q.youtubeLink) then q.youtubeLink.value else c.customYoutubeLink
    ensures r.customTags == if TagsPresent(q.tags) then q.tags.value else c.customTags
    ensures r.customGenre == if Present(q.genre) then q.genre.value else c.customGenre
    ensures r.customYear == if YearPresent(q.year) then YearString(q.year.value) else c.customYear
  {
    CustomFields(
      if Present(q.customName) then q.customName.value else c.customName,
      if Present(q.description) then q.description.value else c.customDescription,
      if Present(q.youtubeLink) then q.youtubeLink.value else c.customYoutubeLink,
      if TagsPresent(q.tags) then q.tags.value else c.customTags,
      if Present(q.genre) then q.genre.value else c.customGenre,
      if YearPresent(q.year) then YearString(q.year.value) else c.customYear,
      true)
  }

  /** The metadata rewrite: a truthy genre or year replaces
      `game_genre` or `release_year` and every other key is kept. */
  function ApplyMetadata(m: Metadata, q: Profile): (r: Metadata)
    ensures r.gameGenre == if Present(q.genre) then q.genre.value else m.gameGenre
    ensures r.releaseYear == if YearPresent(q.year) then YearString(q.year.value) else m.releaseYear
    ensures r.(gameGenre := m.gameGenre, releaseYear := m.releaseYear) == m
  {
    var m1 := if Present(q.genre) then m.(gameGenre := q.genre.value) else m;
    if YearPresent(q.year) then m1.(releaseYear := YearString(q.year.value)) else m1
  }

  /** `applyCustomProfile(game)` given the profile `getProfile` found: no
      profile leaves the game as it is; otherwise each truthy field of the
      profile overrides its counterpart, the genre and the year also
      rewrite the metadata when the game has any, and the game is marked
      as customised. */
  function ApplyCustomProfile(g: Game, profile: Option<Profile>): (r: Game)
    ensures profile.None? ==> r == g
    ensures profile.Some? ==> r.custom.hasCustomProfile
    ensures r.id == g.id && r.isInstalled == g.isInstalled && r.profile == g.profile
    ensures r.userProfile == g.userProfile && r.gameSetup == g.gameSetup && r.iconUrl == g.iconUrl
    ensures r.metadata.Some? <==> g.metadata.Some?
    ensures profile.Some? && Present(profile.value.customName)
        ==> r.name == profile.value.customName.value && r.custom.customName == r.name
    ensures profile.Some? && !Present(profile.value.customName)
        ==> r.name == g.name && r.custom.customName == g.custom.customName
    ensures profile.Some? && Present(profile.value.genre) && g.metadata.Some?
        ==> r.metadata.value.gameGenre == profile.value.genre.value
    ensures profile.Some? && YearPresent(profile.value.year) && g.metadata.Some?
        ==> r.metadata.value.releaseYear == YearString(profile.value.year.value)
    ensures profile.Some? && !Present(profile.value.genre) && g.metadata.Some?
        ==> r.metadata.value.gameGenre == g.metadata.value.gameGenre
    ensures profile.Some? && !YearPresent(profile.value.year) && g.metadata.Some?
        ==> r.metadata.value.releaseYear == g.metadata.value.releaseYear
    ensures g.metadata.Some? ==>
              r.metadata.value.(gameGenre := g.metadata.value.gameGenre, releaseYear := g.metadata.value.releaseYear)
              == g.metadata.value
    ensures profile.Some? && !Present(profile.value.genre) && !YearPresent(profile.value.year)
        ==> r.metadata == g.metadata
    ensures profile.Some? && Present(profile.value.description)
        ==> r.custom.customDescription == profile.value.description.value
    ensures profile.Some? && !Present(profile.value.description)
        ==> r.custom.customDescription == g.custom.customDescription
    ensures profile.Some? && Present(profile.value.youtubeLink)
        ==> r.custom.customYoutubeLink == profile.value.youtubeLink.value
    ensures profile.Some? && !Present(profile.value.youtubeLink)
        ==> r.custom.customYoutubeLink == g.custom.customYoutubeLink
    ensures profile.Some? && TagsPresent(profile.value.tags)
        ==> r.custom.customTags == profile.value.tags.value
    ensures profile.Some? && !TagsPresent(profile.value.tags)
        ==> r.custom.customTags == g.custom.customTags
    ensures profile.Some? && Present(profile.value.genre)
        ==> r.custom.customGenre == profile.value.genre.value
    ensures profile.Some? && !Present(profile.value.genre)
        ==> r.custom.customGenre == g.custom.customGenre
    ensures profile.Some? && YearPresent(profile.value.year)
        ==> r.custom.customYear == YearString(profile.value.year.value)
    ensures profile.Some? && !YearPresent(profile.value.year)
        ==> r.custom.customYear == g.custom.customYear
  {
    match profile
    case None => g
    case Some(q) =>
      var m := if g.metadata.Some? then Some(ApplyMetadata(g.metadata.value, q)) else None;
      g.(name := if Present(q.customName) then q.customName.value else g.name,
         metadata := m,
         custom := ApplyCustomFields(g.custom, q))
  }

  /** Applying the same profile twice is applying it once. */
  lemma ApplyIdempotent(g: Game, profile: Option<Profile>)
    ensures ApplyCustomProfile(ApplyCustomProfile(g, profile), profile) == ApplyCustomProfile(g, profile)
  {
  }

  /** The genre filter sees a custom genre only through the metadata: on a
      game without metadata it keeps the genre it had. */
  lemma ApplyGenreKey(g: Game, q: Profile)
    ensures Present(q.genre) && g.metadata.Some? ==> GenreKey(ApplyCustomProfile(g, Some(q))) == q.genre.value
    ensures g.metadata.None? ==> GenreKey(ApplyCustomProfile(g, Some(q))) == GenreKey(g)
  {
  }
}

=== FILE: data_loader.dfy ===
/** How the browser client assembles its game list: the list files, the
    per-game merge of profile, metadata and user profile, the platform
    normalisation with its alias map, and the filtering of a profile's
    config and button records.  File reads are inputs: a document that
    could not be read is `None`. */
module DataLoader {
  import opened Wrappers
  import opened Text
  import opened Seqs
  import opened GameModel

  // ---------------------------------------------------------------------
  // List files (gameProfiles.txt, userProfiles.txt)

  /** A line a list file can carry through parsing unchanged. */
  predicate ListEntry(s: string) {
    s != "" && Trim(s) == s && '\n' !in s
  }

  /** Trim every line and keep the non-empty ones, in order. */
  function KeepLines(lines: seq<string>): (r: seq<string>)
    ensures |r| <= |lines|
    ensures forall i :: 0 <= i < |r| ==> r[i] != "" && Trim(r[i]) == r[i]
    decreases |lines|
  {
    if |lines| == 0 then []
    else
      var t := Trim(lines[0]);
      TrimIdempotent(lines[0]);
      if t != "" then [t] + KeepLines(lines[1..]) else KeepLines(lines[1..])
  }

  /** `text.split('\n').map(trim).filter(non-empty)` */
  function ParseList(text: string): (r: seq<string>)
    ensures forall i :: 0 <= i < |r| ==> r[i] != "" && Trim(r[i]) == r[i]
  {
    KeepLines(Split(text, '\n'))
  }

  lemma {:induction false} KeepLinesEntries(lines: seq<string>)
    requires forall i :: 0 <= i < |lines| ==> ListEntry(lines[i])
    ensures KeepLines(lines) == lines
    decreases |lines|
  {
    if |lines| > 0 {
      KeepLinesEntries(lines[1..]);
      assert lines == [lines[0]] + lines[1..];
    }
  }

  /** Writing names one per line and parsing the file gives the names back,
      in order. */
  lemma ParseListJoin(names: seq<string>)
    requires forall i :: 0 <= i < |names| ==> ListEntry(names[i])
    ensures ParseList(Join(names, "\n")) == names
  {
    if |names| == 0 {
      assert Split("", '\n') == [""];
    } else {
      assert forall k, i :: 0 <= k < |names| && 0 <= i < |names[k]| ==> names[k][i] != '\n' by {
        forall k, i | 0 <= k < |names| && 0 <= i < |names[k]|
          ensures names[k][i] != '\n'
        {
          assert ListEntry(names[k]);
          assert names[k][i] in names[k];
        }
      }
      SplitJoin(names, '\n');
      KeepLinesEntries(names);
    }
  }

  /** Blank lines and padding are dropped: a name surrounded by blank lines
      and whitespace parses to just that name. */
  lemma ParseListPadded(name: string)
    requires ListEntry(name)
    ensures ParseList("  \n" + name + " \r\n") == [name]
  {
    var text := "  \n" + name + " \r\n";
    SplitConcat("  ", name + " \r" + "\n", '\n');
    assert text == "  " + ['\n'] + (name + " \r" + "\n");
    assert '\n' !in name + " \r" by {
      forall i | 0 <= i < |name + " \r"|
        ensures (name + " \r")[i] != '\n'
      {
        if i < |name| { assert name[i] in name; }
      }
    }
    SplitConcat(name + " \r", "", '\n');
    assert name + " \r" + "\n" == (name + " \r") + ['\n'] + "";
    assert Split("", '\n') == [""];
    assert Split(text, '\n') == ["  ", name + " \r", ""];
    TrimPadded(name, " \r");
    assert Trim("  ") == "";
    assert KeepLines([""]) == [];
    assert KeepLines([name + " \r", ""]) == [name];
  }

  lemma TrimPadded(name: string, pad: string)
    requires name != "" && Trim(name) == name
    requires IsBlank(pad)
    ensures Trim(name + pad) == name
  {
    var s := name + pad;
    assert !IsSpace(s[0]);
    assert TrimStart(s) == s;
    TrimEndBlank(name, pad);
  }

  lemma {:induction false} TrimEndBlank(name: string, pad: string)
    requires name != "" && !IsSpace(name[|name| - 1])
    requires IsBlank(pad)
    ensures TrimEnd(name + pad) == name
    decreases |pad|
  {
    if |pad| == 0 {
      assert name + pad == name;
    } else {
      var s := name + pad;
      assert s[..|s| - 1] == name + pad[..|pad| - 1];
      TrimEndBlank(name, pad[..|pad| - 1]);
    }
  }

  /** The installed-games list: the server's dynamic listing when it
      answers with a list, else the static file, else nothing. */
  function UserProfileList(dynamicListing: Option<seq<string>>, staticFile: Option<string>): (r: seq<string>)
    ensures dynamicListing.Some? ==> r == dynamicListing.value
    ensures dynamicListing.None? && staticFile.None? ==> r == []
    ensures dynamicListing.None? && staticFile.Some? ==>
      forall i :: 0 <= i < |r| ==> r[i] != "" && Trim(r[i]) == r[i]
  {
    if dynamicListing.Some? then dynamicListing.value
    else if staticFile.Some? then ParseList(staticFile.value)
    else []
  }

  // ---------------------------------------------------------------------
  // Platform keys and the alias map

  predicate IsKeyChar(c: char) {
    'a' <= c <= 'z' || '0' <= c <= '9'
  }

  /** What `toLowerCase` turns a character into, as far as a key can see:
      only the ASCII letters and digits of the lower-cased text survive the
      filter, and the only characters outside `A`..`Z` whose lower case
      holds one are U+0130 (capital I with dot above, lower-cased to `i`
      and a combining dot) and U+212A (the Kelvin sign, lower-cased to
      `k`).  Any other character's lower case holds no key character. */
  function KeyLower(c: char): (r: char)
    ensures IsKeyChar(c) ==> r == c
    ensures 'A' <= c <= 'Z' ==> r == LowerChar(c)
    ensures c as int >= 0x80 && IsKeyChar(r) ==> c == '\U{0130}' || c == '\U{212A}'
  {
    if c == '\U{0130}' then 'i'
    else if c == '\U{212A}' then 'k'
    else LowerChar(c)
  }

  /** The lookup key of a platform name: lower-cased, with every character
      outside `[a-z0-9]` removed.  The alias loader and `normalizePlatform`
      trim the name first; whitespace is removed from the key anyway, so
      that changes nothing (`PlatformKeyTrim`). */
  function PlatformKeyOf(s: string): (r: string)
    ensures |r| <= |s|
    ensures forall i :: 0 <= i < |r| ==> IsKeyChar(r[i])
    decreases |s|
  {
    if |s| == 0 then ""
    else
      var c := KeyLower(s[0]);
      (if IsKeyChar(c) then [c] else []) + PlatformKeyOf(s[1..])
  }

  lemma {:induction false} PlatformKeyAppend(a: string, b: string)
    ensures PlatformKeyOf(a + b) == PlatformKeyOf(a) + PlatformKeyOf(b)
    decreases |a|
  {
    if |a| == 0 {
      assert a + b == b;
    } else {
      PlatformKeyAppend(a[1..], b);
      var c := KeyLower(a[0]);
      var h: string := if IsKeyChar(c) then [c] else [];
      assert (a + b)[0] == a[0];
      assert (a + b)[1..] == a[1..] + b;
      assert PlatformKeyOf(a + b) == h + PlatformKeyOf(a[1..] + b);
      assert PlatformKeyOf(a) == h + PlatformKeyOf(a[1..]);
    }
  }

  lemma {:induction false} PlatformKeyBlank(s: string)
    requires IsBlank(s)
    ensures PlatformKeyOf(s) == ""
    decreases |s|
  {
    if |s| > 0 {
      PlatformKeyBlank(s[1..]);
    }
  }

  /** Trimming first does not change the key. */
  lemma PlatformKeyTrimStart(s: string)
    ensures PlatformKeyOf(TrimStart(s)) == PlatformKeyOf(s)
  {
    var t := TrimStart(s);
    assert s == s[..|s| - |t|] + t;
    PlatformKeyAppend(s[..|s| - |t|], t);
    PlatformKeyBlank(s[..|s| - |t|]);
  }

  lemma PlatformKeyTrimEnd(t: string)
    ensures PlatformKeyOf(TrimEnd(t)) == PlatformKeyOf(t)
  {
    var r := TrimEnd(t);
    assert t == r + t[|r|..];
    PlatformKeyAppend(r, t[|r|..]);
    PlatformKeyBlank(t[|r|..]);
  }

  lemma PlatformKeyTrim(s: string)
    ensures PlatformKeyOf(Trim(s)) == PlatformKeyOf(s)
  {
    PlatformKeyTrimStart(s);
    PlatformKeyTrimEnd(TrimStart(s));
  }

  /** A key is its own key. */
  lemma {:induction false} PlatformKeyIdempotent(s: string)
    ensures PlatformKeyOf(PlatformKeyOf(s)) == PlatformKeyOf(s)
    decreases |s|
  {
    if |s| > 0 {
      var c := KeyLower(s[0]);
      var rest := PlatformKeyOf(s[1..]);
      PlatformKeyIdempotent(s[1..]);
      PlatformKeyAppend(if IsKeyChar(c) then [c] else [], rest);
      if IsKeyChar(c) {
        assert KeyLower(c) == c;
        assert PlatformKeyOf([c]) == [c];
      }
    }
  }

  /** One entry of data/platformAliases.json. */
  datatype AliasEntry = AliasEntry(canonical: string, aliases: seq<string>)

  /** What an entry writes: its trimmed canonical, and the keys that map to
      it in the order they are written (the canonical's own key, then each
      alias's).  An empty canonical writes nothing. */
  datatype Writes = Writes(canonical: string, keys: seq<string>)

  function AliasKeys(aliases: seq<string>): (r: seq<string>)
    ensures |r| == |aliases|
    ensures forall j :: 0 <= j < |aliases| ==> r[j] == PlatformKeyOf(aliases[j])
    decreases |aliases|
  {
    if |aliases| == 0 then [] else [PlatformKeyOf(aliases[0])] + AliasKeys(aliases[1..])
  }

  function EntryWrites(e: AliasEntry): Writes {
    var canonical := Trim(e.canonical);
    Writes(canonical, [PlatformKeyOf(canonical)] + AliasKeys(e.aliases))
  }

  /** `k` is written by an entry: the entry has a non-empty trimmed
      canonical and `k` is a non-empty key of it. */
  predicate Writes?(w: Writes, k: string) {
    w.canonical != "" && k != "" && k in w.keys
  }

  /** The keys an entry maps: its canonical's own key and its aliases'
      keys, unless the trimmed canonical is empty; never the empty key. */
  predicate Maps(e: AliasEntry, k: string) {
    Writes?(EntryWrites(e), k)
  }

  function AddKey(m: map<string, string>, k: string, canonical: string): map<string, string> {
    if k != "" then m[k := canonical] else m
  }

  function AddKeys(m: map<string, string>, keys: seq<string>, canonical: string): map<string, string>
    decreases |keys|
  {
    if |keys| == 0 then m else AddKeys(AddKey(m, keys[0], canonical), keys[1..], canonical)
  }

  function Apply(m: map<string, string>, w: Writes): map<string, string> {
    if w.canonical == "" then m else AddKeys(m, w.keys, w.canonical)
  }

  /** The map after applying the writes in order. */
  function ApplyAll(ws: seq<Writes>): map<string, string>
    decreases |ws|
  {
    if |ws| == 0 then map[] else Apply(ApplyAll(ws[..|ws| - 1]), ws[|ws| - 1])
  }

  /** The alias map built from the entries in file order. */
  function BuildAliases(entries: seq<AliasEntry>): (r: map<string, string>)
    ensures "" !in r
  {
    var ws := seq(|entries|, i requires 0 <= i < |entries| => EntryWrites(entries[i]));
    ApplyAllNoEmptyKey(ws);
    ApplyAll(ws)
  }

  lemma {:induction false} AddKeysEffect(m: map<string, string>, keys: seq<string>, canonical: string, k: string)
    requires k != ""
    ensures k in AddKeys(m, keys, canonical) <==> k in m || k in keys
    ensures k in keys ==> AddKeys(m, keys, canonical)[k] == canonical
    ensures k !in keys && k in m ==> AddKeys(m, keys, canonical)[k] == m[k]
    decreases |keys|
  {
    if |keys| > 0 {
      var m' := AddKey(m, keys[0], canonical);
      AddKeysEffect(m', keys[1..], canonical, k);
      assert keys == [keys[0]] + keys[1..];
      if k !in keys[1..] {
        if k == keys[0] {
          assert m'[k] == canonical;
        } else {
          assert k in m' <==> k in m;
        }
      }
    }
  }

  lemma {:induction false} AddKeysNoEmptyKey(m: map<string, string>, keys: seq<string>, canonical: string)
    requires "" !in m
    ensures "" !in AddKeys(m, keys, canonical)
    decreases |keys|
  {
    if |keys| > 0 {
      AddKeysNoEmptyKey(AddKey(m, keys[0], canonical), keys[1..], canonical);
    }
  }

  lemma {:induction false} ApplyAllNoEmptyKey(ws: seq<Writes>)
    ensures "" !in ApplyAll(ws)
    decreases |ws|
  {
    if |ws| > 0 {
      var w := ws[|ws| - 1];
      ApplyAllNoEmptyKey(ws[..|ws| - 1]);
      if w.canonical != "" {
        AddKeysNoEmptyKey(ApplyAll(ws[..|ws| - 1]), w.keys, w.canonical);
      }
    }
  }

  lemma ApplyEffect(m: map<string, string>, w: Writes, k: string)
    requires k != ""
    ensures k in Apply(m, w) <==> k in m || Writes?(w, k)
    ensures Writes?(w, k) ==> Apply(m, w)[k] == w.canonical
    ensures !Writes?(w, k) && k in m ==> Apply(m, w)[k] == m[k]
  {
    if w.canonical != "" {
      AddKeysEffect(m, w.keys, w.canonical, k);
    }
  }

  lemma {:induction false} ApplyAllDomain(ws: seq<Writes>, k: string)
    requires k != ""
    ensures k in ApplyAll(ws) <==> exists i :: 0 <= i < |ws| && Writes?(ws[i], k)
    decreases |ws|
  {
    if |ws| > 0 {
      var n := |ws| - 1;
      var init := ws[..n];
      ApplyAllDomain(init, k);
      ApplyEffect(ApplyAll(init), ws[n], k);
      assert forall i :: 0 <= i < n ==> init[i] == ws[i];
      if Writes?(ws[n], k) {
        assert k in ApplyAll(ws);
      }
    }
  }

  lemma {:induction false} ApplyAllLaterWins(ws: seq<Writes>, k: string, i: nat)
    requires k != ""
    requires i < |ws| && Writes?(ws[i], k)
    requires forall j :: i < j < |ws| ==> !Writes?(ws[j], k)
    ensures k in ApplyAll(ws) && ApplyAll(ws)[k] == ws[i].canonical
    decreases |ws|
  {
    var n := |ws| - 1;
    var init := ws[..n];
    ApplyEffect(ApplyAll(init), ws[n], k);
    if i < n {
      assert init[i] == ws[i];
      assert forall j :: i < j < |init| ==> init[j] == ws[j];
      ApplyAllLaterWins(init, k, i);
    }
  }

  /** The alias map's keys are exactly the keys some entry maps. */
  lemma AliasesDomain(entries: seq<AliasEntry>, k: string)
    requires k != ""
    ensures k in BuildAliases(entries) <==> exists i :: 0 <= i < |entries| && Maps(entries[i], k)
  {
    var ws := seq(|entries|, i requires 0 <= i < |entries| => EntryWrites(entries[i]));
    ApplyAllDomain(ws, k);
    assert forall i :: 0 <= i < |entries| ==> (Maps(entries[i], k) <==> Writes?(ws[i], k));
  }

  /** A key maps to the trimmed canonical of the last entry that maps it:
      later entries overwrite earlier ones. */
  lemma AliasesLaterWins(entries: seq<AliasEntry>, k: string, i: nat)
    requires k != ""
    requires i < |entries| && Maps(entries[i], k)
    requires forall j :: i < j < |entries| ==> !Maps(entries[j], k)
    ensures k in BuildAliases(entries)
    ensures BuildAliases(entries)[k] == Trim(entries[i].canonical)
  {
    var ws := seq(|entries|, i requires 0 <= i < |entries| => EntryWrites(entries[i]));
    assert forall j :: i < j < |ws| ==> !Writes?(ws[j], k) by {
      forall j | i < j < |ws| ensures !Writes?(ws[j], k) {
        assert !Maps(entries[j], k);
      }
    }
    ApplyAllLaterWins(ws, k, i);
  }

  /** An alias maps to its entry's canonical when no later entry claims
      the same key. */
  lemma AliasMapsToCanonical(entries: seq<AliasEntry>, i: nat, j: nat)
    requires i < |entries| && j < |entries[i].aliases|
    requires Trim(entries[i].canonical) != "" && PlatformKeyOf(entries[i].aliases[j]) != ""
    requires forall l :: i < l < |entries| ==> !Maps(entries[l], PlatformKeyOf(entries[i].aliases[j]))
    ensures PlatformKeyOf(entries[i].aliases[j]) in BuildAliases(entries)
    ensures BuildAliases(entries)[PlatformKeyOf(entries[i].aliases[j])] == Trim(entries[i].canonical)
  {
    var k := PlatformKeyOf(entries[i].aliases[j]);
    var w := EntryWrites(entries[i]);
    assert w.keys[j + 1] == k;
    AliasesLaterWins(entries, k, i);
  }

  /** `loadPlatformAliases`: the first call fixes the map (empty when the
      file is missing or has no alias list); later calls change nothing. */
  function LoadPlatformAliases(state: Option<map<string, string>>, file: Option<seq<AliasEntry>>): (r: Option<map<string, string>>)
    ensures r.Some?
    ensures state.Some? ==> r == state
    ensures state.None? && file.None? ==> r == Some(map[])
    ensures state.None? ==> "" !in r.value
  {
    if state.Some? then state
    else if file.None? then Some(map[])
    else Some(BuildAliases(file.value))
  }

  /** The alias map is built at most once. */
  lemma AliasesLoadedOnce(state: Option<map<string, string>>, first: Option<seq<AliasEntry>>, second: Option<seq<AliasEntry>>)
    ensures LoadPlatformAliases(LoadPlatformAliases(state, first), second) == LoadPlatformAliases(state, first)
  {
  }

  // ---------------------------------------------------------------------
  // Platform rules

  /** A canonical label and the key substrings that select it.  Each rule
      of the source is an unanchored regular expression matched against the
      key, so it holds exactly when the key contains one of the strings its
      expression can match at a minimum:
      `adrenaline(amusements)?pcbased` is either spelling;
      `unis(pcbased)?|unisp?cbased` always contains `unis`;
      `taitotypex3?`, `taitolindbergh(yellow|red)?`, `lindbergh(yellow|red)?`,
      `ringedge2?` and `sega(nu|nu1)` reduce to their fixed prefix;
      `taitotypes?x2` is either spelling; and
      `nesicax?live|taitonesicaxlive` is `nesicalive` or `nesicaxlive`. */
  datatype PlatformRule = PlatformRule(needles: seq<string>, canonical: string)

  /** The rules in the order js/modules/dataLoader.js lists them. */
  const SourceRules: seq<PlatformRule> := [
    PlatformRule(["adrenalinepcbased", "adrenalineamusementspcbased"], "Adrenaline PC-Based"),
    PlatformRule(["unis"], "UNIS PC Based"),
    PlatformRule(["rawthrillspcbased", "rawthrillslinuxpcbased"], "RAW Thrills Linux PC Based"),
    PlatformRule(["namcosystem246"], "Namco System 246"),
    PlatformRule(["namcosystem256"], "Namco System 256"),
    PlatformRule(["taitotypex"], "Taito Type X"),
    PlatformRule(["taitotypex2", "taitotypesx2"], "Taito Type X2"),
    PlatformRule(["taitolindbergh"], "SEGA Lindbergh Yellow"),
    PlatformRule(["lindbergh"], "SEGA Lindbergh Yellow"),
    PlatformRule(["nesicalive", "nesicaxlive"], "Taito NESiCAxLive"),
    PlatformRule(["ringedge"], "SEGA RingEdge"),
    PlatformRule(["exboard"], "EX-BOARD"),
    PlatformRule(["seganu"], "SEGA Nu")
  ]

  /** The same rules with the Type X2 rule ahead of the Type X rule, so
      that it can fire. */
  const IntendedRules: seq<PlatformRule> :=
    SourceRules[..5] + [SourceRules[6], SourceRules[5]] + SourceRules[7..]

  predicate AnyContains(key: string, needles: seq<string>)
    decreases |needles|
  {
    |needles| > 0 && (Contains(key, needles[0]) || AnyContains(key, needles[1..]))
  }

  predicate RuleMatches(rule: PlatformRule, key: string) {
    AnyContains(key, rule.needles)
  }

  /** The label of the first rule that matches the key. */
  function FirstRule(key: string, rules: seq<PlatformRule>): (r: Option<string>)
    ensures r.None? <==> forall i :: 0 <= i < |rules| ==> !RuleMatches(rules[i], key)
    ensures r.Some? ==>
      exists i :: 0 <= i < |rules| && RuleMatches(rules[i], key)
        && rules[i].canonical == r.value
        && (forall j :: 0 <= j < i ==> !RuleMatches(rules[j], key))
    decreases |rules|
  {
    if |rules| == 0 then None
    else if RuleMatches(rules[0], key) then Some(rules[0].canonical)
    else
      var r := FirstRule(key, rules[1..]);
      assert forall i :: 1 <= i < |rules| ==> rules[i] == rules[1..][i - 1];
      r
  }

  // ---------------------------------------------------------------------
  // The fallback clean-up

  /** A piece of the three fallback patterns: `\s*`, a word matched without
      regard to ASCII case, an optional character from a set, and a
      captured run of decimal digits. */
  datatype Token = Spaces | Word(w: string) | Optional(chars: seq<char>) | Number

  /** `\s*pc[- ]?based\s*`, `\s*linux\s*pc\s*based` and
      `\s*system\s*([0-9]+)`, all case-insensitive. */
  const PcBasedPattern: seq<Token> := [Spaces, Word("pc"), Optional(['-', ' ']), Word("based"), Spaces]
  const LinuxPattern: seq<Token> := [Spaces, Word("linux"), Spaces, Word("pc"), Spaces, Word("based")]
  const SystemPattern: seq<Token> := [Spaces, Word("system"), Spaces, Number]

  datatype Match = Match(end: nat, group: string)

  function SpacesEnd(s: string, i: nat): (e: nat)
    requires i <= |s|
    ensures i <= e <= |s|
    ensures e == |s| || !IsSpace(s[e])
    ensures forall k :: i <= k < e ==> IsSpace(s[k])
    decreases |s| - i
  {
    if i < |s| && IsSpace(s[i]) then SpacesEnd(s, i + 1) else i
  }

  function DigitsEnd(s: string, i: nat): (e: nat)
    requires i <= |s|
    ensures i <= e <= |s|
    ensures e == |s| || !IsDigit(s[e])
    ensures forall k :: i <= k < e ==> IsDigit(s[k])
    decreases |s| - i
  {
    if i < |s| && IsDigit(s[i]) then DigitsEnd(s, i + 1) else i
  }

  /** The match of the tokens at position `i`.  `\s*` and the digit run
      take as much as they can: in the three patterns the token after a
      `\s*` never begins with whitespace and nothing follows the digits, so
      giving back characters could never help.  The optional character is
      taken when the rest then matches, and skipped otherwise. */
  function MatchAt(s: string, i: nat, toks: seq<Token>): (r: Option<Match>)
    requires i <= |s|
    ensures r.Some? ==> i <= r.value.end <= |s|
    decreases |toks|
  {
    if |toks| == 0 then Some(Match(i, ""))
    else match toks[0]
      case Spaces => MatchAt(s, SpacesEnd(s, i), toks[1..])
      case Word(w) =>
        if i + |w| <= |s| && Lower(s[i..i + |w|]) == w then MatchAt(s, i + |w|, toks[1..]) else None
      case Optional(cs) =>
        var taken := if i < |s| && s[i] in cs then MatchAt(s, i + 1, toks[1..]) else None;
        if taken.Some? then taken else MatchAt(s, i, toks[1..])
      case Number =>
        var e := DigitsEnd(s, i);
        if e == i then None
        else match MatchAt(s, e, toks[1..])
          case None => None
          case Some(m) => Some(Match(m.end, s[i..e]))
  }

  /** The leftmost position at or after `i` where the tokens match. */
  function FindFrom(s: string, i: nat, toks: seq<Token>): (r: Option<nat>)
    requires i <= |s|
    ensures r.Some? ==> i <= r.value <= |s| && MatchAt(s, r.value, toks).Some?
    ensures r.Some? ==> forall k :: i <= k < r.value ==> MatchAt(s, k, toks).None?
    ensures r.None? ==> forall k :: i <= k <= |s| ==> MatchAt(s, k, toks).None?
    decreases |s| - i
  {
    if MatchAt(s, i, toks).Some? then Some(i)
    else if i == |s| then None
    else FindFrom(s, i + 1, toks)
  }

  /** `s.replace(pattern, replacement)` with a pattern that is not global:
      the leftmost match is replaced by `prefix`, followed by the captured
      digits when `withGroup`. */
  function ReplaceFirst(s: string, toks: seq<Token>, prefix: string, withGroup: bool): (r: string)
    ensures FindFrom(s, 0, toks).None? ==> r == s
    ensures FindFrom(s, 0, toks).Some? ==> IsPrefix(s[..FindFrom(s, 0, toks).value], r)
  {
    match FindFrom(s, 0, toks)
    case None => s
    case Some(i) =>
      var m := MatchAt(s, i, toks).value;
      s[..i] + prefix + (if withGroup then m.group else "") + s[m.end..]
  }

  /** No two whitespace characters in a row. */
  predicate SingleSpaced(s: string) {
    forall i :: 0 <= i < |s| - 1 ==> !(IsSpace(s[i]) && IsSpace(s[i + 1]))
  }

  /** `s.replace(/\s+/g, ' ')`: every run of whitespace becomes one space. */
  function CollapseSpaces(s: string): (r: string)
    ensures SingleSpaced(r)
    ensures |r| > 0 ==> |s| > 0 && (IsSpace(r[0]) <==> IsSpace(s[0]))
    decreases |s|
  {
    if |s| == 0 then ""
    else if IsSpace(s[0]) then
      var t := TrimStart(s);
      assert |t| < |s| by { assert IsSuffix(TrimStart(s[1..]), s[1..]); }
      [' '] + CollapseSpaces(t)
    else [s[0]] + CollapseSpaces(s[1..])
  }

  /** The characters other than whitespace, in order. */
  function Visible(s: string): string
    decreases |s|
  {
    if |s| == 0 then "" else if IsSpace(s[0]) then Visible(s[1..]) else [s[0]] + Visible(s[1..])
  }

  lemma {:induction false} VisibleBlank(s: string)
    requires IsBlank(s)
    ensures Visible(s) == ""
    decreases |s|
  {
    if |s| > 0 {
      VisibleBlank(s[1..]);
    }
  }

  lemma {:induction false} VisibleSplit(a: string, b: string)
    ensures Visible(a + b) == Visible(a) + Visible(b)
    decreases |a|
  {
    if |a| > 0 {
      VisibleSplit(a[1..], b);
      assert (a + b)[1..] == a[1..] + b;
    } else {
      assert a + b == b;
    }
  }

  /** Collapsing whitespace keeps every other character, in order. */
  lemma {:induction false} CollapseKeepsVisible(s: string)
    ensures Visible(CollapseSpaces(s)) == Visible(s)
    decreases |s|
  {
    if |s| > 0 {
      if IsSpace(s[0]) {
        var t := TrimStart(s);
        assert |t| < |s| by { assert IsSuffix(TrimStart(s[1..]), s[1..]); }
        CollapseKeepsVisible(t);
        assert s == s[..|s| - |t|] + t;
        VisibleSplit(s[..|s| - |t|], t);
        VisibleBlank(s[..|s| - |t|]);
        assert Visible([' '] + CollapseSpaces(t)) == Visible(CollapseSpaces(t));
      } else {
        CollapseKeepsVisible(s[1..]);
      }
    }
  }

  lemma {:induction false} SingleSpacedContains(s: string, sub: string)
    requires SingleSpaced(s) && Contains(s, sub)
    ensures SingleSpaced(sub)
    decreases |s|
  {
    if IsPrefix(sub, s) {
      assert forall i :: 0 <= i < |sub| ==> sub[i] == s[i];
    } else {
      SingleSpacedContains(s[1..], sub);
    }
  }

  /** The fallback clean-up of a trimmed platform name. */
  function Fallback(raw: string): (r: string)
    ensures Trim(r) == r
    ensures SingleSpaced(r)
  {
    var s1 := ReplaceFirst(raw, PcBasedPattern, " PC Based", false);
    var s2 := ReplaceFirst(s1, LinuxPattern, " Linux PC Based", false);
    var s3 := ReplaceFirst(s2, SystemPattern, " System ", true);
    var s4 := CollapseSpaces(s3);
    TrimIdempotent(s4);
    SingleSpacedContains(s4, Trim(s4));
    Trim(s4)
  }

  // ---------------------------------------------------------------------
  // normalizePlatform

  /** `normalizePlatform` with the given rule list: empty input is
      returned as is; an alias-map hit on the key wins; then the first
      matching rule; then the fallback clean-up of the trimmed name. */
  function NormalizeWith(platform: string, aliases: map<string, string>, rules: seq<PlatformRule>): (r: string)
  {
    if platform == "" then platform
    else
      var raw := Trim(platform);
      var key := PlatformKeyOf(platform);
      if key in aliases && aliases[key] != "" then aliases[key]
      else match FirstRule(key, rules)
        case Some(canonical) => canonical
        case None => Fallback(raw)
  }

  /** The normalisation as js/modules/dataLoader.js writes it. */
  function NormalizePlatformAsWritten(platform: string, aliases: map<string, string>): (r: string)
    ensures platform == "" ==> r == ""
    ensures platform != "" && PlatformKeyOf(platform) in aliases && aliases[PlatformKeyOf(platform)] != ""
            ==> r == aliases[PlatformKeyOf(platform)]
  {
    NormalizeWith(platform, aliases, SourceRules)
  }

  /** The normalisation the rest of the model uses: the source's, with the
      two Taito Type X rules in the order that lets both fire. */
  function NormalizePlatform(platform: string, aliases: map<string, string>): (r: string)
    ensures platform == "" ==> r == ""
    ensures platform != "" && PlatformKeyOf(platform) in aliases && aliases[PlatformKeyOf(platform)] != ""
            ==> r == aliases[PlatformKeyOf(platform)]
  {
    NormalizeWith(platform, aliases, IntendedRules)
  }

  /** Without an alias hit, the first matching rule decides. */
  lemma NormalizeRuleHit(platform: string, aliases: map<string, string>, rules: seq<PlatformRule>, i: nat)
    requires platform != ""
    requires !(PlatformKeyOf(platform) in aliases && aliases[PlatformKeyOf(platform)] != "")
    requires i < |rules| && RuleMatches(rules[i], PlatformKeyOf(platform))
    requires forall j :: 0 <= j < i ==> !RuleMatches(rules[j], PlatformKeyOf(platform))
    ensures NormalizeWith(platform, aliases, rules) == rules[i].canonical
  {
    var key := PlatformKeyOf(platform);
    var r := FirstRule(key, rules);
    var k :| 0 <= k < |rules| && RuleMatches(rules[k], key) && rules[k].canonical == r.value
             && forall j :: 0 <= j < k ==> !RuleMatches(rules[j], key);
    assert k == i;
  }

  /** Without an alias hit or a matching rule, the result is the fallback
      clean-up: trimmed, and single-spaced. */
  lemma NormalizeFallbackShape(platform: string, aliases: map<string, string>, rules: seq<PlatformRule>)
    requires platform != ""
    requires !(PlatformKeyOf(platform) in aliases && aliases[PlatformKeyOf(platform)] != "")
    requires forall i :: 0 <= i < |rules| ==> !RuleMatches(rules[i], PlatformKeyOf(platform))
    ensures NormalizeWith(platform, aliases, rules) == Fallback(Trim(platform))
    ensures Trim(NormalizeWith(platform, aliases, rules)) == NormalizeWith(platform, aliases, rules)
    ensures SingleSpaced(NormalizeWith(platform, aliases, rules))
  {
  }

  // ---------------------------------------------------------------------
  // The Taito Type X2 rule

  lemma {:induction false} ContainsLonger(s: string, sub: string)
    requires |sub| > |s|
    ensures !Contains(s, sub)
    decreases |s|
  {
    if |s| > 0 {
      ContainsLonger(s[1..], sub);
    }
  }

  lemma {:induction false} ContainsMissingFirst(s: string, sub: string)
    requires |sub| > 0 && forall i :: 0 <= i < |s| ==> s[i] != sub[0]
    ensures !Contains(s, sub)
    decreases |s|
  {
    if |s| > 0 {
      ContainsMissingFirst(s[1..], sub);
      if |sub| <= |s| {
        assert s[..|sub|][0] == s[0];
      }
    }
  }

  /** A string containing `a + b` contains `a`. */
  lemma {:induction false} ContainsLeft(s: string, a: string, b: string)
    requires Contains(s, a + b)
    ensures Contains(s, a)
    decreases |s|
  {
    if IsPrefix(a + b, s) {
      assert s[..|a|] == (a + b)[..|a|] == a;
    } else {
      ContainsLeft(s[1..], a, b);
    }
  }

  lemma {:induction false} KeyCharsOnly(s: string)
    requires forall i :: 0 <= i < |s| ==> IsKeyChar(s[i])
    ensures PlatformKeyOf(s) == s
    decreases |s|
  {
    if |s| > 0 {
      KeyCharsOnly(s[1..]);
      assert s == [s[0]] + s[1..];
    }
  }

  lemma PrefixOfPrefix(s: string, a: string, b: string)
    requires IsPrefix(a + b, s)
    ensures IsPrefix(a, s)
  {
    assert s[..|a|] == (a + b)[..|a|];
  }

  /** The keys the Type X2 finding is about: `taitotypex2` followed by at
      most two more characters, none of them `u`, such as `taitotypex2`
      itself, the key of "Taito Type X2". */
  predicate TypeX2Key(key: string) {
    IsPrefix("taitotypex2", key) && |key| < 14
    && forall i :: 0 <= i < |key| ==> key[i] != 'u'
  }

  /** No rule before the two Taito Type X rules matches such a key. */
  lemma EarlyRulesMissTypeX2(key: string)
    requires TypeX2Key(key)
    ensures forall j :: 0 <= j < 5 ==> !RuleMatches(SourceRules[j], key)
  {
    ContainsLonger(key, "adrenalinepcbased");
    ContainsLonger(key, "adrenalineamusementspcbased");
    ContainsMissingFirst(key, "unis");
    ContainsLonger(key, "rawthrillspcbased");
    ContainsLonger(key, "rawthrillslinuxpcbased");
    ContainsLonger(key, "namcosystem246");
    ContainsLonger(key, "namcosystem256");
  }

  /** The reordering leaves the first five rules where they were. */
  lemma IntendedKeepsEarlyRules()
    ensures forall j :: 0 <= j < 5 ==> IntendedRules[j] == SourceRules[j]
  {
  }

  /** A key containing `taitotypex2` contains `taitotypex`, so the Type X
      rule matches it. */
  lemma TypeXRuleMatches(key: string)
    requires Contains(key, "taitotypex2")
    ensures RuleMatches(SourceRules[5], key)
    ensures SourceRules[5].canonical == "Taito Type X"
  {
    assert "taitotypex2" == "taitotypex" + "2";
    ContainsLeft(key, "taitotypex", "2");
    assert SourceRules[5].needles == ["taitotypex"];
  }

  /** In the intended order the Type X2 rule sits at index 5. */
  lemma TypeX2RuleMatches(key: string)
    requires Contains(key, "taitotypex2")
    ensures RuleMatches(IntendedRules[5], key)
    ensures IntendedRules[5].canonical == "Taito Type X2"
  {
    assert IntendedRules[5] == SourceRules[6];
  }

  /** A key no early rule matches in the source order is missed by them in
      the intended order too. */
  lemma IntendedEarlyMiss(key: string)
    requires forall j :: 0 <= j < 5 ==> !RuleMatches(SourceRules[j], key)
    ensures forall j :: 0 <= j < 5 ==> !RuleMatches(IntendedRules[j], key)
  {
    IntendedKeepsEarlyRules();
  }

  lemma TypeX2KeyContains(key: string)
    requires TypeX2Key(key)
    ensures Contains(key, "taitotypex2")
  {
  }

  /** As written, such a key hits the Type X rule first and comes out as
      "Taito Type X". */
  lemma TypeX2AsWritten(platform: string, aliases: map<string, string>)
    requires platform != "" && TypeX2Key(PlatformKeyOf(platform))
    requires PlatformKeyOf(platform) !in aliases
    ensures NormalizePlatformAsWritten(platform, aliases) == "Taito Type X"
  {
    var key := PlatformKeyOf(platform);
    EarlyRulesMissTypeX2(key);
    TypeX2KeyContains(key);
    TypeXRuleMatches(key);
    NormalizeRuleHit(platform, aliases, SourceRules, 5);
  }

  /** With the two rules swapped, such a key comes out as "Taito Type X2". */
  lemma TypeX2Intended(platform: string, aliases: map<string, string>)
    requires platform != "" && TypeX2Key(PlatformKeyOf(platform))
    requires PlatformKeyOf(platform) !in aliases
    ensures NormalizePlatform(platform, aliases) == "Taito Type X2"
  {
    var key := PlatformKeyOf(platform);
    EarlyRulesMissTypeX2(key);
    TypeX2KeyContains(key);
    TypeX2Reachable(platform, aliases);
  }

  lemma TypeX2KeyOfExample()
    ensures PlatformKeyOf("taitotypex2") == "taitotypex2"
  {
    KeyCharsOnly("taitotypex2");
  }

  lemma TypeX2KeyExample()
    ensures TypeX2Key("taitotypex2")
  {
    assert IsPrefix("taitotypex2", "taitotypex2");
  }

  /** The platform written "taitotypex2" shows the difference with an
      empty alias map: as written it becomes "Taito Type X" ... */
  lemma TypeX2ExampleAsWritten()
    ensures NormalizePlatformAsWritten("taitotypex2", map[]) == "Taito Type X"
  {
    TypeX2KeyOfExample();
    TypeX2KeyExample();
    TypeX2AsWritten("taitotypex2", map[]);
  }

  /** ... and with the intended order it stays "Taito Type X2". */
  lemma TypeX2ExampleIntended()
    ensures NormalizePlatform("taitotypex2", map[]) == "Taito Type X2"
  {
    TypeX2KeyOfExample();
    TypeX2KeyExample();
    TypeX2Intended("taitotypex2", map[]);
  }

  /** With the intended order the Type X2 rule is reachable: a key that
      contains `taitotypex2` and matches none of the five rules before it
      maps to "Taito Type X2". */
  lemma TypeX2Reachable(platform: string, aliases: map<string, string>)
    requires platform != ""
    requires !(PlatformKeyOf(platform) in aliases && aliases[PlatformKeyOf(platform)] != "")
    requires Contains(PlatformKeyOf(platform), "taitotypex2")
    requires forall j :: 0 <= j < 5 ==> !RuleMatches(SourceRules[j], PlatformKeyOf(platform))
    ensures NormalizePlatform(platform, aliases) == "Taito Type X2"
  {
    var key := PlatformKeyOf(platform);
    IntendedEarlyMiss(key);
    TypeX2RuleMatches(key);
    NormalizeRuleHit(platform, aliases, IntendedRules, 5);
  }

  lemma EarlyLabelsNotTypeX2(i: nat)
    requires i <= 5
    ensures SourceRules[i].canonical != "Taito Type X2"
  {
    var x2 := "Taito Type X2";
    var c := SourceRules[i].canonical;
    if i == 1 {
      assert c[0] == 'U' && x2[0] == 'T';
    } else {
      assert |c| != |x2|;
    }
  }

  /** As written, a key that contains `taitotypex2` always matches the
      Type X rule, so the Type X2 rule never decides it. */
  lemma TypeX2Shadowed(key: string)
    requires Contains(key, "taitotypex2")
    ensures RuleMatches(SourceRules[5], key)
    ensures FirstRule(key, SourceRules) != Some("Taito Type X2")
  {
    TypeXRuleMatches(key);
    var r := FirstRule(key, SourceRules);
    if r.Some? {
      var i :| 0 <= i < |SourceRules| && RuleMatches(SourceRules[i], key)
        && SourceRules[i].canonical == r.value
        && (forall j :: 0 <= j < i ==> !RuleMatches(SourceRules[j], key));
      assert i <= 5;
      EarlyLabelsNotTypeX2(i);
    }
  }

  // ---------------------------------------------------------------------
  // Profile documents

  /** One element of a parsed XML document: its tag and its text content. */
  datatype XmlText = XmlText(tag: string, text: string)

  /** A `FieldInformation` element: the text content of each child, `None`
      when the child is missing. */
  datatype FieldElement = FieldElement(
    category: Option<string>,
    name: Option<string>,
    value: Option<string>,
    fieldType: Option<string>)

  /** A `JoystickButtons > JoystickButtons` element. */
  datatype ButtonElement = ButtonElement(buttonName: Option<string>, inputMapping: Option<string>)

  /** A parsed profile document: all its elements in document order, and
      its field and button elements. */
  datatype XmlDoc = XmlDoc(elements: seq<XmlText>, fields: seq<FieldElement>, buttons: seq<ButtonElement>)

  /** `getXMLValue`: the trimmed text of the first element with the tag,
      `None` when there is none. */
  function GetXmlValue(elements: seq<XmlText>, tag: string): (r: Option<string>)
    ensures r.Some? <==> exists i :: 0 <= i < |elements| && elements[i].tag == tag
    decreases |elements|
  {
    if |elements| == 0 then None
    else if elements[0].tag == tag then Some(Trim(elements[0].text))
    else GetXmlValue(elements[1..], tag)
  }

  /** The value found is the trimmed text of the first element with the
      tag. */
  lemma {:induction false} GetXmlValueFirst(elements: seq<XmlText>, tag: string, i: nat)
    requires i < |elements| && elements[i].tag == tag
    requires forall j :: 0 <= j < i ==> elements[j].tag != tag
    ensures GetXmlValue(elements, tag) == Some(Trim(elements[i].text))
    decreases i
  {
    if i > 0 {
      GetXmlValueFirst(elements[1..], tag, i - 1);
    }
  }

  /** An element's value, `null` being the empty string. */
  function TextOf(elements: seq<XmlText>, tag: string): string {
    GetXmlValue(elements, tag).GetOr("")
  }

  /** `getXMLValue(...) === 'true'` */
  predicate FlagOf(elements: seq<XmlText>, tag: string) {
    GetXmlValue(elements, tag) == Some("true")
  }

  /** A flag holds exactly when the first element with its tag reads
      `true` once surrounding whitespace is removed; a missing element
      reads as false. */
  lemma FlagFirstElement(elements: seq<XmlText>, tag: string, i: nat)
    requires i < |elements| && elements[i].tag == tag
    requires forall j :: 0 <= j < i ==> elements[j].tag != tag
    ensures FlagOf(elements, tag) <==> Trim(elements[i].text) == "true"
  {
    GetXmlValueFirst(elements, tag, i);
  }

  lemma FlagMissing(elements: seq<XmlText>, tag: string)
    requires forall j :: 0 <= j < |elements| ==> elements[j].tag != tag
    ensures !FlagOf(elements, tag) && TextOf(elements, tag) == ""
  {
  }

  /** `?.textContent.trim()`, a missing child giving the empty string. */
  function TrimmedText(o: Option<string>): string {
    match o
    case None => ""
    case Some(t) => Trim(t)
  }

  function ConfigValueOf(f: FieldElement): ConfigValue {
    ConfigValue(TrimmedText(f.category), TrimmedText(f.name), TrimmedText(f.value), TrimmedText(f.fieldType))
  }

  /** `if (name && value)` */
  predicate KeepsField(f: FieldElement) {
    TrimmedText(f.name) != "" && TrimmedText(f.value) != ""
  }

  /** `parseConfigValues`: the fields with a name and a value, in order. */
  function ParseConfigValues(fields: seq<FieldElement>): (r: seq<ConfigValue>)
    ensures |r| <= |fields|
    ensures forall i :: 0 <= i < |r| ==> r[i].name != "" && r[i].value != ""
    decreases |fields|
  {
    if |fields| == 0 then []
    else
      ConfigHead(fields[0]) + ParseConfigValues(fields[1..])
  }

  /** The records one field contributes. */
  function ConfigHead(f: FieldElement): (r: seq<ConfigValue>)
    ensures |r| <= 1
    ensures forall i :: 0 <= i < |r| ==> r[i].name != "" && r[i].value != ""
  {
    if KeepsField(f) then [ConfigValueOf(f)] else []
  }

  /** A record is kept exactly when some field with a name and a value
      produces it. */
  lemma {:induction false} ConfigValuesMembers(fields: seq<FieldElement>, c: ConfigValue)
    ensures c in ParseConfigValues(fields) <==>
            exists i :: 0 <= i < |fields| && KeepsField(fields[i]) && ConfigValueOf(fields[i]) == c
    decreases |fields|
  {
    if |fields| > 0 {
      ConfigValuesMembers(fields[1..], c);
      if exists i :: 0 <= i < |fields[1..]| && KeepsField(fields[1..][i]) && ConfigValueOf(fields[1..][i]) == c {
        var i :| 0 <= i < |fields[1..]| && KeepsField(fields[1..][i]) && ConfigValueOf(fields[1..][i]) == c;
        assert fields[i + 1] == fields[1..][i];
      }
      if exists i :: 0 <= i < |fields| && KeepsField(fields[i]) && ConfigValueOf(fields[i]) == c {
        var i :| 0 <= i < |fields| && KeepsField(fields[i]) && ConfigValueOf(fields[i]) == c;
        if i > 0 {
          assert fields[1..][i - 1] == fields[i];
        }
      }
    }
  }

  /** Parsing keeps document order: the records of two runs of fields are
      the records of the first run followed by those of the second. */
  lemma {:induction false} ConfigValuesAppend(a: seq<FieldElement>, b: seq<FieldElement>)
    ensures ParseConfigValues(a + b) == ParseConfigValues(a) + ParseConfigValues(b)
    decreases |a|
  {
    if |a| == 0 {
      assert a + b == b;
    } else {
      var ab := a + b;
      assert ab[0] == a[0] && ab[1..] == a[1..] + b;
      ConfigValuesAppend(a[1..], b);
      var h := ConfigHead(a[0]);
      assert ParseConfigValues(ab) == h + ParseConfigValues(a[1..] + b);
    }
  }

  function ButtonRecordOf(b: ButtonElement): ButtonRecord {
    ButtonRecord(TrimmedText(b.buttonName), TrimmedText(b.inputMapping))
  }

  /** `if (buttonName && inputMapping)` */
  predicate KeepsButton(b: ButtonElement) {
    TrimmedText(b.buttonName) != "" && TrimmedText(b.inputMapping) != ""
  }

  /** `parseJoystickButtons`: the buttons with a name and a mapping, in
      order. */
  function ParseJoystickButtons(buttons: seq<ButtonElement>): (r: seq<ButtonRecord>)
    ensures |r| <= |buttons|
    ensures forall i :: 0 <= i < |r| ==> r[i].buttonName != "" && r[i].inputMapping != ""
    decreases |buttons|
  {
    if |buttons| == 0 then []
    else
      ButtonHead(buttons[0]) + ParseJoystickButtons(buttons[1..])
  }

  /** The records one button contributes. */
  function ButtonHead(b: ButtonElement): (r: seq<ButtonRecord>)
    ensures |r| <= 1
    ensures forall i :: 0 <= i < |r| ==> r[i].buttonName != "" && r[i].inputMapping != ""
  {
    if KeepsButton(b) then [ButtonRecordOf(b)] else []
  }

  lemma JoystickButtonsStep(buttons: seq<ButtonElement>, c: ButtonRecord)
    requires |buttons| > 0
    ensures c in ParseJoystickButtons(buttons) <==>
            (KeepsButton(buttons[0]) && ButtonRecordOf(buttons[0]) == c) || c in ParseJoystickButtons(buttons[1..])
  {
  }

  /** A record is kept exactly when some button with a name and a mapping
      produces it. */
  lemma {:induction false} JoystickButtonsMembers(buttons: seq<ButtonElement>, c: ButtonRecord)
    ensures c in ParseJoystickButtons(buttons) <==>
            exists i :: 0 <= i < |buttons| && KeepsButton(buttons[i]) && ButtonRecordOf(buttons[i]) == c
    decreases |buttons|
  {
    if |buttons| > 0 {
      JoystickButtonsStep(buttons, c);
      JoystickButtonsMembers(buttons[1..], c);
      if exists i :: 0 <= i < |buttons[1..]| && KeepsButton(buttons[1..][i]) && ButtonRecordOf(buttons[1..][i]) == c {
        var i :| 0 <= i < |buttons[1..]| && KeepsButton(buttons[1..][i]) && ButtonRecordOf(buttons[1..][i]) == c;
        assert buttons[i + 1] == buttons[1..][i];
      }
      if exists i :: 0 <= i < |buttons| && KeepsButton(buttons[i]) && ButtonRecordOf(buttons[i]) == c {
        var i :| 0 <= i < |buttons| && KeepsButton(buttons[i]) && ButtonRecordOf(buttons[i]) == c;
        if i > 0 {
          assert buttons[1..][i - 1] == buttons[i];
        }
      }
    }
  }

  /** Parsing keeps document order. */
  lemma {:induction false} JoystickButtonsAppend(a: seq<ButtonElement>, b: seq<ButtonElement>)
    ensures ParseJoystickButtons(a + b) == ParseJoystickButtons(a) + ParseJoystickButtons(b)
    decreases |a|
  {
    if |a| == 0 {
      assert a + b == b;
    } else {
      var ab := a + b;
      assert ab[0] == a[0] && ab[1..] == a[1..] + b;
      JoystickButtonsAppend(a[1..], b);
      var h := ButtonHead(a[0]);
      assert ParseJoystickButtons(ab) == h + ParseJoystickButtons(a[1..] + b);
    }
  }

  /** `loadGameProfile` on a document that could be read. */
  function LoadGameProfile(doc: XmlDoc): (r: GameProfile)
    ensures r.gunGame <==> GetXmlValue(doc.elements, "GunGame") == Some("true")
    ensures r.configValues == ParseConfigValues(doc.fields)
    ensures r.joystickButtons == ParseJoystickButtons(doc.buttons)
  {
    var e := doc.elements;
    GameProfile(
      TextOf(e, "GamePath"), TextOf(e, "EmulationProfile"), TextOf(e, "GameProfileRevision"),
      TextOf(e, "EmulatorType"), TextOf(e, "ExecutableName"),
      FlagOf(e, "GunGame"), FlagOf(e, "HasSeparateTestMode"), FlagOf(e, "Is64Bit"),
      FlagOf(e, "RequiresAdmin"), FlagOf(e, "Patreon"), TextOf(e, "msysType"),
      ParseConfigValues(doc.fields), ParseJoystickButtons(doc.buttons))
  }

  /** `loadUserProfile`: `null` when the document could not be read. */
  function LoadUserProfile(doc: Option<XmlDoc>): (r: Option<UserProfile>)
    ensures r.Some? <==> doc.Some?
    ensures r.Some? ==> r.value.gameNameInternal == TextOf(doc.value.elements, "GameNameInternal")
  {
    match doc
    case None => None
    case Some(d) =>
      var e := d.elements;
      Some(UserProfile(
        TextOf(e, "ProfileName"), TextOf(e, "GameNameInternal"), TextOf(e, "GameGenreInternal"),
        TextOf(e, "GamePath"), TextOf(e, "IconName"),
        ParseConfigValues(d.fields), ParseJoystickButtons(d.buttons)))
  }

  /** `loadGameSetup`: `null` when the document could not be read. */
  function LoadGameSetup(doc: Option<XmlDoc>): (r: Option<GameSetup>)
    ensures r.Some? <==> doc.Some?
  {
    match doc
    case None => None
    case Some(d) =>
      Some(GameSetup(TextOf(d.elements, "GameExecutableLocation"),
                     TextOf(d.elements, "GameTestExecutableLocation"),
                     FlagOf(d.elements, "DevOnly")))
  }

  // ---------------------------------------------------------------------
  // loadGameData and loadAllGames

  /** What the reads for one game returned; `None` is a read that failed
      or found nothing.  `icon` is what the icon resolver answered. */
  datatype Sources = Sources(
    profile: Option<XmlDoc>,
    metadata: Option<Metadata>,
    userProfile: Option<XmlDoc>,
    gameSetup: Option<XmlDoc>,
    icon: Option<string>)

  /** Load-time normalisation of a metadata record: a non-empty platform
      is normalised and the original kept in `platformOriginal`. */
  function NormalizeMetadata(m: Metadata, aliases: map<string, string>): (r: Metadata)
    ensures Truthy(m.platform) ==> r.platformOriginal == m.platform
    ensures !Truthy(m.platform) ==> r == m
    ensures r.(platform := m.platform, platformOriginal := m.platformOriginal) == m
  {
    if Truthy(m.platform) then m.(platform := NormalizePlatform(m.platform, aliases), platformOriginal := m.platform)
    else m
  }

  /** `loadGameData`: the game record for one id.  Every read is guarded,
      so a failed read only leaves its part empty. */
  function LoadGameData(id: string, installed: bool, src: Sources, aliases: map<string, string>): (r: Game)
    ensures r.id == id && r.isInstalled == installed
    ensures r.profile.Some? <==> src.profile.Some?
    ensures r.metadata.Some? <==> src.metadata.Some?
    ensures r.userProfile.Some? <==> installed && src.userProfile.Some?
    ensures r.custom == NoCustomFields
  {
    var profile := if src.profile.Some? then Some(LoadGameProfile(src.profile.value)) else None;
    var metadata := if src.metadata.Some? then Some(NormalizeMetadata(src.metadata.value, aliases)) else None;
    var name1 := if src.metadata.Some? then Or(src.metadata.value.gameName, id) else id;
    var userProfile := if installed then LoadUserProfile(src.userProfile) else None;
    var name2 := if userProfile.Some? && Truthy(userProfile.value.gameNameInternal)
                 then userProfile.value.gameNameInternal else name1;
    Game(id, name2, installed, profile, metadata, userProfile, LoadGameSetup(src.gameSetup), src.icon, NoCustomFields)
  }

  /** The display name: the user profile's internal name when the game is
      installed and has one; else the metadata's name when metadata was
      read and names the game; else the id. */
  lemma DisplayNamePrecedence(id: string, installed: bool, src: Sources, aliases: map<string, string>)
    ensures var g := LoadGameData(id, installed, src, aliases);
            var internal := if src.userProfile.Some? then TextOf(src.userProfile.value.elements, "GameNameInternal") else "";
            var metaName := if src.metadata.Some? then src.metadata.value.gameName else "";
            (installed && Truthy(internal) ==> g.name == internal)
            && (!(installed && Truthy(internal)) && Truthy(metaName) ==> g.name == metaName)
            && (!(installed && Truthy(internal)) && !Truthy(metaName) ==> g.name == id)
  {
  }

  /** The loaded metadata keeps the file's platform in `platformOriginal`
      and carries its normalisation in `platform`; nothing else changes. */
  lemma PlatformOriginalKept(id: string, installed: bool, src: Sources, aliases: map<string, string>)
    requires src.metadata.Some? && Truthy(src.metadata.value.platform)
    ensures var m := LoadGameData(id, installed, src, aliases).metadata.value;
            m.platformOriginal == src.metadata.value.platform
            && m.platform == NormalizePlatform(m.platformOriginal, aliases)
            && m.(platform := src.metadata.value.platform, platformOriginal := src.metadata.value.platformOriginal)
               == src.metadata.value
  {
  }

  /** What `loadGameList` gets from reading `data/gameProfiles.txt`: the
      text of an ok response, a response that is not ok, or the error the
      fetch itself threw, which is re-thrown unchanged. */
  datatype ListResponse = Listed(text: string) | NotOk | FetchFailed(message: string)

  const NoGameList := "Could not load game list"
  const RootMismatch :=
    "Server root mismatch detected. Please start via start.bat or start-node.bat so /GameProfiles is accessible."

  /** `loadAllGames`.  The game list must be readable; the preflight read of
      the first profile failing with status 404 aborts; otherwise there is
      one game per listed id, in list order, since loading one game never
      throws. */
  function LoadAllGames(
    gameList: ListResponse,
    probeStatus: Option<int>,
    dynamicListing: Option<seq<string>>,
    staticUserList: Option<string>,
    fetch: string -> Sources,
    aliases: map<string, string>): (r: Result<seq<Game>, string>)
    ensures r.Ok? <==> gameList.Listed? && !(ParseList(gameList.text) != [] && probeStatus == Some(404))
    ensures gameList.NotOk? ==> r == Err(NoGameList)
    ensures gameList.FetchFailed? ==> r == Err(gameList.message)
    ensures gameList.Listed? && ParseList(gameList.text) != [] && probeStatus == Some(404) ==> r == Err(RootMismatch)
    ensures r.Ok? ==> Ids(r.value) == ParseList(gameList.text)
    ensures r.Ok? ==>
              forall i :: 0 <= i < |r.value| ==>
                r.value[i].isInstalled == (r.value[i].id in UserProfileList(dynamicListing, staticUserList))
  {
    match gameList
    case NotOk => Err(NoGameList)
    case FetchFailed(message) => Err(message)
    case Listed(text) =>
      var ids := ParseList(text);
      if ids != [] && probeStatus == Some(404) then Err(RootMismatch)
      else
        Ok(LoadEach(ids, UserProfileList(dynamicListing, staticUserList), fetch, aliases))
  }

  /** `loadGameData` for each id, in list order. */
  function LoadEach(ids: seq<string>, installed: seq<string>, fetch: string -> Sources, aliases: map<string, string>): (r: seq<Game>)
    ensures Ids(r) == ids
    ensures forall i :: 0 <= i < |r| ==> r[i].isInstalled == (r[i].id in installed)
  {
    var games := seq(|ids|, i requires 0 <= i < |ids| => LoadGameData(ids[i], ids[i] in installed, fetch(ids[i]), aliases));
    assert Ids(games) == ids;
    games
  }
}

=== FILE: debug_log.dfy ===
/** The client's debug logger: an in-memory buffer of the most recent
    entries, console output, and a queue of text lines sent to the server
    in batches. */
module DebugLog {
  import opened Wrappers
  import opened Text
  import opened Seqs

  const MaxLogs := 1000
  /** The queue is sent at once when it reaches this many lines. */
  const FlushAt := 10

  /** An entry; `data` is the JSON text of the attached value, if any. */
  datatype Entry = Entry(
    timestamp: int, relativeTime: int, level: string, category: string,
    message: string, data: Option<string>)

  /** One console call: the method name, the prefix, the message and the
      data. */
  datatype ConsoleCall = ConsoleCall(fn: string, prefix: string, message: string, data: Option<string>)

  /** The time as the clock gives it: milliseconds since the epoch, with
      its ISO text, and the text of the seconds since start. */
  datatype Clock = Clock(now: int, iso: string, seconds: string)

  datatype Logger = Logger(
    logs: seq<Entry>,
    startTime: int,
    sessionId: string,
    logToConsole: bool,
    logToFile: bool,
    queue: seq<string>,
    timerPending: bool,
    console: seq<ConsoleCall>,
    sent: seq<seq<string>>)

  predicate Valid(lg: Logger) {
    |lg.logs| <= MaxLogs && |lg.queue| < FlushAt
  }

  // ---------------------------------------------------------------------
  // Level tables

  /** `getLevelEmoji(level)` */
  function Emoji(level: string): (r: string)
    ensures r != ""
  {
    if level == "ERROR" then "❌"
    else if level == "WARN" then "⚠️"
    else if level == "INFO" then "🦜"
    else if level == "SUCCESS" then "✅"
    else if level == "DEBUG" then "🔍"
    else if level == "PERF" then "⏱️"
    else if level == "DATA" then "📊"
    else if level == "FILE" then "📂"
    else if level == "GAME" then "🎮"
    else if level == "UI" then "🖼️"
    else if level == "SERVER" then "🖥️"
    else "ℹ️"
  }

  const Levels := ["ERROR", "WARN", "INFO", "SUCCESS", "DEBUG", "PERF", "DATA", "FILE", "GAME", "UI", "SERVER"]

  /** `getConsoleMethod(level)` */
  function ConsoleMethod(level: string): (r: string)
    ensures r in {"error", "warn", "debug", "log"}
  {
    if level == "ERROR" then "error"
    else if level == "WARN" then "warn"
    else if level == "DEBUG" then "debug"
    else "log"
  }

  /** A level outside the table gets the generic emoji and the plain
      console method. */
  lemma UnknownLevel(level: string)
    requires level !in Levels
    ensures Emoji(level) == "ℹ️" && ConsoleMethod(level) == "log"
  {
    assert level != Levels[0] && level != Levels[1] && level != Levels[2] && level != Levels[3];
    assert level != Levels[4] && level != Levels[5] && level != Levels[6] && level != Levels[7];
    assert level != Levels[8] && level != Levels[9] && level != Levels[10];
  }

  // ---------------------------------------------------------------------
  // The file queue

  /** Every line ever queued, in order: the batches sent, then the
      queue. */
  function Lines(lg: Logger): seq<string> {
    Concat(lg.sent) + lg.queue
  }

  function Concat(batches: seq<seq<string>>): seq<string>
    decreases |batches|
  {
    if |batches| == 0 then [] else Concat(batches[..|batches| - 1]) + batches[|batches| - 1]
  }

  /** `flushToFile()`: the queue goes out as one request, joined with
      newlines; an empty queue sends nothing. */
  function Flush(lg: Logger): (r: Logger)
    ensures r.queue == []
    ensures lg.queue == [] ==> r == lg
    ensures lg.queue != [] ==> r.sent == lg.sent + [lg.queue]
    ensures Lines(r) == Lines(lg)
    ensures r.logs == lg.logs && r.console == lg.console
  {
    if |lg.queue| == 0 then lg
    else
      var r := lg.(sent := lg.sent + [lg.queue], queue := []);
      assert r.sent[..|r.sent| - 1] == lg.sent;
      r
  }

  /** The request body of a batch. */
  function Body(batch: seq<string>): string {
    Join(batch, "\n")
  }

  /** `writeToFile(text)`: the line is queued and the queue sent at once
      when it holds ten lines; otherwise a timer is (re)started. */
  function WriteToFile(lg: Logger, text: string): (r: Logger)
    ensures Lines(r) == Lines(lg) + [text]
    ensures |lg.queue| + 1 >= FlushAt ==> r.queue == [] && !r.timerPending
    ensures |lg.queue| + 1 < FlushAt ==> r.queue == lg.queue + [text] && r.timerPending && r.sent == lg.sent
    ensures |lg.queue| < FlushAt ==> |r.queue| < FlushAt
    ensures r.logs == lg.logs && r.console == lg.console
  {
    var queued := lg.(queue := lg.queue + [text], timerPending := false);
    if |queued.queue| >= FlushAt then Flush(queued)
    else queued.(timerPending := true)
  }

  /** The timer firing 500 ms after the last write. */
  function TimerFires(lg: Logger): (r: Logger)
    ensures Lines(r) == Lines(lg) && !r.timerPending
    ensures lg.timerPending ==> r.queue == []
  {
    if lg.timerPending then Flush(lg).(timerPending := false) else lg
  }

  /** The request the page sends while unloading: the queue, if any, as
      one body; the queue itself is left as it is. */
  function UnloadRequest(lg: Logger): (r: Option<string>)
    ensures r.None? <==> lg.queue == []
  {
    if |lg.queue| > 0 then Some(Body(lg.queue)) else None
  }

  // ---------------------------------------------------------------------
  // Logging

  function TimeText(c: Clock): string {
    "[+" + c.seconds + "s]"
  }

  function DataSuffix(data: Option<string>): string {
    if data.Some? then " " + data.value else ""
  }

  /** The line written to the file for an entry. */
  function FileLine(e: Entry, c: Clock): string {
    c.iso + " " + TimeText(c) + " " + Emoji(e.level) + " [CLIENT] [" + e.category + "] " + e.message + DataSuffix(e.data)
  }

  /** `outputToConsole(entry)` */
  function ConsoleOf(e: Entry, c: Clock): (r: ConsoleCall)
    ensures r.fn == ConsoleMethod(e.level) && r.message == e.message && r.data == e.data
  {
    ConsoleCall(ConsoleMethod(e.level), Emoji(e.level) + " " + TimeText(c) + " [" + e.category + "]", e.message, e.data)
  }

  /** Keeps the last `MaxLogs` entries by dropping the first when there is
      one too many. */
  function Keep(logs: seq<Entry>): (r: seq<Entry>)
    ensures |logs| <= MaxLogs ==> r == logs
    ensures |logs| > MaxLogs ==> r == logs[1..]
  {
    if |logs| > MaxLogs then logs[1..] else logs
  }

  /** `log(level, category, message, data)`: the entry, with the level in
      upper case, is appended and returned; the oldest entry goes when the
      buffer would exceed its bound. */
  function Log(lg: Logger, c: Clock, level: string, category: string, message: string, data: Option<string>): (r: (Logger, Entry))
    ensures r.1.level == Upper(level) && r.1.category == category && r.1.message == message && r.1.data == data
    ensures r.1.relativeTime == c.now - lg.startTime
    ensures |lg.logs| < MaxLogs ==> r.0.logs == lg.logs + [r.1]
    ensures |lg.logs| == MaxLogs ==> r.0.logs == lg.logs[1..] + [r.1]
    ensures Valid(lg) ==> Valid(r.0)
    ensures lg.logToFile ==> Lines(r.0) == Lines(lg) + [FileLine(r.1, c)]
    ensures !lg.logToFile ==> r.0.queue == lg.queue && r.0.sent == lg.sent
    ensures r.0.console == lg.console + (if lg.logToConsole then [ConsoleOf(r.1, c)] else [])
  {
    var e := Entry(c.now, c.now - lg.startTime, Upper(level), category, message, data);
    var kept := lg.(logs := Keep(lg.logs + [e]));
    assert |lg.logs| == MaxLogs ==> (lg.logs + [e])[1..] == lg.logs[1..] + [e];
    var shown := if lg.logToConsole then kept.(console := lg.console + [ConsoleOf(e, c)]) else kept;
    var written := if lg.logToFile then WriteToFile(shown, FileLine(e, c)) else shown;
    (written, e)
  }

  /** The buffer is bounded whatever is logged. */
  lemma LogBounded(lg: Logger, c: Clock, level: string, category: string, message: string, data: Option<string>)
    requires |lg.logs| <= MaxLogs
    ensures |Log(lg, c, level, category, message, data).0.logs| <= MaxLogs
    ensures Log(lg, c, level, category, message, data).0.logs[|Log(lg, c, level, category, message, data).0.logs| - 1]
      == Log(lg, c, level, category, message, data).1
  {
  }

  /** The header written when the logger starts. */
  function SessionHeader(c: Clock, sessionId: string, userAgent: string): string {
    var rule := seq(80, _ => '=');
    "\n" + rule + "\nCLIENT SESSION STARTED: " + c.iso + "\nSession ID: " + sessionId + "\nUser Agent: " + userAgent + "\n" + rule + "\n"
  }

  /** The constructor: the session header is queued, then the first entry
      is logged. */
  function Create(c: Clock, sessionId: string, userAgent: string): (r: Logger)
    ensures |r.logs| == 1 && r.logs[0].level == "INFO" && r.logs[0].message == "Debug logging initialized"
    ensures Lines(r) == [SessionHeader(c, sessionId, userAgent), FileLine(r.logs[0], c)]
    ensures Valid(r)
  {
    var empty := Logger([], c.now, sessionId, true, true, [], false, [], []);
    assert Lines(empty) == [];
    var header := SessionHeader(c, sessionId, userAgent);
    var started := WriteToFile(empty, header);
    assert Lines(started) == [header] && Valid(started);
    var logged := Log(started, c, "INFO", "DebugLogger", "Debug logging initialized", Some("{\"sessionId\":\"" + sessionId + "\"}"));
    assert logged.0.logs == [logged.1];
    UpperInfo();
    logged.0
  }

  lemma UpperInfo()
    ensures Upper("INFO") == "INFO"
  {
  }

  /** `clear()`: the buffer is emptied and the clearing itself logged. */
  function Clear(lg: Logger, c: Clock): (r: Logger)
    ensures |r.logs| == 1
    ensures r.logs[0].level == "INFO" && r.logs[0].category == "DebugLogger"
    ensures r.logs[0].message == "Cleared " + IntToString(|lg.logs|) + " log entries"
    ensures Valid(lg) ==> Valid(r)
  {
    Log(lg.(logs := []), c, "INFO", "DebugLogger", "Cleared " + IntToString(|lg.logs|) + " log entries", None).0
  }

  // ---------------------------------------------------------------------
  // Reading the buffer

  /** The filter of `getLogs`: an empty level or category, or no time,
      means no filter. */
  datatype LogFilter = LogFilter(level: string, category: string, since: Option<int>)

  const NoFilter := LogFilter("", "", None)

  predicate Matches(f: LogFilter, e: Entry) {
    (f.level == "" || e.level == Upper(f.level))
    && (f.category == "" || e.category == f.category)
    && (f.since.None? || e.timestamp >= f.since.value)
  }

  /** `getLogs(filter)`: the matching entries, in buffer order. */
  function GetLogs(logs: seq<Entry>, f: LogFilter): (r: seq<Entry>)
    ensures SubseqOf(r, logs)
    ensures forall i :: 0 <= i < |r| ==> Matches(f, r[i])
    ensures forall e :: e in logs && Matches(f, e) ==> e in r
    decreases |logs|
  {
    if |logs| == 0 then []
    else
      var rest := GetLogs(logs[1..], f);
      SubseqSkipHead(rest, logs);
      if Matches(f, logs[0]) then [logs[0]] + rest else rest
  }

  /** Without a filter the whole buffer comes back. */
  lemma {:induction false} GetLogsAll(logs: seq<Entry>)
    ensures GetLogs(logs, NoFilter) == logs
    decreases |logs|
  {
    if |logs| > 0 {
      GetLogsAll(logs[1..]);
      assert logs == [logs[0]] + logs[1..];
    }
  }

  /** Filtering twice by the same filter changes nothing. */
  lemma {:induction false} GetLogsIdempotent(logs: seq<Entry>, f: LogFilter)
    ensures GetLogs(GetLogs(logs, f), f) == GetLogs(logs, f)
    decreases |logs|
  {
    if |logs| > 0 {
      GetLogsIdempotent(logs[1..], f);
      var rest := GetLogs(logs[1..], f);
      if Matches(f, logs[0]) {
        assert ([logs[0]] + rest)[1..] == rest;
      }
    }
  }

  // ---------------------------------------------------------------------
  // Statistics

  /** A per-key count, in the order the keys were first seen (the order
      of the keys of a JavaScript object). */
  datatype Count = Count(key: string, n: nat)

  function CountOf(counts: seq<Count>, k: string): (r: nat)
    decreases |counts|
  {
    if |counts| == 0 then 0
    else if counts[0].key == k then counts[0].n
    else CountOf(counts[1..], k)
  }

  function Total(counts: seq<Count>): (r: nat)
    decreases |counts|
  {
    if |counts| == 0 then 0 else counts[0].n + Total(counts[1..])
  }

  function KeySet(counts: seq<Count>): set<string> {
    set i | 0 <= i < |counts| :: counts[i].key
  }

  predicate KeysDistinct(counts: seq<Count>) {
    forall i, j :: 0 <= i < j < |counts| ==> counts[i].key != counts[j].key
  }

  /** `counts[k] = (counts[k] || 0) + 1` */
  function Bump(counts: seq<Count>, k: string): seq<Count>
    decreases |counts|
  {
    if |counts| == 0 then [Count(k, 1)]
    else if counts[0].key == k then [Count(k, counts[0].n + 1)] + counts[1..]
    else [counts[0]] + Bump(counts[1..], k)
  }

  lemma {:induction false} BumpTotal(counts: seq<Count>, k: string)
    ensures Total(Bump(counts, k)) == Total(counts) + 1
    decreases |counts|
  {
    if |counts| > 0 && counts[0].key != k {
      BumpTotal(counts[1..], k);
      assert Bump(counts, k)[1..] == Bump(counts[1..], k);
    } else if |counts| > 0 {
      assert Bump(counts, k)[1..] == counts[1..];
    }
  }

  lemma {:induction false} BumpCount(counts: seq<Count>, k: string, j: string)
    ensures CountOf(Bump(counts, k), j) == CountOf(counts, j) + (if j == k then 1 else 0)
    decreases |counts|
  {
    if |counts| > 0 && counts[0].key != k {
      BumpCount(counts[1..], k, j);
      assert Bump(counts, k)[1..] == Bump(counts[1..], k);
    } else if |counts| > 0 {
      assert Bump(counts, k)[1..] == counts[1..];
    }
  }

  lemma {:induction false} BumpKeys(counts: seq<Count>, k: string)
    ensures KeySet(Bump(counts, k)) == KeySet(counts) + {k}
    decreases |counts|
  {
    var r := Bump(counts, k);
    if |counts| > 0 {
      assert KeySet(counts) == {counts[0].key} + KeySet(counts[1..]) by {
        assert forall i :: 1 <= i < |counts| ==> counts[i] == counts[1..][i - 1];
      }
      assert KeySet(r) == {r[0].key} + KeySet(r[1..]) by {
        assert forall i :: 1 <= i < |r| ==> r[i] == r[1..][i - 1];
      }
      if counts[0].key != k {
        BumpKeys(counts[1..], k);
        assert r[1..] == Bump(counts[1..], k);
      } else {
        assert r[1..] == counts[1..];
      }
    }
  }

  lemma {:induction false} BumpDistinct(counts: seq<Count>, k: string)
    requires KeysDistinct(counts)
    ensures KeysDistinct(Bump(counts, k))
    decreases |counts|
  {
    var r := Bump(counts, k);
    if |counts| > 0 && counts[0].key != k {
      var rest := Bump(counts[1..], k);
      BumpDistinct(counts[1..], k);
      BumpKeys(counts[1..], k);
      assert r[1..] == rest;
      assert counts[0].key !in KeySet(counts[1..]) by {
        assert forall i :: 0 <= i < |counts[1..]| ==> counts[1..][i] == counts[i + 1];
      }
      assert forall i :: 1 <= i < |r| ==> r[i] == rest[i - 1] && r[i].key in KeySet(rest);
    } else if |counts| > 0 {
      assert forall i :: 1 <= i < |r| ==> r[i] == counts[i];
    }
  }

  /** The counts of a list of keys. */
  function CountBy(keys: seq<string>): (r: seq<Count>)
    ensures KeysDistinct(r)
    ensures forall k :: CountOf(r, k) == multiset(keys)[k]
    ensures Total(r) == |keys|
    decreases |keys|
  {
    if |keys| == 0 then []
    else
      var init, last := keys[..|keys| - 1], keys[|keys| - 1];
      assert keys == init + [last];
      var prior := CountBy(init);
      BumpTotal(prior, last);
      BumpDistinct(prior, last);
      forall j ensures CountOf(Bump(prior, last), j) == multiset(keys)[j] {
        BumpCount(prior, last, j);
      }
      Bump(prior, last)
  }

  function LevelsOf(logs: seq<Entry>): (r: seq<string>)
    ensures |r| == |logs| && forall i :: 0 <= i < |logs| ==> r[i] == logs[i].level
  {
    seq(|logs|, i requires 0 <= i < |logs| => logs[i].level)
  }

  function CategoriesOf(logs: seq<Entry>): (r: seq<string>)
    ensures |r| == |logs| && forall i :: 0 <= i < |logs| ==> r[i] == logs[i].category
  {
    seq(|logs|, i requires 0 <= i < |logs| => logs[i].category)
  }

  datatype Stats = Stats(totalLogs: nat, sessionId: string, uptime: int, byLevel: seq<Count>, byCategory: seq<Count>)

  /** `getStats()`: the total is the buffer's size and equals the sum of
      the per-level counts and of the per-category counts; each count is
      the number of entries with that level or category. */
  function GetStats(lg: Logger, c: Clock): (r: Stats)
    ensures r.totalLogs == |lg.logs| == Total(r.byLevel) == Total(r.byCategory)
    ensures forall k :: CountOf(r.byLevel, k) == multiset(LevelsOf(lg.logs))[k]
    ensures forall k :: CountOf(r.byCategory, k) == multiset(CategoriesOf(lg.logs))[k]
    ensures r.uptime == c.now - lg.startTime
  {
    Stats(|lg.logs|, lg.sessionId, c.now - lg.startTime, CountBy(LevelsOf(lg.logs)), CountBy(CategoriesOf(lg.logs)))
  }

  // ---------------------------------------------------------------------
  // Timers

  datatype Timer = Timer(name: string, startTime: int)

  function StartTimer(c: Clock, name: string): Timer {
    Timer(name, c.now)
  }

  /** `startTimer(label).end()` as written: the duration is measured from
      the logger's start, not the timer's. */
  function TimerEndAsWritten(lg: Logger, t: Timer, c: Clock): (r: (Logger, int))
    ensures r.1 == c.now - lg.startTime
  {
    var d := c.now - lg.startTime;
    (Log(lg, c, "PERF", t.name, t.name + " completed", Some("{\"duration_ms\":" + IntToString(d) + "}")).0, d)
  }

  /** A timer started after the logger reports more than the time it
      ran. */
  lemma TimerEndOverstates(lg: Logger, c0: Clock, c1: Clock, name: string)
    requires lg.startTime < c0.now <= c1.now
    ensures TimerEndAsWritten(lg, StartTimer(c0, name), c1).1 > c1.now - StartTimer(c0, name).startTime
  {
  }

  /** The timer as intended: the duration is the time since the timer
      started. */
  function TimerEnd(lg: Logger, t: Timer, c: Clock): (r: (Logger, int))
    ensures r.1 == c.now - t.startTime
    ensures |r.0.logs| > 0 && r.0.logs[|r.0.logs| - 1].level == "PERF"
  {
    var d := c.now - t.startTime;
    (Log(lg, c, "PERF", t.name, t.name + " completed", Some("{\"duration_ms\":" + IntToString(d) + "}")).0, d)
  }

}

=== FILE: dev_server.dfy ===
/** The development server: the launch, install, remove and listing
    endpoints of the main server, the same static file branch, and a root
    found by stripping `\ParrotOrganizer\scripts` from the folder it runs
    in. */
module DevServer {
  import opened Wrappers
  import opened Text
  import Server
  import StaticFiles

  /** The folder tail the root is found under, in lower case. */
  const ScriptsTail := "\\parrotorganizer\\scripts"

  /** `dir.replace(/\\ParrotOrganizer\\scripts$/i, '')` */
  function DevRoot(dir: string): (r: string)
    ensures IsPrefix(r, dir)
    ensures r == dir || (|r| == |dir| - |ScriptsTail| && Lower(dir[|r|..]) == ScriptsTail)
  {
    var n := |ScriptsTail|;
    if |dir| >= n && Lower(dir[|dir| - n..]) == ScriptsTail then dir[..|dir| - n] else dir
  }

  lemma LowerAppend(a: string, b: string)
    ensures Lower(a + b) == Lower(a) + Lower(b)
  {
  }

  lemma DevRootStrips(q: string, tail: string)
    requires Lower(tail) == ScriptsTail
    ensures DevRoot(q + tail) == q
  {
    var p := q + tail;
    assert p[|p| - |ScriptsTail|..] == tail;
    assert p[..|p| - |ScriptsTail|] == q;
  }

  lemma ScriptsTailPieces()
    ensures Lower("\\") == "\\"
    ensures ("\\" + "parrotorganizer") + ("\\" + "scripts") == ScriptsTail
  {
  }

  lemma ScriptsTailOf(app: string, scripts: string)
    requires Lower(app) == "parrotorganizer" && Lower(scripts) == "scripts"
    ensures Lower("\\" + app + ("\\" + scripts)) == ScriptsTail
  {
    LowerAppend("\\" + app, "\\" + scripts);
    LowerAppend("\\", app);
    LowerAppend("\\", scripts);
    ScriptsTailPieces();
  }

  /** Run from `<root>\ParrotOrganizer\scripts`, in any letter case, the
      server serves `<root>`. */
  lemma DevRootOfInstall(drive: string, dirs: seq<string>, app: string, scripts: string)
    requires Lower(app) == "parrotorganizer" && Lower(scripts) == "scripts"
    ensures DevRoot(StaticFiles.Path(drive, dirs + [app, scripts])) == StaticFiles.Path(drive, dirs)
  {
    var tail := "\\" + app + ("\\" + scripts);
    StaticFiles.TailAppend(dirs, [app, scripts]);
    assert [app, scripts][1..] == [scripts] && [scripts][1..] == [];
    assert StaticFiles.Tail([scripts]) == "\\" + scripts;
    assert StaticFiles.Tail([app, scripts]) == tail;
    assert StaticFiles.Path(drive, dirs + [app, scripts]) == StaticFiles.Path(drive, dirs) + tail;
    ScriptsTailOf(app, scripts);
    DevRootStrips(StaticFiles.Path(drive, dirs), tail);
  }

  // ---------------------------------------------------------------------
  // Routing
  // ---------------------------------------------------------------------

  /** The endpoints the development server answers. */
  const DevEndpoints: set<Server.Endpoint> :=
    {Server.LaunchProfile, Server.InstallProfile, Server.RemoveProfile, Server.ShutDown,
     Server.OpenEmulator, Server.GetLaunchStatus, Server.ListProfiles}

  /** The handler a request reaches on the development server, whatever
      its method. */
  function DevRoute(path: string): (r: Server.Endpoint)
    ensures r != Server.StaticFile ==> r in DevEndpoints && Server.PathOf(r) == path
  {
    if path == "/__launch" then Server.LaunchProfile
    else if path == "/__install" then Server.InstallProfile
    else if path == "/__remove" then Server.RemoveProfile
    else if path == "/__shutdown" then Server.ShutDown
    else if path == "/__openTeknoParrot" then Server.OpenEmulator
    else if path == "/__launchStatus" then Server.GetLaunchStatus
    else if path == "/__userProfiles" then Server.ListProfiles
    else Server.StaticFile
  }

  /** An endpoint of the development server is the main server's
      endpoint for the same request. */
  lemma DevRouteAgrees(path: string, post: bool)
    requires DevRoute(path) != Server.StaticFile
    ensures Server.Route(path, post) == DevRoute(path)
  {
    Server.RouteOf(DevRoute(path), post);
  }

  /** A request the main server answers from an endpoint the development
      server lacks (storage, custom profiles, logs) reaches the static
      branch there. */
  lemma DevServesFileInstead(path: string, post: bool)
    requires Server.Route(path, post) !in DevEndpoints
    ensures DevRoute(path) == Server.StaticFile
  {
    if DevRoute(path) != Server.StaticFile {
      DevRouteAgrees(path, post);
    }
  }

  // ---------------------------------------------------------------------
  // Handling a request
  // ---------------------------------------------------------------------

  /** A request: its path, its `profile` parameter, the raw URL and the
      result of `decodeURIComponent` on it (none when that throws). */
  datatype Request = Request(path: string, profile: Option<string>, url: string, decoded: Option<string>)

  /** What the server sees besides the request: the file map, the
      UserProfiles listing in directory order, whether starting the
      emulator throws, and whether it is running. */
  datatype World = World(fs: Server.Fs, entries: seq<string>, spawnThrows: bool, running: bool)

  /** A response: a JSON reply, the launch status, the profile list or a
      static file. */
  datatype Response =
    | Api(reply: Server.Reply)
    | Status(running: bool)
    | Listing(profiles: seq<string>)
    | File(answer: StaticFiles.Answer)

  /** The development server's answer to a request, and the file map
      afterwards; `drive` and `root` are the served root. */
  function Handle(w: World, drive: string, root: seq<string>, req: Request): (r: (Response, Server.Fs))
    ensures r.1 != w.fs ==> DevRoute(req.path) in {Server.InstallProfile, Server.RemoveProfile}
    ensures r.0.File? <==> DevRoute(req.path) == Server.StaticFile
    ensures r.0.File? ==> r.0.answer == StaticFiles.StaticAsWritten(drive, root, req.url, req.decoded)
  {
    match DevRoute(req.path)
    case LaunchProfile => (Api(Server.Launch(req.profile, w.spawnThrows).0), w.fs)
    case InstallProfile =>
      var (reply, fs) := Server.Install(w.fs, req.profile);
      (Api(reply), fs)
    case RemoveProfile =>
      var (reply, fs) := Server.Remove(w.fs, req.profile);
      (Api(reply), fs)
    case ShutDown => (Api(Server.Success(Server.NoPayload)), w.fs)
    case OpenEmulator =>
      (Api(if w.spawnThrows then Server.Fail(500, Server.SystemError) else Server.Success(Server.NoPayload)), w.fs)
    case GetLaunchStatus => (Status(w.running), w.fs)
    case ListProfiles =>
      (Listing(Server.ListUserProfiles(Server.UserProfiles in w.fs.folders, w.entries)), w.fs)
    case _ => (File(StaticFiles.StaticAsWritten(drive, root, req.url, req.decoded)), w.fs)
  }

  /** The listing reflects the UserProfiles folder. */
  predicate Listed(w: World) {
    Server.UserProfiles in w.fs.folders
    && (forall n :: n in w.entries ==> (Server.UserProfiles, n) in w.fs.files)
    && (forall k :: k in w.fs.files && k.0 == Server.UserProfiles ==> k.1 in w.entries)
  }

  lemma RouteInstall()
    ensures DevRoute("/__install") == Server.InstallProfile
  {
  }

  lemma RouteListing()
    ensures DevRoute("/__userProfiles") == Server.ListProfiles
  {
  }

  lemma HandleInstall(w: World, drive: string, root: seq<string>, req: Request)
    requires DevRoute(req.path) == Server.InstallProfile
    ensures Handle(w, drive, root, req)
         == (Api(Server.Install(w.fs, req.profile).0), Server.Install(w.fs, req.profile).1)
  {
  }

  lemma HandleListing(w: World, drive: string, root: seq<string>, req: Request)
    requires DevRoute(req.path) == Server.ListProfiles
    ensures Handle(w, drive, root, req)
         == (Listing(Server.ListUserProfiles(Server.UserProfiles in w.fs.folders, w.entries)), w.fs)
  {
  }

  /** A game the browser installs (it sends `<id>.xml`) is listed by id
      afterwards. */
  lemma InstallThenListed(w: World, drive: string, root: seq<string>, id: string, url: string, entries: seq<string>)
    requires id != ""
    requires Handle(w, drive, root, Request("/__install", Some(Server.XmlFile(id)), url, None)).0 == Api(Server.Success(Server.NoPayload))
    requires Listed(World(Handle(w, drive, root, Request("/__install", Some(Server.XmlFile(id)), url, None)).1, entries, w.spawnThrows, w.running))
    ensures
      var after := World(Handle(w, drive, root, Request("/__install", Some(Server.XmlFile(id)), url, None)).1, entries, w.spawnThrows, w.running);
      Handle(after, drive, root, Request("/__userProfiles", None, url, None)).0
        == Listing(Server.ListUserProfiles(true, entries))
      && id in Server.ListUserProfiles(true, entries)
  {
    var req := Request("/__install", Some(Server.XmlFile(id)), url, None);
    var list := Request("/__userProfiles", None, url, None);
    RouteInstall();
    RouteListing();
    HandleInstall(w, drive, root, req);
    var fs := Server.Install(w.fs, Some(Server.XmlFile(id))).1;
    var after := World(fs, entries, w.spawnThrows, w.running);
    HandleListing(after, drive, root, list);
    Server.StripXmlOf(id);
    assert (Server.UserProfiles, Server.XmlFile(id)) in fs.files;
    Server.InstalledListed(entries, id);
  }
}

=== FILE: filter_manager.dfy ===
/** The query engine: the filter record, the fixed pipeline of filters
    applied to the collection, and the final sort. */
module FilterManager {
  import opened Wrappers
  import opened Text
  import opened Seqs
  import opened GameModel
  import opened GameManager

  /** The eighteen filter fields.  Years are `null` or a number. */
  datatype FilterState = FilterState(
    search: string,
    status: string,
    genres: seq<string>,
    platforms: seq<string>,
    emulators: seq<string>,
    yearMin: Option<int>,
    yearMax: Option<int>,
    gpuNvidia: bool,
    gpuAmd: bool,
    gpuIntel: bool,
    subscriptionOnly: bool,
    favoritesOnly: bool,
    hasTestMode: bool,
    gunGame: bool,
    is64Bit: bool,
    requiresAdmin: bool,
    showHiddenGames: bool,
    hideSubscription: bool)

  /** The record the constructor and `clearAllFilters` install. */
  const DefaultFilters := FilterState("", "all", [], [], [], None, None,
    false, false, false, false, false, false, false, false, false, false, false)

  /** A FilterManager: its filter record and sort settings. */
  datatype Manager = Manager(filters: FilterState, sortBy: string, sortAscending: bool)

  const InitialManager := Manager(DefaultFilters, "name", true)

  /** JavaScript truthiness of a year filter: set and non-zero. */
  predicate YearSet(y: Option<int>) {
    y.Some? && y.value != 0
  }

  /** `yearFilter || fallback` */
  function YearOr(y: Option<int>, fallback: int): int {
    if YearSet(y) then y.value else fallback
  }

  // ---------------------------------------------------------------------
  // The filters, one predicate per stage
  // ---------------------------------------------------------------------

  predicate StatusOk(f: FilterState, g: Game) {
    (f.status == "installed" ==> g.isInstalled)
    && (f.status == "not-installed" ==> !g.isInstalled)
  }

  predicate GenreOk(f: FilterState, g: Game) {
    |f.genres| == 0 || GenreKey(g) in f.genres
  }

  predicate PlatformOk(f: FilterState, g: Game) {
    |f.platforms| == 0 || PlatformKey(g) in f.platforms
  }

  predicate EmulatorOk(f: FilterState, g: Game) {
    |f.emulators| == 0 || EmulatorKey(g) in f.emulators
  }

  predicate YearFilterOn(f: FilterState) {
    YearSet(f.yearMin) || YearSet(f.yearMax)
  }

  /** An unparseable year fails; otherwise `(yearMin || 0) <= year <=
      (yearMax || 9999)`. */
  predicate YearOk(f: FilterState, g: Game) {
    !YearFilterOn(f) ||
      match ParseInt(ReleaseYear(g))
      case None => false
      case Some(y) => YearOr(f.yearMin, 0) <= y <= YearOr(f.yearMax, 9999)
  }

  predicate GpuFilterOn(f: FilterState) {
    f.gpuNvidia || f.gpuAmd || f.gpuIntel
  }

  /** With metadata, some ticked vendor's field is exactly 'OK'. */
  predicate GpuOk(f: FilterState, g: Game) {
    !GpuFilterOn(f) ||
      (g.metadata.Some? &&
        ((f.gpuNvidia && g.metadata.value.nvidia == "OK")
         || (f.gpuAmd && g.metadata.value.amd == "OK")
         || (f.gpuIntel && g.metadata.value.intel == "OK")))
  }

  predicate Patreon(g: Game) {
    g.profile.Some? && g.profile.value.patreon
  }

  predicate SubscriptionOk(f: FilterState, g: Game) {
    (!f.subscriptionOnly || Patreon(g)) && (!f.hideSubscription || !Patreon(g))
  }

  predicate FavoriteOk(f: FilterState, favorites: set<string>, g: Game) {
    !f.favoritesOnly || g.id in favorites
  }

  /** The four advanced flags each demand the profile flag be true. */
  predicate AdvancedOk(f: FilterState, g: Game) {
    (!f.hasTestMode || (g.profile.Some? && g.profile.value.hasSeparateTestMode))
    && (!f.gunGame || (g.profile.Some? && g.profile.value.gunGame))
    && (!f.is64Bit || (g.profile.Some? && g.profile.value.is64Bit))
    && (!f.requiresAdmin || (g.profile.Some? && g.profile.value.requiresAdmin))
  }

  /** Reference definition: what a game must satisfy to survive every stage
      after the search. */
  predicate Keep(f: FilterState, favorites: set<string>, g: Game) {
    StatusOk(f, g) && GenreOk(f, g) && PlatformOk(f, g) && EmulatorOk(f, g)
    && YearOk(f, g) && GpuOk(f, g) && SubscriptionOk(f, g)
    && FavoriteOk(f, favorites, g) && AdvancedOk(f, g)
  }

  /** `games.filter(g => !hiddenGamesManager.isHidden(g.id))` */
  function WithoutHidden(all: seq<Game>, hidden: set<string>): (r: seq<Game>)
    ensures SubseqOf(r, all)
    decreases |all|
  {
    if |all| == 0 then []
    else
      var rest := WithoutHidden(all[1..], hidden);
      if all[0].id !in hidden then
        [all[0]] + rest
      else
        SubseqSkip(rest, all[1..], all[0]);
        assert [all[0]] + all[1..] == all;
        rest
  }

  /** The visible games are the listed games whose ids are not hidden. */
  lemma {:induction false} WithoutHiddenMembers(all: seq<Game>, hidden: set<string>, g: Game)
    ensures g in WithoutHidden(all, hidden) <==> g in all && g.id !in hidden
    decreases |all|
  {
    if |all| > 0 {
      WithoutHiddenMembers(all[1..], hidden, g);
      assert g in all <==> g == all[0] || g in all[1..];
    }
  }

  /** When no listed game is hidden, nothing is dropped. */
  lemma {:induction false} NothingHidden(all: seq<Game>, hidden: set<string>)
    requires forall i :: 0 <= i < |all| ==> all[i].id !in hidden
    ensures WithoutHidden(all, hidden) == all
    decreases |all|
  {
    if |all| > 0 {
      NothingHidden(all[1..], hidden);
      assert [all[0]] + all[1..] == all;
    }
  }

  /** The working list before the per-game stages: an active search replaces
      it with a search over the whole collection, so hidden games come back;
      otherwise hidden games are dropped unless shown. */
  function Base(all: seq<Game>, f: FilterState, hidden: set<string>): seq<Game> {
    if ActiveQuery(f.search) then SearchGames(all, f.search)
    else if !f.showHiddenGames then WithoutHidden(all, hidden)
    else all
  }

  /** The per-game stages of `applyFilters`, in the source's order. */
  datatype StageName =
    | StatusStage | GenreStage | PlatformStage | EmulatorStage | YearStage | GpuStage
    | SubscriptionOnlyStage | HideSubscriptionStage | FavoritesStage
    | TestModeStage | GunGameStage | Is64BitStage | RequiresAdminStage

  const Stages: seq<StageName> := [StatusStage, GenreStage, PlatformStage, EmulatorStage,
    YearStage, GpuStage, SubscriptionOnlyStage, HideSubscriptionStage, FavoritesStage,
    TestModeStage, GunGameStage, Is64BitStage, RequiresAdminStage]

  /** The stages before the favorites stage, and those after it. */
  const EarlyStages: seq<StageName> := [StatusStage, GenreStage, PlatformStage, EmulatorStage,
    YearStage, GpuStage, SubscriptionOnlyStage, HideSubscriptionStage]
  const LateStages: seq<StageName> := [TestModeStage, GunGameStage, Is64BitStage, RequiresAdminStage]

  lemma StagesSplit()
    ensures Stages == EarlyStages + [FavoritesStage] + LateStages
    ensures forall i :: 0 <= i < |EarlyStages| ==> EarlyStages[i] != FavoritesStage
    ensures forall i :: 0 <= i < |LateStages| ==> LateStages[i] != FavoritesStage
  {
  }

  /** The `if` guarding a stage. */
  predicate StageOn(f: FilterState, st: StageName) {
    match st
    case StatusStage => f.status == "installed" || f.status == "not-installed"
    case GenreStage => |f.genres| > 0
    case PlatformStage => |f.platforms| > 0
    case EmulatorStage => |f.emulators| > 0
    case YearStage => YearFilterOn(f)
    case GpuStage => GpuFilterOn(f)
    case SubscriptionOnlyStage => f.subscriptionOnly
    case HideSubscriptionStage => f.hideSubscription
    case FavoritesStage => f.favoritesOnly
    case TestModeStage => f.hasTestMode
    case GunGameStage => f.gunGame
    case Is64BitStage => f.is64Bit
    case RequiresAdminStage => f.requiresAdmin
  }

  /** The callback a stage filters with. */
  predicate StagePass(f: FilterState, favorites: set<string>, st: StageName, g: Game) {
    match st
    case StatusStage => if f.status == "installed" then g.isInstalled else !g.isInstalled
    case GenreStage => GenreKey(g) in f.genres
    case PlatformStage => PlatformKey(g) in f.platforms
    case EmulatorStage => EmulatorKey(g) in f.emulators
    case YearStage => YearOk(f, g)
    case GpuStage => GpuOk(f, g)
    case SubscriptionOnlyStage => Patreon(g)
    case HideSubscriptionStage => !Patreon(g)
    case FavoritesStage => g.id in favorites
    case TestModeStage => g.profile.Some? && g.profile.value.hasSeparateTestMode
    case GunGameStage => g.profile.Some? && g.profile.value.gunGame
    case Is64BitStage => g.profile.Some? && g.profile.value.is64Bit
    case RequiresAdminStage => g.profile.Some? && g.profile.value.requiresAdmin
  }

  /** A game gets through a stage when the stage is off or accepts it. */
  predicate Admits(f: FilterState, favorites: set<string>, st: StageName, g: Game) {
    !StageOn(f, st) || StagePass(f, favorites, st, g)
  }

  /** `games.filter(callback)` for one stage. */
  function FilterStage(s: seq<Game>, f: FilterState, favorites: set<string>, st: StageName): (r: seq<Game>)
    ensures SubseqOf(r, s)
    decreases |s|
  {
    if |s| == 0 then []
    else
      var rest := FilterStage(s[1..], f, favorites, st);
      if StagePass(f, favorites, st, s[0]) then
        [s[0]] + rest
      else
        SubseqSkip(rest, s[1..], s[0]);
        assert [s[0]] + s[1..] == s;
        rest
  }

  /** The games a stage's filter keeps are the listed games its callback
      accepts. */
  lemma {:induction false} FilterStageMembers(s: seq<Game>, f: FilterState, favorites: set<string>,
                                              st: StageName, g: Game)
    ensures g in FilterStage(s, f, favorites, st) <==> g in s && StagePass(f, favorites, st, g)
    decreases |s|
  {
    if |s| > 0 {
      FilterStageMembers(s[1..], f, favorites, st, g);
      assert g in s <==> g == s[0] || g in s[1..];
    }
  }

  /** A stage's filter depends only on its callback's verdicts. */
  lemma {:induction false} FilterStageCongruent(s: seq<Game>, f1: FilterState, fav1: set<string>,
                                                f2: FilterState, fav2: set<string>, st: StageName)
    requires forall g :: StagePass(f1, fav1, st, g) <==> StagePass(f2, fav2, st, g)
    ensures FilterStage(s, f1, fav1, st) == FilterStage(s, f2, fav2, st)
    decreases |s|
  {
    if |s| > 0 {
      FilterStageCongruent(s[1..], f1, fav1, f2, fav2, st);
    }
  }

  /** `if (guard) games = games.filter(callback)` */
  function RunStage(s: seq<Game>, f: FilterState, favorites: set<string>, st: StageName): (r: seq<Game>)
    ensures SubseqOf(r, s)
    ensures !StageOn(f, st) ==> r == s
  {
    if StageOn(f, st) then FilterStage(s, f, favorites, st)
    else
      SubseqRefl(s);
      s
  }

  /** The stages run one after another. */
  function RunStages(s: seq<Game>, f: FilterState, favorites: set<string>, stages: seq<StageName>): (r: seq<Game>)
    ensures SubseqOf(r, s)
    decreases |stages|
  {
    if |stages| == 0 then
      SubseqRefl(s);
      s
    else
      var first := RunStage(s, f, favorites, stages[0]);
      var r := RunStages(first, f, favorites, stages[1..]);
      SubseqTrans(r, first, s);
      r
  }

  /** A game survives the stages exactly when it was listed and every stage
      admits it. */
  lemma {:induction false} RunStagesMembers(s: seq<Game>, f: FilterState, favorites: set<string>,
                                            stages: seq<StageName>, g: Game)
    ensures g in RunStages(s, f, favorites, stages)
        <==> g in s && forall i :: 0 <= i < |stages| ==> Admits(f, favorites, stages[i], g)
    decreases |stages|
  {
    if |stages| > 0 {
      var first := RunStage(s, f, favorites, stages[0]);
      RunStagesMembers(first, f, favorites, stages[1..], g);
      if StageOn(f, stages[0]) {
        FilterStageMembers(s, f, favorites, stages[0], g);
      }
      assert forall i :: 1 <= i < |stages| ==> stages[i] == stages[1..][i - 1];
    }
  }

  /** A game the reference predicate keeps is admitted by every stage. */
  lemma StagesAdmitKept(f: FilterState, favorites: set<string>, g: Game)
    requires Keep(f, favorites, g)
    ensures forall i :: 0 <= i < |Stages| ==> Admits(f, favorites, Stages[i], g)
  {
    forall i | 0 <= i < |Stages| ensures Admits(f, favorites, Stages[i], g) {
      if i < 3 {
      } else if i < 6 {
      } else if i < 9 {
      } else {
      }
    }
  }

  /** What the first five stages' admission means in terms of the
      reference predicates. */
  lemma AdmitsMeaningLists(f: FilterState, favorites: set<string>, g: Game)
    ensures Admits(f, favorites, StatusStage, g) <==> StatusOk(f, g)
    ensures Admits(f, favorites, GenreStage, g) <==> GenreOk(f, g)
    ensures Admits(f, favorites, PlatformStage, g) <==> PlatformOk(f, g)
    ensures Admits(f, favorites, EmulatorStage, g) <==> EmulatorOk(f, g)
    ensures Admits(f, favorites, YearStage, g) <==> YearOk(f, g)
  {
  }

  /** What the remaining stages' admission means in terms of the reference
      predicates. */
  lemma AdmitsMeaningFlags(f: FilterState, favorites: set<string>, g: Game)
    ensures Admits(f, favorites, GpuStage, g) <==> GpuOk(f, g)
    ensures Admits(f, favorites, SubscriptionOnlyStage, g) && Admits(f, favorites, HideSubscriptionStage, g)
        <==> SubscriptionOk(f, g)
    ensures Admits(f, favorites, FavoritesStage, g) <==> FavoriteOk(f, favorites, g)
    ensures Admits(f, favorites, TestModeStage, g) && Admits(f, favorites, GunGameStage, g)
        && Admits(f, favorites, Is64BitStage, g) && Admits(f, favorites, RequiresAdminStage, g)
        <==> AdvancedOk(f, g)
  {
  }

  /** A game every stage admits is kept by the reference predicate. */
  lemma AdmittedKept(f: FilterState, favorites: set<string>, g: Game)
    requires forall i :: 0 <= i < |Stages| ==> Admits(f, favorites, Stages[i], g)
    ensures Keep(f, favorites, g)
  {
    assert StatusOk(f, g) && GenreOk(f, g) && PlatformOk(f, g) && EmulatorOk(f, g) && YearOk(f, g) by {
      assert Admits(f, favorites, Stages[0], g) && Admits(f, favorites, Stages[1], g)
        && Admits(f, favorites, Stages[2], g) && Admits(f, favorites, Stages[3], g)
        && Admits(f, favorites, Stages[4], g);
      AdmitsMeaningLists(f, favorites, g);
    }
    assert GpuOk(f, g) && SubscriptionOk(f, g) && FavoriteOk(f, favorites, g) && AdvancedOk(f, g) by {
      assert Admits(f, favorites, Stages[5], g) && Admits(f, favorites, Stages[6], g)
        && Admits(f, favorites, Stages[7], g) && Admits(f, favorites, Stages[8], g)
        && Admits(f, favorites, Stages[9], g) && Admits(f, favorites, Stages[10], g)
        && Admits(f, favorites, Stages[11], g) && Admits(f, favorites, Stages[12], g);
      AdmitsMeaningFlags(f, favorites, g);
    }
  }

  /** The filtered list before sorting: a subsequence of the base list. */
  function Selected(all: seq<Game>, f: FilterState, hidden: set<string>, favorites: set<string>): (r: seq<Game>)
    ensures SubseqOf(r, Base(all, f, hidden))
  {
    RunStages(Base(all, f, hidden), f, favorites, Stages)
  }

  /** The selected games are exactly the base games that `Keep` accepts. */
  lemma SelectedMembers(all: seq<Game>, f: FilterState, hidden: set<string>, favorites: set<string>, g: Game)
    ensures g in Selected(all, f, hidden, favorites) <==> g in Base(all, f, hidden) && Keep(f, favorites, g)
  {
    RunStagesMembers(Base(all, f, hidden), f, favorites, Stages, g);
    if Keep(f, favorites, g) {
      StagesAdmitKept(f, favorites, g);
    } else if forall i :: 0 <= i < |Stages| ==> Admits(f, favorites, Stages[i], g) {
      AdmittedKept(f, favorites, g);
    }
  }

  /** `applyFilters()`: the selected games sorted by the manager's sort
      settings; a permutation of a subsequence of the base list. */
  function ApplyFilters(all: seq<Game>, m: Manager, hidden: set<string>, favorites: set<string>): (r: seq<Game>)
    ensures multiset(r) == multiset(Selected(all, m.filters, hidden, favorites))
    ensures multiset(r) <= multiset(Base(all, m.filters, hidden))
    ensures Sorted(r, m.sortBy, m.sortAscending)
  {
    var sel := Selected(all, m.filters, hidden, favorites);
    SubseqMultiset(sel, Base(all, m.filters, hidden));
    SortGames(sel, m.sortBy, m.sortAscending)
  }

  /** The games `applyFilters()` returns are exactly the base games that
      pass every stage. */
  lemma ApplyFiltersMembers(all: seq<Game>, m: Manager, hidden: set<string>, favorites: set<string>, g: Game)
    ensures g in ApplyFilters(all, m, hidden, favorites)
        <==> g in Base(all, m.filters, hidden) && Keep(m.filters, favorites, g)
  {
    var r := ApplyFilters(all, m, hidden, favorites);
    assert g in r <==> g in multiset(r);
    SelectedMembers(all, m.filters, hidden, favorites, g);
  }

  // ---------------------------------------------------------------------
  // Properties of the pipeline
  // ---------------------------------------------------------------------

  /** Stages that are all switched off pass the list through. */
  lemma {:induction false} StagesOff(s: seq<Game>, f: FilterState, favorites: set<string>, stages: seq<StageName>)
    requires forall i :: 0 <= i < |stages| ==> !StageOn(f, stages[i])
    ensures RunStages(s, f, favorites, stages) == s
    decreases |stages|
  {
    if |stages| > 0 {
      StagesOff(s, f, favorites, stages[1..]);
    }
  }

  /** Every stage is off under the default filter record. */
  lemma DefaultStagesOff()
    ensures forall i :: 0 <= i < |Stages| ==> !StageOn(DefaultFilters, Stages[i])
  {
    forall i | 0 <= i < |Stages| ensures !StageOn(DefaultFilters, Stages[i]) {
      if i < 4 {
      } else if i < 8 {
      } else {
      }
    }
  }

  /** The default filter record has no search, hides hidden games and
      switches every stage off. */
  lemma DefaultFiltersOff()
    ensures !ActiveQuery(DefaultFilters.search) && !DefaultFilters.showHiddenGames
    ensures forall i :: 0 <= i < |Stages| ==> !StageOn(DefaultFilters, Stages[i])
  {
    DefaultStagesOff();
    ActiveQueryNotBlank("");
  }

  /** With no search, hidden games hidden and every stage off, the
      selection is the non-hidden games. */
  lemma StagesOffSelected(all: seq<Game>, f: FilterState, hidden: set<string>, favorites: set<string>)
    requires !ActiveQuery(f.search) && !f.showHiddenGames
    requires forall i :: 0 <= i < |Stages| ==> !StageOn(f, Stages[i])
    ensures Selected(all, f, hidden, favorites) == WithoutHidden(all, hidden)
  {
    StagesOff(Base(all, f, hidden), f, favorites, Stages);
  }

  /** With the default filter record the selection is the non-hidden games. */
  lemma DefaultSelected(all: seq<Game>, hidden: set<string>, favorites: set<string>)
    ensures Selected(all, DefaultFilters, hidden, favorites) == WithoutHidden(all, hidden)
  {
    DefaultFiltersOff();
    StagesOffSelected(all, DefaultFilters, hidden, favorites);
  }

  /** With the default filter record the result is the non-hidden games
      sorted by the manager's sort settings (by name, ascending, for a new
      manager). */
  lemma DefaultFiltersResult(all: seq<Game>, sortBy: string, ascending: bool,
                             hidden: set<string>, favorites: set<string>)
    ensures ApplyFilters(all, Manager(DefaultFilters, sortBy, ascending), hidden, favorites)
         == SortGames(WithoutHidden(all, hidden), sortBy, ascending)
  {
    DefaultSelected(all, hidden, favorites);
  }

  lemma InitialManagerResult(all: seq<Game>, hidden: set<string>, favorites: set<string>)
    ensures ApplyFilters(all, InitialManager, hidden, favorites)
         == SortGames(WithoutHidden(all, hidden), "name", true)
  {
    DefaultFiltersResult(all, "name", true, hidden, favorites);
  }

  /** An active search ignores the hidden set: hidden games reappear. */
  lemma SearchIgnoresHidden(all: seq<Game>, m: Manager, hidden1: set<string>,
                            hidden2: set<string>, favorites: set<string>)
    requires ActiveQuery(m.filters.search)
    ensures ApplyFilters(all, m, hidden1, favorites) == ApplyFilters(all, m, hidden2, favorites)
  {
    assert Base(all, m.filters, hidden1) == Base(all, m.filters, hidden2);
  }

  /** A whitespace-only search is the same as no search. */
  lemma BlankSearchIgnored(all: seq<Game>, m: Manager, hidden: set<string>, favorites: set<string>)
    requires !ActiveQuery(m.filters.search)
    ensures ApplyFilters(all, m, hidden, favorites)
         == ApplyFilters(all, m.(filters := m.filters.(search := "")), hidden, favorites)
  {
    var f2 := m.filters.(search := "");
    BaseIgnoresBlankSearch(all, m.filters, hidden);
    StagesIgnoreSearch(Base(all, m.filters, hidden), m.filters, f2, favorites, Stages);
    SameSelectionSameView(all, m, m.(filters := f2), hidden, favorites);
  }

  lemma BaseIgnoresBlankSearch(all: seq<Game>, f: FilterState, hidden: set<string>)
    requires !ActiveQuery(f.search)
    ensures Base(all, f, hidden) == Base(all, f.(search := ""), hidden)
  {
    assert Trim("") == "";
  }

  /** Two managers with the same sort that select the same games show the
      same list. */
  lemma SameSelectionSameView(all: seq<Game>, m: Manager, m2: Manager, hidden: set<string>, favorites: set<string>)
    requires Selected(all, m.filters, hidden, favorites) == Selected(all, m2.filters, hidden, favorites)
    requires m.sortBy == m2.sortBy && m.sortAscending == m2.sortAscending
    ensures ApplyFilters(all, m, hidden, favorites) == ApplyFilters(all, m2, hidden, favorites)
  {
  }

  /** Asking for subscription games only while hiding them leaves nothing. */
  lemma SubscriptionContradiction(all: seq<Game>, m: Manager, hidden: set<string>, favorites: set<string>)
    requires m.filters.subscriptionOnly && m.filters.hideSubscription
    ensures ApplyFilters(all, m, hidden, favorites) == []
  {
    var r := ApplyFilters(all, m, hidden, favorites);
    forall g ensures g !in r {
      ApplyFiltersMembers(all, m, hidden, favorites, g);
    }
    NoMembersEmpty(r);
  }

  /** No stage looks at the search text. */
  lemma StageIgnoresSearch(f1: FilterState, f2: FilterState, favorites: set<string>, st: StageName)
    requires f2 == f1.(search := f2.search)
    ensures StageOn(f1, st) == StageOn(f2, st)
    ensures forall g :: StagePass(f1, favorites, st, g) == StagePass(f2, favorites, st, g)
  {
    forall g ensures StagePass(f1, favorites, st, g) == StagePass(f2, favorites, st, g) {
      match st
      case YearStage => assert YearOk(f1, g) == YearOk(f2, g);
      case GpuStage => assert GpuOk(f1, g) == GpuOk(f2, g);
      case _ =>
    }
  }

  /** The per-game stages never look at the search text. */
  lemma {:induction false} StagesIgnoreSearch(s: seq<Game>, f1: FilterState, f2: FilterState,
                                              favorites: set<string>, stages: seq<StageName>)
    requires f2 == f1.(search := f2.search)
    ensures RunStages(s, f1, favorites, stages) == RunStages(s, f2, favorites, stages)
    decreases |stages|
  {
    if |stages| > 0 {
      StageIgnoresSearch(f1, f2, favorites, stages[0]);
      FilterStageCongruent(s, f1, favorites, f2, favorites, stages[0]);
      StagesIgnoreSearch(RunStage(s, f1, favorites, stages[0]), f1, f2, favorites, stages[1..]);
    }
  }

  /** Survivors of an active year filter have a year that parses and lies
      within the (defaulted) bounds. */
  lemma YearFilterBounds(all: seq<Game>, m: Manager, hidden: set<string>, favorites: set<string>, g: Game)
    requires YearFilterOn(m.filters)
    requires g in ApplyFilters(all, m, hidden, favorites)
    ensures ParseInt(ReleaseYear(g)).Some?
    ensures YearOr(m.filters.yearMin, 0) <= ParseInt(ReleaseYear(g)).value <= YearOr(m.filters.yearMax, 9999)
  {
    ApplyFiltersMembers(all, m, hidden, favorites, g);
  }

  /** With no GPU box ticked, the GPU stage keeps every game; with one
      ticked, a game without metadata never survives. */
  lemma GpuFilterNeutral(f: FilterState, g: Game)
    ensures !GpuFilterOn(f) ==> GpuOk(f, g)
    ensures GpuFilterOn(f) && g.metadata.None? ==> !GpuOk(f, g)
  {
  }

  /** An empty genre/platform/emulator list is no constraint. */
  lemma EmptyListsNoConstraint(f: FilterState, g: Game)
    requires |f.genres| == 0 && |f.platforms| == 0 && |f.emulators| == 0
    ensures GenreOk(f, g) && PlatformOk(f, g) && EmulatorOk(f, g)
  {
  }

  // ---------------------------------------------------------------------
  // The application's wiring
  // ---------------------------------------------------------------------

  /** The message of the TypeError the browser raises when `favoritesOnly`
      calls a method the hidden-games manager does not have. */
  const IsFavoriteMissing := "this.preferencesManager.isFavorite is not a function"

  /** `applyFilters()` as the application wires it: the manager's only
      preferences slot holds the hidden-games manager, which answers
      `isHidden` but has no `isFavorite`.  The favorites stage therefore
      throws as soon as it has a game to test. */
  function ApplyFiltersAsWired(all: seq<Game>, m: Manager, hidden: set<string>): (r: Result<seq<Game>, string>)
    ensures r.Err? <==> m.filters.favoritesOnly && |RunStages(Base(all, m.filters, hidden), m.filters, {}, EarlyStages)| > 0
  {
    var early := RunStages(Base(all, m.filters, hidden), m.filters, {}, EarlyStages);
    if m.filters.favoritesOnly && |early| > 0 then Err(IsFavoriteMissing)
    else Ok(SortGames(RunStages(early, m.filters, {}, LateStages), m.sortBy, m.sortAscending))
  }

  /** Running a list of stages in two parts is running it whole. */
  lemma {:induction false} RunStagesAppend(s: seq<Game>, f: FilterState, favorites: set<string>,
                                           a: seq<StageName>, b: seq<StageName>)
    ensures RunStages(RunStages(s, f, favorites, a), f, favorites, b) == RunStages(s, f, favorites, a + b)
    decreases |a|
  {
    if |a| > 0 {
      RunStagesAppend(RunStage(s, f, favorites, a[0]), f, favorites, a[1..], b);
      assert (a + b)[1..] == a[1..] + b;
    } else {
      assert a + b == b;
    }
  }

  /** Stages that never consult the favorites give the same result for any
      favorites set. */
  lemma {:induction false} StagesIgnoreFavorites(s: seq<Game>, f: FilterState, fav1: set<string>,
                                                 fav2: set<string>, stages: seq<StageName>)
    requires forall i :: 0 <= i < |stages| ==> stages[i] != FavoritesStage
    ensures RunStages(s, f, fav1, stages) == RunStages(s, f, fav2, stages)
    decreases |stages|
  {
    if |stages| > 0 {
      FilterStageCongruent(s, f, fav1, f, fav2, stages[0]);
      StagesIgnoreFavorites(RunStage(s, f, fav1, stages[0]), f, fav1, fav2, stages[1..]);
    }
  }

  /** The intended pipeline, run in the three parts the wiring separates. */
  lemma SelectedInParts(all: seq<Game>, f: FilterState, hidden: set<string>, favorites: set<string>)
    ensures Selected(all, f, hidden, favorites)
         == RunStages(RunStage(RunStages(Base(all, f, hidden), f, favorites, EarlyStages),
                               f, favorites, FavoritesStage), f, favorites, LateStages)
  {
    var base := Base(all, f, hidden);
    StagesSplit();
    RunStagesAppend(base, f, favorites, EarlyStages + [FavoritesStage], LateStages);
    RunStagesAppend(base, f, favorites, EarlyStages, [FavoritesStage]);
    var early := RunStages(base, f, favorites, EarlyStages);
    assert [FavoritesStage][1..] == [];
    assert RunStages(early, f, favorites, [FavoritesStage]) == RunStage(early, f, favorites, FavoritesStage);
  }

  lemma PartsSkipFavorites()
    ensures forall i :: 0 <= i < |EarlyStages| ==> EarlyStages[i] != FavoritesStage
    ensures forall i :: 0 <= i < |LateStages| ==> LateStages[i] != FavoritesStage
  {
  }

  /** Without the favorites filter, the selection is the early and late
      stages run with any favorites set. */
  lemma SelectedWithoutFavorites(all: seq<Game>, f: FilterState, hidden: set<string>, favorites: set<string>)
    requires !f.favoritesOnly
    ensures Selected(all, f, hidden, favorites)
         == RunStages(RunStages(Base(all, f, hidden), f, {}, EarlyStages), f, {}, LateStages)
  {
    SelectedInParts(all, f, hidden, favorites);
    PartsSkipFavorites();
    SkipFavoritesStage(Base(all, f, hidden), f, favorites, EarlyStages, LateStages);
  }

  lemma FavoritesStageOff(s: seq<Game>, f: FilterState, favorites: set<string>)
    requires !f.favoritesOnly
    ensures RunStage(s, f, favorites, FavoritesStage) == s
  {
  }

  /** With the favorites filter off, the favorites stage passes its input
      on, and the stages around it do not look at the favorites. */
  lemma SkipFavoritesStage(base: seq<Game>, f: FilterState, favorites: set<string>,
                           early: seq<StageName>, late: seq<StageName>)
    requires !f.favoritesOnly
    requires forall i :: 0 <= i < |early| ==> early[i] != FavoritesStage
    requires forall i :: 0 <= i < |late| ==> late[i] != FavoritesStage
    ensures RunStages(RunStage(RunStages(base, f, favorites, early), f, favorites, FavoritesStage), f, favorites, late)
         == RunStages(RunStages(base, f, {}, early), f, {}, late)
  {
    var mid := RunStages(base, f, favorites, early);
    FavoritesStageOff(mid, f, favorites);
    StagesIgnoreFavorites(base, f, {}, favorites, early);
    StagesIgnoreFavorites(mid, f, {}, favorites, late);
  }

  /** Without the favorites filter, the wiring makes no difference. */
  lemma AsWiredAgreesWithoutFavorites(all: seq<Game>, m: Manager, hidden: set<string>, favorites: set<string>)
    requires !m.filters.favoritesOnly
    ensures ApplyFiltersAsWired(all, m, hidden) == Ok(ApplyFilters(all, m, hidden, favorites))
  {
    SelectedWithoutFavorites(all, m.filters, hidden, favorites);
  }

  /** A single visible game and the favorites filter on: the wired manager
      throws. */
  lemma AsWiredFavoritesThrows(g: Game, sortBy: string, ascending: bool)
    ensures ApplyFiltersAsWired([g], Manager(DefaultFilters.(favoritesOnly := true), sortBy, ascending), {}).Err?
  {
    var f := DefaultFilters.(favoritesOnly := true);
    forall i | 0 <= i < |EarlyStages| ensures !StageOn(f, EarlyStages[i]) {
      if i < 4 {
      } else {
      }
    }
    ActiveQueryNotBlank("");
    EarlyOffFavoritesThrows(g, Manager(f, sortBy, ascending));
  }

  lemma EarlyOffFavoritesThrows(g: Game, m: Manager)
    requires m.filters.favoritesOnly && !ActiveQuery(m.filters.search) && !m.filters.showHiddenGames
    requires forall i :: 0 <= i < |EarlyStages| ==> !StageOn(m.filters, EarlyStages[i])
    ensures ApplyFiltersAsWired([g], m, {}).Err?
  {
    NothingHidden([g], {});
    assert Base([g], m.filters, {}) == [g];
    StagesOff([g], m.filters, {}, EarlyStages);
  }

  /** With no search and nothing hidden, the base list is the whole
      collection. */
  lemma NothingHiddenBase(all: seq<Game>, f: FilterState)
    requires !ActiveQuery(f.search)
    ensures Base(all, f, {}) == all
  {
    if !f.showHiddenGames {
      NothingHidden(all, {});
    }
  }

  /** With no search, a lone game the stages keep is the whole selection. */
  lemma LoneGameSelected(g: Game, f: FilterState, favorites: set<string>)
    requires !ActiveQuery(f.search) && Keep(f, favorites, g)
    ensures Selected([g], f, {}, favorites) == [g]
  {
    NothingHiddenBase([g], f);
    SelectedMembers([g], f, {}, favorites, g);
    SubseqSingleton(Selected([g], f, {}, favorites), g);
  }

  /** With no search, a lone game the stages keep is the whole result. */
  lemma LoneGameKept(g: Game, m: Manager, favorites: set<string>)
    requires !ActiveQuery(m.filters.search) && Keep(m.filters, favorites, g)
    ensures ApplyFilters([g], m, {}, favorites) == [g]
  {
    LoneGameSelected(g, m.filters, favorites);
    SortSorted([g], m.sortBy, m.sortAscending);
  }

  /** With only the favorites filter on, a favorite passes every stage. */
  lemma FavoritesOnlyKeep(g: Game, f: FilterState)
    requires f == DefaultFilters.(favoritesOnly := true)
    ensures Keep(f, {g.id}, g)
  {
  }

  /** In the same situation the intended manager returns the game when it
      is a favorite. */
  lemma FavoritesOnlyKeepsFavorite(g: Game, sortBy: string, ascending: bool)
    ensures ApplyFilters([g], Manager(DefaultFilters.(favoritesOnly := true), sortBy, ascending), {}, {g.id}) == [g]
  {
    var m := Manager(DefaultFilters.(favoritesOnly := true), sortBy, ascending);
    ActiveQueryNotBlank("");
    FavoritesOnlyKeep(g, m.filters);
    LoneGameKept(g, m, {g.id});
  }

  // ---------------------------------------------------------------------
  // Filter-state operations
  // ---------------------------------------------------------------------

  /** A value handed to `setFilter`. */
  datatype FilterValue =
    | TextValue(s: string)
    | ListValue(items: seq<string>)
    | YearValue(year: Option<int>)
    | FlagValue(b: bool)

  /** The eighteen keys of the filter record. */
  datatype FilterKey =
    | SearchKey | StatusKey | GenresKey | PlatformsKey | EmulatorsKey | YearMinKey | YearMaxKey
    | GpuNvidiaKey | GpuAmdKey | GpuIntelKey | SubscriptionOnlyKey | FavoritesOnlyKey
    | HasTestModeKey | GunGameKey | Is64BitKey | RequiresAdminKey | ShowHiddenGamesKey
    | HideSubscriptionKey

  /** The property name a key stands for. */
  function KeyName(k: FilterKey): string {
    match k
    case SearchKey => "search"
    case StatusKey => "status"
    case GenresKey => "genres"
    case PlatformsKey => "platforms"
    case EmulatorsKey => "emulators"
    case YearMinKey => "yearMin"
    case YearMaxKey => "yearMax"
    case GpuNvidiaKey => "gpuNvidia"
    case GpuAmdKey => "gpuAmd"
    case GpuIntelKey => "gpuIntel"
    case SubscriptionOnlyKey => "subscriptionOnly"
    case FavoritesOnlyKey => "favoritesOnly"
    case HasTestModeKey => "hasTestMode"
    case GunGameKey => "gunGame"
    case Is64BitKey => "is64Bit"
    case RequiresAdminKey => "requiresAdmin"
    case ShowHiddenGamesKey => "showHiddenGames"
    case HideSubscriptionKey => "hideSubscription"
  }

  /** The key a property name names, if any (`key in this.filters`). */
  function ParseKey(name: string): (r: Option<FilterKey>)
    ensures r.Some? ==> KeyName(r.value) == name
  {
    match name
    case "search" => Some(SearchKey)
    case "status" => Some(StatusKey)
    case "genres" => Some(GenresKey)
    case "platforms" => Some(PlatformsKey)
    case "emulators" => Some(EmulatorsKey)
    case "yearMin" => Some(YearMinKey)
    case "yearMax" => Some(YearMaxKey)
    case "gpuNvidia" => Some(GpuNvidiaKey)
    case "gpuAmd" => Some(GpuAmdKey)
    case "gpuIntel" => Some(GpuIntelKey)
    case "subscriptionOnly" => Some(SubscriptionOnlyKey)
    case "favoritesOnly" => Some(FavoritesOnlyKey)
    case "hasTestMode" => Some(HasTestModeKey)
    case "gunGame" => Some(GunGameKey)
    case "is64Bit" => Some(Is64BitKey)
    case "requiresAdmin" => Some(RequiresAdminKey)
    case "showHiddenGames" => Some(ShowHiddenGamesKey)
    case "hideSubscription" => Some(HideSubscriptionKey)
    case _ => None
  }

  /** Every key is found under its own name. */
  lemma ParseKeyName(k: FilterKey)
    ensures ParseKey(KeyName(k)) == Some(k)
  {
  }

  /** The value stored under a key (`filters[key]`). */
  function Get(f: FilterState, k: FilterKey): FilterValue {
    match k
    case SearchKey => TextValue(f.search)
    case StatusKey => TextValue(f.status)
    case GenresKey => ListValue(f.genres)
    case PlatformsKey => ListValue(f.platforms)
    case EmulatorsKey => ListValue(f.emulators)
    case YearMinKey => YearValue(f.yearMin)
    case YearMaxKey => YearValue(f.yearMax)
    case GpuNvidiaKey => FlagValue(f.gpuNvidia)
    case GpuAmdKey => FlagValue(f.gpuAmd)
    case GpuIntelKey => FlagValue(f.gpuIntel)
    case SubscriptionOnlyKey => FlagValue(f.subscriptionOnly)
    case FavoritesOnlyKey => FlagValue(f.favoritesOnly)
    case HasTestModeKey => FlagValue(f.hasTestMode)
    case GunGameKey => FlagValue(f.gunGame)
    case Is64BitKey => FlagValue(f.is64Bit)
    case RequiresAdminKey => FlagValue(f.requiresAdmin)
    case ShowHiddenGamesKey => FlagValue(f.showHiddenGames)
    case HideSubscriptionKey => FlagValue(f.hideSubscription)
  }

  /** The value has the kind the key holds. */
  predicate Fits(k: FilterKey, v: FilterValue) {
    match k
    case SearchKey | StatusKey => v.TextValue?
    case GenresKey | PlatformsKey | EmulatorsKey => v.ListValue?
    case YearMinKey | YearMaxKey => v.YearValue?
    case _ => v.FlagValue?
  }

  /** `this.filters[key] = value` */
  function Put(f: FilterState, k: FilterKey, v: FilterValue): (r: FilterState)
    requires Fits(k, v)
    ensures Get(r, k) == v
  {
    match k
    case SearchKey => f.(search := v.s)
    case StatusKey => f.(status := v.s)
    case GenresKey => f.(genres := v.items)
    case PlatformsKey => f.(platforms := v.items)
    case EmulatorsKey => f.(emulators := v.items)
    case YearMinKey => f.(yearMin := v.year)
    case YearMaxKey => f.(yearMax := v.year)
    case GpuNvidiaKey => f.(gpuNvidia := v.b)
    case GpuAmdKey => f.(gpuAmd := v.b)
    case GpuIntelKey => f.(gpuIntel := v.b)
    case SubscriptionOnlyKey => f.(subscriptionOnly := v.b)
    case FavoritesOnlyKey => f.(favoritesOnly := v.b)
    case HasTestModeKey => f.(hasTestMode := v.b)
    case GunGameKey => f.(gunGame := v.b)
    case Is64BitKey => f.(is64Bit := v.b)
    case RequiresAdminKey => f.(requiresAdmin := v.b)
    case ShowHiddenGamesKey => f.(showHiddenGames := v.b)
    case HideSubscriptionKey => f.(hideSubscription := v.b)
  }

  /** Writing one key leaves every other key's value as it was. */
  lemma PutFrame(f: FilterState, k: FilterKey, v: FilterValue, other: FilterKey)
    requires Fits(k, v) && other != k
    ensures Get(Put(f, k, v), other) == Get(f, other)
  {
    if k.SearchKey? || k.StatusKey? {
      PutFrameText(f, k, v, other);
    } else if k.GenresKey? || k.PlatformsKey? || k.EmulatorsKey? {
      PutFrameList(f, k, v, other);
    } else if k.YearMinKey? || k.YearMaxKey? {
      PutFrameYear(f, k, v, other);
    } else if k.GpuNvidiaKey? || k.GpuAmdKey? || k.GpuIntelKey? {
      PutFrameGpu(f, k, v, other);
    } else if k.SubscriptionOnlyKey? || k.FavoritesOnlyKey? || k.HideSubscriptionKey? {
      PutFrameSubscription(f, k, v, other);
    } else {
      PutFrameFeatures(f, k, v, other);
    }
  }

  lemma PutFrameText(f: FilterState, k: FilterKey, v: FilterValue, other: FilterKey)
    requires Fits(k, v) && other != k && (k.SearchKey? || k.StatusKey?)
    ensures Get(Put(f, k, v), other) == Get(f, other)
  {
  }

  lemma PutFrameList(f: FilterState, k: FilterKey, v: FilterValue, other: FilterKey)
    requires Fits(k, v) && other != k && (k.GenresKey? || k.PlatformsKey? || k.EmulatorsKey?)
    ensures Get(Put(f, k, v), other) == Get(f, other)
  {
  }

  lemma PutFrameYear(f: FilterState, k: FilterKey, v: FilterValue, other: FilterKey)
    requires Fits(k, v) && other != k && (k.YearMinKey? || k.YearMaxKey?)
    ensures Get(Put(f, k, v), other) == Get(f, other)
  {
  }

  lemma PutFrameGpu(f: FilterState, k: FilterKey, v: FilterValue, other: FilterKey)
    requires Fits(k, v) && other != k && (k.GpuNvidiaKey? || k.GpuAmdKey? || k.GpuIntelKey?)
    ensures Get(Put(f, k, v), other) == Get(f, other)
  {
  }

  lemma PutFrameSubscription(f: FilterState, k: FilterKey, v: FilterValue, other: FilterKey)
    requires Fits(k, v) && other != k && (k.SubscriptionOnlyKey? || k.FavoritesOnlyKey? || k.HideSubscriptionKey?)
    ensures Get(Put(f, k, v), other) == Get(f, other)
  {
  }

  lemma PutFrameFeatures(f: FilterState, k: FilterKey, v: FilterValue, other: FilterKey)
    requires Fits(k, v) && other != k && (k.HasTestModeKey? || k.GunGameKey? || k.Is64BitKey? || k.RequiresAdminKey? || k.ShowHiddenGamesKey?)
    ensures Get(Put(f, k, v), other) == Get(f, other)
  {
  }

  /** The value a key holds has the key's kind. */
  lemma GetFits(f: FilterState, k: FilterKey)
    ensures Fits(k, Get(f, k))
  {
  }

  /** The text, list and year keys: writing back the value gives the same
      record. */
  lemma PutGetData(f: FilterState, k: FilterKey)
    requires Fits(k, Get(f, k)) && !Get(f, k).FlagValue?
    ensures Put(f, k, Get(f, k)) == f
  {
    match k
    case SearchKey =>
    case StatusKey =>
    case GenresKey =>
    case PlatformsKey =>
    case EmulatorsKey =>
    case YearMinKey =>
    case YearMaxKey =>
  }

  /** The flag keys: writing back the value gives the same record. */
  lemma PutGetFlag(f: FilterState, k: FilterKey)
    requires Fits(k, Get(f, k)) && Get(f, k).FlagValue?
    ensures Put(f, k, Get(f, k)) == f
  {
    match k
    case GpuNvidiaKey =>
    case GpuAmdKey =>
    case GpuIntelKey =>
    case SubscriptionOnlyKey =>
    case FavoritesOnlyKey =>
    case HasTestModeKey =>
    case GunGameKey =>
    case Is64BitKey =>
    case RequiresAdminKey =>
    case ShowHiddenGamesKey =>
    case HideSubscriptionKey =>
  }

  /** Writing back the value a key holds gives the same record. */
  lemma PutGet(f: FilterState, k: FilterKey)
    ensures Fits(k, Get(f, k)) && Put(f, k, Get(f, k)) == f
  {
    GetFits(f, k);
    if Get(f, k).FlagValue? {
      PutGetFlag(f, k);
    } else {
      PutGetData(f, k);
    }
  }

  /** `setFilter(key, value)`: a known key takes the value; an unknown key
      changes nothing.  The caller then sees `applyFilters()` of the
      returned manager. */
  function SetFilter(m: Manager, name: string, v: FilterValue): (r: Manager)
    requires ParseKey(name).Some? ==> Fits(ParseKey(name).value, v)
    ensures ParseKey(name).None? ==> r == m
    ensures ParseKey(name).Some? ==> Get(r.filters, ParseKey(name).value) == v
    ensures r.sortBy == m.sortBy && r.sortAscending == m.sortAscending
  {
    match ParseKey(name)
    case None => m
    case Some(k) => m.(filters := Put(m.filters, k, v))
  }

  /** `setFilter` on one key leaves every other key's value alone. */
  lemma SetFilterFrame(m: Manager, name: string, v: FilterValue, other: FilterKey)
    requires ParseKey(name).Some? ==> Fits(ParseKey(name).value, v)
    requires ParseKey(name) != Some(other)
    ensures Get(SetFilter(m, name, v).filters, other) == Get(m.filters, other)
  {
    if ParseKey(name).Some? {
      PutFrame(m.filters, ParseKey(name).value, v, other);
    }
  }

  /** Setting a key back to the value it holds changes nothing. */
  lemma SetFilterCurrentValue(m: Manager, k: FilterKey)
    ensures Fits(k, Get(m.filters, k))
    ensures SetFilter(m, KeyName(k), Get(m.filters, k)) == m
  {
    ParseKeyName(k);
    PutGet(m.filters, k);
  }

  /** `setSort(sortBy, ascending)` */
  function SetSort(m: Manager, sortBy: string, ascending: bool): (r: Manager)
    ensures r.filters == m.filters
    ensures r.sortBy == sortBy && r.sortAscending == ascending
  {
    m.(sortBy := sortBy, sortAscending := ascending)
  }

  /** `toggleSortDirection()` */
  function ToggleSortDirection(m: Manager): (r: Manager)
    ensures r.filters == m.filters && r.sortBy == m.sortBy
    ensures r.sortAscending != m.sortAscending
  {
    m.(sortAscending := !m.sortAscending)
  }

  lemma ToggleTwice(m: Manager)
    ensures ToggleSortDirection(ToggleSortDirection(m)) == m
  {
  }

  /** `clearAllFilters()`: the filter record returns to the constructor's
      defaults; the sort settings are kept. */
  function ClearAllFilters(m: Manager): (r: Manager)
    ensures forall k :: Get(r.filters, k) == Get(DefaultFilters, k)
    ensures r.sortBy == m.sortBy && r.sortAscending == m.sortAscending
  {
    m.(filters := DefaultFilters)
  }

  /** After clearing, the list shown is the non-hidden games in the kept
      sort order. */
  lemma ClearedResult(all: seq<Game>, m: Manager, hidden: set<string>, favorites: set<string>)
    ensures ApplyFilters(all, ClearAllFilters(m), hidden, favorites)
         == SortGames(WithoutHidden(all, hidden), m.sortBy, m.sortAscending)
  {
    DefaultFiltersResult(all, m.sortBy, m.sortAscending, hidden, favorites);
  }

  /** `getFilters()`: a copy of the record. */
  function GetFilters(m: Manager): (r: FilterState)
    ensures forall k :: Get(r, k) == Get(m.filters, k)
  {
    m.filters
  }
}

=== FILE: game_manager.dfy ===
/** The central game store: the loaded collection, the last filtered view,
    lookups, facet lists, statistics, text search and sorting. */
module GameManager {
  import opened Wrappers
  import opened Text
  import opened Seqs
  import opened GameModel

  /** `games` is the whole collection; `filteredGames` is the view the
      grid last rendered. */
  datatype GameStore = GameStore(games: seq<Game>, filteredGames: seq<Game>)

  const EmptyStore := GameStore([], [])

  /** `initialize(data)`: the collection is replaced wholesale and the
      filtered view becomes a copy of it. */
  function Initialize(data: seq<Game>): (r: GameStore)
    ensures r.games == data && r.filteredGames == data
  {
    GameStore(data, data)
  }

  /** `setFilteredGames(view)` */
  function SetFilteredGames(store: GameStore, view: seq<Game>): (r: GameStore)
    ensures r.games == store.games && r.filteredGames == view
  {
    store.(filteredGames := view)
  }

  /** `games.find(g => g.id === id)`: the first game with that id, or
      `undefined`. */
  function GetGameById(games: seq<Game>, id: string): (r: Option<Game>)
    ensures r.None? <==> forall i :: 0 <= i < |games| ==> games[i].id != id
    ensures r.Some? ==> exists k :: 0 <= k < |games| && games[k] == r.value
                          && r.value.id == id
                          && forall j :: 0 <= j < k ==> games[j].id != id
    decreases |games|
  {
    if |games| == 0 then None
    else if games[0].id == id then Some(games[0])
    else
      var r := GetGameById(games[1..], id);
      assert forall j :: 1 <= j < |games| ==> games[j] == games[1..][j - 1];
      r
  }

  function InstalledGames(games: seq<Game>): (r: seq<Game>)
    ensures forall g :: g in r <==> g in games && g.isInstalled
  {
    Filter(games, (g: Game) => g.isInstalled)
  }

  function NotInstalledGames(games: seq<Game>): (r: seq<Game>)
    ensures forall g :: g in r <==> g in games && !g.isInstalled
  {
    Filter(games, (g: Game) => !g.isInstalled)
  }

  datatype Stats = Stats(total: nat, installed: nat, notInstalled: nat, filtered: nat)

  /** `getStats()`: every game is counted as installed or not, never both,
      and `filtered` is the size of the last rendered view. */
  function GetStats(store: GameStore): (r: Stats)
    ensures r.total == |store.games|
    ensures r.total == r.installed + r.notInstalled
    ensures r.installed == |InstalledGames(store.games)|
    ensures r.filtered == |store.filteredGames|
  {
    InstalledPartition(store.games);
    Stats(|store.games|, |InstalledGames(store.games)|,
          |NotInstalledGames(store.games)|, |store.filteredGames|)
  }

  lemma {:induction false} InstalledPartition(games: seq<Game>)
    ensures |InstalledGames(games)| + |NotInstalledGames(games)| == |games|
    decreases |games|
  {
    if |games| > 0 {
      InstalledPartition(games[1..]);
    }
  }

  lemma StatsAfterInitialize(data: seq<Game>)
    ensures GetStats(Initialize(data)).filtered == GetStats(Initialize(data)).total
  {
  }

  // ---------------------------------------------------------------------
  // Facet lists
  // ---------------------------------------------------------------------

  predicate StrictlySorted(s: seq<string>) {
    forall i, j :: 0 <= i < j < |s| ==> Less(s[i], s[j])
  }

  lemma StrictlySortedNoDuplicates(s: seq<string>)
    requires StrictlySorted(s)
    ensures NoDuplicates(s)
  {
    forall i, j | 0 <= i < j < |s|
      ensures s[i] != s[j]
    {
      LessIrreflexive(s[i]);
    }
  }

  /** Adding one string to a sorted, duplicate-free list (`Set.add`
      followed by the default `sort`). */
  function InsertUnique(x: string, s: seq<string>): (r: seq<string>)
    requires StrictlySorted(s)
    ensures StrictlySorted(r)
    ensures forall y :: y in r <==> y == x || y in s
    decreases |s|
  {
    if |s| == 0 then [x]
    else if x == s[0] then s
    else if Less(x, s[0]) then
      assert forall j :: 0 < j < |s| ==> Less(x, s[j]) by {
        forall j | 0 < j < |s| ensures Less(x, s[j]) {
          LessTransitive(x, s[0], s[j]);
        }
      }
      [x] + s
    else
      LessTotal(x, s[0]);
      var rest := InsertUnique(x, s[1..]);
      assert forall y :: y in rest ==> Less(s[0], y);
      [s[0]] + rest
  }

  /** A facet value counts when it is neither empty nor 'Unknown'. */
  predicate FacetValue(v: string) {
    v != "" && v != "Unknown"
  }

  /** `Array.from(new Set(keys)).sort()` over the games' keys, without the
      empty and 'Unknown' values. */
  function Facet(games: seq<Game>, key: Game -> string): (r: seq<string>)
    ensures StrictlySorted(r)
    ensures forall v :: v in r <==>
      FacetValue(v) && exists i :: 0 <= i < |games| && key(games[i]) == v
    decreases |games|
  {
    if |games| == 0 then []
    else
      var last := games[|games| - 1];
      var prefix := games[..|games| - 1];
      var rest := Facet(prefix, key);
      assert forall i :: 0 <= i < |prefix| ==> prefix[i] == games[i];
      if FacetValue(key(last)) then InsertUnique(key(last), rest) else rest
  }

  /** `getGenres()`: sorted, duplicate-free, and each value is the genre key
      of some game. */
  function GetGenres(games: seq<Game>): (r: seq<string>)
    ensures StrictlySorted(r) && NoDuplicates(r)
    ensures forall v :: v in r <==>
      FacetValue(v) && exists i :: 0 <= i < |games| && GenreKey(games[i]) == v
  {
    var r := Facet(games, GenreKey);
    StrictlySortedNoDuplicates(r);
    r
  }

  function GetPlatforms(games: seq<Game>): (r: seq<string>)
    ensures StrictlySorted(r) && NoDuplicates(r)
    ensures forall v :: v in r <==>
      FacetValue(v) && exists i :: 0 <= i < |games| && PlatformKey(games[i]) == v
  {
    var r := Facet(games, PlatformKey);
    StrictlySortedNoDuplicates(r);
    r
  }

  function GetEmulatorTypes(games: seq<Game>): (r: seq<string>)
    ensures StrictlySorted(r) && NoDuplicates(r)
    ensures forall v :: v in r <==>
      FacetValue(v) && exists i :: 0 <= i < |games| && EmulatorKey(games[i]) == v
  {
    var r := Facet(games, EmulatorKey);
    StrictlySortedNoDuplicates(r);
    r
  }

  /** The head of a strictly sorted list is below every other element. */
  lemma HeadLeast(a: seq<string>)
    requires StrictlySorted(a) && |a| > 0
    ensures forall v :: v in a ==> v == a[0] || Less(a[0], v)
  {
  }

  lemma LessAsymmetric(x: string, y: string)
    ensures !(Less(x, y) && Less(y, x))
  {
    if Less(x, y) && Less(y, x) {
      LessTransitive(x, y, x);
      LessIrreflexive(x);
    }
  }

  /** Two strictly sorted lists with the same elements are equal, so the
      facet lists are determined by the set of keys alone. */
  lemma {:induction false} StrictlySortedUnique(a: seq<string>, b: seq<string>)
    requires StrictlySorted(a) && StrictlySorted(b)
    requires forall v :: v in a <==> v in b
    ensures a == b
    decreases |a|
  {
    SameElementsSameEmptiness(a, b);
    if |a| > 0 {
      HeadLeast(a);
      HeadLeast(b);
      assert a[0] in b && b[0] in a;
      LessAsymmetric(a[0], b[0]);
      assert a[0] == b[0];
      LessIrreflexive(a[0]);
      forall v ensures v in a[1..] <==> v in b[1..] {
        assert v in a[1..] <==> v in a && v != a[0];
        assert v in b[1..] <==> v in b && v != b[0];
      }
      StrictlySortedUnique(a[1..], b[1..]);
      assert a == [a[0]] + a[1..] && b == [b[0]] + b[1..];
    }
  }

  lemma SameElementsSameEmptiness(a: seq<string>, b: seq<string>)
    requires forall v :: v in a <==> v in b
    ensures |a| == 0 <==> |b| == 0
  {
    if |a| > 0 {
      assert a[0] in a;
    }
    if |b| > 0 {
      assert b[0] in b;
    }
  }

  // ---------------------------------------------------------------------
  // Year range
  // ---------------------------------------------------------------------

  /** The release years that parse, in collection order. */
  function ParsedYears(games: seq<Game>): (r: seq<int>)
    ensures forall y :: y in r <==> exists i :: 0 <= i < |games| && YearOf(games[i]) == Some(y)
    decreases |games|
  {
    if |games| == 0 then []
    else
      var rest := ParsedYears(games[1..]);
      assert forall i :: 1 <= i < |games| ==> games[i] == games[1..][i - 1];
      match YearOf(games[0])
      case Some(y) => [y] + rest
      case None => rest
  }

  /** A release year that is set, not 'Unknown' and parses. */
  function YearOf(g: Game): Option<int> {
    var s := ReleaseYear(g);
    if Truthy(s) && s != "Unknown" then ParseInt(s) else None
  }

  datatype YearRange = YearRange(min: int, max: int)

  /** `getYearRange(currentYear)`: 2000 to the current year when no year
      parses, else the smallest and largest parsed years. */
  function GetYearRange(games: seq<Game>, currentYear: int): (r: YearRange)
    ensures |ParsedYears(games)| == 0 ==> r == YearRange(2000, currentYear)
    ensures |ParsedYears(games)| > 0 ==>
      r.min in ParsedYears(games) && r.max in ParsedYears(games) && r.min <= r.max
      && forall y :: y in ParsedYears(games) ==> r.min <= y <= r.max
  {
    var ys := ParsedYears(games);
    if |ys| == 0 then YearRange(2000, currentYear)
    else YearRange(Min(ys), Max(ys))
  }

  /** `Math.min(...ys)` */
  function Min(ys: seq<int>): (m: int)
    requires |ys| > 0
    ensures m in ys && forall y :: y in ys ==> m <= y
    decreases |ys|
  {
    if |ys| == 1 then ys[0]
    else
      var m := Min(ys[1..]);
      assert forall y :: y in ys ==> y == ys[0] || y in ys[1..];
      if ys[0] <= m then ys[0] else m
  }

  /** `Math.max(...ys)` */
  function Max(ys: seq<int>): (m: int)
    requires |ys| > 0
    ensures m in ys && forall y :: y in ys ==> y <= m
    decreases |ys|
  {
    if |ys| == 1 then ys[0]
    else
      var m := Max(ys[1..]);
      assert forall y :: y in ys ==> y == ys[0] || y in ys[1..];
      if ys[0] >= m then ys[0] else m
  }

  // ---------------------------------------------------------------------
  // Text search
  // ---------------------------------------------------------------------

  predicate AnyTagContains(tags: seq<string>, term: string) {
    exists i :: 0 <= i < |tags| && Contains(Lower(tags[i]), term)
  }

  /** The nine fields `searchGames` looks at, each lowercased. */
  predicate SearchMatch(g: Game, term: string) {
    Contains(Lower(g.name), term)
    || Contains(Lower(if g.userProfile.Some? then g.userProfile.value.gameNameInternal else ""), term)
    || Contains(Lower(if g.profile.Some? then g.profile.value.emulationProfile else ""), term)
    || AnyTagContains(g.custom.customTags, term)
    || Contains(Lower(if g.metadata.Some? then g.metadata.value.gameGenre else ""), term)
    || Contains(Lower(g.custom.customGenre), term)
    || Contains(Lower(PlatformKey(g)), term)
    || Contains(Lower(EmulatorKey(g)), term)
    || Contains(Lower(g.custom.customDescription), term)
  }

  /** A query is active when it has a non-whitespace character. */
  predicate ActiveQuery(query: string) {
    Trim(query) != ""
  }

  /** A query is active exactly when it is not blank. */
  lemma ActiveQueryNotBlank(query: string)
    ensures ActiveQuery(query) <==> !IsBlank(query)
  {
    TrimBlank(query);
  }

  /** `searchGames(query)`: every game for an empty or blank query;
      otherwise the games, in collection order, where the lowercased query
      (not trimmed) occurs in one of the nine lowercased fields. */
  function SearchGames(games: seq<Game>, query: string): (r: seq<Game>)
    ensures !ActiveQuery(query) ==> r == games
    ensures ActiveQuery(query) ==>
      (forall g :: g in r <==> g in games && SearchMatch(g, Lower(query)))
    ensures SubseqOf(r, games)
  {
    if !Truthy(query) || Trim(query) == "" then
      SubseqRefl(games);
      games
    else
      var term := Lower(query);
      Filter(games, (g: Game) => SearchMatch(g, term))
  }

  /** A game whose name contains the query in any letter case is found. */
  lemma SearchFindsName(games: seq<Game>, query: string, g: Game)
    requires ActiveQuery(query) && g in games
    requires Contains(Lower(g.name), Lower(query))
    ensures g in SearchGames(games, query)
  {
  }

  // ---------------------------------------------------------------------
  // Sorting
  // ---------------------------------------------------------------------

  /** A sort key: the lowercased text or the number the comparator reads. */
  datatype SortKey = TextKey(s: string) | NumKey(n: int)

  /** The comparator's `<`. Keys of one sort are all of one kind; mixing
      them orders numbers after text. */
  predicate KeyLess(a: SortKey, b: SortKey) {
    match (a, b)
    case (TextKey(x), TextKey(y)) => Less(x, y)
    case (NumKey(x), NumKey(y)) => x < y
    case (TextKey(_), NumKey(_)) => true
    case (NumKey(_), TextKey(_)) => false
  }

  lemma KeyLessIrreflexive(a: SortKey)
    ensures !KeyLess(a, a)
  {
    if a.TextKey? { LessIrreflexive(a.s); }
  }

  lemma KeyLessTransitive(a: SortKey, b: SortKey, c: SortKey)
    requires KeyLess(a, b) && KeyLess(b, c)
    ensures KeyLess(a, c)
  {
    if a.TextKey? && b.TextKey? && c.TextKey? { LessTransitive(a.s, b.s, c.s); }
  }

  /** `parseInt(metadata?.release_year) || 9999` */
  function YearSortKey(g: Game): int {
    match ParseInt(ReleaseYear(g))
    case Some(y) => if y != 0 then y else 9999
    case None => 9999
  }

  /** A missing, unparseable or zero year sorts as 9999; any other year
      sorts as itself. */
  lemma YearSortKeyMeaning(g: Game)
    ensures ParseInt(ReleaseYear(g)).None? ==> YearSortKey(g) == 9999
    ensures ParseInt(ReleaseYear(g)) == Some(0) ==> YearSortKey(g) == 9999
    ensures ReleaseYear(g) == "" ==> YearSortKey(g) == 9999
    ensures forall y :: ParseInt(ReleaseYear(g)) == Some(y) && y != 0 ==> YearSortKey(g) == y
  {
    assert ReleaseYear(g) == "" ==> ParseInt(ReleaseYear(g)).None?;
  }

  /** The comparator's value for `sortBy`; anything unknown sorts by name. */
  function KeyOf(g: Game, sortBy: string): SortKey {
    if sortBy == "year" then NumKey(YearSortKey(g))
    else if sortBy == "platform" then TextKey(Lower(PlatformKey(g)))
    else if sortBy == "genre" then
      TextKey(Lower(if g.metadata.Some? then g.metadata.value.gameGenre else ""))
    else if sortBy == "status" then NumKey(if g.isInstalled then 1 else 0)
    else TextKey(Lower(g.name))
  }

  predicate KnownSort(sortBy: string) {
    sortBy in {"name", "year", "platform", "genre", "status"}
  }

  lemma UnknownSortIsByName(g: Game, sortBy: string)
    requires !KnownSort(sortBy)
    ensures KeyOf(g, sortBy) == KeyOf(g, "name")
  {
  }

  /** The key function the comparator applies for `sortBy`. */
  function KeyFn(sortBy: string): Game -> SortKey {
    (g: Game) => KeyOf(g, sortBy)
  }

  /** The comparator returns a negative number: `a` goes before `b`.
      Descending order flips the comparison. */
  predicate Before(a: Game, b: Game, key: Game -> SortKey, ascending: bool) {
    if ascending then KeyLess(key(a), key(b))
    else KeyLess(key(b), key(a))
  }

  lemma BeforeIrreflexive(a: Game, key: Game -> SortKey, ascending: bool)
    ensures !Before(a, a, key, ascending)
  {
    KeyLessIrreflexive(key(a));
  }

  lemma BeforeTransitive(a: Game, b: Game, c: Game, key: Game -> SortKey, ascending: bool)
    requires Before(a, b, key, ascending) && Before(b, c, key, ascending)
    ensures Before(a, c, key, ascending)
  {
    if ascending {
      KeyLessTransitive(key(a), key(b), key(c));
    } else {
      KeyLessTransitive(key(c), key(b), key(a));
    }
  }

  /** No later game goes before an earlier one. */
  predicate SortedBy(s: seq<Game>, key: Game -> SortKey, ascending: bool) {
    forall i, j :: 0 <= i < j < |s| ==> !Before(s[j], s[i], key, ascending)
  }

  /** Sorted the way `sortGames(_, sortBy, ascending)` orders games. */
  predicate Sorted(s: seq<Game>, sortBy: string, ascending: bool) {
    SortedBy(s, KeyFn(sortBy), ascending)
  }

  /** One step of a stable insertion sort: `x` goes in front of the first
      game it goes before, so after every game it ties with. */
  function Insert(x: Game, s: seq<Game>, key: Game -> SortKey, ascending: bool): (r: seq<Game>)
    requires SortedBy(s, key, ascending)
    ensures SortedBy(r, key, ascending)
    ensures multiset(r) == multiset(s) + multiset{x}
    decreases |s|
  {
    if |s| == 0 then [x]
    else if Before(x, s[0], key, ascending) then
      forall k | 0 <= k < |s| ensures !Before(s[k], x, key, ascending) {
        if Before(s[k], x, key, ascending) {
          BeforeTransitive(s[k], x, s[0], key, ascending);
          BeforeIrreflexive(s[0], key, ascending);
        }
      }
      [x] + s
    else
      var rest := Insert(x, s[1..], key, ascending);
      assert s == [s[0]] + s[1..];
      forall k | 0 <= k < |rest| ensures !Before(rest[k], s[0], key, ascending) {
        assert rest[k] in multiset(rest);
        assert rest[k] == x || rest[k] in s[1..];
      }
      [s[0]] + rest
  }

  /** Insertion sort by a key function. */
  function SortBy(games: seq<Game>, key: Game -> SortKey, ascending: bool): (r: seq<Game>)
    ensures SortedBy(r, key, ascending)
    ensures multiset(r) == multiset(games)
    ensures |r| == |games|
    decreases |games|
  {
    if |games| == 0 then []
    else
      var prefix := games[..|games| - 1];
      var last := games[|games| - 1];
      assert games == prefix + [last];
      assert multiset(games) == multiset(prefix) + multiset{last};
      Insert(last, SortBy(prefix, key, ascending), key, ascending)
  }

  /** `sortGames(games, sortBy, ascending)`: a sorted permutation of a
      copy of the input (values are immutable, so the input is untouched). */
  function SortGames(games: seq<Game>, sortBy: string, ascending: bool): (r: seq<Game>)
    ensures Sorted(r, sortBy, ascending)
    ensures multiset(r) == multiset(games)
    ensures |r| == |games|
  {
    SortBy(games, KeyFn(sortBy), ascending)
  }

  /** Inserting a game that nothing in the list goes after appends it. */
  lemma {:induction false} InsertAtEnd(x: Game, s: seq<Game>, key: Game -> SortKey, ascending: bool)
    requires SortedBy(s, key, ascending)
    requires forall k :: 0 <= k < |s| ==> !Before(x, s[k], key, ascending)
    ensures Insert(x, s, key, ascending) == s + [x]
    decreases |s|
  {
    if |s| > 0 {
      InsertAtEnd(x, s[1..], key, ascending);
      assert [s[0]] + (s[1..] + [x]) == s + [x];
    }
  }

  lemma SortedPrefix(s: seq<Game>, key: Game -> SortKey, ascending: bool)
    requires |s| > 0 && SortedBy(s, key, ascending)
    ensures SortedBy(s[..|s| - 1], key, ascending)
    ensures forall k :: 0 <= k < |s| - 1 ==> !Before(s[|s| - 1], s[k], key, ascending)
  {
    var prefix := s[..|s| - 1];
    forall i, j | 0 <= i < j < |prefix|
      ensures !Before(prefix[j], prefix[i], key, ascending)
    {
      assert prefix[i] == s[i] && prefix[j] == s[j];
    }
  }

  lemma {:induction false} SortBySorted(s: seq<Game>, key: Game -> SortKey, ascending: bool)
    requires SortedBy(s, key, ascending)
    ensures SortBy(s, key, ascending) == s
    decreases |s|
  {
    if |s| > 0 {
      var prefix := s[..|s| - 1];
      var last := s[|s| - 1];
      SortedPrefix(s, key, ascending);
      SortBySorted(prefix, key, ascending);
      InsertAtEnd(last, prefix, key, ascending);
      assert prefix + [last] == s;
    }
  }

  /** Sorting a sorted list changes nothing. */
  lemma SortSorted(s: seq<Game>, sortBy: string, ascending: bool)
    requires Sorted(s, sortBy, ascending)
    ensures SortGames(s, sortBy, ascending) == s
  {
    SortBySorted(s, KeyFn(sortBy), ascending);
  }

  lemma SortIdempotent(s: seq<Game>, sortBy: string, ascending: bool)
    ensures SortGames(SortGames(s, sortBy, ascending), sortBy, ascending)
         == SortGames(s, sortBy, ascending)
  {
    SortSorted(SortGames(s, sortBy, ascending), sortBy, ascending);
  }

  // ---------------------------------------------------------------------
  // Stability
  // ---------------------------------------------------------------------

  /** The games of `s` whose key is `v`, in order. Two games tie under the
      comparator exactly when their keys are equal. */
  function WithKey(s: seq<Game>, key: Game -> SortKey, v: SortKey): seq<Game>
    decreases |s|
  {
    if |s| == 0 then []
    else (if key(s[0]) == v then [s[0]] else []) + WithKey(s[1..], key, v)
  }

  /** Games tie under the comparator exactly when their keys are equal. */
  lemma TieIsSameKey(a: Game, b: Game, key: Game -> SortKey, ascending: bool)
    ensures !Before(a, b, key, ascending) && !Before(b, a, key, ascending) <==> key(a) == key(b)
  {
    KeyLessIrreflexive(key(a));
    var x, y := key(a), key(b);
    if x.TextKey? && y.TextKey? {
      LessTotal(x.s, y.s);
    }
  }

  lemma {:induction false} WithKeyAppend(a: seq<Game>, b: seq<Game>, key: Game -> SortKey, v: SortKey)
    ensures WithKey(a + b, key, v) == WithKey(a, key, v) + WithKey(b, key, v)
    decreases |a|
  {
    if |a| == 0 {
      assert a + b == b;
    } else {
      WithKeyAppend(a[1..], b, key, v);
      assert a + b == [a[0]] + (a[1..] + b);
      WithKeyCons(a[0], a[1..] + b, key, v);
      assert a == [a[0]] + a[1..];
      WithKeyCons(a[0], a[1..], key, v);
      ConcatAssoc(if key(a[0]) == v then [a[0]] else [], WithKey(a[1..], key, v), WithKey(b, key, v));
    }
  }

  lemma {:induction false} WithKeyNone(s: seq<Game>, key: Game -> SortKey, v: SortKey)
    requires forall k :: 0 <= k < |s| ==> key(s[k]) != v
    ensures WithKey(s, key, v) == []
    decreases |s|
  {
    if |s| > 0 {
      WithKeyNone(s[1..], key, v);
    }
  }

  lemma WithKeyCons(g: Game, t: seq<Game>, key: Game -> SortKey, v: SortKey)
    ensures WithKey([g] + t, key, v) == (if key(g) == v then [g] else []) + WithKey(t, key, v)
  {
    assert ([g] + t)[0] == g && ([g] + t)[1..] == t;
  }

  /** The cons step: the head's tie (if any) comes before what the rest
      contributes. */
  lemma ConsStable(s: seq<Game>, rest: seq<Game>, key: Game -> SortKey, v: SortKey, hx: seq<Game>)
    requires |s| > 0 && WithKey(rest, key, v) == WithKey(s[1..], key, v) + hx
    ensures WithKey([s[0]] + rest, key, v) == WithKey(s, key, v) + hx
  {
    WithKeyCons(s[0], rest, key, v);
    assert s == [s[0]] + s[1..];
    WithKeyCons(s[0], s[1..], key, v);
    ConcatAssoc(if key(s[0]) == v then [s[0]] else [], WithKey(s[1..], key, v), hx);
  }

  /** No game of the list goes before its head. */
  predicate HeadFirst(s: seq<Game>, key: Game -> SortKey, ascending: bool)
    requires |s| > 0
  {
    forall k :: 0 < k < |s| ==> !Before(s[k], s[0], key, ascending)
  }

  /** A game that goes before the head of the list ties with none of its
      games when nothing goes before the head. */
  lemma InsertFrontStable(x: Game, s: seq<Game>, key: Game -> SortKey, ascending: bool, v: SortKey)
    requires |s| > 0 && HeadFirst(s, key, ascending) && Before(x, s[0], key, ascending)
    ensures WithKey([x] + s, key, v) == WithKey(s, key, v) + (if key(x) == v then [x] else [])
  {
    WithKeyCons(x, s, key, v);
    if key(x) == v {
      forall k | 0 <= k < |s| ensures key(s[k]) != v {
        if key(s[k]) == v {
          assert Before(s[k], s[0], key, ascending);
          if k == 0 {
            BeforeIrreflexive(s[0], key, ascending);
          }
        }
      }
      WithKeyNone(s, key, v);
    } else {
      assert [] + WithKey(s, key, v) == WithKey(s, key, v) + [];
    }
  }

  /** How `Insert` unfolds on a non-empty sorted list. */
  lemma InsertUnfold(x: Game, s: seq<Game>, key: Game -> SortKey, ascending: bool)
    requires |s| > 0 && SortedBy(s, key, ascending)
    ensures HeadFirst(s, key, ascending) && SortedBy(s[1..], key, ascending)
    ensures Before(x, s[0], key, ascending) ==> Insert(x, s, key, ascending) == [x] + s
    ensures !Before(x, s[0], key, ascending) ==>
              Insert(x, s, key, ascending) == [s[0]] + Insert(x, s[1..], key, ascending)
  {
    assert SortedBy(s[1..], key, ascending);
  }

  /** Inserting `x` puts it after every game of the list it ties with. */
  lemma {:induction false} InsertStable(x: Game, s: seq<Game>, key: Game -> SortKey, ascending: bool, v: SortKey)
    requires SortedBy(s, key, ascending)
    ensures WithKey(Insert(x, s, key, ascending), key, v)
         == WithKey(s, key, v) + (if key(x) == v then [x] else [])
    decreases |s|
  {
    if |s| == 0 {
      WithKeyCons(x, [], key, v);
    } else {
      InsertUnfold(x, s, key, ascending);
      if Before(x, s[0], key, ascending) {
        InsertFrontStable(x, s, key, ascending, v);
      } else {
        InsertStable(x, s[1..], key, ascending, v);
        ConsStable(s, Insert(x, s[1..], key, ascending), key, v, if key(x) == v then [x] else []);
      }
    }
  }

  lemma WithKeySnoc(s: seq<Game>, g: Game, key: Game -> SortKey, v: SortKey)
    ensures WithKey(s + [g], key, v) == WithKey(s, key, v) + (if key(g) == v then [g] else [])
  {
    WithKeyAppend(s, [g], key, v);
    WithKeyCons(g, [], key, v);
  }

  lemma SortByUnfold(games: seq<Game>, key: Game -> SortKey, ascending: bool)
    requires |games| > 0
    ensures SortBy(games, key, ascending)
         == Insert(games[|games| - 1], SortBy(games[..|games| - 1], key, ascending), key, ascending)
  {
  }

  lemma {:induction false} SortByStable(games: seq<Game>, key: Game -> SortKey, ascending: bool, v: SortKey)
    ensures WithKey(SortBy(games, key, ascending), key, v) == WithKey(games, key, v)
    decreases |games|
  {
    if |games| > 0 {
      var prefix := games[..|games| - 1];
      var last := games[|games| - 1];
      SortByUnfold(games, key, ascending);
      SplitLast(games);
      SortByStable(prefix, key, ascending, v);
      InsertStable(last, SortBy(prefix, key, ascending), key, ascending, v);
      WithKeySnoc(prefix, last, key, v);
    }
  }

  /** The sort is stable: the games that tie on any one key come out in
      the order they came in. */
  lemma SortStable(games: seq<Game>, sortBy: string, ascending: bool, v: SortKey)
    ensures WithKey(SortGames(games, sortBy, ascending), KeyFn(sortBy), v) == WithKey(games, KeyFn(sortBy), v)
  {
    SortByStable(games, KeyFn(sortBy), ascending, v);
  }
}

=== FILE: gamepad_input.dfy ===
/** The gamepad poller: it reads the pad once per animation frame, turns
    d-pad and stick directions into throttled navigation events and button
    presses into actions, and pauses while the window is not in front. */
module GamepadInput {
  import opened Wrappers
  import GamepadNav

  /** Where a stick axis sits relative to the deadzone: below its negative
      bound, inside it, or above its positive bound. */
  datatype Tilt = Negative | Centred | Positive

  /** One reading of a pad: which buttons are down, the left stick by
      tilt, and whether it can rumble. */
  datatype Pad = Pad(id: string, buttons: seq<bool>, stickX: Tilt, stickY: Tilt, rumble: bool)

  /** What the poller dispatches on the window. */
  datatype Event =
    | Navigate(direction: GamepadNav.Direction, selectedIndex: int)
    | NavigateClear
    | Action(name: string)
    | Rumble(duration: int)

  /** The poller's fields; `lastButtons` is keyed by button index. */
  datatype Manager = Manager(
    enabled: bool,
    connected: bool,
    gamepad: Option<Pad>,
    selectedIndex: int,
    lastButtons: map<int, bool>,
    vibrationEnabled: bool,
    navigationSpeed: int,
    lastNavigationTime: int,
    windowHasFocus: bool,
    pollingActive: bool)

  /** Standard-layout button indices. */
  const ButtonA := 0
  const ButtonB := 1
  const ButtonX := 2
  const ButtonY := 3
  const ButtonLB := 4
  const ButtonRB := 5
  const ButtonLT := 6
  const ButtonRT := 7
  const ButtonSelect := 8
  const ButtonStart := 9
  const ButtonL3 := 10
  const DpadUp := 12
  const DpadDown := 13
  const DpadLeft := 14
  const DpadRight := 15

  /** The buttons checked on every poll, in the order they are checked,
      with the action each one dispatches. */
  const ButtonActions: seq<(int, string)> := [
    (ButtonA, "select"), (ButtonB, "back"), (ButtonX, "favorite"),
    (ButtonY, "details"), (ButtonStart, "settings"),
    (ButtonSelect, "showFilterMenu"), (ButtonL3, "home"),
    (ButtonRB, "nextFilter"), (ButtonLB, "previousFilter"),
    (ButtonLT, "pageUp"), (ButtonRT, "pageDown")]

  /** The fields the constructor sets before preferences are loaded. */
  const Initial := Manager(true, false, None, 0, map[], true, 150, 0, true, true)

  /** `loadPreferences`: the stored gamepad preferences replace the
      defaults. */
  function LoadPreferences(m: Manager, enabled: bool, vibration: bool, speed: int): (r: Manager)
    ensures r.enabled == enabled && r.vibrationEnabled == vibration && r.navigationSpeed == speed
    ensures r.(enabled := m.enabled, vibrationEnabled := m.vibrationEnabled, navigationSpeed := m.navigationSpeed) == m
  {
    m.(enabled := enabled, vibrationEnabled := vibration, navigationSpeed := speed)
  }

  /** `isButtonPressed`: a button the pad does not have is not pressed. */
  predicate Pressed(pad: Pad, b: int) {
    0 <= b < |pad.buttons| && pad.buttons[b]
  }

  /** The stored state of a button; one never seen counts as released. */
  predicate Was(last: map<int, bool>, b: int) {
    b in last && last[b]
  }

  /** `vibrate(duration)`: only when vibration is on and the pad has an
      actuator. */
  function Vibrate(m: Manager, pad: Pad, duration: int): (r: seq<Event>)
    ensures r == [Rumble(duration)] <==> m.vibrationEnabled && pad.rumble
    ensures r == [] <==> !(m.vibrationEnabled && pad.rumble)
  {
    if m.vibrationEnabled && pad.rumble then [Rumble(duration)] else []
  }

  // ---------------------------------------------------------------------
  // Buttons: edge detection
  // ---------------------------------------------------------------------

  /** `handleButton`: fires on the poll where the button goes down, then
      records the current state. */
  function HandleButton(m: Manager, pad: Pad, b: int, name: string): (r: (map<int, bool>, seq<Event>))
    ensures Action(name) in r.1 <==> Pressed(pad, b) && !Was(m.lastButtons, b)
    ensures Was(r.0, b) == Pressed(pad, b) && b in r.0
    ensures forall c :: c != b ==> (c in r.0 <==> c in m.lastButtons) && (c in r.0 ==> r.0[c] == m.lastButtons[c])
    ensures forall e :: e in r.1 ==> e == Action(name) || e.Rumble?
  {
    var fire := Pressed(pad, b) && !Was(m.lastButtons, b);
    var events := if fire then [Action(name)] + Vibrate(m, pad, 50) else [];
    (m.lastButtons[b := Pressed(pad, b)], events)
  }

  /** The buttons of a table are distinct. */
  predicate DistinctButtons(bs: seq<(int, string)>) {
    forall i, j :: 0 <= i < j < |bs| ==> bs[i].0 != bs[j].0
  }

  /** The handleButton calls of one poll, run over a table in order. */
  function HandleButtons(m: Manager, pad: Pad, bs: seq<(int, string)>): (r: (map<int, bool>, seq<Event>))
    ensures forall c :: (forall k :: 0 <= k < |bs| ==> bs[k].0 != c) ==>
      (c in r.0 <==> c in m.lastButtons) && (c in r.0 ==> r.0[c] == m.lastButtons[c])
    ensures forall e :: e in r.1 ==> e.Rumble? || exists k :: 0 <= k < |bs| && e == Action(bs[k].1)
    decreases |bs|
  {
    if |bs| == 0 then (m.lastButtons, [])
    else
      var (last, first) := HandleButton(m, pad, bs[0].0, bs[0].1);
      var (rest, more) := HandleButtons(m.(lastButtons := last), pad, bs[1..]);
      assert forall e :: e in more ==> e.Rumble? || exists k :: 0 <= k < |bs| && e == Action(bs[k].1) by {
        forall e | e in more && !e.Rumble?
          ensures exists k :: 0 <= k < |bs| && e == Action(bs[k].1)
        {
          var k :| 0 <= k < |bs[1..]| && e == Action(bs[1..][k].1);
          assert e == Action(bs[k + 1].1);
        }
      }
      (rest, first + more)
  }

  /** After the calls, every button of the table holds its current
      state. */
  lemma {:induction false} HandleButtonsRecords(m: Manager, pad: Pad, bs: seq<(int, string)>, k: int)
    requires DistinctButtons(bs) && 0 <= k < |bs|
    ensures bs[k].0 in HandleButtons(m, pad, bs).0
    ensures Was(HandleButtons(m, pad, bs).0, bs[k].0) == Pressed(pad, bs[k].0)
    decreases |bs|
  {
    var (last, _) := HandleButton(m, pad, bs[0].0, bs[0].1);
    if k > 0 {
      assert DistinctButtons(bs[1..]);
      HandleButtonsRecords(m.(lastButtons := last), pad, bs[1..], k - 1);
    } else {
      assert forall j :: 0 <= j < |bs[1..]| ==> bs[1..][j].0 != bs[0].0;
    }
  }

  /** A button of the table fires exactly when it is down now and was not
      down at the previous poll. */
  lemma {:induction false} HandleButtonsFires(m: Manager, pad: Pad, bs: seq<(int, string)>, k: int)
    requires DistinctButtons(bs) && 0 <= k < |bs|
    requires forall j :: 0 <= j < |bs| && j != k ==> bs[j].1 != bs[k].1
    ensures Action(bs[k].1) in HandleButtons(m, pad, bs).1 <==> Pressed(pad, bs[k].0) && !Was(m.lastButtons, bs[k].0)
    decreases |bs|
  {
    var (last, first) := HandleButton(m, pad, bs[0].0, bs[0].1);
    var (rest, more) := HandleButtons(m.(lastButtons := last), pad, bs[1..]);
    assert HandleButtons(m, pad, bs).1 == first + more;
    if k > 0 {
      assert DistinctButtons(bs[1..]);
      assert bs[1..][k - 1] == bs[k];
      assert Action(bs[k].1) !in first;
      assert Was(last, bs[k].0) == Was(m.lastButtons, bs[k].0);
      HandleButtonsFires(m.(lastButtons := last), pad, bs[1..], k - 1);
      assert (Action(bs[k].1) in first + more) == (Action(bs[k].1) in more);
    }
  }

  lemma ButtonActionsDistinct()
    ensures DistinctButtons(ButtonActions)
    ensures forall i, j :: 0 <= i < |ButtonActions| && 0 <= j < |ButtonActions| && i != j ==> ButtonActions[i].1 != ButtonActions[j].1
  {
  }

  /** Every button's action is one the integration recognises. */
  lemma ButtonActionsHandled(k: int)
    requires 0 <= k < |ButtonActions|
    ensures GamepadNav.ActionOf(ButtonActions[k].1) != GamepadNav.OtherAction
    ensures GamepadNav.ActionName(GamepadNav.ActionOf(ButtonActions[k].1)) == ButtonActions[k].1
  {
  }

  // ---------------------------------------------------------------------
  // Directions: throttled navigation
  // ---------------------------------------------------------------------

  function DpadButton(d: GamepadNav.Direction): int {
    match d
    case Up => DpadUp
    case Down => DpadDown
    case Left => DpadLeft
    case Right => DpadRight
    case ClearSelection => -1
  }

  /** The d-pad direction of a poll: the first of up, down, left, right
      that is held. */
  function DpadDirection(pad: Pad): (r: Option<GamepadNav.Direction>)
    ensures r.Some? <==> exists b :: DpadUp <= b <= DpadRight && Pressed(pad, b)
    ensures r.Some? ==> Pressed(pad, DpadButton(r.value)) && DpadUp <= DpadButton(r.value)
    ensures r.Some? ==> forall b :: DpadUp <= b < DpadButton(r.value) ==> !Pressed(pad, b)
  {
    if Pressed(pad, DpadUp) then Some(GamepadNav.Up)
    else if Pressed(pad, DpadDown) then Some(GamepadNav.Down)
    else if Pressed(pad, DpadLeft) then Some(GamepadNav.Left)
    else if Pressed(pad, DpadRight) then Some(GamepadNav.Right)
    else None
  }

  /** The direction a stick axis gives, if it is outside the deadzone. */
  function StickDirection(t: Tilt, negative: GamepadNav.Direction, positive: GamepadNav.Direction): Option<GamepadNav.Direction> {
    match t
    case Negative => Some(negative)
    case Centred => None
    case Positive => Some(positive)
  }

  function OptionList(o: Option<GamepadNav.Direction>): seq<GamepadNav.Direction> {
    if o.Some? then [o.value] else []
  }

  /** The directions of one poll once the throttle lets it through: the
      d-pad, then the stick's vertical axis, then its horizontal axis. Each
      is dispatched; the stick does not wait for the d-pad. */
  function Directions(pad: Pad): (r: seq<GamepadNav.Direction>)
    ensures |r| <= 3
    ensures forall d :: d in r ==> d != GamepadNav.ClearSelection
    ensures DpadDirection(pad).Some? ==> |r| > 0 && r[0] == DpadDirection(pad).value
    ensures |r| == 0 <==> DpadDirection(pad).None? && pad.stickX.Centred? && pad.stickY.Centred?
  {
    OptionList(DpadDirection(pad))
      + OptionList(StickDirection(pad.stickY, GamepadNav.Up, GamepadNav.Down))
      + OptionList(StickDirection(pad.stickX, GamepadNav.Left, GamepadNav.Right))
  }

  /** The throttle: more than `navigationSpeed` milliseconds since the last
      navigation. */
  predicate NavigationDue(m: Manager, now: int) {
    now - m.lastNavigationTime > m.navigationSpeed
  }

  function NavigateEvents(ds: seq<GamepadNav.Direction>, selected: int): (r: seq<Event>)
    ensures |r| == |ds|
    ensures forall i :: 0 <= i < |ds| ==> r[i] == Navigate(ds[i], selected)
  {
    if |ds| == 0 then [] else [Navigate(ds[0], selected)] + NavigateEvents(ds[1..], selected)
  }

  /** The navigation part of `handleInput`. */
  function NavigationStep(m: Manager, pad: Pad, now: int): (r: (int, seq<Event>))
    ensures !NavigationDue(m, now) ==> r == (m.lastNavigationTime, [])
    ensures NavigationDue(m, now) ==> |r.1| == |Directions(pad)|
    ensures forall e :: e in r.1 ==> e.Navigate? && e.selectedIndex == m.selectedIndex
    ensures |r.1| > 0 ==> NavigationDue(m, now) && r.0 == now
    ensures |r.1| == 0 ==> r.0 == m.lastNavigationTime
  {
    if !NavigationDue(m, now) then (m.lastNavigationTime, [])
    else
      var ds := Directions(pad);
      (if |ds| > 0 then now else m.lastNavigationTime, NavigateEvents(ds, m.selectedIndex))
  }

  /** `handleInput(now)`: navigation first, then the buttons. */
  function HandleInput(m: Manager, pad: Pad, now: int): (r: (Manager, seq<Event>))
    ensures r.0 == m.(lastNavigationTime := r.0.lastNavigationTime, lastButtons := r.0.lastButtons)
    ensures r.1 == NavigationStep(m, pad, now).1 + HandleButtons(m, pad, ButtonActions).1
    ensures r.0.lastNavigationTime == NavigationStep(m, pad, now).0
  {
    var (time, navigation) := NavigationStep(m, pad, now);
    var (last, actions) := HandleButtons(m, pad, ButtonActions);
    (m.(lastNavigationTime := time, lastButtons := last), navigation + actions)
  }

  function NavigationOf(events: seq<Event>): (r: seq<Event>)
    ensures forall e :: e in r <==> e in events && e.Navigate?
  {
    if |events| == 0 then []
    else (if events[0].Navigate? then [events[0]] else []) + NavigationOf(events[1..])
  }

  lemma NavigationOfAppend(a: seq<Event>, b: seq<Event>)
    ensures NavigationOf(a + b) == NavigationOf(a) + NavigationOf(b)
  {
    if |a| > 0 {
      assert (a + b)[1..] == a[1..] + b;
    } else {
      assert a + b == b;
    }
  }

  lemma NoNavigationInButtons(m: Manager, pad: Pad, bs: seq<(int, string)>)
    ensures NavigationOf(HandleButtons(m, pad, bs).1) == []
  {
    NavigationOfNone(HandleButtons(m, pad, bs).1);
  }

  lemma {:induction false} NavigationOfNone(es: seq<Event>)
    requires forall e :: e in es ==> !e.Navigate?
    ensures NavigationOf(es) == []
  {
    if |es| > 0 {
      assert es[0] in es;
      NavigationOfNone(es[1..]);
    }

  }

  /** The navigation events of a poll are exactly those of the throttled
      step, so a poll inside the throttle window navigates nowhere. */
  lemma NavigationOfInput(m: Manager, pad: Pad, now: int)
    ensures NavigationOf(HandleInput(m, pad, now).1) == NavigationStep(m, pad, now).1
  {
    var nav := NavigationStep(m, pad, now).1;
    NavigationOfAppend(nav, HandleButtons(m, pad, ButtonActions).1);
    NoNavigationInButtons(m, pad, ButtonActions);
    NavigationOfNavigations(nav);
  }

  lemma {:induction false} NavigationOfNavigations(es: seq<Event>)
    requires forall e :: e in es ==> e.Navigate?
    ensures NavigationOf(es) == es
  {
    if |es| > 0 {
      assert es[0] in es;
      NavigationOfNavigations(es[1..]);
      assert es == [es[0]] + es[1..];
    }
  }

  /** D-pad priority: the first navigation of a due poll is the d-pad
      direction, up before down before left before right. */
  lemma DpadPriority(m: Manager, pad: Pad, now: int)
    requires NavigationDue(m, now) && DpadDirection(pad).Some?
    ensures HandleInput(m, pad, now).1[0] == Navigate(DpadDirection(pad).value, m.selectedIndex)
    ensures HandleInput(m, pad, now).0.lastNavigationTime == now
  {
  }

  /** Two polls navigate at most once per throttle window: after a poll
      that navigated at `now`, a poll at most `navigationSpeed` later
      dispatches no navigation, whatever is held. */
  lemma ThrottleSpacing(m: Manager, pad: Pad, now: int, pad2: Pad, later: int)
    requires NavigationOf(HandleInput(m, pad, now).1) != []
    requires later - now <= m.navigationSpeed
    ensures NavigationOf(HandleInput(HandleInput(m, pad, now).0, pad2, later).1) == []
  {
    NavigationOfInput(m, pad, now);
    var m1 := HandleInput(m, pad, now).0;
    NavigationOfInput(m1, pad2, later);
  }

  /** A held button fires once: on the poll after the one where it fired,
      it does not fire again. */
  lemma HeldButtonFiresOnce(m: Manager, pad: Pad, now: int, pad2: Pad, later: int, k: int)
    requires 0 <= k < |ButtonActions|
    requires Pressed(pad, ButtonActions[k].0) && Pressed(pad2, ButtonActions[k].0)
    ensures Action(ButtonActions[k].1) !in HandleInput(HandleInput(m, pad, now).0, pad2, later).1
  {
    ButtonActionsDistinct();
    var m1 := HandleInput(m, pad, now).0;
    HandleButtonsRecords(m, pad, ButtonActions, k);
    HandleButtonsFires(m1, pad2, ButtonActions, k);
    var nav := NavigationStep(m1, pad2, later).1;
    assert Action(ButtonActions[k].1) !in nav;
  }

  /** A button pressed after a poll that saw it released fires. */
  lemma PressFires(m: Manager, pad: Pad, now: int, pad2: Pad, later: int, k: int)
    requires 0 <= k < |ButtonActions|
    requires !Pressed(pad, ButtonActions[k].0) && Pressed(pad2, ButtonActions[k].0)
    ensures Action(ButtonActions[k].1) in HandleInput(HandleInput(m, pad, now).0, pad2, later).1
  {
    ButtonActionsDistinct();
    var m1 := HandleInput(m, pad, now).0;
    HandleButtonsRecords(m, pad, ButtonActions, k);
    HandleButtonsFires(m1, pad2, ButtonActions, k);
  }

  // ---------------------------------------------------------------------
  // The polling loop
  // ---------------------------------------------------------------------

  /** Input is handled only while enabled, polling and focused. */
  predicate Active(m: Manager) {
    m.enabled && m.pollingActive && m.windowHasFocus
  }

  /** One frame of the loop: the new fields, the events dispatched, and
      whether the next frame is requested. */
  datatype Step = Step(m: Manager, events: seq<Event>, rescheduled: bool)

  /** `pollGamepad()`: `reading` is what the browser reports at the stored
      pad's index. A connected manager whose pad reading vanished throws
      on the index lookup before the next frame is requested. */
  function Poll(m: Manager, reading: Option<Pad>, now: int): (r: Step)
    ensures !Active(m) ==> r == Step(m, [], true)
    ensures |r.events| > 0 ==> Active(m) && m.connected && reading.Some?
    ensures !r.rescheduled <==> Active(m) && m.connected && m.gamepad.None?
    ensures Active(m) && m.connected && m.gamepad.Some? ==> r.m.gamepad == reading
    ensures r.m.enabled == m.enabled && r.m.pollingActive == m.pollingActive && r.m.windowHasFocus == m.windowHasFocus
  {
    if !Active(m) then Step(m, [], true)
    else if !m.connected then Step(m, [], true)
    else if m.gamepad.None? then Step(m, [], false)
    else if reading.None? then Step(m.(gamepad := None), [], true)
    else
      var (m2, events) := HandleInput(m.(gamepad := reading), reading.value, now);
      Step(m2, events, true)
  }

  // ---------------------------------------------------------------------
  // Connection, focus and visibility
  // ---------------------------------------------------------------------

  /** `onGamepadConnected`: the pad is stored and rumbles briefly. */
  function OnConnected(m: Manager, pad: Pad): (r: Step)
    ensures r.m.connected && r.m.gamepad == Some(pad)
    ensures r.events == Vibrate(m, pad, 100)
  {
    Step(m.(gamepad := Some(pad), connected := true), Vibrate(m, pad, 100), true)
  }

  function OnDisconnected(m: Manager): (r: Manager)
    ensures !r.connected && r.gamepad.None?
  {
    m.(connected := false, gamepad := None)
  }

  /** `checkExistingGamepads`: the first pad the browser already reports
      is taken. */
  function CheckExisting(m: Manager, pads: seq<Option<Pad>>): (r: Manager)
    ensures r.connected <==> m.connected || exists i :: 0 <= i < |pads| && pads[i].Some?
    ensures r.gamepad != m.gamepad ==> r.gamepad in pads
    ensures |pads| > 0 && pads[0].Some? ==> r.gamepad == pads[0]
  {
    if |pads| == 0 then m
    else if pads[0].Some? then m.(gamepad := pads[0], connected := true)
    else
      var r := CheckExisting(m, pads[1..]);
      assert forall i :: 1 <= i < |pads| ==> pads[i] == pads[1..][i - 1];
      r
  }

  /** `onWindowFocus`: focus returns, and polling resumes unless the
      controls editor is capturing input. */
  function OnFocus(m: Manager, capturing: bool): (r: Manager)
    ensures r.windowHasFocus
    ensures r.pollingActive <==> m.pollingActive || !capturing
    ensures r.(windowHasFocus := m.windowHasFocus, pollingActive := m.pollingActive) == m
  {
    if capturing then m.(windowHasFocus := true) else m.(windowHasFocus := true, pollingActive := true)
  }

  /** `onWindowBlur`: polling pauses. */
  function OnBlur(m: Manager): (r: Manager)
    ensures !Active(r)
    ensures r.(windowHasFocus := m.windowHasFocus, pollingActive := m.pollingActive) == m
  {
    m.(windowHasFocus := false, pollingActive := false)
  }

  /** `onVisibilityChange`: a hidden page pauses polling; a visible one
      resumes it unless input is being captured. */
  function OnVisibility(m: Manager, hidden: bool, capturing: bool): (r: Manager)
    ensures hidden ==> !r.pollingActive
    ensures !hidden ==> (r.pollingActive <==> m.pollingActive || !capturing)
    ensures r.(pollingActive := m.pollingActive) == m
  {
    if hidden then m.(pollingActive := false)
    else if capturing then m
    else m.(pollingActive := true)
  }

  /** Leaving the window and coming back restores input exactly when the
      poller is enabled and nothing is capturing input. */
  lemma BlurThenFocus(m: Manager, capturing: bool)
    ensures Active(OnFocus(OnBlur(m), capturing)) <==> m.enabled && !capturing
  {
  }

  /** While input is captured, a paused poller stays paused whatever focus
      and visibility do. */
  lemma CapturingStaysPaused(m: Manager, hidden: bool)
    requires !m.pollingActive
    ensures !Active(OnFocus(m, true)) && !Active(OnVisibility(m, hidden, true))
  {
  }

  /** A poll after a blur handles nothing. */
  lemma BlurredPollIsSilent(m: Manager, reading: Option<Pad>, now: int)
    ensures Poll(OnBlur(m), reading, now) == Step(OnBlur(m), [], true)
  {
  }

  // ---------------------------------------------------------------------
  // Settings and status
  // ---------------------------------------------------------------------

  /** `setEnabled(enabled)`: disabling resets the index and clears the
      highlighted card. */
  function SetEnabled(m: Manager, enabled: bool): (r: Step)
    ensures r.m.enabled == enabled
    ensures !enabled ==> r.m.selectedIndex == 0 && r.events == [NavigateClear]
    ensures enabled ==> r.m == m.(enabled := true) && r.events == []
    ensures r.m.(enabled := m.enabled, selectedIndex := m.selectedIndex) == m
  {
    if enabled then Step(m.(enabled := true), [], true)
    else Step(m.(enabled := false, selectedIndex := 0), [NavigateClear], true)
  }

  function SetVibrationEnabled(m: Manager, enabled: bool): (r: Manager)
    ensures r.vibrationEnabled == enabled && r.(vibrationEnabled := m.vibrationEnabled) == m
  {
    m.(vibrationEnabled := enabled)
  }

  function SetNavigationSpeed(m: Manager, speed: int): (r: Manager)
    ensures r.navigationSpeed == speed && r.(navigationSpeed := m.navigationSpeed) == m
  {
    m.(navigationSpeed := speed)
  }

  datatype Status = Status(enabled: bool, connected: bool, gamepadId: Option<string>, vibrationEnabled: bool, navigationSpeed: int)

  /** `getStatus()`: the id is null when there is no pad, and also when
      the pad's id is empty, since the empty string is falsy. */
  function GetStatus(m: Manager): (r: Status)
    ensures r.enabled == m.enabled && r.connected == m.connected
    ensures r.vibrationEnabled == m.vibrationEnabled && r.navigationSpeed == m.navigationSpeed
    ensures r.gamepadId.Some? ==> m.gamepad.Some? && r.gamepadId.value == m.gamepad.value.id
    ensures r.gamepadId.None? <==> m.gamepad.None? || m.gamepad.value.id == ""
  {
    var id := if m.gamepad.Some? && m.gamepad.value.id != "" then Some(m.gamepad.value.id) else None;
    Status(m.enabled, m.connected, id, m.vibrationEnabled, m.navigationSpeed)
  }

  /** Connecting a pad shows it in the status; disconnecting removes it. */
  lemma StatusFollowsConnection(m: Manager, pad: Pad)
    requires pad.id != ""
    ensures GetStatus(OnConnected(m, pad).m).connected
    ensures GetStatus(OnConnected(m, pad).m).gamepadId == Some(pad.id)
    ensures GetStatus(OnDisconnected(OnConnected(m, pad).m)) == GetStatus(m).(connected := false, gamepadId := None)
  {
  }

  /** A disabled poller dispatches nothing, connected or not. */
  lemma DisabledPollIsSilent(m: Manager, reading: Option<Pad>, now: int)
    ensures Poll(SetEnabled(m, false).m, reading, now).events == []
  {
  }
}

=== FILE: gamepad_nav.dfy ===
/** Gamepad and keyboard navigation over the page: the selected card in
    the grid, focus inside the open modal, the quick filter menu, and the
    actions buttons trigger.  The page itself is read through `Page`. */
module GamepadNav {
  import opened Wrappers
  import opened Text

  datatype Direction = Up | Down | Left | Right | ClearSelection

  /** One entry of the quick filter menu. */
  datatype MenuOption = MenuOption(filter: string, isToggle: bool)

  /** What the page shows when an event arrives: the number of game cards,
      whether a gamepad or the keyboard is active, the column count the
      grid reports, the open modal's focusable elements and the index of
      the focused one (-1 for none), the quick filter menu and its
      options, and the checked status filter, if any. */
  datatype Page = Page(
    cards: nat,
    deviceActive: bool,
    columns: int,
    modalShown: bool,
    focusables: nat,
    focus: int,
    menuShown: bool,
    options: seq<MenuOption>,
    checkedStatus: Option<string>)

  datatype Nav = Nav(
    selected: int,
    modalOpen: bool,
    capturing: bool,
    menuOpen: bool,
    menuIndex: int,
    usingDevice: bool)

  const Initial := Nav(-1, false, false, false, 0, false)

  // ---------------------------------------------------------------------
  // Index arithmetic

  function Max(a: int, b: int): int { if a >= b then a else b }
  function Min(a: int, b: int): int { if a <= b then a else b }

  /** The grid move from card `i` of `n`, `cols` to a row. */
  function GridMove(i: int, n: int, cols: int, d: Direction): (r: int)
    ensures d == Up ==> r == Max(0, i - cols)
    ensures d == Down ==> r == Min(n - 1, i + cols)
    ensures d == Left ==> r == Max(0, i - 1)
    ensures d == Right ==> r == Min(n - 1, i + 1)
  {
    match d
    case Up => Max(0, i - cols)
    case Down => Min(n - 1, i + cols)
    case Left => Max(0, i - 1)
    case Right => Min(n - 1, i + 1)
    case ClearSelection => i
  }

  /** From a card of the grid every move stays on a card, and moves at
      most a row. */
  lemma GridMoveInRange(i: int, n: int, cols: int, d: Direction)
    requires 0 <= i < n && cols >= 1
    ensures 0 <= GridMove(i, n, cols, d) < n
    ensures -cols <= GridMove(i, n, cols, d) - i <= cols
  {
  }

  /** Moving right then left returns to the card, except from the last
      card, where right does not move. */
  lemma RightThenLeft(i: int, n: int, cols: int)
    requires 0 <= i < n - 1
    ensures GridMove(GridMove(i, n, cols, Right), n, cols, Left) == i
  {
  }

  /** Focus inside the modal wraps around at both ends; -1 (nothing
      focused) goes to the last element on up or left. */
  function ModalMove(cur: int, m: int, d: Direction): (r: int)
    requires m > 0 && -1 <= cur < m
    ensures 0 <= r < m || (d == ClearSelection && r == cur)
    ensures (d == Up || d == Left) ==> r == (if cur > 0 then cur - 1 else m - 1)
    ensures (d == Down || d == Right) ==> r == (if cur < m - 1 then cur + 1 else 0)
  {
    match d
    case Up => if cur > 0 then cur - 1 else m - 1
    case Left => if cur > 0 then cur - 1 else m - 1
    case Down => if cur < m - 1 then cur + 1 else 0
    case Right => if cur < m - 1 then cur + 1 else 0
    case ClearSelection => cur
  }

  /** Down undoes up, and up undoes down, on a focused element. */
  lemma ModalMoveInverse(cur: int, m: int)
    requires 0 <= cur < m
    ensures ModalMove(ModalMove(cur, m, Up), m, Down) == cur
    ensures ModalMove(ModalMove(cur, m, Down), m, Up) == cur
  {
  }

  /** The quick filter menu's index clamps at both ends. */
  function MenuMove(k: int, n: int, d: Direction): (r: int)
    requires n > 0
    ensures 0 <= k < n ==> 0 <= r < n
    ensures d == Up ==> r == Max(0, k - 1)
    ensures d == Down ==> r == Min(n - 1, k + 1)
    ensures d != Up && d != Down ==> r == k
  {
    match d
    case Up => Max(0, k - 1)
    case Down => Min(n - 1, k + 1)
    case _ => k
  }

  /** `getGridColumns()` from the slider's text: `parseInt(value) || 5`. */
  function SliderColumns(value: string): (r: int)
    ensures r != 0
  {
    match ParseInt(value)
    case Some(n) => if n != 0 then n else 5
    case None => 5
  }

  // ---------------------------------------------------------------------
  // Navigation

  /** `refreshGameCards()`: without an active device the selection goes;
      a device user's selection out of range goes to the first card; a
      mouse user's selection past the end goes to the last card. */
  function Refresh(s: Nav, p: Page): (r: Nav)
    ensures !p.deviceActive ==> r.selected == -1 && !r.usingDevice
    ensures p.deviceActive && s.usingDevice && p.cards > 0 ==> 0 <= r.selected < p.cards
    ensures p.deviceActive && !s.usingDevice && s.selected < p.cards ==> r.selected == s.selected
    ensures p.deviceActive && !s.usingDevice && s.selected >= p.cards ==> r.selected == Max(0, p.cards - 1)
    ensures r.modalOpen == s.modalOpen && r.menuOpen == s.menuOpen && r.capturing == s.capturing
    ensures s.selected >= -1 ==> r.selected >= -1
  {
    if !p.deviceActive then s.(selected := -1, usingDevice := false)
    else if s.usingDevice then
      if 0 <= s.selected < p.cards then s
      else if p.cards > 0 then s.(selected := 0)
      else s
    else if s.selected >= p.cards then s.(selected := Max(0, p.cards - 1))
    else s
  }

  /** `handleNavigation(direction)`: the new state, and the modal element
      focused, if any. */
  function Navigate(s: Nav, p: Page, d: Direction): (r: (Nav, Option<int>))
    requires -1 <= p.focus < p.focusables
    ensures d == ClearSelection ==> r.0 == s.(selected := -1) && r.1.None?
    ensures d != ClearSelection ==> r.0.usingDevice || !p.deviceActive
    ensures d != ClearSelection && s.capturing ==> r.0 == s.(usingDevice := true) && r.1.None?
    ensures r.1.Some? ==> !s.capturing && !s.menuOpen && s.modalOpen && 0 <= r.1.value < p.focusables
    ensures r.0.capturing == s.capturing
  {
    if d == ClearSelection then (s.(selected := -1), None)
    else
      var t := s.(usingDevice := true);
      if t.capturing then (t, None)
      else if t.menuOpen then
        if !p.menuShown then (t.(menuOpen := false), None)
        else if |p.options| == 0 then (t, None)
        else (t.(menuIndex := MenuMove(t.menuIndex, |p.options|, d)), None)
      else if t.modalOpen then
        if !p.modalShown then (t.(modalOpen := false), None)
        else if p.focusables == 0 then (t, None)
        else (t, Some(ModalMove(p.focus, p.focusables, d)))
      else
        var u := Refresh(t, p);
        if p.cards == 0 then (u, None)
        else if u.selected < 0 then (u.(selected := 0), None)
        else (u.(selected := GridMove(u.selected, p.cards, p.columns, d)), None)
  }

  /** The filter menu takes the move before the modal, and the modal
      before the grid. */
  lemma NavigatePrecedence(s: Nav, p: Page, d: Direction)
    requires -1 <= p.focus < p.focusables
    requires d != ClearSelection && !s.capturing
    ensures s.menuOpen ==> Navigate(s, p, d).0.selected == s.selected && Navigate(s, p, d).1.None?
    ensures !s.menuOpen && s.modalOpen ==> Navigate(s, p, d).0.selected == s.selected
  {
  }

  /** In the grid, with a device active and the selection on a card, a
      move lands on a card. */
  lemma NavigateStaysOnCards(s: Nav, p: Page, d: Direction)
    requires -1 <= p.focus < p.focusables
    requires d != ClearSelection && !s.capturing && !s.menuOpen && !s.modalOpen
    requires p.cards > 0 && p.columns >= 1 && p.deviceActive
    ensures 0 <= Navigate(s, p, d).0.selected < p.cards
  {
    var u := Refresh(s.(usingDevice := true), p);
    GridMoveInRange(u.selected, p.cards, p.columns, d);
  }

  /** As written: with a gamepad or keyboard active, a move made while
      nothing is selected does not just select the first card, because
      the refresh before it has already put the selection there; a move
      right selects the second card. */
  lemma FirstMoveFromNothing(s: Nav, p: Page)
    requires -1 <= p.focus < p.focusables
    requires !s.capturing && !s.menuOpen && !s.modalOpen && s.selected == -1
    requires p.cards >= 2 && p.deviceActive
    ensures Navigate(s, p, Right).0.selected == 1
  {
  }

  /** `handleNavigation` as its comment describes it: a move made while
      nothing is selected selects the first card and moves no further. */
  function NavigateIntended(s: Nav, p: Page, d: Direction): (r: (Nav, Option<int>))
    requires -1 <= p.focus < p.focusables
    ensures !s.capturing && !s.menuOpen && !s.modalOpen && d != ClearSelection && p.cards > 0 && s.selected < 0
      ==> r.0.selected == 0
    ensures s.selected >= 0 || d == ClearSelection || s.capturing || s.menuOpen || s.modalOpen
      ==> r == Navigate(s, p, d)
  {
    if d != ClearSelection && !s.capturing && !s.menuOpen && !s.modalOpen && s.selected < 0 then
      var u := Refresh(s.(usingDevice := true), p);
      if p.cards == 0 then (u, None) else (u.(selected := 0), None)
    else Navigate(s, p, d)
  }

  // ---------------------------------------------------------------------
  // Actions

  datatype Action =
    | Select | Back | Favorite | Details | Settings | ShowFilterMenu | ToggleView
    | Home | NextFilter | PreviousFilter | PageUp | PageDown | OtherAction

  /** The name an action travels under in a `gamepadAction` event. */
  function ActionName(a: Action): string {
    match a
    case Select => "select"
    case Back => "back"
    case Favorite => "favorite"
    case Details => "details"
    case Settings => "settings"
    case ShowFilterMenu => "showFilterMenu"
    case ToggleView => "toggleView"
    case Home => "home"
    case NextFilter => "nextFilter"
    case PreviousFilter => "previousFilter"
    case PageUp => "pageUp"
    case PageDown => "pageDown"
    case OtherAction => ""
  }

  /** The `switch (action)` of `handleAction`: a name no case matches does
      nothing. */
  function ActionOf(name: string): (r: Action)
    ensures r != OtherAction ==> ActionName(r) == name
  {
    if name == "select" then Select
    else if name == "back" then Back
    else if name == "favorite" then Favorite
    else if name == "details" then Details
    else if name == "settings" then Settings
    else if name == "showFilterMenu" then ShowFilterMenu
    else if name == "toggleView" then ToggleView
    else if name == "home" then Home
    else if name == "nextFilter" then NextFilter
    else if name == "previousFilter" then PreviousFilter
    else if name == "pageUp" then PageUp
    else if name == "pageDown" then PageDown
    else OtherAction
  }

  /** Every named action is recognised under its own name. */
  lemma ActionNameRoundTrip(a: Action)
    requires a != OtherAction
    ensures ActionOf(ActionName(a)) == a
  {
  }

  /** What an action asks the rest of the page to do. */
  datatype Effect =
    | NoEffect
    | CloseModal
    | ToggleFavorite(card: nat)
    | ShowDetails(card: nat)
    | ShowSettings
    | ChooseFilter(option: MenuOption)
    | PressFocused
    | ActivateCard(card: nat)
    | SwitchView
    | CheckStatus(value: string)
    | Scroll(card: nat)

  /** `getSelectedCard()`: the selected card, if the index is on one. */
  function SelectedCard(s: Nav, cards: nat): (r: Option<nat>)
    ensures r.Some? <==> 0 <= s.selected < cards
    ensures r.Some? ==> r.value == s.selected
  {
    if s.selected < 0 || s.selected >= cards then None else Some(s.selected as nat)
  }

  const Statuses := ["all", "installed", "not-installed"]

  function IndexOfStatus(v: string): (r: int)
    ensures -1 <= r < 3
    ensures r >= 0 ==> Statuses[r] == v
    ensures r == -1 <==> v !in Statuses
  {
    if v == "all" then 0 else if v == "installed" then 1 else if v == "not-installed" then 2 else -1
  }

  /** The status after the checked one, cyclically. */
  function NextStatus(v: string): (r: string)
    ensures r in Statuses
  {
    Statuses[(IndexOfStatus(v) + 1) % 3]
  }

  /** The status before the checked one, cyclically. */
  function PreviousStatus(v: string): (r: string)
    ensures r in Statuses
  {
    Statuses[(IndexOfStatus(v) - 1 + 3) % 3]
  }

  lemma NextStatuses()
    ensures NextStatus("all") == "installed"
    ensures NextStatus("installed") == "not-installed"
    ensures NextStatus("not-installed") == "all"
  {
  }

  lemma PreviousStatuses()
    ensures PreviousStatus("all") == "not-installed"
    ensures PreviousStatus("installed") == "all"
    ensures PreviousStatus("not-installed") == "installed"
  {
  }

  /** On the three statuses the two cycles undo each other; a value off
      the list counts as index -1. */
  lemma StatusCycles(v: string)
    ensures v in Statuses ==> NextStatus(PreviousStatus(v)) == v && PreviousStatus(NextStatus(v)) == v
    ensures v !in Statuses ==> NextStatus(v) == "all" && PreviousStatus(v) == "installed"
  {
    if v in Statuses {
      NextStatuses();
      PreviousStatuses();
      assert v == Statuses[0] || v == Statuses[1] || v == Statuses[2];
    } else {
      assert IndexOfStatus(v) == -1;
    }
  }

  /** Three steps of either cycle return to the start. */
  lemma StatusCycleOrder(v: string)
    requires v in Statuses
    ensures NextStatus(NextStatus(NextStatus(v))) == v
    ensures PreviousStatus(PreviousStatus(PreviousStatus(v))) == v
  {
    NextStatuses();
    PreviousStatuses();
    assert v == Statuses[0] || v == Statuses[1] || v == Statuses[2];
  }

  /** `pageUp`/`pageDown`: three rows at a time, clamped to the cards. */
  function PageJump(i: int, n: int, cols: int, down: bool): (r: int)
    requires n > 0
    ensures cols >= 1 && -1 <= i < n ==> 0 <= r < n
    ensures down ==> r == Min(n - 1, i + 3 * cols)
    ensures !down ==> r == Max(0, i - 3 * cols)
  {
    if down then Min(n - 1, i + 3 * cols) else Max(0, i - 3 * cols)
  }

  /** `handleAction(action)`: the new state and what the page is asked to
      do.  `modalFlex` is whether the modal is displayed when the action
      arrives. */
  function HandleAction(s0: Nav, p: Page, modalFlex: bool, a: Action): (r: (Nav, Effect))
    ensures s0.capturing ==> r.0 == s0.(modalOpen := modalFlex) && r.1 == NoEffect
    ensures r.0.capturing == s0.capturing
  {
    var s := s0.(modalOpen := modalFlex);
    if s.capturing then (s, NoEffect)
    else match a
      case Back => ActionBack(s)
      case Select => ActionSelect(s, p)
      case Favorite =>
        if s.modalOpen || SelectedCard(s, p.cards).None? then (s, NoEffect)
        else (s, ToggleFavorite(SelectedCard(s, p.cards).value))
      case Details =>
        if s.modalOpen || SelectedCard(s, p.cards).None? then (s, NoEffect)
        else (s.(modalOpen := true), ShowDetails(SelectedCard(s, p.cards).value))
      case Settings => (s, if s.modalOpen then NoEffect else ShowSettings)
      case ShowFilterMenu =>
        if s.modalOpen then (s, NoEffect)
        else if p.menuShown then (s.(menuOpen := false, menuIndex := 0), NoEffect)
        else (s.(menuOpen := true, menuIndex := 0), NoEffect)
      case ToggleView => (s, if s.modalOpen then NoEffect else SwitchView)
      case Home =>
        if s.modalOpen then (s, NoEffect)
        else (s.(selected := 0), if p.cards > 0 then Scroll(0) else NoEffect)
      case NextFilter =>
        if s.modalOpen || p.checkedStatus.None? then (s, NoEffect)
        else (s, CheckStatus(NextStatus(p.checkedStatus.value)))
      case PreviousFilter =>
        if s.modalOpen || p.checkedStatus.None? then (s, NoEffect)
        else (s, CheckStatus(PreviousStatus(p.checkedStatus.value)))
      case PageUp => ActionPage(s, p, false)
      case PageDown => ActionPage(s, p, true)
      case OtherAction => (s, NoEffect)
  }

  /** `actionBack()`: closes the filter menu when it is open, else the
      modal; nothing else. */
  function ActionBack(s: Nav): (r: (Nav, Effect))
    ensures s.menuOpen ==> r.0 == s.(menuOpen := false, menuIndex := 0) && r.1 == NoEffect
    ensures !s.menuOpen && s.modalOpen ==> r.0 == s.(modalOpen := false) && r.1 == CloseModal
    ensures !s.menuOpen && !s.modalOpen ==> r == (s, NoEffect)
  {
    if s.menuOpen then (s.(menuOpen := false, menuIndex := 0), NoEffect)
    else if s.modalOpen then (s.(modalOpen := false), CloseModal)
    else (s, NoEffect)
  }

  /** `actionSelect()`: the highlighted filter in the menu (which closes
      unless the option is a toggle), the focused control in the modal, or
      the selected card's launch or install button. */
  function ActionSelect(s: Nav, p: Page): (r: (Nav, Effect))
    ensures s.menuOpen ==> r.1 == NoEffect || (0 <= s.menuIndex < |p.options| && r.1 == ChooseFilter(p.options[s.menuIndex]))
    ensures !s.menuOpen && s.modalOpen ==> r == (s, PressFocused)
    ensures !s.menuOpen && !s.modalOpen ==>
      (r.1 == NoEffect <==> SelectedCard(s, p.cards).None?)
  {
    if s.menuOpen then
      if 0 <= s.menuIndex < |p.options| then
        var o := p.options[s.menuIndex];
        (if o.isToggle then s else s.(menuOpen := false, menuIndex := 0), ChooseFilter(o))
      else (s, NoEffect)
    else if s.modalOpen then (s, PressFocused)
    else match SelectedCard(s, p.cards)
      case None => (s, NoEffect)
      case Some(c) => (s, ActivateCard(c))
  }

  function ActionPage(s: Nav, p: Page, down: bool): (r: (Nav, Effect))
    ensures s.modalOpen || s.menuOpen ==> r == (s, NoEffect)
    ensures !s.modalOpen && !s.menuOpen && p.cards > 0 && p.columns >= 1 && s.selected >= -1 ==> 0 <= r.0.selected < p.cards
  {
    if s.modalOpen || s.menuOpen then (s, NoEffect)
    else
      var u := Refresh(s, p);
      if p.cards == 0 then (u, NoEffect)
      else
        var j := PageJump(u.selected, p.cards, p.columns, down);
        (u.(selected := j), if j >= 0 then Scroll(j) else NoEffect)
  }

  /** While input is being captured nothing moves and no action acts. */
  lemma CapturingIgnoresInput(s: Nav, p: Page, modalFlex: bool, a: Action, d: Direction)
    requires s.capturing && -1 <= p.focus < p.focusables && d != ClearSelection
    ensures HandleAction(s, p, modalFlex, a).1 == NoEffect
    ensures Navigate(s, p, d).0.selected == s.selected && Navigate(s, p, d).1.None?
  {
  }
}

=== FILE: games.dfy ===
/** The game record the browser client assembles for every entry of the
    game list, and the records it is built from.  A string field that the
    source leaves `null` or `undefined` is the empty string here: every
    place that reads such a field treats both as falsy. */
module GameModel {
  import opened Wrappers

  /** One `FieldInformation` entry of a profile's ConfigValues. */
  datatype ConfigValue = ConfigValue(category: string, name: string, value: string, fieldType: string)

  /** One `JoystickButtons` entry of a profile. */
  datatype ButtonRecord = ButtonRecord(buttonName: string, inputMapping: string)

  /** The parsed GameProfiles/<id>.xml; the boolean flags are true exactly
      when the element's text is `true`. */
  datatype GameProfile = GameProfile(
    gamePath: string,
    emulationProfile: string,
    profileRevision: string,
    emulatorType: string,
    executableName: string,
    gunGame: bool,
    hasSeparateTestMode: bool,
    is64Bit: bool,
    requiresAdmin: bool,
    patreon: bool,
    msysType: string,
    configValues: seq<ConfigValue>,
    joystickButtons: seq<ButtonRecord>)

  /** The parsed UserProfiles/<id>.xml of an installed game. */
  datatype UserProfile = UserProfile(
    profileName: string,
    gameNameInternal: string,
    gameGenreInternal: string,
    gamePath: string,
    iconName: string,
    configValues: seq<ConfigValue>,
    joystickButtons: seq<ButtonRecord>)

  /** The parsed GameSetup/<id>.xml. */
  datatype GameSetup = GameSetup(
    executableLocation: string,
    testExecutableLocation: string,
    devOnly: bool)

  /** The Metadata/<id>.json record; `platformOriginal` is filled in by the
      loader when it normalises `platform`. */
  datatype Metadata = Metadata(
    gameName: string,
    gameGenre: string,
    platform: string,
    platformOriginal: string,
    releaseYear: string,
    nvidia: string,
    amd: string,
    intel: string)

  /** The fields a custom profile adds to a game; empty when absent. */
  datatype CustomFields = CustomFields(
    customName: string,
    customDescription: string,
    customYoutubeLink: string,
    customTags: seq<string>,
    customGenre: string,
    customYear: string,
    hasCustomProfile: bool)

  const NoCustomFields := CustomFields("", "", "", [], "", "", false)

  datatype Game = Game(
    id: string,
    name: string,
    isInstalled: bool,
    profile: Option<GameProfile>,
    metadata: Option<Metadata>,
    userProfile: Option<UserProfile>,
    gameSetup: Option<GameSetup>,
    iconUrl: Option<string>,
    custom: CustomFields)

  /** JavaScript truthiness of a string. */
  predicate Truthy(s: string) {
    s != ""
  }

  /** `a || b` on strings. */
  function Or(a: string, b: string): string {
    if Truthy(a) then a else b
  }

  /** `metadata?.game_genre || userProfile?.GameGenreInternal`: the genre
      key shared by the genre filter, the facet list and the card. */
  function GenreKey(g: Game): string {
    Or(if g.metadata.Some? then g.metadata.value.gameGenre else "",
       if g.userProfile.Some? then g.userProfile.value.gameGenreInternal else "")
  }

  /** `metadata?.platform` */
  function PlatformKey(g: Game): string {
    if g.metadata.Some? then g.metadata.value.platform else ""
  }

  /** `profile?.EmulatorType` */
  function EmulatorKey(g: Game): string {
    if g.profile.Some? then g.profile.value.emulatorType else ""
  }

  /** `metadata?.release_year` */
  function ReleaseYear(g: Game): string {
    if g.metadata.Some? then g.metadata.value.releaseYear else ""
  }

  function Ids(games: seq<Game>): seq<string> {
    seq(|games|, i requires 0 <= i < |games| => games[i].id)
  }
}

=== FILE: id_sets.dfy ===
/** Sets of game ids as the favourites and hidden-games managers keep
    them: a JavaScript `Set` (insertion order, no duplicates) mirrored to
    one browser-storage key after every change.  The two managers are the
    same class under different names, so one model serves both. */
module IdSets {
  import opened Seqs

  // ---------------------------------------------------------------------
  // An insertion-ordered set

  /** `set.add(x)`: appended when new, otherwise unchanged. */
  function Add(s: seq<string>, x: string): (r: seq<string>)
    ensures forall y :: y in r <==> y in s || y == x
    ensures NoDuplicates(s) ==> NoDuplicates(r)
    ensures x in s ==> r == s
  {
    if x in s then s else s + [x]
  }

  /** `set.delete(x)` */
  function Delete(s: seq<string>, x: string): (r: seq<string>)
    ensures forall y :: y in r <==> y in s && y != x
    ensures NoDuplicates(s) ==> NoDuplicates(r)
    ensures SubseqOf(r, s)
    decreases |s|
  {
    if |s| == 0 then []
    else
      var rest := Delete(s[1..], x);
      SubseqSkipHead(rest, s);
      NoDuplicatesCons(s, rest);
      if s[0] == x then rest else [s[0]] + rest
  }

  lemma NoDuplicatesCons(s: seq<string>, rest: seq<string>)
    requires |s| > 0 && forall y :: y in rest ==> y in s[1..]
    requires NoDuplicates(s[1..]) ==> NoDuplicates(rest)
    ensures NoDuplicates(s) ==> NoDuplicates(s[1..]) && NoDuplicates([s[0]] + rest)
  {
    if NoDuplicates(s) {
      assert NoDuplicates(s[1..]) by {
        forall i, j | 0 <= i < j < |s[1..]| ensures s[1..][i] != s[1..][j] {
          assert s[1..][i] == s[i + 1] && s[1..][j] == s[j + 1];
        }
      }
      assert s[0] !in s[1..];
      var r := [s[0]] + rest;
      forall i, j | 0 <= i < j < |r| ensures r[i] != r[j] {
        assert r[j] == rest[j - 1];
        if i == 0 {
          assert rest[j - 1] in rest;
        } else {
          assert r[i] == rest[i - 1];
        }
      }
    }
  }

  lemma {:induction false} DeleteAbsent(s: seq<string>, x: string)
    requires x !in s
    ensures Delete(s, x) == s
    decreases |s|
  {
    if |s| > 0 {
      assert s[0] in s;
      assert forall y :: y in s[1..] ==> y in s;
      DeleteAbsent(s[1..], x);
      assert s == [s[0]] + s[1..];
    }
  }

  lemma {:induction false} DeleteAppended(s: seq<string>, x: string)
    requires x !in s
    ensures Delete(s + [x], x) == s
    decreases |s|
  {
    var sx := s + [x];
    if |s| == 0 {
      assert sx[1..] == [];
    } else {
      assert sx[0] == s[0] && sx[1..] == s[1..] + [x];
      assert s[0] in s;
      assert forall y :: y in s[1..] ==> y in s;
      DeleteAppended(s[1..], x);
      assert s == [s[0]] + s[1..];
    }
  }

  /** `new Set(array)`: the first occurrence of each element, in order. */
  function FromList(xs: seq<string>): (r: seq<string>)
    ensures forall y :: y in r <==> y in xs
    ensures NoDuplicates(r)
    decreases |xs|
  {
    if |xs| == 0 then [] else Add(FromList(xs[..|xs| - 1]), xs[|xs| - 1])
  }

  lemma {:induction false} FromListNoDuplicates(xs: seq<string>)
    requires NoDuplicates(xs)
    ensures FromList(xs) == xs
    decreases |xs|
  {
    if |xs| > 0 {
      var init := xs[..|xs| - 1];
      assert NoDuplicates(init);
      FromListNoDuplicates(init);
      assert xs[|xs| - 1] !in init;
      assert xs == init + [xs[|xs| - 1]];
    }
  }

  // ---------------------------------------------------------------------
  // The stored set

  /** What the storage key holds: nothing, text that does not parse as a
      list, or a list of ids. */
  datatype Stored = Missing | Unreadable | Saved(ids: seq<string>)

  /** The manager: its set and the value last written to storage. */
  datatype Store = Store(ids: seq<string>, stored: Stored)

  /** The set is duplicate-free. */
  predicate Valid(st: Store) {
    NoDuplicates(st.ids)
  }

  /** Storage holds exactly the current set. */
  predicate Synced(st: Store) {
    st.stored == Saved(st.ids)
  }

  /** `loadFavorites()` / `loadHiddenGames()`: a missing or unreadable
      value is the empty set. */
  function Load(stored: Stored): (r: Store)
    ensures Valid(r) && r.stored == stored
    ensures forall y :: y in r.ids <==> stored.Saved? && y in stored.ids
  {
    match stored
    case Saved(xs) => Store(FromList(xs), stored)
    case _ => Store([], stored)
  }

  /** `saveFavorites()` / `saveHiddenGames()` */
  function Save(st: Store): (r: Store)
    ensures Synced(r) && r.ids == st.ids
  {
    st.(stored := Saved(st.ids))
  }

  /** `addFavorite(id)` / `hideGame(id)` */
  function Insert(st: Store, id: string): (r: Store)
    ensures Valid(st) ==> Valid(r)
    ensures Synced(r)
    ensures forall y :: y in r.ids <==> y in st.ids || y == id
  {
    Save(st.(ids := Add(st.ids, id)))
  }

  /** `removeFavorite(id)` / `unhideGame(id)` */
  function Remove(st: Store, id: string): (r: Store)
    ensures Valid(st) ==> Valid(r)
    ensures Synced(r)
    ensures forall y :: y in r.ids <==> y in st.ids && y != id
  {
    Save(st.(ids := Delete(st.ids, id)))
  }

  /** `toggleFavorite(id)` / `toggleHidden(id)`: the new state and the new
      membership. */
  function Toggle(st: Store, id: string): (r: (Store, bool))
    ensures r.1 <==> id !in st.ids
    ensures r.1 <==> id in r.0.ids
    ensures Valid(st) ==> Valid(r.0)
    ensures Synced(r.0)
  {
    var next := if id in st.ids then Remove(st, id) else Insert(st, id);
    (next, id in next.ids)
  }

  /** `clearAll()` */
  function Clear(st: Store): (r: Store)
    ensures r.ids == [] && Synced(r)
  {
    Save(st.(ids := []))
  }

  /** Adding an id twice is adding it once. */
  lemma InsertIdempotent(st: Store, id: string)
    ensures Insert(Insert(st, id), id) == Insert(st, id)
  {
  }

  /** Removing an id that is not there changes only the stored copy. */
  lemma RemoveAbsent(st: Store, id: string)
    requires id !in st.ids
    ensures Remove(st, id) == Save(st)
  {
    DeleteAbsent(st.ids, id);
  }

  /** Toggling twice restores the set: exactly when the id was absent, as
      the same members (the id moves to the end) when it was present. */
  lemma ToggleTwice(st: Store, id: string)
    ensures forall y :: y in Toggle(Toggle(st, id).0, id).0.ids <==> y in st.ids
    ensures id !in st.ids ==> Toggle(Toggle(st, id).0, id).0 == Save(st)
  {
    if id !in st.ids {
      DeleteAppended(st.ids, id);
    }
  }

  /** The list a manager hands out is duplicate-free. */
  lemma LoadedValid(stored: Stored, ops: seq<(bool, string)>)
    ensures Valid(Replay(Load(stored), ops))
  {
    ReplayValid(Load(stored), ops);
  }

  /** A run of adds (`true`) and removes (`false`). */
  function Replay(st: Store, ops: seq<(bool, string)>): Store
    decreases |ops|
  {
    if |ops| == 0 then st
    else
      var next := if ops[0].0 then Insert(st, ops[0].1) else Remove(st, ops[0].1);
      Replay(next, ops[1..])
  }

  lemma {:induction false} ReplayValid(st: Store, ops: seq<(bool, string)>)
    requires Valid(st)
    ensures Valid(Replay(st, ops))
    decreases |ops|
  {
    if |ops| > 0 {
      var next := if ops[0].0 then Insert(st, ops[0].1) else Remove(st, ops[0].1);
      ReplayValid(next, ops[1..]);
    }
  }

  /** After any non-empty run of changes, storage holds the current set. */
  lemma {:induction false} ReplaySynced(st: Store, ops: seq<(bool, string)>)
    requires |ops| > 0
    ensures Synced(Replay(st, ops))
    decreases |ops|
  {
    if |ops| > 1 {
      var next := if ops[0].0 then Insert(st, ops[0].1) else Remove(st, ops[0].1);
      ReplaySynced(next, ops[1..]);
    }
  }
}

=== FILE: keyboard.dfy ===
/** Keyboard navigation: keys are turned into the same navigation and
    action events the gamepad dispatches. */
module Keyboard {
  import opened Wrappers
  import opened Text
  import GamepadNav

  /** An event dispatched for a key: a `gamepadNavigate` with a direction
      or a `gamepadAction` with an action name. */
  datatype Dispatch = NavigateTo(direction: GamepadNav.Direction) | Perform(action: string)

  /** The element that has focus when the key goes down. */
  datatype Focused = Focused(tagName: string, isContentEditable: bool)

  /** What handling a key did: the event dispatched, if any, and whether
      the browser's default handling was suppressed. */
  datatype Outcome = Outcome(dispatched: Option<Dispatch>, prevented: bool)

  datatype Manager = Manager(enabled: bool)

  const Initial := Manager(true)

  /** The user is typing: focus is in a form field or an editable
      element. */
  predicate Typing(f: Focused) {
    f.tagName == "INPUT" || f.tagName == "TEXTAREA" || f.tagName == "SELECT" || f.isContentEditable
  }

  /** The key table, on the lower-cased key. */
  function KeyAction(key: string): (r: Option<Dispatch>)
    ensures r.Some? && r.value.NavigateTo? ==> r.value.direction != GamepadNav.ClearSelection
    ensures r.Some? && r.value.Perform? ==> GamepadNav.ActionOf(r.value.action) != GamepadNav.OtherAction
    ensures r.Some? ==> |key| > 0
  {
    if key == "arrowup" then Some(NavigateTo(GamepadNav.Up))
    else if key == "arrowdown" then Some(NavigateTo(GamepadNav.Down))
    else if key == "arrowleft" then Some(NavigateTo(GamepadNav.Left))
    else if key == "arrowright" then Some(NavigateTo(GamepadNav.Right))
    else if key == "enter" then Some(Perform("select"))
    else if key == " " || key == "d" then Some(Perform("details"))
    else if key == "f" then Some(Perform("favorite"))
    else if key == "g" then Some(Perform("showFilterMenu"))
    else if key == "escape" then Some(Perform("back"))
    else if key == "h" then Some(Perform("home"))
    else if key == "pageup" then Some(Perform("pageUp"))
    else if key == "pagedown" then Some(Perform("pageDown"))
    else if key == "v" then Some(Perform("toggleView"))
    else if key == "s" then Some(Perform("settings"))
    else None
  }

  /** `handleKeyDown(event)`. */
  function HandleKeyDown(m: Manager, focus: Focused, key: string): (r: Outcome)
    ensures !m.enabled || Typing(focus) ==> r == Outcome(None, false)
    ensures r.prevented <==> r.dispatched.Some?
    ensures r.dispatched.Some? ==> m.enabled && !Typing(focus) && r.dispatched == KeyAction(Lower(key))
  {
    if !m.enabled then Outcome(None, false)
    else if Typing(focus) then Outcome(None, false)
    else
      var action := KeyAction(Lower(key));
      Outcome(action, action.Some?)
  }

  /** Keys are matched without regard to case. */
  lemma KeysIgnoreCase(m: Manager, focus: Focused, key: string)
    ensures HandleKeyDown(m, focus, key) == HandleKeyDown(m, focus, Lower(key))
  {
    LowerIdempotent(key);
  }

  /** Space and `d` both show the details. */
  lemma SpaceAndDAgree(m: Manager, focus: Focused)
    ensures HandleKeyDown(m, focus, " ") == HandleKeyDown(m, focus, "d") == HandleKeyDown(m, focus, "D")
  {
    assert Lower(" ") == " ";
    assert Lower("d") == "d";
    assert Lower("D") == "d";
  }

  /** The keyboard and the gamepad dispatch actions the integration
      recognises: every mapped key names a handled action. */
  lemma MappedKeysAreHandled(m: Manager, focus: Focused, key: string)
    requires HandleKeyDown(m, focus, key).dispatched.Some?
    requires HandleKeyDown(m, focus, key).dispatched.value.Perform?
    ensures GamepadNav.ActionOf(HandleKeyDown(m, focus, key).dispatched.value.action) != GamepadNav.OtherAction
  {
  }

  /** `enable()` and `disable()` only set the flag. */
  function Enable(m: Manager): (r: Manager)
    ensures r.enabled
  {
    m.(enabled := true)
  }

  function Disable(m: Manager): (r: Manager)
    ensures !r.enabled
  {
    m.(enabled := false)
  }

  /** Disabling silences every key; enabling again restores the table. */
  lemma DisableSilences(m: Manager, focus: Focused, key: string)
    ensures HandleKeyDown(Disable(m), focus, key) == Outcome(None, false)
    ensures HandleKeyDown(Enable(Disable(m)), focus, key) == HandleKeyDown(Manager(true), focus, key)
  {
  }
}

=== FILE: launch.dfy ===
/** Launching a game from the browser client: the request to the local
    server, and the manual command shown when that request fails. */
module Launch {
  import opened Wrappers
  import opened Text
  import opened GameModel
  import Uri

  /** What came back from `POST /__launch`: nothing (the fetch threw), or a
      response that is ok or not. */
  datatype Reply = NoReply | Response(ok: bool)

  /** The result of `launchGame`. */
  datatype Launched =
    | Started
    | Manual(command: string, message: string, launchUrl: string)

  /** A launch attempt: the request sent, if any, and the result or the
      error thrown. */
  datatype Attempt = Attempt(request: Option<string>, result: Result<Launched, string>)

  const NotInstalled := "Game is not installed. Please configure game path first."
  const ManualMessage := "Copy this command and run it in Command Prompt, or start with start-node.bat to enable one-click launch."
  const CommandPrefix := "..\\TeknoParrotUi.exe --profile=\""

  function ProfileFile(id: string): string {
    id + ".xml"
  }

  /** The command that runs the emulator on a profile, from the user
      profile folder. */
  function Command(id: string): (r: string)
    ensures IsPrefix(CommandPrefix, r) && IsSuffix(".xml\"", r)
  {
    var r := CommandPrefix + (ProfileFile(id) + "\"");
    assert r[..|CommandPrefix|] == CommandPrefix;
    assert r[|r| - 5..] == ".xml\"";
    r
  }

  /** The profile named in a command, read back from between the prefix
      and the closing quote. */
  function ProfileOfCommand(command: string): Option<string> {
    if |command| > |CommandPrefix| && IsPrefix(CommandPrefix, command) && command[|command| - 1] == '"' then
      Some(command[|CommandPrefix|..|command| - 1])
    else None
  }

  lemma CommandNamesProfile(id: string)
    ensures ProfileOfCommand(Command(id)) == Some(ProfileFile(id))
  {
    var c := Command(id);
    assert c[|CommandPrefix|..|c| - 1] == ProfileFile(id);
  }

  /** `POST /__launch?profile=<id>.xml` */
  function LaunchRequest(id: string): string {
    "/__launch" + "?" + "profile" + "=" + Uri.Encode(ProfileFile(id))
  }

  function LaunchUrl(id: string): string {
    "teknoparrot://launch" + "?" + "profile" + "=" + Uri.Encode(ProfileFile(id))
  }

  /** `launchGame(game)`: a game that is not installed is refused before
      any request; otherwise the launch is requested and only an ok answer
      counts as started. */
  function LaunchGame(game: Game, reply: Reply): (r: Attempt)
    ensures !game.isInstalled <==> r.result.Err?
    ensures !game.isInstalled ==> r.request.None? && r.result.error == NotInstalled
    ensures game.isInstalled ==> r.request == Some(LaunchRequest(game.id))
    ensures r.result == Ok(Started) <==> game.isInstalled && reply == Response(true)
    ensures r.result.Ok? && r.result.value.Manual? ==>
      ProfileOfCommand(r.result.value.command) == Some(ProfileFile(game.id))
  {
    if !game.isInstalled then Attempt(None, Err(NotInstalled))
    else
      var request := Some(LaunchRequest(game.id));
      if reply == Response(true) then Attempt(request, Ok(Started))
      else
        CommandNamesProfile(game.id);
        Attempt(request, Ok(Manual(Command(game.id), ManualMessage, LaunchUrl(game.id))))
  }

  lemma LaunchQueryPieces()
    ensures forall i :: 0 <= i < |"profile"| ==> Uri.Unreserved("profile"[i])
    ensures '?' !in "/__launch" && '?' !in "teknoparrot://launch"
  {
    assert forall i :: 0 <= i < |"profile"| ==> Uri.Unreserved("profile"[i]);
  }

  /** The server and the launch URL handler both read the profile file
      back from the request. */
  lemma LaunchRequestProfile(id: string)
    ensures Uri.Get(Uri.QueryOf(LaunchRequest(id)), "profile") == Uri.Value(ProfileFile(id))
    ensures Uri.Get(Uri.QueryOf(LaunchUrl(id)), "profile") == Uri.Value(ProfileFile(id))
  {
    LaunchQueryPieces();
    Uri.GetEncoded("/__launch", "profile", ProfileFile(id));
    Uri.GetEncoded("teknoparrot://launch", "profile", ProfileFile(id));
  }

  /** `canLaunch(game)`: installed, with a game path in the user
      profile. */
  predicate CanLaunch(game: Game) {
    game.isInstalled && game.userProfile.Some? && Truthy(game.userProfile.value.gamePath)
  }

  /** `getLaunchCommand(game)`: null unless the game can be launched, and
      then the same command a failed launch shows. */
  function LaunchCommand(game: Game): (r: Option<string>)
    ensures r.None? <==> !CanLaunch(game)
    ensures r.Some? ==> ProfileOfCommand(r.value) == Some(ProfileFile(game.id))
  {
    if !CanLaunch(game) then None
    else
      CommandNamesProfile(game.id);
      Some(Command(game.id))
  }

  /** A game that can be launched but is not started shows the command
      `getLaunchCommand` gives. */
  lemma ManualCommandAgrees(game: Game, reply: Reply)
    requires CanLaunch(game) && reply != Response(true)
    ensures LaunchGame(game, reply).result == Ok(Manual(LaunchCommand(game).value, ManualMessage, LaunchUrl(game.id)))
  {
  }
}

=== FILE: paths.dfy ===
/** Path handling of the browser client: the TeknoParrot root derived
    from the page location, the folder paths under it, the icon path of a
    profile's icon name, and the ordered list of icon URLs tried for a
    game. */
module Paths {
  import opened Wrappers
  import opened Text
  import opened Seqs

  // ---------------------------------------------------------------------
  // The root and the paths under it

  /** `s.lastIndexOf(c)`: the last position of `c`, or -1. */
  function LastIndexOf(s: string, c: char): (r: int)
    ensures -1 <= r < |s|
    ensures r >= 0 ==> s[r] == c
    ensures forall i :: r < i < |s| ==> s[i] != c
    decreases |s|
  {
    if |s| == 0 then -1
    else if s[|s| - 1] == c then |s| - 1
    else
      assert forall i :: 0 <= i < |s| - 1 ==> s[..|s| - 1][i] == s[i];
      LastIndexOf(s[..|s| - 1], c)
  }

  /** The last `c` of `x + [c] + y` is the one after `x` when `y` has
      none. */
  lemma {:induction false} LastIndexOfAt(x: string, c: char, y: string)
    requires c !in y
    ensures LastIndexOf(x + [c] + y, c) == |x|
    decreases |y|
  {
    var s := x + [c] + y;
    if |y| > 0 {
      assert s[|s| - 1] == y[|y| - 1];
      assert s[..|s| - 1] == x + [c] + y[..|y| - 1];
      LastIndexOfAt(x, c, y[..|y| - 1]);
    }
  }

  /** `s.substring(0, k)` for `k` from `lastIndexOf`: a negative end is
      taken as 0. */
  function Before(s: string, k: int): string
    requires k < |s|
  {
    if k < 0 then "" else s[..k]
  }

  /** `detectTeknoParrotRoot()`: the page's directory, one level up, with
      one leading `/` removed; under `file:` a further `/` before a drive
      letter is removed. */
  function DetectRoot(pathname: string, isFile: bool): (r: string)
    ensures IsSuffix(r, Before(Before(pathname, LastIndexOf(pathname, '/')), LastIndexOf(Before(pathname, LastIndexOf(pathname, '/')), '/')))
  {
    var dir := Before(pathname, LastIndexOf(pathname, '/'));
    var parent := Before(dir, LastIndexOf(dir, '/'));
    var root := if IsPrefix("/", parent) then parent[1..] else parent;
    assert IsSuffix(root, parent) by {
      assert parent[|parent| - |root|..] == root;
    }
    if isFile && |root| >= 3 && root[0] == '/' && IsLetter(root[1]) && root[2] == ':' then
      assert root[1..] == parent[|parent| - |root| + 1..];
      root[1..]
    else root
  }

  predicate IsLetter(c: char) {
    'a' <= c <= 'z' || 'A' <= c <= 'Z'
  }

  /** The page `/<root>/<app folder>/<file>` gives back `<root>`: two
      segments are dropped and so is the leading slash.  The drive-letter
      branch needs a root that itself starts with `/`. */
  lemma DetectRootOf(root: string, folder: string, file: string, isFile: bool)
    requires '/' !in folder && '/' !in file
    requires |root| == 0 || root[0] != '/'
    ensures DetectRoot("/" + root + "/" + folder + "/" + file, isFile) == root
  {
    var p := "/" + root + "/" + folder + "/" + file;
    LastIndexOfAt("/" + root + "/" + folder, '/', file);
    assert p == ("/" + root + "/" + folder) + ['/'] + file;
    var dir := "/" + root + "/" + folder;
    assert Before(p, LastIndexOf(p, '/')) == dir;
    LastIndexOfAt("/" + root, '/', folder);
    assert dir == ("/" + root) + ['/'] + folder;
    assert Before(dir, LastIndexOf(dir, '/')) == "/" + root;
    assert ("/" + root)[1..] == root;
  }

  /** The folders under the root. */
  datatype Folders = Folders(
    gameProfiles: string, userProfiles: string, metadata: string,
    gameSetup: string, icons: string, teknoParrotExe: string)

  const UserProfilesDir := "UserProfiles"

  function FoldersOf(root: string): Folders {
    Folders(root + "/" + "GameProfiles", root + "/" + UserProfilesDir, root + "/" + "Metadata",
            root + "/" + "GameSetup", root + "/" + "Icons", root + "/" + "TeknoParrotUi.exe")
  }

  /** `getProfilePath(name)`: the profile's file in the user profile
      folder. */
  function ProfilePath(root: string, name: string): (r: string)
    ensures IsSuffix(".xml", r) && IsPrefix(FoldersOf(root).userProfiles + "/", r)
  {
    FoldersOf(root).userProfiles + "/" + (name + ".xml")
  }

  /** `getRelativePath(path)`: `../<folder>/<file>` from the last two
      `/`-separated segments; a path with one segment has folder
      `undefined`. */
  function RelativePath(path: string): (r: string)
    ensures IsPrefix("../", r)
  {
    var parts := Split(path, '/');
    var file := parts[|parts| - 1];
    var folder := if |parts| >= 2 then parts[|parts| - 2] else "undefined";
    "../" + folder + "/" + file
  }

  /** Splitting `x/y` where `y` has no `/` ends with `y`. */
  lemma {:induction false} SplitAppend(x: string, y: string, sep: char)
    requires sep !in y
    ensures Split(x + [sep] + y, sep) == Split(x, sep) + [y]
    decreases |x|
  {
    var s := x + [sep] + y;
    if |x| == 0 {
      assert s[1..] == y;
      SplitNoSep(y, sep);
    } else {
      assert s[1..] == x[1..] + [sep] + y;
      SplitAppend(x[1..], y, sep);
      assert x[1..] == x[1..];
    }
  }

  /** The relative path of `<dir>/<folder>/<file>` is
      `../<folder>/<file>`. */
  lemma RelativePathOf(dir: string, folder: string, file: string)
    requires '/' !in folder && '/' !in file
    ensures RelativePath(dir + "/" + folder + "/" + file) == "../" + folder + "/" + file
  {
    SplitAppend(dir + "/" + folder, file, '/');
    SplitAppend(dir, folder, '/');
    assert dir + "/" + folder + "/" + file == (dir + ['/'] + folder) + ['/'] + file;
  }

  /** A user profile's relative path is `../UserProfiles/<name>.xml`. */
  lemma ProfileRelativePath(root: string, name: string)
    requires '/' !in name
    ensures RelativePath(ProfilePath(root, name)) == "../" + UserProfilesDir + "/" + (name + ".xml")
  {
    assert '/' !in name + ".xml";
    RelativePathOf(root, UserProfilesDir, name + ".xml");
  }

  // ---------------------------------------------------------------------
  // Icons

  /** `getIconPath(name)`: nothing for an empty name; a name already under
      `Icons/` is taken relative to the parent folder, any other name is
      put under it. */
  function IconPath(name: string): (r: Option<string>)
    ensures name == "" <==> r.None?
    ensures r.Some? ==> IsPrefix("../Icons/", r.value)
  {
    if name == "" then None
    else if IsPrefix("Icons/", name) then
      assert ("../" + name)[..9] == "../" + name[..6];
      Some("../" + name)
    else Some("../Icons/" + name)
  }

  /** Naming the folder or not gives the same path. */
  lemma IconPathFolder(name: string)
    requires name != "" && !IsPrefix("Icons/", name)
    ensures IconPath("Icons/" + name) == IconPath(name)
  {
    assert ("Icons/" + name)[..6] == "Icons/";
    assert "../" + ("Icons/" + name) == "../Icons/" + name;
  }

  /** The variant suffixes, lower-cased, tried in order; `NESICAX?` is the
      two spellings, the longer first. */
  const VariantPatterns: seq<seq<string>> := [
    ["elfloader2"], ["elfloader"], ["elf2"], ["spelf2"], ["sp"], ["dx"], ["hd"], ["apm3"],
    ["nesicaxlive"], ["nesicax", "nesica"], ["nesica"]]

  /** `s` ends with `p`, ignoring letter case (`p` is lower case). */
  predicate EndsWithCI(s: string, p: string) {
    |p| <= |s| && Lower(s[|s| - |p|..]) == p
  }

  /** `s.replace(/<alternatives>$/i, '')` */
  function StripSuffix(s: string, alts: seq<string>): (r: string)
    ensures IsPrefix(r, s)
    decreases |alts|
  {
    if |alts| == 0 then s
    else if EndsWithCI(s, alts[0]) then s[..|s| - |alts[0]|]
    else StripSuffix(s, alts[1..])
  }

  /** Every pattern in turn, each applied to what the previous ones
      left. */
  function StripVariants(s: string, patterns: seq<seq<string>>): (r: string)
    ensures IsPrefix(r, s)
    decreases |patterns|
  {
    if |patterns| == 0 then s
    else
      var t := StripSuffix(s, patterns[0]);
      var r := StripVariants(t, patterns[1..]);
      assert s[..|r|] == t[..|r|];
      r
  }

  /** The base id of a game: its id with the variant suffixes stripped. */
  function BaseId(id: string): (r: string)
    ensures IsPrefix(r, id)
  {
    StripVariants(id, VariantPatterns)
  }

  /** `s.replace(/[^A-Za-z0-9]/g, '')` */
  function Sanitize(s: string): (r: string)
    ensures forall i :: 0 <= i < |r| ==> IsAlnum(r[i])
    ensures forall i :: 0 <= i < |s| && IsAlnum(s[i]) ==> s[i] in r
    ensures |r| <= |s|
    decreases |s|
  {
    if |s| == 0 then ""
    else
      var rest := Sanitize(s[1..]);
      assert forall i :: 1 <= i < |s| ==> s[i] == s[1..][i - 1];
      if IsAlnum(s[0]) then [s[0]] + rest else rest
  }

  lemma {:induction false} SanitizeIdempotent(s: string)
    ensures Sanitize(Sanitize(s)) == Sanitize(s)
    decreases |s|
  {
    if |s| > 0 {
      SanitizeIdempotent(s[1..]);
      var rest := Sanitize(s[1..]);
      if IsAlnum(s[0]) {
        var r := [s[0]] + rest;
        assert r[1..] == rest;
      }
    }
  }

  /** Sanitising works character by character: the result is the input's
      ASCII letters and digits, in the order they come. */
  lemma {:induction false} SanitizeAppend(a: string, b: string)
    ensures Sanitize(a + b) == Sanitize(a) + Sanitize(b)
    decreases |a|
  {
    if |a| == 0 {
      assert a + b == b;
    } else {
      SanitizeAppend(a[1..], b);
      assert (a + b)[1..] == a[1..] + b;
    }
  }

  lemma SanitizeChar(c: char)
    ensures Sanitize([c]) == if IsAlnum(c) then [c] else ""
  {
    assert [c][1..] == "";
  }

  /** `s.split(' (')[0]`: the text before the first ` (`. */
  function BeforeParen(s: string): (r: string)
    ensures IsPrefix(r, s)
    ensures |r| == |s| || IsPrefix(" (", s[|r|..])
    decreases |s|
  {
    if |s| == 0 || IsPrefix(" (", s) then ""
    else
      var rest := BeforeParen(s[1..]);
      assert s[1..][|rest|..] == s[|rest| + 1..];
      [s[0]] + rest
  }

  function IconFile(stem: string): string {
    "../Icons/" + stem + ".png"
  }

  /** `pushUnique(p)`: appended when non-empty and new. */
  function PushUnique(c: seq<string>, p: string): (r: seq<string>)
    ensures p != "" ==> p in r
    ensures forall x :: x in r <==> x in c || (x == p && p != "")
    ensures ListPrefix(c, r)
  {
    if p != "" && p !in c then c + [p] else c
  }

  predicate ListPrefix(a: seq<string>, b: seq<string>) {
    |a| <= |b| && b[..|a|] == a
  }

  lemma ListPrefixTrans(a: seq<string>, b: seq<string>, c: seq<string>)
    requires ListPrefix(a, b) && ListPrefix(b, c)
    ensures ListPrefix(a, c)
  {
    assert c[..|a|] == c[..|b|][..|a|];
  }

  /** Every element from position k on differs from every earlier one. */
  predicate DistinctFrom(c: seq<string>, k: nat) {
    forall i, j :: 0 <= i < j < |c| && k <= j ==> c[i] != c[j]
  }

  lemma PushUniqueDistinct(c: seq<string>, p: string, k: nat)
    requires DistinctFrom(c, k)
    ensures DistinctFrom(PushUnique(c, p), k)
  {
  }

  /** The tries for one name: the sanitised name without its parenthetical
      part, then the whole sanitised name when it differs. */
  function PushName(c: seq<string>, nm: string): (r: seq<string>)
    ensures forall x :: x in c ==> x in r
    ensures ListPrefix(c, r)
  {
    var file1 := Sanitize(BeforeParen(nm));
    var file2 := Sanitize(nm);
    var c1 := if file1 != "" then PushUnique(c, IconFile(file1)) else c;
    var c2 := if file2 != "" && file2 != file1 then PushUnique(c1, IconFile(file2)) else c1;
    assert c2[..|c|] == c1[..|c|];
    c2
  }

  lemma PushNameDistinct(c: seq<string>, nm: string, k: nat)
    requires DistinctFrom(c, k)
    ensures DistinctFrom(PushName(c, nm), k)
  {
    var file1 := Sanitize(BeforeParen(nm));
    var file2 := Sanitize(nm);
    PushUniqueDistinct(c, IconFile(file1), k);
    var c1 := if file1 != "" then PushUnique(c, IconFile(file1)) else c;
    PushUniqueDistinct(c1, IconFile(file2), k);
  }

  /** The icon names from the profile and the metadata, which are pushed
      without the duplicate check. */
  function Declared(userIcon: string, metadataIcon: string): (r: seq<string>)
    ensures |r| <= 2
    ensures userIcon != "" ==> IconPath(userIcon).value in r
    ensures metadataIcon != "" ==> IconPath(metadataIcon).value in r
  {
    (if userIcon != "" then [IconPath(userIcon).value] else [])
    + (if metadataIcon != "" then [IconPath(metadataIcon).value] else [])
  }

  /** The tries derived from the id: the id itself, its base id when that
      differs, and the base id with a `2`. */
  function IdTries(c: seq<string>, id: string): (r: seq<string>)
    ensures ListPrefix(c, r)
    ensures IconFile(id) in r && IconFile(BaseId(id) + "2") in r
  {
    var base := BaseId(id);
    var c1 := PushUnique(c, IconFile(id));
    var c2 := if base != id then PushUnique(c1, IconFile(base)) else c1;
    var c3 := PushUnique(c2, IconFile(base + "2"));
    ListPrefixTrans(c, c1, c2);
    ListPrefixTrans(c, c2, c3);
    c3
  }

  lemma IdTriesDistinct(c: seq<string>, id: string, k: nat)
    requires DistinctFrom(c, k)
    ensures DistinctFrom(IdTries(c, id), k)
  {
    var base := BaseId(id);
    var c1 := PushUnique(c, IconFile(id));
    PushUniqueDistinct(c, IconFile(id), k);
    PushUniqueDistinct(c1, IconFile(base), k);
    var c2 := if base != id then PushUnique(c1, IconFile(base)) else c1;
    PushUniqueDistinct(c2, IconFile(base + "2"), k);
  }

  /** The tries derived from the metadata name and then the game name. */
  function NameTries(c: seq<string>, metadataName: string, name: string): (r: seq<string>)
    ensures ListPrefix(c, r)
    ensures forall x :: x in c ==> x in r
  {
    var c1 := if metadataName != "" then PushName(c, metadataName) else c;
    var c2 := if name != "" then PushName(c1, name) else c1;
    assert c2[..|c|] == c1[..|c|];
    c2
  }

  /** The candidate list `resolveIcon` tries, in order: the declared icons
      first, then the id-based tries and the name-based ones. */
  function IconCandidates(id: string, userIcon: string, metadataIcon: string, metadataName: string, name: string): (r: seq<string>)
    ensures ListPrefix(Declared(userIcon, metadataIcon), r)
    ensures IconFile(id) in r && IconFile(BaseId(id) + "2") in r
  {
    var c0 := Declared(userIcon, metadataIcon);
    var c1 := IdTries(c0, id);
    var r := NameTries(c1, metadataName, name);
    ListPrefixTrans(c0, c1, r);
    r
  }

  /** After the declared icons no candidate is tried twice. */
  lemma IconCandidatesDistinct(id: string, userIcon: string, metadataIcon: string, metadataName: string, name: string)
    ensures DistinctFrom(IconCandidates(id, userIcon, metadataIcon, metadataName, name), |Declared(userIcon, metadataIcon)|)
  {
    var c0 := Declared(userIcon, metadataIcon);
    var k := |c0|;
    IdTriesDistinct(c0, id, k);
    var c1 := IdTries(c0, id);
    PushNameDistinct(c1, metadataName, k);
    var c2 := if metadataName != "" then PushName(c1, metadataName) else c1;
    PushNameDistinct(c2, name, k);
  }

  /** `resolveIcon`: the first candidate the server serves, or none. */
  function FirstServed(cands: seq<string>, served: set<string>): (r: Option<string>)
    ensures r.Some? ==> r.value in cands && r.value in served
    ensures r.None? <==> forall i :: 0 <= i < |cands| ==> cands[i] !in served
    decreases |cands|
  {
    if |cands| == 0 then None
    else if cands[0] in served then Some(cands[0])
    else
      assert forall i :: 1 <= i < |cands| ==> cands[i] == cands[1..][i - 1];
      FirstServed(cands[1..], served)
  }

  /** Position j holds the first served candidate. */
  predicate FirstAt(cands: seq<string>, served: set<string>, j: nat) {
    j < |cands| && cands[j] in served && forall m :: 0 <= m < j ==> cands[m] !in served
  }

  /** The answer is the earliest served candidate. */
  lemma {:induction false} FirstServedEarliest(cands: seq<string>, served: set<string>, i: nat)
    requires i < |cands| && cands[i] in served
    ensures FirstServed(cands, served).Some?
    ensures exists j :: 0 <= j <= i && FirstAt(cands, served, j) && cands[j] == FirstServed(cands, served).value
    decreases i
  {
    if cands[0] !in served {
      var rest := cands[1..];
      assert FirstServed(cands, served) == FirstServed(rest, served);
      FirstServedEarliest(rest, served, i - 1);
      var j :| 0 <= j <= i - 1 && FirstAt(rest, served, j) && rest[j] == FirstServed(rest, served).value;
      assert cands[j + 1] == rest[j];
      forall m | 0 <= m < j + 1
        ensures cands[m] !in served
      {
        if m > 0 {
          assert cands[m] == rest[m - 1];
        }
      }
      assert FirstAt(cands, served, j + 1);
    } else {
      assert cands[0] == FirstServed(cands, served).value;
    }
  }
}

=== FILE: preferences.dfy ===
/** The single preferences file: UI settings, the last search and sort,
    the favourites and hidden-games lists, and the last viewed game.  The
    server's replies are parameters; every change is followed by a write
    of the whole record, which the model reports as a `saves` flag. */
module Preferences {
  import opened Wrappers
  import opened Seqs
  import IdSets

  datatype Ui = Ui(gridColumns: int, currentView: string, theme: string)
  datatype FilterPrefs = FilterPrefs(lastSearch: string, lastSortBy: string, lastSortDirection: string)
  datatype Session = Session(lastViewedGameId: Option<string>)

  datatype Prefs = Prefs(
    ui: Ui,
    filters: FilterPrefs,
    favorites: seq<string>,
    hiddenGames: seq<string>,
    session: Session)

  /** `getDefaultPreferences()` */
  const Defaults := Prefs(
    Ui(5, "grid", "dark"),
    FilterPrefs("", "name", "asc"),
    [], [],
    Session(None))

  // ---------------------------------------------------------------------
  // Merging a loaded file with the defaults

  /** A stored file as read: every key may be missing.  `favorites` and
      `hiddenGames` are `None` when the value is not an array; the last
      viewed id is `Some(None)` when it is stored as `null`. */
  datatype LoadedUi = LoadedUi(gridColumns: Option<int>, currentView: Option<string>, theme: Option<string>)
  datatype LoadedFilters = LoadedFilters(lastSearch: Option<string>, lastSortBy: Option<string>, lastSortDirection: Option<string>)
  datatype Loaded = Loaded(
    ui: LoadedUi,
    filters: LoadedFilters,
    favorites: Option<seq<string>>,
    hiddenGames: Option<seq<string>>,
    lastViewedGameId: Option<Option<string>>)

  const NothingLoaded := Loaded(LoadedUi(None, None, None), LoadedFilters(None, None, None), None, None, None)

  /** `mergeWithDefaults(loaded)`: within each section the loaded keys win;
      a list that is not an array is replaced by the empty default. */
  function MergeWithDefaults(l: Loaded): (r: Prefs)
    ensures l.favorites.Some? ==> r.favorites == l.favorites.value
    ensures l.favorites.None? ==> r.favorites == []
    ensures l.hiddenGames.Some? ==> r.hiddenGames == l.hiddenGames.value
    ensures l.hiddenGames.None? ==> r.hiddenGames == []
  {
    Prefs(
      Ui(l.ui.gridColumns.GetOr(Defaults.ui.gridColumns),
         l.ui.currentView.GetOr(Defaults.ui.currentView),
         l.ui.theme.GetOr(Defaults.ui.theme)),
      FilterPrefs(l.filters.lastSearch.GetOr(Defaults.filters.lastSearch),
                  l.filters.lastSortBy.GetOr(Defaults.filters.lastSortBy),
                  l.filters.lastSortDirection.GetOr(Defaults.filters.lastSortDirection)),
      l.favorites.GetOr(Defaults.favorites),
      l.hiddenGames.GetOr(Defaults.hiddenGames),
      Session(l.lastViewedGameId.GetOr(Defaults.session.lastViewedGameId)))
  }

  /** The file `savePreferences` writes for a record: every key present. */
  function Written(p: Prefs): Loaded {
    Loaded(
      LoadedUi(Some(p.ui.gridColumns), Some(p.ui.currentView), Some(p.ui.theme)),
      LoadedFilters(Some(p.filters.lastSearch), Some(p.filters.lastSortBy), Some(p.filters.lastSortDirection)),
      Some(p.favorites), Some(p.hiddenGames), Some(p.session.lastViewedGameId))
  }

  /** An empty file gives the defaults. */
  lemma MergeNothing()
    ensures MergeWithDefaults(NothingLoaded) == Defaults
  {
  }

  /** Reading back a written record gives the record. */
  lemma MergeWritten(p: Prefs)
    ensures MergeWithDefaults(Written(p)) == p
  {
  }

  /** A key the file leaves out takes its default; one it has wins. */
  lemma MergeSubKeys(l: Loaded)
    ensures MergeWithDefaults(l).ui.gridColumns == if l.ui.gridColumns.Some? then l.ui.gridColumns.value else 5
    ensures MergeWithDefaults(l).filters.lastSortBy == if l.filters.lastSortBy.Some? then l.filters.lastSortBy.value else "name"
    ensures MergeWithDefaults(l).filters.lastSortDirection == if l.filters.lastSortDirection.Some? then l.filters.lastSortDirection.value else "asc"
    ensures MergeWithDefaults(l).session.lastViewedGameId == if l.lastViewedGameId.Some? then l.lastViewedGameId.value else None
  {
  }

  // ---------------------------------------------------------------------
  // Loading

  /** The reply to `/__storage/read`: the request threw, there is no data,
      or the file. */
  datatype Reply = Threw | NoData | Data(loaded: Loaded)

  datatype Manager = Manager(prefs: Prefs, loaded: bool)

  const InitialManager := Manager(Defaults, false)

  /** `loadPreferences()`: once loaded, the cached record; otherwise the
      file merged with the defaults, or the defaults.  A request that
      threw leaves the manager unloaded, so the next call asks again. */
  function LoadPreferences(m: Manager, reply: Reply): (r: (Prefs, Manager))
    ensures m.loaded ==> r == (m.prefs, m)
    ensures !m.loaded && reply.Threw? ==> r == (Defaults, Manager(Defaults, false))
    ensures !m.loaded && reply.NoData? ==> r == (Defaults, Manager(Defaults, true))
    ensures !m.loaded && reply.Data? ==> r.1 == Manager(MergeWithDefaults(reply.loaded), true)
    ensures r.0 == r.1.prefs
  {
    if m.loaded then (m.prefs, m)
    else match reply
      case Data(l) => (MergeWithDefaults(l), Manager(MergeWithDefaults(l), true))
      case NoData => (Defaults, Manager(Defaults, true))
      case Threw => (Defaults, Manager(Defaults, false))
  }

  /** A second load is served from the cache whatever the server says. */
  lemma LoadTwice(m: Manager, first: Reply, second: Reply)
    requires !first.Threw?
    ensures LoadPreferences(LoadPreferences(m, first).1, second) == LoadPreferences(m, first)
  {
  }

  /** `importPreferences(file)`: a file that parses replaces the record by
      its merge with the defaults; one that does not is an error. */
  function ImportPreferences(m: Manager, imported: Option<Loaded>): (r: Result<Manager, string>)
    ensures imported.None? <==> r.Err?
    ensures r.Ok? ==> r.value.prefs == MergeWithDefaults(imported.value) && r.value.loaded == m.loaded
  {
    match imported
    case None => Err("invalid JSON")
    case Some(l) => Ok(m.(prefs := MergeWithDefaults(l)))
  }

  // ---------------------------------------------------------------------
  // The id lists

  /** `indexOf`: the position of the first occurrence. */
  function IndexOf(s: seq<string>, x: string): (i: nat)
    requires x in s
    ensures i < |s| && s[i] == x && x !in s[..i]
    decreases |s|
  {
    if s[0] == x then 0
    else
      assert x in s[1..] by { assert s == [s[0]] + s[1..]; }
      var j := IndexOf(s[1..], x);
      assert s[..j + 1] == [s[0]] + s[1..][..j];
      j + 1
  }

  /** `indexOf` followed by `splice(index, 1)`: the first occurrence goes
      and the rest keep their order. */
  function RemoveFirst(s: seq<string>, x: string): (r: seq<string>)
    ensures x !in s ==> r == s
    ensures x in s ==> multiset(r) == multiset(s) - multiset{x}
    ensures |r| == if x in s then |s| - 1 else |s|
    ensures x in s ==> r == s[..IndexOf(s, x)] + s[IndexOf(s, x) + 1..]
    decreases |s|
  {
    if |s| == 0 then s
    else
      assert s == [s[0]] + s[1..];
      if s[0] == x then
        assert s[..0] == [];
        s[1..]
      else
        assert x in s <==> x in s[1..];
        var t := RemoveFirst(s[1..], x);
        if x in s then
          RemoveFirstShift(s, x);
          [s[0]] + t
        else [s[0]] + t
  }

  /** The first occurrence in the tail, one place on, is the first
      occurrence in the whole list. */
  lemma RemoveFirstShift(s: seq<string>, x: string)
    requires |s| > 0 && s[0] != x && x in s
    ensures x in s[1..] && IndexOf(s, x) == IndexOf(s[1..], x) + 1
    ensures [s[0]] + (s[1..][..IndexOf(s[1..], x)] + s[1..][IndexOf(s[1..], x) + 1..])
            == s[..IndexOf(s, x)] + s[IndexOf(s, x) + 1..]
  {
    assert s == [s[0]] + s[1..];
    var j := IndexOf(s[1..], x);
    assert s[..j + 1] == [s[0]] + s[1..][..j];
    assert s[j + 2..] == s[1..][j + 1..];
  }

  /** On a duplicate-free list, removing the first occurrence is the
      set deletion the favourites manager uses. */
  lemma {:induction false} RemoveFirstIsDelete(s: seq<string>, x: string)
    requires NoDuplicates(s)
    ensures RemoveFirst(s, x) == IdSets.Delete(s, x)
    decreases |s|
  {
    if |s| > 0 {
      assert s == [s[0]] + s[1..];
      assert NoDuplicates(s[1..]) by {
        forall i, j | 0 <= i < j < |s[1..]| ensures s[1..][i] != s[1..][j] {
          assert s[1..][i] == s[i + 1] && s[1..][j] == s[j + 1];
        }
      }
      if s[0] == x {
        assert x !in s[1..];
        IdSets.DeleteAbsent(s[1..], x);
      } else {
        RemoveFirstIsDelete(s[1..], x);
      }
    }
  }

  /** `toggleFavorite` / `toggleHidden` on the list: the new list; the
      record is always written. */
  function ToggleIn(s: seq<string>, x: string): (r: seq<string>)
    ensures x in s ==> multiset(r) == multiset(s) - multiset{x}
    ensures x !in s ==> r == s + [x]
  {
    if x in s then RemoveFirst(s, x) else s + [x]
  }

  /** `addFavorite` / `hideGame` on the list: the new list and whether the
      record is written. */
  function AddTo(s: seq<string>, x: string): (r: (seq<string>, bool))
    ensures r.1 <==> x !in s
    ensures x in r.0
    ensures NoDuplicates(s) ==> NoDuplicates(r.0)
    ensures r.1 ==> r.0 == s + [x]
    ensures !r.1 ==> r.0 == s
  {
    if x in s then (s, false) else (s + [x], true)
  }

  /** `removeFavorite` / `unhideGame` on the list. */
  function RemoveFrom(s: seq<string>, x: string): (r: (seq<string>, bool))
    ensures r.1 <==> x in s
    ensures r.0 == RemoveFirst(s, x)
  {
    if x in s then (RemoveFirst(s, x), true) else (s, false)
  }

  lemma NotInAfterRemove(s: seq<string>, x: string)
    requires NoDuplicates(s)
    ensures x !in RemoveFirst(s, x)
    ensures forall y :: y != x ==> (y in RemoveFirst(s, x) <==> y in s)
  {
    var r := RemoveFirst(s, x);
    if x in s {
      assert multiset(s)[x] == 1 by {
        var i :| 0 <= i < |s| && s[i] == x;
        CountOne(s, i);
      }
      assert multiset(r)[x] == 0;
    }
    forall y | y != x ensures y in r <==> y in s {
      assert y in multiset(r) <==> y in multiset(s);
    }
  }

  lemma {:induction false} CountOne(s: seq<string>, i: nat)
    requires NoDuplicates(s) && i < |s|
    ensures multiset(s)[s[i]] == 1
    decreases |s|
  {
    var last := s[|s| - 1];
    var init := s[..|s| - 1];
    assert s == init + [last];
    assert NoDuplicates(init);
    if i == |s| - 1 {
      assert last !in init;
      assert multiset(init)[last] == 0;
    } else {
      CountOne(init, i);
      assert init[i] == s[i] && s[i] != last;
    }
  }

  /** On a duplicate-free list, toggling flips the id's membership and
      keeps every other id where it was. */
  lemma ToggleFlips(s: seq<string>, x: string)
    requires NoDuplicates(s)
    ensures x in ToggleIn(s, x) <==> x !in s
    ensures forall y :: y != x ==> (y in ToggleIn(s, x) <==> y in s)
  {
    if x in s {
      NotInAfterRemove(s, x);
    }
  }

  /** Toggling twice restores the membership of every id, and the list
      itself when the id was absent. */
  lemma ToggleTwice(s: seq<string>, x: string)
    requires NoDuplicates(s)
    ensures forall y :: y in ToggleIn(ToggleIn(s, x), x) <==> y in s
    ensures x !in s ==> ToggleIn(ToggleIn(s, x), x) == s
  {
    if x in s {
      NotInAfterRemove(s, x);
    } else {
      RemoveLast(s, x);
    }
  }

  lemma RemoveLast(s: seq<string>, x: string)
    requires x !in s
    ensures RemoveFirst(s + [x], x) == s
  {
    var sx := s + [x];
    assert sx[|s|] == x;
    var i := IndexOf(sx, x);
    assert forall k :: 0 <= k < |s| ==> sx[k] == s[k];
    assert sx[..i] == s && sx[i + 1..] == [];
  }

  // ---------------------------------------------------------------------
  // The record operations

  /** `toggleFavorite(id)`: only the favourites change; always saved. */
  function ToggleFavorite(p: Prefs, id: string): (r: Prefs)
    ensures r.(favorites := p.favorites) == p
    ensures id in p.favorites ==> multiset(r.favorites) == multiset(p.favorites) - multiset{id}
    ensures id !in p.favorites ==> r.favorites == p.favorites + [id]
  {
    p.(favorites := ToggleIn(p.favorites, id))
  }

  /** `addFavorite(id)`: the new record and whether it was saved. */
  function AddFavorite(p: Prefs, id: string): (r: (Prefs, bool))
    ensures r.1 <==> id !in p.favorites
    ensures id in r.0.favorites
    ensures r.1 ==> r.0.favorites == p.favorites + [id]
    ensures !r.1 ==> r.0 == p
    ensures NoDuplicates(p.favorites) ==> NoDuplicates(r.0.favorites)
    ensures r.0 == p.(favorites := r.0.favorites)
  {
    var (l, saves) := AddTo(p.favorites, id);
    (p.(favorites := l), saves)
  }

  /** `removeFavorite(id)` */
  function RemoveFavorite(p: Prefs, id: string): (r: (Prefs, bool))
    ensures r.1 <==> id in p.favorites
    ensures !r.1 ==> r.0 == p
    ensures r.0.favorites == RemoveFirst(p.favorites, id)
    ensures NoDuplicates(p.favorites) ==>
              id !in r.0.favorites && forall y :: y != id ==> (y in r.0.favorites <==> y in p.favorites)
    ensures r.0 == p.(favorites := r.0.favorites)
  {
    var (l, saves) := RemoveFrom(p.favorites, id);
    if NoDuplicates(p.favorites) then
      NotInAfterRemove(p.favorites, id);
      (p.(favorites := l), saves)
    else (p.(favorites := l), saves)
  }

  /** Adding a favourite and removing it again restores the preferences
      when the id was not a favourite. */
  lemma AddThenRemoveFavorite(p: Prefs, id: string)
    requires id !in p.favorites
    ensures RemoveFavorite(AddFavorite(p, id).0, id) == (p, true)
  {
    RemoveLast(p.favorites, id);
  }

  /** `toggleHidden(id)` */
  function ToggleHidden(p: Prefs, id: string): (r: Prefs)
    ensures r.(hiddenGames := p.hiddenGames) == p
    ensures id in p.hiddenGames ==> multiset(r.hiddenGames) == multiset(p.hiddenGames) - multiset{id}
    ensures id !in p.hiddenGames ==> r.hiddenGames == p.hiddenGames + [id]
  {
    p.(hiddenGames := ToggleIn(p.hiddenGames, id))
  }

  /** `hideGame(id)` */
  function HideGame(p: Prefs, id: string): (r: (Prefs, bool))
    ensures r.1 <==> id !in p.hiddenGames
    ensures id in r.0.hiddenGames
    ensures NoDuplicates(p.hiddenGames) ==> NoDuplicates(r.0.hiddenGames)
    ensures r.0 == p.(hiddenGames := r.0.hiddenGames)
  {
    var (l, saves) := AddTo(p.hiddenGames, id);
    (p.(hiddenGames := l), saves)
  }

  /** `unhideGame(id)` */
  function UnhideGame(p: Prefs, id: string): (r: (Prefs, bool))
    ensures r.1 <==> id in p.hiddenGames
    ensures !r.1 ==> r.0 == p
    ensures r.0.hiddenGames == RemoveFirst(p.hiddenGames, id)
    ensures NoDuplicates(p.hiddenGames) ==>
              id !in r.0.hiddenGames && forall y :: y != id ==> (y in r.0.hiddenGames <==> y in p.hiddenGames)
    ensures r.0 == p.(hiddenGames := r.0.hiddenGames)
  {
    var (l, saves) := RemoveFrom(p.hiddenGames, id);
    if NoDuplicates(p.hiddenGames) then
      NotInAfterRemove(p.hiddenGames, id);
      (p.(hiddenGames := l), saves)
    else (p.(hiddenGames := l), saves)
  }

  /** Hiding a game and showing it again restores the preferences when
      the game was not hidden. */
  lemma HideThenUnhide(p: Prefs, id: string)
    requires id !in p.hiddenGames
    ensures UnhideGame(HideGame(p, id).0, id) == (p, true)
  {
    RemoveLast(p.hiddenGames, id);
  }

  /** `setLastSort(sortBy, direction)` */
  function SetLastSort(p: Prefs, sortBy: string, direction: string): (r: Prefs)
    ensures r.ui == p.ui && r.favorites == p.favorites && r.hiddenGames == p.hiddenGames
    ensures r.session == p.session && r.filters.lastSearch == p.filters.lastSearch
  {
    p.(filters := p.filters.(lastSortBy := sortBy, lastSortDirection := direction))
  }

  /** `getLastSort()` */
  function GetLastSort(p: Prefs): (string, string) {
    (p.filters.lastSortBy, p.filters.lastSortDirection)
  }

  lemma SetThenGetSort(p: Prefs, sortBy: string, direction: string)
    ensures GetLastSort(SetLastSort(p, sortBy, direction)) == (sortBy, direction)
  {
  }
}

=== FILE: profile_edit.dfy ===
/** The edit forms' field rules: how the values of the single-game form
    and of the batch form become a partial custom profile.  The form's
    inputs are parameters: a text input is its value, `None` when the
    element is missing; a checkbox is whether it is ticked (a missing one
    reads as not ticked). */
module ProfileEdit {
  import opened Wrappers
  import opened Text
  import opened Seqs
  import opened CustomProfiles

  // ---------------------------------------------------------------------
  // Reading one input

  /** `getElementById(id)?.value.trim() || null` */
  function TextValue(input: Option<string>): (r: Option<string>)
    ensures r.Some? ==> r.value != "" && Trim(r.value) == r.value
    ensures r.None? <==> input.None? || IsBlank(input.value)
  {
    match input
    case None => None
    case Some(v) =>
      TrimBlank(v);
      TrimIdempotent(v);
      if Trim(v) != "" then Some(Trim(v)) else None
  }

  predicate NotEmpty(s: string) {
    s != ""
  }

  function TrimEach(parts: seq<string>): (r: seq<string>)
    ensures |r| == |parts|
    ensures forall i :: 0 <= i < |r| ==> r[i] == Trim(parts[i])
  {
    seq(|parts|, i requires 0 <= i < |parts| => Trim(parts[i]))
  }

  /** The tag input: blank is `null`; otherwise the comma-separated
      pieces, trimmed, empty ones dropped. */
  function TagsValue(input: Option<string>): (r: Option<seq<string>>)
    ensures r.None? <==> input.None? || IsBlank(input.value)
    ensures r.Some? ==> forall t :: t in r.value ==> t != "" && Trim(t) == t && ',' !in t
  {
    match input
    case None => None
    case Some(v) =>
      TrimBlank(v);
      var t := Trim(v);
      if t == "" then None
      else
        var pieces := Split(t, ',');
        var tags := Filter(TrimEach(pieces), NotEmpty);
        CleanTags(pieces);
        Some(tags)
  }

  lemma CleanTags(pieces: seq<string>)
    requires forall k, i :: 0 <= k < |pieces| && 0 <= i < |pieces[k]| ==> pieces[k][i] != ','
    ensures forall x :: x in Filter(TrimEach(pieces), NotEmpty) ==> Trim(x) == x && ',' !in x
  {
    var trimmed := TrimEach(pieces);
    forall x | x in Filter(trimmed, NotEmpty) ensures Trim(x) == x && ',' !in x {
      var i :| 0 <= i < |pieces| && x == trimmed[i];
      TrimIdempotent(pieces[i]);
      TrimInside(pieces[i], ',');
    }
  }

  lemma TrimInside(s: string, c: char)
    requires c !in s
    ensures c !in Trim(s)
  {
  }

  /** A number input read with `parseInt`: a number, or NaN. */
  datatype Number = Num(n: int) | NaN

  /** `value ? parseInt(value) : null` */
  function YearValue(input: Option<string>): (r: Option<Number>)
    ensures r.None? <==> input.None? || input.value == ""
  {
    match input
    case None => None
    case Some(v) =>
      if v == "" then None
      else match ParseInt(v)
        case None => Some(NaN)
        case Some(n) => Some(Num(n))
  }

  /** `getElementById(id)?.value || null`: a selection, not trimmed. */
  function SelectValue(input: Option<string>): (r: Option<string>)
    ensures r.Some? <==> input.Some? && input.value != ""
    ensures r.Some? ==> r == input
  {
    if input.Some? && input.value != "" then input else None
  }

  const Vendors: seq<string> := ["Nvidia", "AMD", "Intel"]

  /** The ticked vendors in the fixed order Nvidia, AMD, Intel. */
  function GpuNames(nvidia: bool, amd: bool, intel: bool): (r: seq<string>)
    ensures ("Nvidia" in r <==> nvidia) && ("AMD" in r <==> amd) && ("Intel" in r <==> intel)
    ensures |r| == 0 <==> !nvidia && !amd && !intel
  {
    (if nvidia then ["Nvidia"] else []) + (if amd then ["AMD"] else []) + (if intel then ["Intel"] else [])
  }

  /** The GPU checkboxes: nothing ticked is `null`; otherwise the ticked
      names joined by `", "`. */
  function GpuValue(nvidia: bool, amd: bool, intel: bool): (r: Option<string>)
    ensures r.None? <==> !nvidia && !amd && !intel
  {
    var names := GpuNames(nvidia, amd, intel);
    if |names| == 0 then None else Some(Join(names, ", "))
  }

  /** The vendor names come out in the order of the vendor list. */
  lemma GpuNamesOrdered(nvidia: bool, amd: bool, intel: bool)
    ensures SubseqOf(GpuNames(nvidia, amd, intel), Vendors)
  {
    var r := GpuNames(nvidia, amd, intel);
    var tail := ["AMD", "Intel"];
    assert Vendors[1..] == tail && tail[1..] == ["Intel"];
    var last: seq<string> := if intel then ["Intel"] else [];
    assert SubseqOf(last, ["Intel"]) by {
      if intel { SubseqRefl(last); } else { assert ["Intel"][1..] == []; }
    }
    var mid := (if amd then ["AMD"] else []) + last;
    assert SubseqOf(mid, tail) by {
      if amd { assert mid[1..] == last && mid[0] == tail[0]; }
      else { assert mid == last; assert tail[0] != "Intel" || |last| == 0; }
    }
    if nvidia {
      assert r == ["Nvidia"] + mid && r[1..] == mid;
    } else {
      assert r == mid;
      assert |mid| == 0 || mid[0] != "Nvidia";
    }
  }

  // ---------------------------------------------------------------------
  // The single-game form

  datatype SingleForm = SingleForm(
    customName: Option<string>,
    description: Option<string>,
    youtubeLink: Option<string>,
    tags: Option<string>,
    genre: Option<string>,
    gunGame: bool,
    year: Option<string>,
    platform: Option<string>,
    emulator: Option<string>,
    nvidia: bool,
    amd: bool,
    intel: bool)

  /** `saveValue` for the year: only a truthy number is saved. */
  function SavedYear(v: Option<Number>): (r: Option<Year>)
    ensures r.Some? ==> r.value.YearNumber? && r.value.n != 0
    ensures r.Some? <==> v.Some? && v.value.Num? && v.value.n != 0
  {
    match v
    case Some(Num(n)) => if n != 0 then Some(YearNumber(n)) else None
    case _ => None
  }

  /** `saveValue` for the tags: only a non-empty list is saved. */
  function SavedTags(v: Option<seq<string>>): (r: Option<seq<string>>)
    ensures r.Some? <==> v.Some? && |v.value| > 0
    ensures r.Some? ==> r == v
  {
    if v.Some? && |v.value| > 0 then v else None
  }

  /** `collectSingleEditData()`: every field of the form through its
      reading and saving rule.  An unticked lightgun box reads as `false`,
      which the loop skips, so no `lightgun: false` is produced. */
  function CollectSingle(f: SingleForm): (r: Profile)
    ensures r.lastModified.None?
    ensures r.lightgun != Some(false)
  {
    Profile(
      TextValue(f.customName),
      TextValue(f.description),
      TextValue(f.youtubeLink),
      SavedTags(TagsValue(f.tags)),
      TextValue(f.genre),
      if f.gunGame then Some(true) else None,
      SavedYear(YearValue(f.year)),
      SelectValue(f.platform),
      SelectValue(f.emulator),
      GpuValue(f.nvidia, f.amd, f.intel),
      None)
  }

  // ---------------------------------------------------------------------
  // The batch form

  datatype BatchForm = BatchForm(
    tags: Option<string>,
    genre: Option<string>,
    gunOption: Option<string>,
    year: Option<string>,
    platform: Option<string>,
    emulator: Option<string>,
    nvidia: bool,
    amd: bool,
    intel: bool)

  /** The lightgun radio group: `'true'` and `'false'` override, `'keep'`
      or no selection leave the key out. */
  function BatchLightgun(option: Option<string>): (r: Option<bool>)
    ensures r == Some(true) <==> option == Some("true")
    ensures r == Some(false) <==> option == Some("false")
  {
    match option
    case Some(v) =>
      if v == "true" then Some(true)
      else if v == "false" then Some(false)
      else None
    case None => None
  }

  /** `collectBatchEditData()`: only the fields marked for batch editing,
      so never the name, the description or the video link. */
  function CollectBatch(f: BatchForm): (r: Profile)
    ensures r.customName.None? && r.description.None? && r.youtubeLink.None?
    ensures r.lastModified.None?
  {
    Profile(
      None, None, None,
      SavedTags(TagsValue(f.tags)),
      TextValue(f.genre),
      BatchLightgun(f.gunOption),
      SavedYear(YearValue(f.year)),
      SelectValue(f.platform),
      SelectValue(f.emulator),
      GpuValue(f.nvidia, f.amd, f.intel),
      None)
  }

  // ---------------------------------------------------------------------
  // Properties

  /** Every key of a collected profile holds a truthy value. */
  predicate OnlyTruthy(p: Profile) {
    (p.customName.Some? ==> p.customName.value != "")
    && (p.description.Some? ==> p.description.value != "")
    && (p.youtubeLink.Some? ==> p.youtubeLink.value != "")
    && (p.tags.Some? ==> |p.tags.value| > 0)
    && (p.genre.Some? ==> p.genre.value != "")
    && (p.year.Some? ==> YearTruthy(p.year.value))
    && (p.platform.Some? ==> p.platform.value != "")
    && (p.emulator.Some? ==> p.emulator.value != "")
    && (p.gpu.Some? ==> p.gpu.value != "")
  }

  lemma JoinNonEmpty(parts: seq<string>, sep: string)
    requires |parts| > 0 && parts[0] != ""
    ensures Join(parts, sep) != ""
  {
    if |parts| > 1 {
      assert |Join(parts, sep)| >= |parts[0]|;
    }
  }

  lemma GpuValueTruthy(nvidia: bool, amd: bool, intel: bool)
    ensures GpuValue(nvidia, amd, intel).Some? ==> GpuValue(nvidia, amd, intel).value != ""
  {
    var names := GpuNames(nvidia, amd, intel);
    if |names| > 0 {
      assert names[0] in names;
      assert names[0] == "Nvidia" || names[0] == "AMD" || names[0] == "Intel";
      JoinNonEmpty(names, ", ");
    }
  }

  /** Save rules write only truthy values. */
  lemma SingleOnlyTruthy(f: SingleForm)
    ensures OnlyTruthy(CollectSingle(f))
  {
    GpuValueTruthy(f.nvidia, f.amd, f.intel);
  }

  lemma BatchOnlyTruthy(f: BatchForm)
    ensures OnlyTruthy(CollectBatch(f))
  {
    GpuValueTruthy(f.nvidia, f.amd, f.intel);
  }

  /** Blank inputs, an empty selection, a year of 0 and an unparseable
      year produce no key. */
  lemma BlankInputsNoKeys(f: SingleForm)
    requires f.customName.Some? && IsBlank(f.customName.value)
    requires f.platform == Some("") && f.emulator == Some("")
    requires f.year.Some? && (ParseInt(f.year.value) == Some(0) || ParseInt(f.year.value).None?)
    ensures CollectSingle(f).customName.None?
    ensures CollectSingle(f).platform.None? && CollectSingle(f).emulator.None?
    ensures CollectSingle(f).year.None?
  {
  }

  /** The lightgun key of a single edit: `true` when ticked, absent
      otherwise. */
  lemma SingleLightgun(f: SingleForm)
    ensures CollectSingle(f).lightgun == Some(true) <==> f.gunGame
    ensures CollectSingle(f).lightgun.None? <==> !f.gunGame
  {
  }

  /** A batch edit never touches the per-game name, description or video
      link of a cached profile. */
  lemma BatchKeepsPerGameText(c: Cache, id: string, f: BatchForm, reply: ReadReply, now: string)
    requires id != "" && id in c.profiles
    ensures var q := SetProfile(c, id, CollectBatch(f), reply, now).0.profiles[id];
      q.customName == c.profiles[id].customName
      && q.description == c.profiles[id].description
      && q.youtubeLink == c.profiles[id].youtubeLink
  {
  }

  /** A batch edit with 'keep' leaves the cached lightgun override alone. */
  lemma BatchKeepLightgun(c: Cache, id: string, f: BatchForm, reply: ReadReply, now: string)
    requires id != "" && id in c.profiles
    requires f.gunOption == Some("keep") || f.gunOption.None?
    ensures SetProfile(c, id, CollectBatch(f), reply, now).0.profiles[id].lightgun == c.profiles[id].lightgun
  {
  }

  /** The tag field of the edit form is pre-filled with the tags joined by
      `,`; saving it untouched gives the same tags back. */
  lemma TagsPrefillRoundTrip(tags: seq<string>)
    requires |tags| > 0
    requires forall i :: 0 <= i < |tags| ==> tags[i] != "" && Trim(tags[i]) == tags[i] && ',' !in tags[i]
    ensures TagsValue(Some(Join(tags, ","))) == Some(tags)
  {
    var s := Join(tags, ",");
    JoinTrimmed(tags);
    TrimBlank(s);
    SplitJoin(tags, ',');
    CleanPieces(tags);
  }

  lemma JoinTrimmed(tags: seq<string>)
    requires |tags| > 0
    requires forall i :: 0 <= i < |tags| ==> tags[i] != "" && Trim(tags[i]) == tags[i]
    ensures Trim(Join(tags, ",")) == Join(tags, ",") != ""
  {
    JoinEnds(tags, ",");
    Unpadded(tags[0]);
    Unpadded(tags[|tags| - 1]);
    TrimUnpadded(Join(tags, ","));
  }

  lemma Unpadded(t: string)
    requires t != "" && Trim(t) == t
    ensures !IsSpace(t[0]) && !IsSpace(t[|t| - 1])
  {
    var r := Trim(t);
    assert r[0] == t[0] && r[|r| - 1] == t[|t| - 1];
  }

  lemma CleanPieces(tags: seq<string>)
    requires forall i :: 0 <= i < |tags| ==> tags[i] != "" && Trim(tags[i]) == tags[i]
    ensures Filter(TrimEach(tags), NotEmpty) == tags
  {
    assert TrimEach(tags) == tags;
    FilterAll(tags, NotEmpty);
  }

  /** The first character of a join is the first piece's and the last is
      the last piece's. */
  lemma {:induction false} JoinEnds(parts: seq<string>, sep: string)
    requires |parts| > 0 && forall i :: 0 <= i < |parts| ==> parts[i] != ""
    ensures |Join(parts, sep)| > 0
    ensures Join(parts, sep)[0] == parts[0][0]
    ensures Join(parts, sep)[|Join(parts, sep)| - 1] == parts[|parts| - 1][|parts[|parts| - 1]| - 1]
    decreases |parts|
  {
    if |parts| > 1 {
      JoinEnds(parts[1..], sep);
      var rest := Join(parts[1..], sep);
      assert Join(parts, sep) == parts[0] + sep + rest;
      assert parts[1..][|parts[1..]| - 1] == parts[|parts| - 1];
    }
  }

  // ---------------------------------------------------------------------
  // The lightgun checkbox of the single form

  /** As written, unticking the box cannot undo an earlier `true`: the
      unticked box produces no key, and the merge keeps the old value. */
  lemma SingleEditCannotClearLightgun(c: Cache, id: string, f: SingleForm, reply: ReadReply, now: string)
    requires id != "" && id in c.profiles && c.profiles[id].lightgun == Some(true)
    requires !f.gunGame
    ensures SetProfile(c, id, CollectSingle(f), reply, now).0.profiles[id].lightgun == Some(true)
  {
  }

  /** The single form as its save rule describes it: the box saves
      `lightgun: true` or `lightgun: false`. */
  function CollectSingleIntended(f: SingleForm): (r: Profile)
    ensures r.lightgun.Some?
  {
    CollectSingle(f).(lightgun := Some(f.gunGame))
  }

  /** With the intended rule, the cached override follows the box. */
  lemma SingleIntendedSetsLightgun(c: Cache, id: string, f: SingleForm, reply: ReadReply, now: string)
    requires id != ""
    ensures SetProfile(c, id, CollectSingleIntended(f), reply, now).0.profiles[id].lightgun == Some(f.gunGame)
  {
  }
}

=== FILE: selection.dfy ===
/** The multi-select state used by the batch operations: a mode flag and
    a set of selected game ids. */
module Selection {
  import opened Seqs
  import opened IdSets

  datatype Selection = Selection(selected: seq<string>, mode: bool)

  const Initial := Selection([], false)

  predicate Valid(s: Selection) {
    NoDuplicates(s.selected)
  }

  /** `enableSelectionMode()` keeps the selection. */
  function Enable(s: Selection): (r: Selection)
    ensures r.mode && r.selected == s.selected
  {
    s.(mode := true)
  }

  /** `disableSelectionMode()` always clears the selection. */
  function Disable(s: Selection): (r: Selection)
    ensures !r.mode && r.selected == []
  {
    Selection([], false)
  }

  /** `toggleSelectionMode()`: the new state and the new mode. */
  function ToggleMode(s: Selection): (r: (Selection, bool))
    ensures r.1 == !s.mode && r.0.mode == r.1
    ensures r.1 ==> r.0.selected == s.selected
    ensures !r.1 ==> r.0.selected == []
  {
    var next := if s.mode then Disable(s) else Enable(s);
    (next, next.mode)
  }

  /** `select(id)` */
  function Select(s: Selection, id: string): (r: Selection)
    ensures Valid(s) ==> Valid(r)
    ensures r.mode == s.mode
    ensures forall y :: y in r.selected <==> y in s.selected || y == id
  {
    s.(selected := Add(s.selected, id))
  }

  /** `deselect(id)` */
  function Deselect(s: Selection, id: string): (r: Selection)
    ensures Valid(s) ==> Valid(r)
    ensures r.mode == s.mode
    ensures forall y :: y in r.selected <==> y in s.selected && y != id
  {
    s.(selected := Delete(s.selected, id))
  }

  /** `toggle(id)`: the new state and the new membership. */
  function Toggle(s: Selection, id: string): (r: (Selection, bool))
    ensures r.1 <==> id !in s.selected
    ensures r.1 <==> id in r.0.selected
    ensures forall y :: y != id ==> (y in r.0.selected <==> y in s.selected)
  {
    var next := if id in s.selected then Deselect(s, id) else Select(s, id);
    (next, id in next.selected)
  }

  lemma SelectIdempotent(s: Selection, id: string)
    ensures Select(Select(s, id), id) == Select(s, id)
  {
  }

  lemma DeselectIdempotent(s: Selection, id: string)
    ensures Deselect(Deselect(s, id), id) == Deselect(s, id)
  {
    DeleteAbsent(Deselect(s, id).selected, id);
  }

  /** `selectAll(ids)`: each id selected in turn. */
  function SelectAll(s: Selection, ids: seq<string>): (r: Selection)
    ensures r.mode == s.mode
    ensures Valid(s) ==> Valid(r)
    decreases |ids|
  {
    if |ids| == 0 then s else SelectAll(Select(s, ids[0]), ids[1..])
  }

  /** The selection after `selectAll` is the old one together with the
      given ids. */
  lemma {:induction false} SelectAllUnion(s: Selection, ids: seq<string>)
    ensures forall y :: y in SelectAll(s, ids).selected <==> y in s.selected || y in ids
    decreases |ids|
  {
    if |ids| > 0 {
      SelectAllUnion(Select(s, ids[0]), ids[1..]);
      assert forall y :: y in ids <==> y == ids[0] || y in ids[1..] by {
        assert ids == [ids[0]] + ids[1..];
      }
    }
  }

  /** `getSelectedCount()`: the size of the set, which is the length of
      the list `getSelected()` returns. */
  function SelectedCount(s: Selection): (r: nat)
    requires Valid(s)
    ensures r == |s.selected|
  {
    DistinctCount(s.selected);
    |set y | y in s.selected|
  }

  lemma {:induction false} DistinctCount(xs: seq<string>)
    requires NoDuplicates(xs)
    ensures |set y | y in xs| == |xs|
    decreases |xs|
  {
    if |xs| > 0 {
      var init := xs[..|xs| - 1];
      var last := xs[|xs| - 1];
      assert NoDuplicates(init);
      DistinctCount(init);
      assert xs == init + [last];
      assert last !in init;
      assert (set y | y in xs) == (set y | y in init) + {last};
    }
  }
}

=== FILE: seqs.dfy ===
/** Order-preserving filtering, the JavaScript `Array.prototype.filter`,
    and the subsequence relation it establishes. */
module Seqs {

  /** `a` can be obtained from `b` by deleting elements. */
  predicate SubseqOf<T(==,!new)>(a: seq<T>, b: seq<T>)
    decreases |b|
  {
    if |a| == 0 then true
    else if |b| == 0 then false
    else if a[0] == b[0] then SubseqOf(a[1..], b[1..])
    else SubseqOf(a, b[1..])
  }

  /** `s.filter(keep)` */
  function Filter<T(==,!new)>(s: seq<T>, keep: T -> bool): (r: seq<T>)
    ensures forall x :: x in r <==> x in s && keep(x)
    ensures SubseqOf(r, s)
    ensures multiset(r) <= multiset(s)
    ensures |r| <= |s|
    decreases |s|
  {
    if |s| == 0 then []
    else
      var rest := Filter(s[1..], keep);
      assert s == [s[0]] + s[1..];
      if keep(s[0]) then [s[0]] + rest else rest
  }

  lemma {:induction false} SubseqRefl<T(!new)>(a: seq<T>)
    ensures SubseqOf(a, a)
    decreases |a|
  {
    if |a| > 0 {
      SubseqRefl(a[1..]);
    }
  }

  lemma {:induction false} SubseqTrans<T(!new)>(a: seq<T>, b: seq<T>, c: seq<T>)
    requires SubseqOf(a, b) && SubseqOf(b, c)
    ensures SubseqOf(a, c)
    decreases |c|
  {
    if |a| > 0 && |c| > 0 {
      if b[0] == c[0] {
        if a[0] == b[0] {
          SubseqTrans(a[1..], b[1..], c[1..]);
        } else {
          SubseqTrans(a, b[1..], c[1..]);
        }
      } else {
        SubseqTrans(a, b, c[1..]);
        if a[0] == c[0] {
          SubseqDropHead(a, c[1..]);
        }
      }
    }
  }

  lemma {:induction false} SubseqDropHead<T(!new)>(a: seq<T>, b: seq<T>)
    requires |a| > 0 && SubseqOf(a, b)
    ensures SubseqOf(a[1..], b)
    decreases |b|, 0
  {
    if a[0] == b[0] {
      SubseqSkip(a[1..], b[1..], b[0]);
      assert b == [b[0]] + b[1..];
    } else {
      SubseqDropHead(a, b[1..]);
      SubseqSkip(a[1..], b[1..], b[0]);
      assert b == [b[0]] + b[1..];
    }
  }

  /** A subsequence of `b` is a subsequence of `b` with one more element in
      front. */
  lemma {:induction false} SubseqSkip<T(!new)>(a: seq<T>, b: seq<T>, x: T)
    requires SubseqOf(a, b)
    ensures SubseqOf(a, [x] + b)
    decreases |b|, 1
  {
    assert ([x] + b)[1..] == b;
    if |a| > 0 && a[0] == x {
      assert |b| > 0;
      if a[0] == b[0] {
        SubseqSkip(a[1..], b[1..], b[0]);
        assert [b[0]] + b[1..] == b;
      } else {
        SubseqDropHead(a, b);
      }
    }
  }

  /** A subsequence of the tail is one of the whole, and so is the head
      followed by it. */
  lemma SubseqSkipHead<T(!new)>(a: seq<T>, s: seq<T>)
    requires |s| > 0 && SubseqOf(a, s[1..])
    ensures SubseqOf(a, s) && SubseqOf([s[0]] + a, s)
  {
    SubseqSkip(a, s[1..], s[0]);
    assert s == [s[0]] + s[1..];
    var b := [s[0]] + a;
    assert b[0] == s[0] && b[1..] == a;
  }

  /** A subsequence never has more copies of any element. */
  lemma {:induction false} SubseqMultiset<T(!new)>(a: seq<T>, b: seq<T>)
    requires SubseqOf(a, b)
    ensures multiset(a) <= multiset(b)
    decreases |b|
  {
    if |a| > 0 {
      assert b == [b[0]] + b[1..];
      if a[0] == b[0] {
        SubseqMultiset(a[1..], b[1..]);
        assert a == [a[0]] + a[1..];
      } else {
        SubseqMultiset(a, b[1..]);
      }
    }
  }

  /** Filtering twice with the same test is filtering once. */
  lemma {:induction false} FilterIdempotent<T(!new)>(s: seq<T>, keep: T -> bool)
    ensures Filter(Filter(s, keep), keep) == Filter(s, keep)
    decreases |s|
  {
    if |s| > 0 {
      FilterIdempotent(s[1..], keep);
    }
  }

  /** Filtering with a test every element passes changes nothing. */
  lemma {:induction false} FilterAll<T(!new)>(s: seq<T>, keep: T -> bool)
    requires forall i :: 0 <= i < |s| ==> keep(s[i])
    ensures Filter(s, keep) == s
    decreases |s|
  {
    if |s| > 0 {
      FilterAll(s[1..], keep);
    }
  }

  /** Filtering with a test that the elements fail gives the empty list. */
  lemma {:induction false} FilterNone<T(!new)>(s: seq<T>, keep: T -> bool)
    requires forall i :: 0 <= i < |s| ==> !keep(s[i])
    ensures Filter(s, keep) == []
    decreases |s|
  {
    if |s| > 0 {
      FilterNone(s[1..], keep);
    }
  }

  /** Splitting by a test and by its negation accounts for every element. */
  lemma {:induction false} FilterPartition<T(!new)>(s: seq<T>, keep: T -> bool)
    ensures |Filter(s, keep)| + |Filter(s, x => !keep(x))| == |s|
    decreases |s|
  {
    if |s| > 0 {
      FilterPartition(s[1..], keep);
    }
  }

  /** Two tests that agree on the elements filter the same way. */
  lemma {:induction false} FilterCongruent<T(!new)>(s: seq<T>, p: T -> bool, q: T -> bool)
    requires forall i :: 0 <= i < |s| ==> p(s[i]) == q(s[i])
    ensures Filter(s, p) == Filter(s, q)
    decreases |s|
  {
    if |s| > 0 {
      FilterCongruent(s[1..], p, q);
    }
  }

  /** Filtering by one test and then another is filtering by both. */
  lemma {:induction false} FilterFuse<T(!new)>(s: seq<T>, p: T -> bool, q: T -> bool)
    ensures Filter(Filter(s, p), q) == Filter(s, x => p(x) && q(x))
    decreases |s|
  {
    if |s| > 0 {
      FilterFuse(s[1..], p, q);
    }
  }

  /** A subsequence of a one-element list that holds its element is that
      list. */
  lemma SubseqSingleton<T(!new)>(a: seq<T>, x: T)
    requires SubseqOf(a, [x]) && x in a
    ensures a == [x]
  {
    SubseqMultiset(a, [x]);
    assert |a| == 1;
  }

  lemma SplitLast<T>(s: seq<T>)
    requires |s| > 0
    ensures s == s[..|s| - 1] + [s[|s| - 1]]
  {
  }

  lemma ConcatAssoc<T>(a: seq<T>, b: seq<T>, c: seq<T>)
    ensures a + (b + c) == (a + b) + c
  {
  }

  /** A list with no members is empty. */
  lemma NoMembersEmpty<T>(s: seq<T>)
    requires forall x :: x !in s
    ensures s == []
  {
    assert forall x :: x in multiset(s) <==> x in s;
    assert multiset(s) == multiset{};
  }

  predicate NoDuplicates<T(==,!new)>(s: seq<T>) {
    forall i, j :: 0 <= i < j < |s| ==> s[i] != s[j]
  }
}

=== FILE: server.dfy ===
/** The request rules of the local server (server.js): parameter
    validation, installing and removing games, launch-path resolution,
    reading and updating game profiles, the storage and custom-profile
    endpoints, and the in-memory log.  The folders the server touches are
    an abstract file map; the Windows path rules are spelled out where a
    rule depends on them. */
module Server {
  import opened Wrappers
  import opened Text

  // ---------------------------------------------------------------------
  // Parameters
  // ---------------------------------------------------------------------

  predicate IdChar(c: char) {
    IsAlnum(c) || c == '_' || c == '-'
  }

  /** `gameId && /^[a-zA-Z0-9_-]+$/.test(gameId)` */
  predicate ValidGameId(id: string) {
    |id| > 0 && forall i :: 0 <= i < |id| ==> IdChar(id[i])
  }

  /** `file && /^[a-zA-Z0-9_-]+\.json$/.test(file)` */
  predicate ValidStorageFile(file: string) {
    |file| > 5 && IsSuffix(".json", file) && ValidGameId(file[..|file| - 5])
  }

  /** A storage file name is a game-id-shaped stem followed by `.json`. */
  lemma StorageFileOf(stem: string)
    ensures ValidStorageFile(stem + ".json") <==> ValidGameId(stem)
  {
    var f := stem + ".json";
    assert f[..|f| - 5] == stem;
    assert f[|f| - 5..] == ".json";
  }

  /** A validated name holds no path separator and no dot, so joining it
      to a folder can never leave that folder. */
  lemma ValidIdStaysInFolder(id: string)
    requires ValidGameId(id)
    ensures '/' !in id && '\\' !in id && '.' !in id && ':' !in id
  {
    forall i | 0 <= i < |id|
      ensures id[i] != '/' && id[i] != '\\' && id[i] != '.' && id[i] != ':'
    {
      assert IdChar(id[i]);
    }
  }

  lemma ValidStorageFileStaysInFolder(file: string)
    requires ValidStorageFile(file)
    ensures '/' !in file && '\\' !in file
  {
    var stem := file[..|file| - 5];
    ValidIdStaysInFolder(stem);
    assert file == stem + ".json";
  }

  // ---------------------------------------------------------------------
  // The file map
  // ---------------------------------------------------------------------

  /** The folders the server reads and writes: the emulator's
      GameProfiles and UserProfiles under the root, the application's
      `storage`, the user-tier `storage/CustomProfiles` and the
      creator-tier `data/CustomProfiles`. */
  datatype Folder = GameProfiles | UserProfiles | Storage | UserCustom | CreatorCustom

  /** The folders that exist and the files, keyed by folder and file
      name, with their text. */
  datatype Fs = Fs(folders: set<Folder>, files: map<(Folder, string), string>)

  /** Every file lies in a folder that exists. */
  predicate Valid(fs: Fs) {
    forall k :: k in fs.files ==> k.0 in fs.folders
  }

  /** The files of one folder are the same in both maps. */
  predicate SameFolder(a: Fs, b: Fs, d: Folder) {
    (forall k :: k in a.files && k.0 == d ==> k in b.files && b.files[k] == a.files[k])
    && (forall k :: k in b.files && k.0 == d ==> k in a.files)
  }

  function XmlFile(name: string): string {
    name + ".xml"
  }

  /** `name.toLowerCase().endsWith('.xml')` */
  predicate IsXmlName(name: string) {
    IsSuffix(".xml", Lower(name))
  }

  /** `name.replace(/\.xml$/i, '')` */
  function StripXml(name: string): (r: string)
    ensures IsPrefix(r, name)
    ensures IsXmlName(name) ==> |r| == |name| - 4
    ensures !IsXmlName(name) ==> r == name
  {
    if IsXmlName(name) then name[..|name| - 4] else name
  }

  lemma LowerXml()
    ensures Lower(".xml") == ".xml"
  {
  }

  /** A profile named with or without its `.xml` suffix names the same
      file. */
  lemma StripXmlOf(id: string)
    ensures StripXml(XmlFile(id)) == id
  {
    var f := XmlFile(id);
    assert f[|f| - 4..] == ".xml";
    assert Lower(f)[|f| - 4..] == Lower(".xml");
    LowerXml();
  }

  // ---------------------------------------------------------------------
  // Replies
  // ---------------------------------------------------------------------

  /** What an ok reply carries besides `ok: true`. */
  datatype Payload =
    | NoPayload
    | Content(text: string)
    | NotFound
    | Names(names: seq<string>)
    | Deleted(deletedCount: nat)
    | Pushed(merged: nat, deleted: nat)

  /** A JSON reply: `{ ok: true, … }` with status 200, or
      `{ ok: false, error }` with the given status. */
  datatype Reply = Success(payload: Payload) | Fail(status: int, error: string)

  function Status(r: Reply): int {
    if r.Success? then 200 else r.status
  }

  const MissingProfile := "Missing profile parameter"
  const InvalidGameId := "Invalid game ID"
  const InvalidFile := "Invalid file parameter"
  /** The message of an exception the file system or the process layer
      throws; its text is not modelled. */
  const SystemError := "system error"

  // ---------------------------------------------------------------------
  // Install and remove
  // ---------------------------------------------------------------------

  predicate Given(param: Option<string>) {
    param.Some? && param.value != ""
  }

  /** The UserProfiles/GameProfiles file a `profile` parameter names. */
  function ProfileFile(param: string): string {
    XmlFile(StripXml(param))
  }

  /** `/__install?profile=…` (any method): copy GameProfiles/<name>.xml to
      UserProfiles/<name>.xml, refusing a missing parameter (400), an
      unknown game (404) and an installed one (409).  A copy into a
      folder that does not exist throws (500). */
  function Install(fs: Fs, profile: Option<string>): (r: (Reply, Fs))
    ensures !Given(profile) ==> r.0 == Fail(400, MissingProfile)
    ensures Given(profile) ==>
      var f := ProfileFile(profile.value);
      (Status(r.0) == 404 <==> (GameProfiles, f) !in fs.files)
      && (Status(r.0) == 409 <==> (GameProfiles, f) in fs.files && (UserProfiles, f) in fs.files)
      && (r.0.Success? <==> (GameProfiles, f) in fs.files && (UserProfiles, f) !in fs.files && UserProfiles in fs.folders)
      && (r.0.Success? ==> (UserProfiles, f) in r.1.files && r.1.files[(UserProfiles, f)] == fs.files[(GameProfiles, f)]
                           && forall k :: k != (UserProfiles, f) ==> (k in r.1.files <==> k in fs.files))
    ensures r.0.Fail? ==> r.1 == fs
    ensures r.1.folders == fs.folders
    ensures forall k :: k in fs.files ==> k in r.1.files && r.1.files[k] == fs.files[k]
  {
    if !Given(profile) then (Fail(400, MissingProfile), fs)
    else
      var f := ProfileFile(profile.value);
      if (GameProfiles, f) !in fs.files then (Fail(404, "Game profile not found"), fs)
      else if (UserProfiles, f) in fs.files then (Fail(409, "Game already installed"), fs)
      else if UserProfiles !in fs.folders then (Fail(500, SystemError), fs)
      else (Success(NoPayload), fs.(files := fs.files[(UserProfiles, f) := fs.files[(GameProfiles, f)]]))
  }

  /** `/__remove?profile=…` (any method): delete UserProfiles/<name>.xml only;
      a game that is not installed is refused with 404. */
  function Remove(fs: Fs, profile: Option<string>): (r: (Reply, Fs))
    ensures !Given(profile) ==> r.0 == Fail(400, MissingProfile)
    ensures Given(profile) ==>
      var f := ProfileFile(profile.value);
      (r.0.Success? <==> (UserProfiles, f) in fs.files)
      && (r.0.Fail? ==> r.0 == Fail(404, "Game not in library"))
      && (UserProfiles, f) !in r.1.files
    ensures r.0.Fail? ==> r.1 == fs
    ensures r.1.folders == fs.folders
    ensures forall k :: k in r.1.files ==> k in fs.files && r.1.files[k] == fs.files[k]
    ensures forall k :: k in fs.files && k.0 != UserProfiles ==> k in r.1.files
  {
    if !Given(profile) then (Fail(400, MissingProfile), fs)
    else
      var f := ProfileFile(profile.value);
      if (UserProfiles, f) !in fs.files then (Fail(404, "Game not in library"), fs)
      else (Success(NoPayload), fs.(files := fs.files - {(UserProfiles, f)}))
  }

  /** Removing a game right after installing it restores the file map. */
  lemma InstallThenRemove(fs: Fs, profile: Option<string>)
    requires Install(fs, profile).0.Success?
    ensures Remove(Install(fs, profile).1, profile).0.Success?
    ensures Remove(Install(fs, profile).1, profile).1 == fs
  {
    var f := ProfileFile(profile.value);
    var fs1 := Install(fs, profile).1;
    assert fs1.files - {(UserProfiles, f)} == fs.files;
  }

  /** A second install of the same game is a conflict. */
  lemma InstallTwice(fs: Fs, profile: Option<string>)
    requires Install(fs, profile).0.Success?
    ensures Install(Install(fs, profile).1, profile).0 == Fail(409, "Game already installed")
  {
  }

  /** `abc`, `abc.xml` and `abc.XML` install and remove the same file. */
  lemma SuffixOptional(fs: Fs, id: string)
    requires id != "" && !IsXmlName(id)
    ensures Install(fs, Some(id)) == Install(fs, Some(id + ".xml")) == Install(fs, Some(id + ".XML"))
    ensures Remove(fs, Some(id)) == Remove(fs, Some(id + ".xml")) == Remove(fs, Some(id + ".XML"))
  {
    StripXmlOf(id);
    var g := id + ".XML";
    assert g[..|g| - 4] == id;
    assert Lower(g)[|g| - 4..] == Lower(".XML") == ".xml";
  }

  // ---------------------------------------------------------------------
  // Launch
  // ---------------------------------------------------------------------

  /** `path.isAbsolute(p)` on Windows: a leading separator, or a drive
      letter, a colon and a separator. */
  predicate IsAbsolute(p: string) {
    (|p| > 0 && IsSeparator(p[0]))
    || (|p| > 2 && IsAsciiLetter(p[0]) && p[1] == ':' && IsSeparator(p[2]))
  }

  /** `s.replace(/^\/+/, '')` */
  function DropLeadingSlashes(s: string): (r: string)
    ensures IsSuffix(r, s) && (|r| == 0 || r[0] != '/')
    decreases |s|
  {
    if |s| > 0 && s[0] == '/' then DropLeadingSlashes(s[1..]) else s
  }

  /** Where the launched profile is looked up: the path as given, a file
      in UserProfiles, or a path relative to the root. */
  datatype ProfileTarget = AsGiven(path: string) | InUserProfiles(name: string) | UnderRoot(rel: string)

  /** The profile path `/__launch` passes to the emulator. */
  function LaunchTarget(param: string): (r: ProfileTarget)
    ensures IsAbsolute(param) <==> r == AsGiven(param)
    ensures r.InUserProfiles? ==> '/' !in r.name && '\\' !in r.name
    ensures r.UnderRoot? ==> '/' in r.rel && '\\' !in r.rel
  {
    if IsAbsolute(param) then AsGiven(param)
    else
      var cleaned := Slashes(DropLeadingSlashes(param));
      if '/' !in cleaned then InUserProfiles(cleaned) else UnderRoot(cleaned)
  }

  /** Leading slashes make a path absolute on Windows, so the strip that
      follows the absolute-path test never removes anything. */
  lemma LeadingSlashesNeverStripped(param: string)
    requires !IsAbsolute(param)
    ensures DropLeadingSlashes(param) == param
  {
  }

  /** A relative path is kept with its backslashes turned into slashes. */
  lemma RelativeTarget(param: string)
    requires !IsAbsolute(param)
    ensures '/' in param || '\\' in param ==> LaunchTarget(param) == UnderRoot(Slashes(param))
    ensures '/' !in param && '\\' !in param ==> LaunchTarget(param) == InUserProfiles(param)
  {
    var s := Slashes(param);
    if '/' in param || '\\' in param {
      var k :| 0 <= k < |param| && (param[k] == '/' || param[k] == '\\');
      assert s[k] == '/';
    } else {
      assert s == param;
    }
  }

  /** The profile file the browser sends for a game is looked up in
      UserProfiles. */
  lemma GameProfileLaunch(id: string)
    requires ValidGameId(id)
    ensures LaunchTarget(XmlFile(id)) == InUserProfiles(XmlFile(id))
  {
    ValidIdStaysInFolder(id);
    var f := XmlFile(id);
    assert f[1] != ':' by {
      if |id| == 1 { assert f[1] == '.'; } else { assert f[1] == id[1]; }
    }
    RelativeTarget(f);
  }

  /** `GET /__launch?profile=…`: 400 without a profile; otherwise the
      emulator is started on the resolved profile, and a spawn that throws
      gives 500. */
  function Launch(profile: Option<string>, spawnThrows: bool): (r: (Reply, Option<ProfileTarget>))
    ensures !Given(profile) ==> r == (Fail(400, MissingProfile), None)
    ensures Given(profile) ==> r.1 == Some(LaunchTarget(profile.value))
    ensures r.0.Success? <==> Given(profile) && !spawnThrows
  {
    if !Given(profile) then (Fail(400, MissingProfile), None)
    else if spawnThrows then (Fail(500, SystemError), Some(LaunchTarget(profile.value)))
    else (Success(NoPayload), Some(LaunchTarget(profile.value)))
  }

  // ---------------------------------------------------------------------
  // Game profiles
  // ---------------------------------------------------------------------

  predicate ValidIdParam(id: Option<string>) {
    id.Some? && ValidGameId(id.value)
  }

  /** `GET /__getGameProfile?id=…`: the installed UserProfile when there
      is one, else the GameProfile, else 404. */
  function GetGameProfile(fs: Fs, id: Option<string>): (r: Reply)
    ensures !ValidIdParam(id) <==> r == Fail(400, InvalidGameId)
    ensures ValidIdParam(id) ==>
      var u := (UserProfiles, XmlFile(id.value));
      var g := (GameProfiles, XmlFile(id.value));
      (u in fs.files ==> r == Success(Content(fs.files[u])))
      && (u !in fs.files && g in fs.files ==> r == Success(Content(fs.files[g])))
      && (r.Fail? <==> u !in fs.files && g !in fs.files)
  {
    if !ValidIdParam(id) then Fail(400, InvalidGameId)
    else
      var u := (UserProfiles, XmlFile(id.value));
      var g := (GameProfiles, XmlFile(id.value));
      if u in fs.files then Success(Content(fs.files[u]))
      else if g in fs.files then Success(Content(fs.files[g]))
      else Fail(404, "Game profile not found")
  }

  /** A request body read as JSON: text that does not parse, or an
      object whose `xmlContent` is absent or a string. */
  datatype SettingsBody = Unparsable | Parsed(xmlContent: Option<string>)

  /** `POST /__updateGameSettings?id=…`: only an installed game's
      UserProfile is rewritten; a body without `xmlContent` is 400. */
  function UpdateGameSettings(fs: Fs, id: Option<string>, body: SettingsBody): (r: (Reply, Fs))
    ensures !ValidIdParam(id) ==> r.0 == Fail(400, InvalidGameId)
    ensures ValidIdParam(id) && (UserProfiles, XmlFile(id.value)) !in fs.files ==> r.0 == Fail(404, "Game not installed")
    ensures r.0.Success? <==> ValidIdParam(id) && (UserProfiles, XmlFile(id.value)) in fs.files
                               && body.Parsed? && Given(body.xmlContent)
    ensures r.0.Success? ==> r.1 == fs.(files := fs.files[(UserProfiles, XmlFile(id.value)) := body.xmlContent.value])
    ensures r.0.Fail? ==> r.1 == fs
  {
    if !ValidIdParam(id) then (Fail(400, InvalidGameId), fs)
    else
      var u := (UserProfiles, XmlFile(id.value));
      if u !in fs.files then (Fail(404, "Game not installed"), fs)
      else if body.Unparsable? then (Fail(500, SystemError), fs)
      else if !Given(body.xmlContent) then (Fail(400, "Missing xmlContent in request body"), fs)
      else (Success(NoPayload), fs.(files := fs.files[u := body.xmlContent.value]))
  }

  /** An update is what the next profile read returns. */
  lemma UpdateThenGet(fs: Fs, id: Option<string>, body: SettingsBody)
    requires UpdateGameSettings(fs, id, body).0.Success?
    ensures GetGameProfile(UpdateGameSettings(fs, id, body).1, id) == Success(Content(body.xmlContent.value))
  {
  }

  // ---------------------------------------------------------------------
  // Storage files
  // ---------------------------------------------------------------------

  /** What a storage file that does not exist reads as. */
  function StorageDefault(file: string): (r: string)
    ensures r == "{}" <==> file == "customProfiles.json" || file == "preferences.json"
    ensures r == "{}" || r == "[]"
  {
    if file == "customProfiles.json" || file == "preferences.json" then "{}" else "[]"
  }

  const Sep := '\\'
  const AppName := "ParrotOrganizer"

  /** `<appFolder>\storage\<file>` where the application folder is
      `<parent>\<appFolder>`. */
  function StoragePath(parent: string, appFolder: string, file: string): string {
    parent + [Sep] + appFolder + [Sep] + "storage" + [Sep] + file
  }

  /** The folder `/__storage/read` checks against:
      `<root>\ParrotOrganizer\storage`, whatever the application folder
      is called. */
  function CheckedStorageDir(parent: string): string {
    parent + [Sep] + AppName + [Sep] + "storage"
  }

  /** The containment test of `/__storage/read` as written. */
  predicate ReadContained(parent: string, appFolder: string, file: string) {
    IsPrefix(CheckedStorageDir(parent), StoragePath(parent, appFolder, file))
  }

  lemma {:induction false} PrefixAfterCommon(c: string, a: string, b: string)
    ensures IsPrefix(c + a, c + b) <==> IsPrefix(a, b)
  {
    if |a| <= |b| {
      assert (c + b)[..|c + a|] == c + b[..|a|];
      if (c + b)[..|c + a|] == c + a {
        assert b[..|a|] == (c + b)[..|c + a|][|c|..];
      }
    }
  }

  /** The read check passes exactly when the application folder is named
      `ParrotOrganizer`; a folder such as `ParrotOrganizer-1.2` is always
      refused. */
  lemma ReadContainedIffNamed(parent: string, appFolder: string, file: string)
    requires Sep !in appFolder
    ensures ReadContained(parent, appFolder, file) <==> appFolder == AppName
  {
    var c := parent + [Sep];
    var a := AppName + [Sep] + "storage";
    var b := appFolder + [Sep] + "storage" + [Sep] + file;
    assert CheckedStorageDir(parent) == c + a;
    assert StoragePath(parent, appFolder, file) == c + b;
    PrefixAfterCommon(c, a, b);
    assert a[15] == Sep;
    if appFolder == AppName {
      assert b[..|a|] == a;
    }
    if IsPrefix(a, b) {
      var n := |appFolder|;
      if n < |a| {
        assert b[n] == Sep && a[n] == b[n];
        assert forall i :: 0 <= i < 15 ==> a[i] != Sep;
        assert n == 15;
        assert appFolder == b[..15] == a[..15] == AppName;
      }
    }
  }

  /** `GET /__storage/read?file=…` as written: the file's text, or the
      default for a missing file, behind the containment test above. */
  function StorageReadAsWritten(fs: Fs, parent: string, appFolder: string, file: Option<string>): (r: Reply)
    ensures file.None? || !ValidStorageFile(file.value) <==> r == Fail(400, InvalidFile)
    ensures file.Some? && ValidStorageFile(file.value) ==>
      (r == Fail(403, "Access denied") <==> !ReadContained(parent, appFolder, file.value))
  {
    if file.None? || !ValidStorageFile(file.value) then Fail(400, InvalidFile)
    else if !ReadContained(parent, appFolder, file.value) then Fail(403, "Access denied")
    else ReadStored(fs, file.value)
  }

  function ReadStored(fs: Fs, file: string): (r: Reply)
    ensures r.Success? && r.payload.Content?
  {
    if (Storage, file) in fs.files then Success(Content(fs.files[(Storage, file)]))
    else Success(Content(StorageDefault(file)))
  }

  /** `GET /__storage/read?file=…` with the containment test made against
      the application's own storage folder, as `/__storage/write` does:
      a valid file name always passes. */
  function StorageRead(fs: Fs, file: Option<string>): (r: Reply)
    ensures file.None? || !ValidStorageFile(file.value) <==> r == Fail(400, InvalidFile)
    ensures file.Some? && ValidStorageFile(file.value) ==>
      r == Success(Content(if (Storage, file.value) in fs.files then fs.files[(Storage, file.value)]
                           else StorageDefault(file.value)))
  {
    if file.None? || !ValidStorageFile(file.value) then Fail(400, InvalidFile)
    else ReadStored(fs, file.value)
  }

  /** With the application folder named `ParrotOrganizer` the two reads
      agree. */
  lemma StorageReadsAgree(fs: Fs, parent: string, file: Option<string>)
    ensures StorageReadAsWritten(fs, parent, AppName, file) == StorageRead(fs, file)
  {
    if file.Some? && ValidStorageFile(file.value) {
      ReadContainedIffNamed(parent, AppName, file.value);
    }
  }

  /** From a folder named `ParrotOrganizer-1.2` the written read refuses
      the preferences file that the corrected read serves. */
  lemma RenamedFolderRefused(fs: Fs, parent: string)
    ensures StorageReadAsWritten(fs, parent, "ParrotOrganizer-1.2", Some("preferences.json")) == Fail(403, "Access denied")
    ensures StorageRead(fs, Some("preferences.json")).Success?
  {
    StorageFileOf("preferences");
    assert "preferences" + ".json" == "preferences.json";
    ReadContainedIffNamed(parent, "ParrotOrganizer-1.2", "preferences.json");
  }

  /** `POST /__storage/write?file=…`: the storage folder is created if
      needed and the body, once it parses as JSON, is stored. */
  function StorageWrite(fs: Fs, file: Option<string>, body: Option<string>): (r: (Reply, Fs))
    ensures file.None? || !ValidStorageFile(file.value) ==> r == (Fail(400, InvalidFile), fs)
    ensures r.0.Success? <==> file.Some? && ValidStorageFile(file.value) && body.Some?
    ensures r.0.Success? ==> Storage in r.1.folders && (Storage, file.value) in r.1.files
                             && r.1.files[(Storage, file.value)] == body.value
    ensures forall k :: k in fs.files && (r.0.Fail? || k != (Storage, file.value)) ==> k in r.1.files && r.1.files[k] == fs.files[k]
  {
    if file.None? || !ValidStorageFile(file.value) then (Fail(400, InvalidFile), fs)
    else
      var fs1 := fs.(folders := fs.folders + {Storage});
      if body.None? then (Fail(500, SystemError), fs1)
      else (Success(NoPayload), fs1.(files := fs1.files[(Storage, file.value) := body.value]))
  }

  /** A stored file reads back as written. */
  lemma WriteThenRead(fs: Fs, file: Option<string>, body: Option<string>)
    requires StorageWrite(fs, file, body).0.Success?
    ensures StorageRead(StorageWrite(fs, file, body).1, file) == Success(Content(body.value))
  {
  }

  // ---------------------------------------------------------------------
  // Custom profiles
  // ---------------------------------------------------------------------

  function ReadIn(fs: Fs, d: Folder, id: Option<string>): (r: Reply)
    ensures !ValidIdParam(id) <==> r == Fail(400, InvalidGameId)
    ensures ValidIdParam(id) ==>
      (r == Success(NotFound) <==> (d, XmlFile(id.value)) !in fs.files)
      && ((d, XmlFile(id.value)) in fs.files ==> r == Success(Content(fs.files[(d, XmlFile(id.value))])))
  {
    if !ValidIdParam(id) then Fail(400, InvalidGameId)
    else if (d, XmlFile(id.value)) !in fs.files then Success(NotFound)
    else Success(Content(fs.files[(d, XmlFile(id.value))]))
  }

  /** `GET /__customProfile/read?id=…`: the user-tier file, or
      `exists: false`. */
  function CustomRead(fs: Fs, id: Option<string>): Reply {
    ReadIn(fs, UserCustom, id)
  }

  /** `GET /__creatorProfile/read?id=…`: the creator-tier file, or
      `exists: false`. */
  function CreatorRead(fs: Fs, id: Option<string>): Reply {
    ReadIn(fs, CreatorCustom, id)
  }

  /** `POST /__customProfile/write?id=…`: creates the user-tier folder if
      needed and stores the body. */
  function CustomWrite(fs: Fs, id: Option<string>, body: string): (r: (Reply, Fs))
    ensures !ValidIdParam(id) <==> r.0 == Fail(400, InvalidGameId)
    ensures !ValidIdParam(id) ==> r.1 == fs
    ensures ValidIdParam(id) ==>
      && r.0.Success? && UserCustom in r.1.folders
      && CustomRead(r.1, id) == Success(Content(body))
      && forall k :: k in fs.files && k != (UserCustom, XmlFile(id.value)) ==> k in r.1.files && r.1.files[k] == fs.files[k]
  {
    if !ValidIdParam(id) then (Fail(400, InvalidGameId), fs)
    else (Success(NoPayload), Fs(fs.folders + {UserCustom}, fs.files[(UserCustom, XmlFile(id.value)) := body]))
  }

  /** `POST /__customProfile/delete?id=…`: the user-tier file is deleted
      if present; the reply is ok either way. */
  function CustomDelete(fs: Fs, id: Option<string>): (r: (Reply, Fs))
    ensures !ValidIdParam(id) <==> r.0 == Fail(400, InvalidGameId)
    ensures ValidIdParam(id) ==> r.0 == Success(NoPayload) && CustomRead(r.1, id) == Success(NotFound)
    ensures r.1.folders == fs.folders
    ensures forall k :: k in fs.files && k.0 != UserCustom ==> k in r.1.files && r.1.files[k] == fs.files[k]
  {
    if !ValidIdParam(id) then (Fail(400, InvalidGameId), fs)
    else (Success(NoPayload), fs.(files := fs.files - {(UserCustom, XmlFile(id.value))}))
  }

  /** The `.xml` files of a folder. */
  function XmlIn(fs: Fs, d: Folder): set<string> {
    set k | k in fs.files && k.0 == d && IsXmlName(k.1) :: k.1
  }

  /** The files outside the `.xml` files of one folder. */
  function WithoutXml(files: map<(Folder, string), string>, d: Folder): map<(Folder, string), string> {
    map k | k in files && !(k.0 == d && IsXmlName(k.1)) :: files[k]
  }

  /** `POST /__deleteCustomProfiles`: every `.xml` file of the user-tier
      folder is deleted and counted; nothing else changes. */
  function DeleteCustomProfiles(fs: Fs): (r: (Reply, Fs))
    requires Valid(fs)
    ensures r.0 == Success(Deleted(|XmlIn(fs, UserCustom)|))
    ensures XmlIn(r.1, UserCustom) == {}
    ensures r.1.folders == fs.folders
    ensures forall k :: k in fs.files && !(k.0 == UserCustom && IsXmlName(k.1)) ==> k in r.1.files && r.1.files[k] == fs.files[k]
    ensures forall k :: k in r.1.files ==> k in fs.files
  {
    if UserCustom !in fs.folders then
      assert XmlIn(fs, UserCustom) == {};
      (Success(Deleted(0)), fs)
    else (Success(Deleted(|XmlIn(fs, UserCustom)|)), fs.(files := WithoutXml(fs.files, UserCustom)))
  }

  /** Resetting user edits never touches the creator tier. */
  lemma ResetKeepsCreatorTier(fs: Fs)
    requires Valid(fs)
    ensures SameFolder(fs, DeleteCustomProfiles(fs).1, CreatorCustom)
  {
  }

  /** The creator tier after a push: each user-tier `.xml` file copied
      over the file of the same name. */
  function PushedFiles(fs: Fs, names: set<string>): map<(Folder, string), string>
    requires forall n :: n in names ==> (UserCustom, n) in fs.files
  {
    map k | k in WithoutXml(fs.files, UserCustom).Keys + set n | n in names :: (CreatorCustom, n)
      :: if k.0 == CreatorCustom && k.1 in names then fs.files[(UserCustom, k.1)] else fs.files[k]
  }

  /** `POST /__pushCustomProfilesToData`: the creator folder is created;
      every user-tier `.xml` file is copied into it, overwriting, and then
      deleted, so both counts are the number of such files. */
  function PushCustomProfiles(fs: Fs): (r: (Reply, Fs))
    requires Valid(fs)
    ensures r.0 == Success(Pushed(|XmlIn(fs, UserCustom)|, |XmlIn(fs, UserCustom)|))
    ensures r.1.folders == fs.folders + {CreatorCustom}
    ensures XmlIn(r.1, UserCustom) == {}
    ensures forall n :: n in XmlIn(fs, UserCustom) ==>
      (CreatorCustom, n) in r.1.files && r.1.files[(CreatorCustom, n)] == fs.files[(UserCustom, n)]
    ensures forall k :: k in fs.files && !(k.0 == UserCustom && IsXmlName(k.1)) && !(k.0 == CreatorCustom && k.1 in XmlIn(fs, UserCustom))
              ==> k in r.1.files && r.1.files[k] == fs.files[k]
  {
    var fs1 := fs.(folders := fs.folders + {CreatorCustom});
    if UserCustom !in fs.folders then
      assert XmlIn(fs, UserCustom) == {};
      (Success(Pushed(0, 0)), fs1)
    else
      var names := XmlIn(fs, UserCustom);
      var files := PushedFiles(fs, names);
      assert forall n :: n in names ==> (UserCustom, n) in fs.files;
      (Success(Pushed(|names|, |names|)), fs1.(files := files))
  }

  /** After a push the user tier reads as empty and the creator tier
      reads what the user tier held. */
  lemma PushMovesProfile(fs: Fs, id: string)
    requires Valid(fs) && ValidGameId(id) && (UserCustom, XmlFile(id)) in fs.files
    ensures CustomRead(PushCustomProfiles(fs).1, Some(id)) == Success(NotFound)
    ensures CreatorRead(PushCustomProfiles(fs).1, Some(id)) == Success(Content(fs.files[(UserCustom, XmlFile(id))]))
  {
    var f := XmlFile(id);
    StripXmlOf(id);
    assert f in XmlIn(fs, UserCustom);
  }

  /** `GET /__userProfiles`: the names of the `.xml` files of UserProfiles
      (any letter case) without the suffix, in listing order; an absent
      folder lists nothing. */
  function ListUserProfiles(present: bool, entries: seq<string>): (r: seq<string>)
    ensures !present ==> r == []
    ensures present ==> forall n :: n in r <==> exists e :: e in entries && IsXmlName(e) && n == StripXml(e)
    ensures |r| <= |entries|
    decreases |entries|
  {
    if !present || |entries| == 0 then []
    else
      var rest := ListUserProfiles(present, entries[1..]);
      assert forall e :: e in entries[1..] ==> e in entries;
      assert forall e :: e in entries ==> e == entries[0] || e in entries[1..];
      if IsXmlName(entries[0]) then [StripXml(entries[0])] + rest else rest
  }

  /** Every installed game is listed under its id. */
  lemma InstalledListed(entries: seq<string>, id: string)
    requires XmlFile(id) in entries
    ensures id in ListUserProfiles(true, entries)
  {
    StripXmlOf(id);
    var f := XmlFile(id);
    assert f[|f| - 4..] == ".xml";
    assert Lower(f)[|f| - 4..] == Lower(".xml");
    LowerXml();
  }

  // ---------------------------------------------------------------------
  // The in-memory log
  // ---------------------------------------------------------------------

  const LogCap := 500

  /** The latest 500 entries of a sequence. */
  function Latest<T>(s: seq<T>): (r: seq<T>)
    ensures |r| <= LogCap
  {
    if |s| > LogCap then s[|s| - LogCap..] else s
  }

  /** `serverLogger.log`: append, then drop the oldest entry once more
      than 500 are kept. */
  function Log<T>(logs: seq<T>, e: T): (r: seq<T>)
    ensures |logs| <= LogCap ==> r == Latest(logs + [e])
    ensures |r| > 0 && r[|r| - 1] == e
    ensures |logs| < LogCap ==> r == logs + [e]
  {
    var next := logs + [e];
    if |next| > LogCap then next[1..] else next
  }

  function LogAll<T>(logs: seq<T>, es: seq<T>): seq<T>
    decreases |es|
  {
    if |es| == 0 then logs else LogAll(Log(logs, es[0]), es[1..])
  }

  lemma LatestAppend<T>(s: seq<T>, t: seq<T>)
    ensures Latest(Latest(s) + t) == Latest(s + t)
  {
    if |s| > LogCap {
      var k := |s| - LogCap;
      assert s + t == s[..k] + (s[k..] + t);
      assert (s + t)[|s + t| - LogCap..] == (s[k..] + t)[|s[k..] + t| - LogCap..];
    }
  }

  /** One step of `LogAll`: the first entry is logged on its own. */
  lemma LogAllStep<T>(logs: seq<T>, e: T, t: seq<T>)
    ensures LogAll(logs, [e] + t) == LogAll(Log(logs, e), t)
  {
    var es := [e] + t;
    assert es[0] == e && es[1..] == t;
  }

  lemma SplitFirst<T>(logs: seq<T>, es: seq<T>)
    requires |es| > 0
    ensures es == [es[0]] + es[1..]
    ensures logs + es == (logs + [es[0]]) + es[1..]
  {
  }

  /** However many entries are logged, the log holds exactly the latest
      500 of them. */
  lemma {:induction false} LogAllLatest<T>(logs: seq<T>, es: seq<T>)
    requires |logs| <= LogCap
    ensures LogAll(logs, es) == Latest(logs + es)
    decreases |es|
  {
    if |es| == 0 {
      assert logs + es == logs;
    } else {
      var e, t := es[0], es[1..];
      SplitFirst(logs, es);
      LogAllStep(logs, e, t);
      var next := Log(logs, e);
      assert next == Latest(logs + [e]);
      LogAllLatest(next, t);
      LatestAppend(logs + [e], t);
    }
  }

  // ---------------------------------------------------------------------
  // Routing
  // ---------------------------------------------------------------------

  /** The handler a request reaches: one of the API endpoints, or the
      static file branch. */
  datatype Endpoint =
    | GetServerLogs | WriteDebugLog | OpenLogFolder | ClearDebugLog
    | CheckExe | GetServerInfo | LaunchProfile | InstallProfile | RemoveProfile
    | ShutDown | OpenEmulator | GetLaunchStatus | ListProfiles
    | ReadStorage | WriteStorage | ReadCustom | WriteCustom | DeleteCustom
    | ReadCreator | PushCustom | ResetCustom | GetProfile | UpdateSettings
    | BrowseFolder | StaticFile

  /** The path an API endpoint answers on. */
  function PathOf(e: Endpoint): string {
    match e
    case GetServerLogs => "/__serverLogs"
    case WriteDebugLog => "/__writeDebugLog"
    case OpenLogFolder => "/__openLogFolder"
    case ClearDebugLog => "/__clearDebugLog"
    case CheckExe => "/__checkTeknoParrotExe"
    case GetServerInfo => "/__serverInfo"
    case LaunchProfile => "/__launch"
    case InstallProfile => "/__install"
    case RemoveProfile => "/__remove"
    case ShutDown => "/__shutdown"
    case OpenEmulator => "/__openTeknoParrot"
    case GetLaunchStatus => "/__launchStatus"
    case ListProfiles => "/__userProfiles"
    case ReadStorage => "/__storage/read"
    case WriteStorage => "/__storage/write"
    case ReadCustom => "/__customProfile/read"
    case WriteCustom => "/__customProfile/write"
    case DeleteCustom => "/__customProfile/delete"
    case ReadCreator => "/__creatorProfile/read"
    case PushCustom => "/__pushCustomProfilesToData"
    case ResetCustom => "/__deleteCustomProfiles"
    case GetProfile => "/__getGameProfile"
    case UpdateSettings => "/__updateGameSettings"
    case BrowseFolder => "/__browseFolder"
    case StaticFile => "/"
  }

  /** The endpoints that answer POST requests only. */
  predicate PostOnly(e: Endpoint) {
    || e.WriteDebugLog? || e.OpenLogFolder? || e.ClearDebugLog?
    || e.WriteStorage? || e.WriteCustom? || e.DeleteCustom?
    || e.PushCustom? || e.ResetCustom? || e.UpdateSettings? || e.BrowseFolder?
  }

  /** Whether `e` answers a request for `path` made with or without POST. */
  predicate Answers(e: Endpoint, path: string, post: bool) {
    e != StaticFile && PathOf(e) == path && (post || !PostOnly(e))
  }

  /** The endpoint whose path is `path`, if any. */
  function ByPath(path: string): (r: Endpoint)
    ensures r != StaticFile ==> PathOf(r) == path
  {
    if path == "/__serverLogs" then GetServerLogs
    else if path == "/__writeDebugLog" then WriteDebugLog
    else if path == "/__openLogFolder" then OpenLogFolder
    else if path == "/__clearDebugLog" then ClearDebugLog
    else if path == "/__checkTeknoParrotExe" then CheckExe
    else if path == "/__serverInfo" then GetServerInfo
    else if path == "/__launch" then LaunchProfile
    else if path == "/__install" then InstallProfile
    else if path == "/__remove" then RemoveProfile
    else if path == "/__shutdown" then ShutDown
    else if path == "/__openTeknoParrot" then OpenEmulator
    else if path == "/__launchStatus" then GetLaunchStatus
    else if path == "/__userProfiles" then ListProfiles
    else if path == "/__storage/read" then ReadStorage
    else if path == "/__storage/write" then WriteStorage
    else if path == "/__customProfile/read" then ReadCustom
    else if path == "/__customProfile/write" then WriteCustom
    else if path == "/__customProfile/delete" then DeleteCustom
    else if path == "/__creatorProfile/read" then ReadCreator
    else if path == "/__pushCustomProfilesToData" then PushCustom
    else if path == "/__deleteCustomProfiles" then ResetCustom
    else if path == "/__getGameProfile" then GetProfile
    else if path == "/__updateGameSettings" then UpdateSettings
    else if path == "/__browseFolder" then BrowseFolder
    else StaticFile
  }

  /** The endpoint the main server dispatches a request to: the API
      endpoint whose path matches (POST endpoints only for POST requests),
      otherwise the static file branch.  The paths are distinct, so a
      POST endpoint asked for without POST matches nothing further down
      the chain of tests. */
  function Route(path: string, post: bool): (r: Endpoint)
    ensures r != StaticFile ==> Answers(r, path, post)
  {
    var e := ByPath(path);
    if e != StaticFile && (post || !PostOnly(e)) then e else StaticFile
  }

  // No two endpoints share a path.  Each group below is checked against
  // every test of `ByPath` that comes before it; the groups keep each
  // proof small.

  lemma ByPath1(e: Endpoint)
    requires e.GetServerLogs? || e.WriteDebugLog? || e.OpenLogFolder?
    ensures ByPath(PathOf(e)) == e
  {
  }

  lemma ByPath2(e: Endpoint)
    requires e.ClearDebugLog? || e.CheckExe? || e.GetServerInfo?
    ensures ByPath(PathOf(e)) == e
  {
  }

  lemma ByPath3(e: Endpoint)
    requires e.LaunchProfile? || e.InstallProfile? || e.RemoveProfile?
    ensures ByPath(PathOf(e)) == e
  {
  }

  lemma ByPath4(e: Endpoint)
    requires e.ShutDown? || e.OpenEmulator? || e.GetLaunchStatus?
    ensures ByPath(PathOf(e)) == e
  {
  }

  lemma ByPath5(e: Endpoint)
    requires e.ListProfiles? || e.ReadStorage?
    ensures ByPath(PathOf(e)) == e
  {
  }

  lemma ByPath6(e: Endpoint)
    requires e.WriteStorage? || e.ReadCustom?
    ensures ByPath(PathOf(e)) == e
  {
  }

  lemma ByPath7(e: Endpoint)
    requires e.WriteCustom? || e.DeleteCustom?
    ensures ByPath(PathOf(e)) == e
  {
  }

  lemma ByPath8(e: Endpoint)
    requires e.ReadCreator? || e.PushCustom?
    ensures ByPath(PathOf(e)) == e
  {
  }

  lemma ByPath9(e: Endpoint)
    requires e.ResetCustom? || e.GetProfile?
    ensures ByPath(PathOf(e)) == e
  {
  }

  lemma ByPath10(e: Endpoint)
    requires e.UpdateSettings? || e.BrowseFolder?
    ensures ByPath(PathOf(e)) == e
  {
  }

  /** Every endpoint is reached by its own path: no two endpoints share
      one, so the order of the tests does not matter. */
  lemma RouteOf(e: Endpoint, post: bool)
    requires Answers(e, PathOf(e), post)
    ensures Route(PathOf(e), post) == e
  {
    if e.GetServerLogs? || e.WriteDebugLog? || e.OpenLogFolder? {
      ByPath1(e);
    } else if e.ClearDebugLog? || e.CheckExe? || e.GetServerInfo? {
      ByPath2(e);
    } else if e.LaunchProfile? || e.InstallProfile? || e.RemoveProfile? {
      ByPath3(e);
    } else if e.ShutDown? || e.OpenEmulator? || e.GetLaunchStatus? {
      ByPath4(e);
    } else if e.ListProfiles? || e.ReadStorage? {
      ByPath5(e);
    } else if e.WriteStorage? || e.ReadCustom? {
      ByPath6(e);
    } else if e.WriteCustom? || e.DeleteCustom? {
      ByPath7(e);
    } else if e.ReadCreator? || e.PushCustom? {
      ByPath8(e);
    } else if e.ResetCustom? || e.GetProfile? {
      ByPath9(e);
    } else {
      ByPath10(e);
    }
  }

  /** The static branch serves exactly the requests no endpoint
      answers. */
  lemma RouteStatic(path: string, post: bool)
    ensures Route(path, post) == StaticFile <==> forall e: Endpoint :: !Answers(e, path, post)
  {
    forall e: Endpoint | Answers(e, path, post)
      ensures Route(path, post) == e
    {
      RouteOf(e, post);
    }
  }

  /** A GET on a POST endpoint is not refused: it falls through to the
      static branch, which looks for a file of that name. */
  lemma GetOnPostEndpoint(e: Endpoint)
    requires e != StaticFile && PostOnly(e)
    ensures Route(PathOf(e), false) == StaticFile
  {
  }
}

=== FILE: settings_edit.dfy ===
/** The game-settings editor: the `ConfigValues` fields of a user profile
    and its game path, read into records, grouped by category for the
    form, and written back from the form or from the game's defaults.  A
    profile is the game path, the executable name and the list of its
    `FieldInformation` elements. */
module SettingsEdit {
  import opened Wrappers
  import opened Text
  import opened Seqs

  /** One `FieldInformation` element: each child may be missing. */
  datatype FieldElem = FieldElem(
    category: Option<string>,
    name: Option<string>,
    value: Option<string>,
    fieldType: Option<string>,
    options: seq<string>)

  datatype SettingsDoc = SettingsDoc(gamePath: Option<string>, executableName: Option<string>, fields: seq<FieldElem>)

  /** A field as the form sees it. */
  datatype ConfigValue = ConfigValue(index: nat, category: string, name: string, value: string, fieldType: string, options: seq<string>)

  /** `element?.textContent || fallback` */
  function OrDefault(o: Option<string>, fallback: string): (r: string)
    ensures o.Some? && o.value != "" ==> r == o.value
    ensures o.None? || o.value == "" ==> r == fallback
  {
    if o.Some? && o.value != "" then o.value else fallback
  }

  function Read(f: FieldElem, i: nat): ConfigValue {
    ConfigValue(i, OrDefault(f.category, "General"), OrDefault(f.name, ""), OrDefault(f.value, ""),
                OrDefault(f.fieldType, "Text"), f.options)
  }

  /** `getConfigValues(doc)`: one record per field, numbered by position,
      with category `General`, value `` and type `Text` when missing. */
  function GetConfigValues(doc: SettingsDoc): (r: seq<ConfigValue>)
    ensures |r| == |doc.fields|
    ensures forall i :: 0 <= i < |r| ==> r[i].index == i && r[i].options == doc.fields[i].options
    ensures forall i :: 0 <= i < |r| ==> (doc.fields[i].category.None? ==> r[i].category == "General")
    ensures forall i :: 0 <= i < |r| ==> (doc.fields[i].value.None? ==> r[i].value == "")
    ensures forall i :: 0 <= i < |r| ==> (doc.fields[i].value.Some? ==> r[i].value == doc.fields[i].value.value)
    ensures forall i :: 0 <= i < |r| ==> (doc.fields[i].fieldType.None? ==> r[i].fieldType == "Text")
  {
    seq(|doc.fields|, i requires 0 <= i < |doc.fields| => Read(doc.fields[i], i))
  }

  /** `getElementText(doc, tag)` */
  function ElementText(o: Option<string>): string {
    o.GetOr("")
  }

  /** `setElementText(doc, tag, value)`: only an existing element is
      changed. */
  function SetElementText(o: Option<string>, v: string): (r: Option<string>)
    ensures o.None? ==> r.None?
    ensures o.Some? ==> r == Some(v)
  {
    if o.Some? then Some(v) else None
  }

  /** `updateConfigValue(doc, index, value)`: only the `FieldValue` of the
      index-th field changes; an index out of range or a field without a
      `FieldValue` changes nothing. */
  function UpdateConfigValue(doc: SettingsDoc, index: int, v: string): (r: SettingsDoc)
    ensures r.gamePath == doc.gamePath && r.executableName == doc.executableName
    ensures |r.fields| == |doc.fields|
    ensures forall j :: 0 <= j < |doc.fields| && j != index ==> r.fields[j] == doc.fields[j]
    ensures !(0 <= index < |doc.fields|) || doc.fields[index].value.None? ==> r == doc
    ensures 0 <= index < |doc.fields| && doc.fields[index].value.Some? ==>
      r.fields[index] == doc.fields[index].(value := Some(v))
  {
    if 0 <= index < |doc.fields| && doc.fields[index].value.Some? then
      doc.(fields := doc.fields[index := doc.fields[index].(value := Some(v))])
    else doc
  }

  /** Reading a field back after updating it gives the new value. */
  lemma UpdateThenRead(doc: SettingsDoc, index: nat, v: string)
    requires index < |doc.fields| && doc.fields[index].value.Some?
    ensures GetConfigValues(UpdateConfigValue(doc, index, v))[index].value == v
  {
  }

  // ---------------------------------------------------------------------
  // The game-path paste handler

  predicate Quoted(t: string) {
    |t| > 0 && ((t[0] == '"' && t[|t| - 1] == '"') || (t[0] == '\'' && t[|t| - 1] == '\''))
  }

  /** A pasted path is trimmed and loses one pair of surrounding double
      or single quotes; a lone quote becomes empty. */
  function StripQuotes(pasted: string): (r: string)
    ensures !Quoted(Trim(pasted)) ==> r == Trim(pasted)
    ensures Trim(pasted) == "\"" || Trim(pasted) == "'" ==> r == ""
  {
    var t := Trim(pasted);
    if Quoted(t) then (if |t| >= 2 then t[1..|t| - 1] else "") else t
  }

  /** A path copied as `"<path>"` (or with single quotes) pastes as the
      path. */
  lemma StripQuotedPath(path: string, q: char)
    requires q == '"' || q == '\''
    ensures StripQuotes([q] + path + [q]) == path
  {
    var s := [q] + path + [q];
    TrimUnpadded(s);
  }

  // ---------------------------------------------------------------------
  // The form

  /** `executableName.replace(/;/g, ' OR ')` */
  function FormatExecutable(s: string): (r: string)
    ensures ';' !in r
    decreases |s|
  {
    if |s| == 0 then ""
    else (if s[0] == ';' then " OR " else [s[0]]) + FormatExecutable(s[1..])
  }

  /** Replacing every `;` by ` OR ` is splitting on `;` and joining with
      ` OR `. */
  lemma {:induction false} FormatIsSplitJoin(s: string)
    ensures FormatExecutable(s) == Join(Split(s, ';'), " OR ")
    decreases |s|
  {
    if |s| > 0 {
      FormatIsSplitJoin(s[1..]);
      var rest := Split(s[1..], ';');
      if s[0] != ';' {
        if |rest| > 1 {
          assert Join(rest, " OR ") == rest[0] + " OR " + Join(rest[1..], " OR ");
          assert Join([[s[0]] + rest[0]] + rest[1..], " OR ")
            == ([s[0]] + rest[0]) + " OR " + Join(rest[1..], " OR ");
        }
      }
    }
  }

  /** The fields the form shows: every one but the `Input API` setting,
      which the controls editor owns. */
  predicate Shown(cv: ConfigValue) {
    cv.name != "Input API"
  }

  /** Strictly ascending, as `Object.keys(categories).sort()` returns the
      distinct category names. */
  predicate Sorted(s: seq<string>) {
    forall i, j :: 0 <= i < j < |s| ==> Less(s[i], s[j])
  }

  function InsertSorted(s: seq<string>, c: string): (r: seq<string>)
    requires Sorted(s)
    ensures Sorted(r)
    ensures forall x :: x in r <==> x in s || x == c
    decreases |s|
  {
    if |s| == 0 then [c]
    else if s[0] == c then s
    else if Less(c, s[0]) then
      forall j | 0 <= j < |s| ensures Less(c, s[j]) {
        if j > 0 {
          LessTransitive(c, s[0], s[j]);
        }
      }
      [c] + s
    else
      LessTotal(c, s[0]);
      var rest := InsertSorted(s[1..], c);
      assert forall x :: x in s[1..] ==> x in s;
      assert forall j :: 0 < j < |s| ==> Less(s[0], s[j]);
      assert forall x :: x in rest ==> Less(s[0], x);
      var r := [s[0]] + rest;
      forall a, b | 0 <= a < b < |r| ensures Less(r[a], r[b]) {
        assert r[b] == rest[b - 1] && r[b] in rest;
        if a > 0 {
          assert r[a] == rest[a - 1];
        }
      }
      r
  }

  /** The section titles, in the order they are rendered. */
  function Categories(cvs: seq<ConfigValue>): (r: seq<string>)
    ensures Sorted(r)
    ensures forall c :: c in r <==> exists i :: 0 <= i < |cvs| && Shown(cvs[i]) && cvs[i].category == c
    decreases |cvs|
  {
    if |cvs| == 0 then []
    else
      var rest := Categories(cvs[..|cvs| - 1]);
      var last := cvs[|cvs| - 1];
      assert forall i :: 0 <= i < |cvs| - 1 ==> cvs[..|cvs| - 1][i] == cvs[i];
      if Shown(last) then InsertSorted(rest, last.category) else rest
  }

  /** The fields of one section, in document order. */
  function SectionFields(cvs: seq<ConfigValue>, c: string): (r: seq<ConfigValue>)
    ensures SubseqOf(r, cvs)
    ensures forall x :: x in r <==> x in cvs && Shown(x) && x.category == c
    decreases |cvs|
  {
    if |cvs| == 0 then []
    else
      var rest := SectionFields(cvs[1..], c);
      assert cvs == [cvs[0]] + cvs[1..];
      SubseqSkipHead(rest, cvs);
      if Shown(cvs[0]) && cvs[0].category == c then [cvs[0]] + rest else rest
  }

  /** Every shown field sits in the section of its category, and that
      section is rendered; the `Input API` field is in none. */
  lemma SectionsCover(cvs: seq<ConfigValue>, i: nat)
    requires i < |cvs|
    ensures Shown(cvs[i]) ==> cvs[i].category in Categories(cvs) && cvs[i] in SectionFields(cvs, cvs[i].category)
    ensures forall c :: cvs[i] !in SectionFields(cvs, c) || Shown(cvs[i])
  {
  }

  // ---------------------------------------------------------------------
  // Saving

  /** A form input: a toggle, or an input whose value is its text (a
      text box, a drop-down or a slider). */
  datatype FormInput = Checkbox(checked: bool) | Entry(value: string)

  /** What `saveSettings` writes for an input. */
  function InputValue(input: FormInput): (r: string)
    ensures input.Checkbox? ==> (r == "1" <==> input.checked) && (r == "0" <==> !input.checked)
  {
    match input
    case Checkbox(c) => if c then "1" else "0"
    case Entry(v) => v
  }

  /** Updates applied in turn. */
  function ApplyUpdates(doc: SettingsDoc, ups: seq<(int, string)>): (r: SettingsDoc)
    ensures r.gamePath == doc.gamePath && |r.fields| == |doc.fields|
    decreases |ups|
  {
    if |ups| == 0 then doc else ApplyUpdates(UpdateConfigValue(doc, ups[0].0, ups[0].1), ups[1..])
  }

  /** The last value a list of updates gives an index. */
  function LastFor(ups: seq<(int, string)>, j: int): Option<string>
    decreases |ups|
  {
    if |ups| == 0 then None
    else match LastFor(ups[1..], j)
      case Some(v) => Some(v)
      case None => if ups[0].0 == j then Some(ups[0].1) else None
  }

  /** After a run of updates each field with a value holds the last value
      written to its index; the others are unchanged. */
  lemma {:induction false} ApplyUpdatesField(doc: SettingsDoc, ups: seq<(int, string)>, j: nat)
    requires j < |doc.fields|
    ensures ApplyUpdates(doc, ups).fields[j].value ==
      if doc.fields[j].value.Some? && LastFor(ups, j).Some? then LastFor(ups, j) else doc.fields[j].value
    decreases |ups|
  {
    if |ups| > 0 {
      ApplyUpdatesField(UpdateConfigValue(doc, ups[0].0, ups[0].1), ups[1..], j);
    }
  }

  function Updates(inputs: seq<(int, FormInput)>): (r: seq<(int, string)>)
    ensures |r| == |inputs|
    ensures forall k :: 0 <= k < |r| ==> r[k] == (inputs[k].0, InputValue(inputs[k].1))
  {
    seq(|inputs|, k requires 0 <= k < |inputs| => (inputs[k].0, InputValue(inputs[k].1)))
  }

  /** `saveSettings()`: the game path from its box (only if the profile has
      one), then each input's value into the field its index names. */
  function SaveSettings(doc: SettingsDoc, gamePath: string, inputs: seq<(int, FormInput)>): (r: SettingsDoc)
    ensures r.gamePath == SetElementText(doc.gamePath, gamePath)
    ensures |r.fields| == |doc.fields|
  {
    ApplyUpdates(doc.(gamePath := SetElementText(doc.gamePath, gamePath)), Updates(inputs))
  }

  /** The input the form renders for a field: a toggle that is on exactly
      for `1`, a drop-down showing the value when it is one of the options
      (else the first option), or a box holding the value. */
  function ShownInput(cv: ConfigValue): FormInput {
    if cv.fieldType == "Bool" then Checkbox(cv.value == "1")
    else if cv.fieldType == "Dropdown" then
      Entry(if cv.value in cv.options then cv.value else if |cv.options| > 0 then cv.options[0] else "")
    else Entry(cv.value)
  }

  /** The inputs of the form, from the k-th field on. */
  function FormFrom(cvs: seq<ConfigValue>, k: nat): seq<(int, FormInput)>
    decreases |cvs| - k
  {
    if k >= |cvs| then []
    else if Shown(cvs[k]) then [(k as int, ShownInput(cvs[k]))] + FormFrom(cvs, k + 1)
    else FormFrom(cvs, k + 1)
  }

  lemma {:induction false} FormFromLast(cvs: seq<ConfigValue>, k: nat, j: nat)
    ensures LastFor(Updates(FormFrom(cvs, k)), j) ==
      if k <= j < |cvs| && Shown(cvs[j]) then Some(InputValue(ShownInput(cvs[j]))) else None
    decreases |cvs| - k
  {
    if k < |cvs| {
      FormFromLast(cvs, k + 1, j);
      var ups := Updates(FormFrom(cvs, k));
      if Shown(cvs[k]) {
        assert Updates(FormFrom(cvs, k))[1..] == Updates(FormFrom(cvs, k + 1));
      }
    }
  }

  /** Saving the form as rendered keeps every text value, every drop-down
      value that is one of its options and every toggle stored as `0` or
      `1`; other toggle values become `0`. */
  lemma SaveUnchangedForm(doc: SettingsDoc, j: nat)
    requires j < |doc.fields| && doc.fields[j].value.Some?
    requires Shown(GetConfigValues(doc)[j])
    ensures var cv := GetConfigValues(doc)[j];
      var saved := SaveSettings(doc, ElementText(doc.gamePath), FormFrom(GetConfigValues(doc), 0)).fields[j].value;
      (cv.fieldType == "Bool" ==> saved == Some(if cv.value == "1" then "1" else "0"))
      && (cv.fieldType == "Dropdown" && cv.value in cv.options ==> saved == doc.fields[j].value)
      && (cv.fieldType != "Bool" && cv.fieldType != "Dropdown" ==> saved == doc.fields[j].value)
  {
    var cvs := GetConfigValues(doc);
    var form := FormFrom(cvs, 0);
    var start := doc.(gamePath := SetElementText(doc.gamePath, ElementText(doc.gamePath)));
    FormFromLast(cvs, 0, j);
    ApplyUpdatesField(start, Updates(form), j);
  }

  // ---------------------------------------------------------------------
  // Restoring the defaults

  /** The default values copied by position from index k on. */
  function RestoreFrom(doc: SettingsDoc, vals: seq<string>, k: nat): (r: SettingsDoc)
    ensures r.gamePath == doc.gamePath && |r.fields| == |doc.fields|
    decreases |vals| - k
  {
    if k >= |vals| then doc else RestoreFrom(UpdateConfigValue(doc, k, vals[k]), vals, k + 1)
  }

  lemma {:induction false} RestoreFromField(doc: SettingsDoc, vals: seq<string>, k: nat, j: nat)
    requires j < |doc.fields|
    ensures RestoreFrom(doc, vals, k).fields[j].value ==
      if k <= j < |vals| && doc.fields[j].value.Some? then Some(vals[j]) else doc.fields[j].value
    decreases |vals| - k
  {
    if k < |vals| {
      RestoreFromField(UpdateConfigValue(doc, k, vals[k]), vals, k + 1, j);
    }
  }

  function Values(cvs: seq<ConfigValue>): (r: seq<string>)
    ensures |r| == |cvs| && forall i :: 0 <= i < |r| ==> r[i] == cvs[i].value
  {
    seq(|cvs|, i requires 0 <= i < |cvs| => cvs[i].value)
  }

  /** `restoreDefaults()`: the default game path (when the profile has a
      game path) and each default field value copied into the field at the
      same position; extra default fields are ignored. */
  function RestoreDefaults(current: SettingsDoc, defaults: SettingsDoc): (r: SettingsDoc)
    ensures |r.fields| == |current.fields|
    ensures current.gamePath.Some? ==> r.gamePath == Some(ElementText(defaults.gamePath))
  {
    var withPath := current.(gamePath := SetElementText(current.gamePath, ElementText(defaults.gamePath)));
    RestoreFrom(withPath, Values(GetConfigValues(defaults)), 0)
  }

  /** After a restore, each field with a value that has a counterpart in
      the defaults holds the default's value; the rest are unchanged. */
  lemma RestoreField(current: SettingsDoc, defaults: SettingsDoc, j: nat)
    requires j < |current.fields|
    ensures RestoreDefaults(current, defaults).fields[j].value ==
      if j < |defaults.fields| && current.fields[j].value.Some? then Some(GetConfigValues(defaults)[j].value)
      else current.fields[j].value
  {
    var withPath := current.(gamePath := SetElementText(current.gamePath, ElementText(defaults.gamePath)));
    RestoreFromField(withPath, Values(GetConfigValues(defaults)), 0, j);
  }

  // ---------------------------------------------------------------------
  // The editor state

  datatype Editor = Editor(
    gameId: Option<string>,
    current: Option<SettingsDoc>,
    defaults: Option<SettingsDoc>,
    unsaved: bool,
    original: Option<string>)

  /** The paste handler: the box gets the cleaned path and the form is
      marked changed. */
  function PasteGamePath(e: Editor, pasted: string): (r: (string, Editor))
    ensures r.1 == e.(unsaved := true)
    ensures r.0 == StripQuotes(pasted)
  {
    (StripQuotes(pasted), e.(unsaved := true))
  }

  /** `closeModal()`: all five pieces of state are reset. */
  function CloseModal(e: Editor): (r: Editor)
    ensures r.gameId.None? && r.current.None? && r.defaults.None? && !r.unsaved && r.original.None?
  {
    Editor(None, None, None, false, None)
  }
}

=== FILE: static_files.dfy ===
/** How both servers map a request that matches no endpoint to a file
    under the root: `index.html` is appended to folder paths, the path is
    normalised by the Windows path rules, resolved against the root, and
    refused (403) when the result does not start with the root.  Paths are
    a drive followed by folder names; drive-relative and UNC forms are not
    represented. */
module StaticFiles {
  import opened Wrappers
  import opened Text
  import Seqs

  predicate NoSep(s: string) {
    forall i :: 0 <= i < |s| ==> !IsSeparator(s[i])
  }

  // ---------------------------------------------------------------------
  // The URL path
  // ---------------------------------------------------------------------

  /** The last segment of a path: what follows its last separator. */
  function BaseName(p: string): (r: string)
    ensures NoSep(r) && |r| <= |p|
    decreases |p|
  {
    if |p| == 0 || IsSeparator(p[|p| - 1]) then ""
    else BaseName(p[..|p| - 1]) + [p[|p| - 1]]
  }

  lemma {:induction false} BaseNameAppend(a: string, b: string)
    requires NoSep(b)
    ensures BaseName(a + b) == BaseName(a) + b
    decreases |b|
  {
    if |b| == 0 {
      assert a + b == a;
    } else {
      var b' := b[..|b| - 1];
      assert (a + b)[..|a + b| - 1] == a + b';
      BaseNameAppend(a, b');
      assert b == b' + [b[|b| - 1]];
    }
  }

  /** The path without its trailing separators. */
  function TrimSeps(p: string): (r: string)
    ensures IsPrefix(r, p)
    ensures |r| == 0 || !IsSeparator(r[|r| - 1])
    ensures forall k :: |r| <= k < |p| ==> IsSeparator(p[k])
    decreases |p|
  {
    if |p| > 0 && IsSeparator(p[|p| - 1]) then
      var r := TrimSeps(p[..|p| - 1]);
      assert forall k :: |r| <= k < |p| - 1 ==> p[..|p| - 1][k] == p[k];
      r
    else p
  }

  /** Whether the path starts with a drive `X:`, which the Windows
      `extname` steps over. */
  predicate HasDrive(p: string) {
    |p| >= 2 && IsAsciiLetter(p[0]) && p[1] == ':'
  }

  /** The segment the Windows `path.extname` looks at: the last segment
      once trailing separators are dropped, never reaching into a leading
      drive. */
  function ExtSegment(p: string): (r: string)
    ensures NoSep(r)
  {
    var body := if HasDrive(p) then p[2..] else p;
    BaseName(TrimSeps(body))
  }

  /** `path.extname(p) !== ''`: the segment it looks at has a dot after
      its first character and is not `..`. */
  predicate HasExtension(p: string) {
    var b := ExtSegment(p);
    b != ".." && exists k :: 0 < k < |b| && b[k] == '.'
  }

  /** After a separator, a segment that ends in no separator is the one
      `extname` looks at. */
  lemma ExtSegmentAfterSep(a: string, b: string)
    requires |a| > 0 && IsSeparator(a[|a| - 1]) && |b| > 0 && NoSep(b)
    ensures ExtSegment(a + b) == b
  {
    var p := a + b;
    assert p[|p| - 1] == b[|b| - 1];
    assert TrimSeps(p) == p;
    if HasDrive(p) {
      assert |a| >= 2 && p[0] == a[0] && p[1] == a[1];
      assert |a| >= 3;
      var a' := a[2..];
      assert p[2..] == a' + b;
      assert TrimSeps(a' + b) == a' + b by {
        assert (a' + b)[|a' + b| - 1] == b[|b| - 1];
      }
      assert BaseName(a') == "";
      BaseNameAppend(a', b);
    } else {
      assert BaseName(a) == "";
      BaseNameAppend(a, b);
    }
  }

  /** A non-empty name without separators is the segment `extname`
      looks at, past a leading drive. */
  lemma ExtSegmentPlain(b: string)
    requires |b| > 0 && NoSep(b)
    ensures ExtSegment(b) == if HasDrive(b) then b[2..] else b
  {
    var body := if HasDrive(b) then b[2..] else b;
    assert NoSep(body);
    if |body| > 0 {
      assert TrimSeps(body) == body;
    }
    BaseNameAppend("", body);
    assert "" + body == body;
  }

  /** `extname("/a.txt\\")` is `.txt`: a trailing backslash is skipped, so
      the decoded path keeps its extension. */
  lemma TrailingBackslashKept()
    ensures HasExtension("/a.txt\\")
    ensures UrlPath("/a.txt\\", "/a.txt\\") == "/a.txt\\"
  {
    var p := "/a.txt\\";
    assert !HasDrive(p);
    assert p[..|p| - 1] == "/a.txt";
    assert TrimSeps(p) == "/a.txt";
    ExtSegmentAfterSep("/", "a.txt");
    assert "/" + "a.txt" == "/a.txt";
    assert "a.txt"[1] == '.';
  }

  predicate EndsWithSlash(p: string) {
    |p| > 0 && p[|p| - 1] == '/'
  }

  const Index := "index.html"

  lemma IndexFacts()
    ensures NoSep(Index) && Index != ".." && Index[5] == '.'
  {
  }

  /** A path ending in `<sep>index.html` has an extension. */
  lemma IndexHasExtension(a: string)
    requires |a| > 0 && IsSeparator(a[|a| - 1])
    ensures HasExtension(a + Index)
  {
    IndexFacts();
    ExtSegmentAfterSep(a, Index);
  }

  /** The path a static request is served from: `/` is the index page, a
      trailing `/` gets `index.html`, and a path whose last segment has no
      extension gets `/index.html`. */
  function UrlPath(url: string, decoded: string): (r: string)
    ensures HasExtension(r)
    ensures url == "/" ==> r == "/" + Index
    ensures url != "/" && EndsWithSlash(decoded) ==> r == decoded + Index
    ensures url != "/" && !EndsWithSlash(decoded) && HasExtension(decoded) ==> r == decoded
    ensures url != "/" ==> IsPrefix(decoded, r)
  {
    if url == "/" then
      IndexHasExtension("/");
      "/" + Index
    else
      var p := if EndsWithSlash(decoded) then decoded + Index else decoded;
      if EndsWithSlash(decoded) then
        IndexHasExtension(decoded);
        assert p[..|decoded|] == decoded;
        p
      else if HasExtension(p) then p
      else
        IndexHasExtension(p + "/");
        assert p + "/" + Index == p + ("/" + Index);
        var r := p + ("/" + Index);
        assert r[..|p|] == p;
        r
  }

  // ---------------------------------------------------------------------
  // Normalisation and resolution
  // ---------------------------------------------------------------------

  /** The segments that name something: empty and `.` segments drop
      out. */
  function Named(parts: seq<string>): (r: seq<string>)
    ensures forall k :: 0 <= k < |r| ==> r[k] != "" && r[k] != "."
    decreases |parts|
  {
    if |parts| == 0 then []
    else if parts[0] == "" || parts[0] == "." then Named(parts[1..])
    else [parts[0]] + Named(parts[1..])
  }

  lemma {:induction false} NamedKeeps(parts: seq<string>)
    requires forall k :: 0 <= k < |parts| ==> parts[k] != "" && parts[k] != "."
    ensures Named(parts) == parts
    decreases |parts|
  {
    if |parts| > 0 {
      NamedKeeps(parts[1..]);
      assert parts == [parts[0]] + parts[1..];
    }
  }

  function Pieces(p: string): seq<string> {
    Named(Split(Slashes(p), '/'))
  }

  predicate Rooted(p: string) {
    |p| > 0 && IsSeparator(p[0])
  }

  predicate NoParent(s: seq<string>) {
    forall k :: 0 <= k < |s| ==> s[k] != ".."
  }

  /** One segment of `path.normalize`: `..` cancels the segment before
      it; at the top of a rooted path it is dropped, at the top of a
      relative path kept. */
  function Step(stack: seq<string>, seg: string, rooted: bool): seq<string> {
    if seg != ".." then stack + [seg]
    else if |stack| > 0 && stack[|stack| - 1] != ".." then stack[..|stack| - 1]
    else if rooted then stack
    else stack + [".."]
  }

  function Fold(stack: seq<string>, segs: seq<string>, rooted: bool): (r: seq<string>)
    decreases |segs|
  {
    if |segs| == 0 then stack else Fold(Step(stack, segs[0], rooted), segs[1..], rooted)
  }

  lemma {:induction false} FoldPlain(stack: seq<string>, segs: seq<string>, rooted: bool)
    requires NoParent(segs)
    ensures Fold(stack, segs, rooted) == stack + segs
    decreases |segs|
  {
    if |segs| > 0 {
      FoldPlain(stack + [segs[0]], segs[1..], rooted);
      assert stack + segs == stack + [segs[0]] + segs[1..];
    }
  }

  lemma {:induction false} FoldRootedNoParent(stack: seq<string>, segs: seq<string>)
    requires NoParent(stack)
    ensures NoParent(Fold(stack, segs, true))
    decreases |segs|
  {
    if |segs| > 0 {
      var next := Step(stack, segs[0], true);
      assert NoParent(next);
      FoldRootedNoParent(next, segs[1..]);
    }
  }

  /** The segments of `'.' + safePath`: a rooted path becomes `./…`; a
      relative one has the dot glued to its first segment (an empty one
      becomes `..`). */
  function Relative(stack: seq<string>, rooted: bool): seq<string> {
    if rooted then stack
    else if |stack| == 0 then [".."]
    else ["." + stack[0]] + stack[1..]
  }

  /** `path.resolve(root, rel)` on folder names below the drive: `..`
      climbs, but never above the drive. */
  function Resolve(dirs: seq<string>, segs: seq<string>): seq<string>
    decreases |segs|
  {
    if |segs| == 0 then dirs
    else if segs[0] == ".." then Resolve(if |dirs| > 0 then dirs[..|dirs| - 1] else dirs, segs[1..])
    else Resolve(dirs + [segs[0]], segs[1..])
  }

  lemma {:induction false} ResolvePlain(dirs: seq<string>, segs: seq<string>)
    requires NoParent(segs)
    ensures Resolve(dirs, segs) == dirs + segs
    decreases |segs|
  {
    if |segs| > 0 {
      ResolvePlain(dirs + [segs[0]], segs[1..]);
      assert dirs + segs == dirs + [segs[0]] + segs[1..];
    }
  }

  /** The folder names of the file a URL path resolves to. */
  function Resolved(root: seq<string>, urlPath: string): seq<string> {
    var rooted := Rooted(urlPath);
    Resolve(root, Relative(Fold([], Pieces(urlPath), rooted), rooted))
  }

  /** The text of a path: the drive, then `\` and each folder name. */
  function Path(drive: string, dirs: seq<string>): string {
    drive + Tail(dirs)
  }

  function Tail(dirs: seq<string>): string
    decreases |dirs|
  {
    if |dirs| == 0 then "" else "\\" + dirs[0] + Tail(dirs[1..])
  }

  lemma {:induction false} TailAppend(a: seq<string>, b: seq<string>)
    ensures Tail(a + b) == Tail(a) + Tail(b)
    decreases |a|
  {
    if |a| == 0 {
      assert a + b == b;
    } else {
      TailAppend(a[1..], b);
      assert (a + b)[1..] == a[1..] + b;
    }
  }

  // ---------------------------------------------------------------------
  // The guard
  // ---------------------------------------------------------------------

  /** A static request: the file at a path, refused, or a decoding error
      (500). */
  datatype Answer = Served(dirs: seq<string>) | Forbidden | ServerError

  /** The static branch as written: `decoded` is `decodeURIComponent(url)`
      (none when it throws), and the guard is `absPath.startsWith(root)` on
      the path text. */
  function StaticAsWritten(drive: string, root: seq<string>, url: string, decoded: Option<string>): (r: Answer)
    ensures decoded.None? <==> r == ServerError
    ensures r.Served? ==> r.dirs == Resolved(root, UrlPath(url, decoded.value))
                           && IsPrefix(Path(drive, root), Path(drive, r.dirs))
  {
    match decoded
    case None => ServerError
    case Some(d) =>
      var abs := Resolved(root, UrlPath(url, d));
      if IsPrefix(Path(drive, root), Path(drive, abs)) then Served(abs) else Forbidden
  }

  /** The static branch with the guard comparing folder names, so that a
      sibling folder whose name merely starts with the root's is
      refused. */
  function Static(root: seq<string>, url: string, decoded: Option<string>): (r: Answer)
    ensures decoded.None? <==> r == ServerError
    ensures r.Served? ==> root <= r.dirs && r.dirs == Resolved(root, UrlPath(url, decoded.value))
    ensures decoded.Some? && root <= Resolved(root, UrlPath(url, decoded.value)) ==> r.Served?
  {
    match decoded
    case None => ServerError
    case Some(d) =>
      var abs := Resolved(root, UrlPath(url, d));
      if root <= abs then Served(abs) else Forbidden
  }

  /** A path that starts with `/` (every path a browser sends) stays
      below the root: normalisation has already consumed its `..`. */
  lemma RootedStaysInside(root: seq<string>, url: string, d: string)
    requires Rooted(UrlPath(url, d))
    ensures Static(root, url, Some(d)).Served?
  {
    var p := UrlPath(url, d);
    FoldRootedNoParent([], Pieces(p));
    ResolvePlain(root, Fold([], Pieces(p), true));
  }

  /** Whatever the corrected guard serves, the written one serves too. */
  lemma CorrectedServesLess(drive: string, root: seq<string>, url: string, decoded: Option<string>)
    requires Static(root, url, decoded).Served?
    ensures StaticAsWritten(drive, root, url, decoded) == Static(root, url, decoded)
  {
    var abs := Resolved(root, UrlPath(url, decoded.value));
    assert root <= abs;
    PathExtends(drive, root, abs);
  }

  /** A path below the root has the root's path text in front. */
  lemma PathExtends(drive: string, root: seq<string>, abs: seq<string>)
    requires root <= abs
    ensures IsPrefix(Path(drive, root), Path(drive, abs))
  {
    assert abs == root + abs[|root|..];
    TailAppend(root, abs[|root|..]);
    assert Path(drive, abs) == Path(drive, root) + Tail(abs[|root|..]);
  }

  /** A regular segment: named, and neither `.` nor `..`. */
  predicate Regular(s: string) {
    s != "" && s != "." && s != ".." && NoSep(s)
  }

  lemma SlashesPlain(s: string)
    requires NoSep(s)
    ensures Slashes(s) == s
  {
  }

  lemma SlashesAppend(a: string, b: string)
    ensures Slashes(a + b) == Slashes(a) + Slashes(b)
  {
  }

  lemma EscapeSlashes(sib: string, file: string)
    requires Regular(sib) && Regular(file)
    ensures Slashes("../../../" + sib + "/" + file) == "../../../" + sib + "/" + file
  {
    SlashesPlain(sib);
    SlashesPlain(file);
    assert Slashes("../../../") == "../../../";
    assert Slashes("/") == "/";
    SlashesAppend("../../../" + sib + "/", file);
    SlashesAppend("../../../" + sib, "/");
    SlashesAppend("../../../", sib);
  }

  lemma EscapeSplit(sib: string, file: string)
    requires Regular(sib) && Regular(file)
    ensures Split("../../../" + sib + "/" + file, '/') == ["..", "..", "..", sib, file]
  {
    var p := "../../../" + sib + "/" + file;
    assert p == ".." + ['/'] + (".." + ['/'] + (".." + ['/'] + (sib + ['/'] + file)));
    forall i | 0 <= i < |sib| ensures sib[i] != '/' { assert !IsSeparator(sib[i]); }
    forall i | 0 <= i < |file| ensures file[i] != '/' { assert !IsSeparator(file[i]); }
    SplitConcat("..", ".." + ['/'] + (".." + ['/'] + (sib + ['/'] + file)), '/');
    SplitConcat("..", ".." + ['/'] + (sib + ['/'] + file), '/');
    SplitConcat("..", sib + ['/'] + file, '/');
    SplitConcat(sib, file, '/');
    SplitNoSep(file, '/');
  }

  lemma EscapeFolded(sib: string, file: string)
    requires Regular(sib) && Regular(file)
    ensures Fold([], ["..", "..", "..", sib, file], false) == ["..", "..", "..", sib, file]
  {
    var segs := ["..", "..", "..", sib, file];
    assert segs[1..] == ["..", "..", sib, file];
    assert segs[1..][1..] == ["..", sib, file];
    assert segs[1..][1..][1..] == [sib, file];
    assert Step([], "..", false) == [".."];
    assert Step([".."], "..", false) == ["..", ".."];
    assert Step(["..", ".."], "..", false) == ["..", "..", ".."];
    assert Fold([], segs, false) == Fold([".."], segs[1..], false);
    assert Fold([".."], segs[1..], false) == Fold(["..", ".."], segs[1..][1..], false);
    assert Fold(["..", ".."], segs[1..][1..], false) == Fold(["..", "..", ".."], [sib, file], false);
    FoldPlain(["..", "..", ".."], [sib, file], false);
    assert ["..", "..", ".."] + [sib, file] == segs;
  }

  lemma EscapeRelative(sib: string, file: string)
    ensures Relative(["..", "..", "..", sib, file], false) == ["...", "..", "..", sib, file]
  {
    var stack := ["..", "..", "..", sib, file];
    assert "." + ".." == "...";
    assert stack[1..] == ["..", "..", sib, file];
  }

  lemma EscapeClimbs(parent: seq<string>, last: string, sib: string, file: string)
    requires Regular(sib) && Regular(file)
    ensures Resolve(parent + [last], ["...", "..", "..", sib, file]) == parent + [sib, file]
  {
    var root := parent + [last];
    var rel := ["...", "..", "..", sib, file];
    assert rel[1..] == ["..", "..", sib, file];
    assert rel[1..][1..] == ["..", sib, file];
    assert rel[1..][1..][1..] == [sib, file];
    assert (root + ["..."])[..|root|] == root;
    assert root[..|parent|] == parent;
    assert Resolve(root, rel) == Resolve(root + ["..."], rel[1..]);
    assert Resolve(root + ["..."], rel[1..]) == Resolve(root, rel[1..][1..]);
    assert Resolve(root, rel[1..][1..]) == Resolve(parent, [sib, file]);
    ResolvePlain(parent, [sib, file]);
  }

  /** The text of the sibling's path starts with the root's. */
  lemma SiblingPathText(drive: string, parent: seq<string>, last: string, extra: string, file: string)
    ensures IsPrefix(Path(drive, parent + [last]), Path(drive, parent + [last + extra, file]))
  {
    TailAppend(parent, [last]);
    TailAppend(parent, [last + extra, file]);
    assert Tail([last]) == "\\" + last;
    assert Tail([last + extra, file]) == "\\" + (last + extra) + Tail([file]);
    assert Path(drive, parent + [last + extra, file])
        == Path(drive, parent + [last]) + (extra + Tail([file]));
  }

  // ---------------------------------------------------------------------
  // The request target in absolute form
  // ---------------------------------------------------------------------

  /** The absolute-form request target `http://h/../../../../../<sib>/<file>`:
      `req.url` is the target as sent, so no browser or URL parser removes
      its `..` segments before the server sees them. */
  function AbsoluteTarget(sib: string, file: string): string {
    "http://h/../../" + ("../../../" + sib + "/" + file)
  }

  lemma AbsoluteSlashes(e: string)
    ensures Slashes("http://h/../../" + e) == "http://h/../../" + Slashes(e)
  {
    assert Slashes("http://h/../../") == "http://h/../../";
    SlashesAppend("http://h/../../", e);
  }

  lemma AbsoluteSplitDots(e: string)
    ensures Split("../" + ("../" + e), '/') == ["..", ".."] + Split(e, '/')
  {
    assert "../" + e == ".." + ['/'] + e;
    assert "../" + ("../" + e) == ".." + ['/'] + ("../" + e);
    SplitConcat("..", e, '/');
    SplitConcat("..", "../" + e, '/');
  }

  lemma SplitHostName(x: string)
    ensures Split("h/" + x, '/') == ["h"] + Split(x, '/')
  {
    assert "h/" + x == "h" + ['/'] + x;
    SplitConcat("h", x, '/');
  }

  lemma SplitEmptySegment(x: string)
    ensures Split("/" + x, '/') == [""] + Split(x, '/')
  {
    assert "/" + x == "" + ['/'] + x;
    SplitConcat("", x, '/');
  }

  lemma SplitScheme(x: string)
    ensures Split("http:/" + x, '/') == ["http:"] + Split(x, '/')
  {
    assert "http:/" + x == "http:" + ['/'] + x;
    SplitConcat("http:", x, '/');
  }

  lemma AbsoluteSplitHost(x: string)
    ensures Split("http:/" + ("/" + ("h/" + x)), '/') == ["http:", "", "h"] + Split(x, '/')
  {
    SplitScheme("/" + ("h/" + x));
    SplitEmptySegment("h/" + x);
    SplitHostName(x);
    assert ["http:"] + ([""] + (["h"] + Split(x, '/'))) == ["http:", "", "h"] + Split(x, '/');
  }

  lemma AbsoluteSplit(e: string)
    ensures Split("http://h/../../" + e, '/') == ["http:", "", "h", "..", ".."] + Split(e, '/')
  {
    assert "http://h/../../" + e == "http:/" + ("/" + ("h/" + ("../" + ("../" + e))));
    AbsoluteSplitHost("../" + ("../" + e));
    AbsoluteSplitDots(e);
    Seqs.ConcatAssoc(["http:", "", "h"], ["..", ".."], Split(e, '/'));
  }

  lemma AbsoluteSplitSlashes(sib: string, file: string)
    requires Regular(sib) && Regular(file)
    ensures Split(Slashes(AbsoluteTarget(sib, file)), '/')
         == ["http:", "", "h", "..", ".."] + ["..", "..", "..", sib, file]
  {
    var e := "../../../" + sib + "/" + file;
    AbsoluteSlashes(e);
    EscapeSlashes(sib, file);
    AbsoluteSplit(e);
    EscapeSplit(sib, file);
  }

  lemma NamedDropsEmpty(x: string, rest: seq<string>)
    requires x != "" && x != "."
    ensures Named([x, ""] + rest) == [x] + Named(rest)
  {
    var parts := [x, ""] + rest;
    assert parts[1..] == [""] + rest && parts[1..][1..] == rest;
  }

  /** The empty segment between `http:` and the host drops out. */
  lemma AbsoluteNamed(sib: string, file: string)
    requires Regular(sib) && Regular(file)
    ensures Named(["http:", "", "h", "..", ".."] + ["..", "..", "..", sib, file])
         == ["http:", "h", "..", "..", "..", "..", "..", sib, file]
  {
    var tail := ["h", "..", "..", "..", "..", "..", sib, file];
    AbsolutePartsShape(sib, file);
    NamedDropsEmpty("http:", tail);
    AbsoluteTailNamed(sib, file);
  }

  lemma AbsolutePartsShape(sib: string, file: string)
    ensures ["http:", "", "h", "..", ".."] + ["..", "..", "..", sib, file]
         == ["http:", ""] + ["h", "..", "..", "..", "..", "..", sib, file]
  {
  }

  lemma AbsoluteTailNamed(sib: string, file: string)
    requires Regular(sib) && Regular(file)
    ensures Named(["h", "..", "..", "..", "..", "..", sib, file]) == ["h", "..", "..", "..", "..", "..", sib, file]
  {
    NamedKeeps(["h", "..", "..", "..", "..", "..", sib, file]);
  }

  /** The pieces of the absolute-form target: the scheme and host name
      become two ordinary segments. */
  lemma AbsolutePieces(sib: string, file: string)
    requires Regular(sib) && Regular(file)
    ensures Pieces(AbsoluteTarget(sib, file)) == ["http:", "h", "..", "..", "..", "..", "..", sib, file]
  {
    AbsoluteSplitSlashes(sib, file);
    AbsoluteNamed(sib, file);
  }

  lemma AbsoluteFolded(sib: string, file: string)
    requires Regular(sib) && Regular(file)
    ensures Fold([], ["http:", "h", "..", "..", "..", "..", "..", sib, file], false) == ["..", "..", "..", sib, file]
  {
    var segs := ["http:", "h", "..", "..", "..", "..", "..", sib, file];
    var rest := ["..", "..", "..", sib, file];
    assert segs[1..] == ["h", "..", "..", "..", "..", "..", sib, file];
    assert segs[1..][1..] == ["..", "..", "..", "..", "..", sib, file];
    assert segs[1..][1..][1..] == ["..", "..", "..", "..", sib, file];
    assert segs[1..][1..][1..][1..] == rest;
    assert Step([], "http:", false) == ["http:"];
    assert Fold([], segs, false) == Fold(["http:"], segs[1..], false);
    assert Step(["http:"], "h", false) == ["http:", "h"];
    assert Fold(["http:"], segs[1..], false) == Fold(["http:", "h"], segs[1..][1..], false);
    assert Step(["http:", "h"], "..", false) == ["http:"];
    assert Fold(["http:", "h"], segs[1..][1..], false) == Fold(["http:"], segs[1..][1..][1..], false);
    assert Step(["http:"], "..", false) == [];
    assert Fold(["http:"], segs[1..][1..][1..], false) == Fold([], rest, false);
    EscapeFolded(sib, file);
  }

  /** The absolute-form target climbs out of the root into a sibling
      folder. */
  lemma AbsoluteResolved(parent: seq<string>, last: string, sib: string, file: string)
    requires Regular(sib) && Regular(file)
    ensures Resolved(parent + [last], AbsoluteTarget(sib, file)) == parent + [sib, file]
  {
    var p := AbsoluteTarget(sib, file);
    AbsolutePieces(sib, file);
    assert p[0] == 'h' && !Rooted(p);
    AbsoluteFolded(sib, file);
    EscapeRelative(sib, file);
    EscapeClimbs(parent, last, sib, file);
  }

  /** A path that ends in `<sep><file>` ends in the file's name and so
      has its extension. */
  lemma FileAfterSeparator(a: string, file: string)
    requires |a| > 0 && IsSeparator(a[|a| - 1]) && Regular(file) && HasExtension(file)
    ensures !EndsWithSlash(a + file) && HasExtension(a + file)
  {
    ExtSegmentAfterSep(a, file);
    ExtSegmentPlain(file);
    if HasDrive(file) {
      var b := file[2..];
      var k :| 0 < k < |b| && b[k] == '.';
      assert file[k + 2] == '.';
    }
    var d := a + file;
    assert d[|d| - 1] == file[|file| - 1];
    assert !IsSeparator(file[|file| - 1]);
  }

  lemma AbsoluteTargetSplit(sib: string, file: string)
    ensures AbsoluteTarget(sib, file) == ("http://h/../../../../../" + sib + "/") + file
    ensures AbsoluteTarget(sib, file)[0] == 'h'
  {
  }

  /** The absolute-form target ends in the file name, which has an
      extension. */
  lemma AbsoluteShape(sib: string, file: string)
    requires Regular(sib) && Regular(file) && HasExtension(file)
    ensures AbsoluteTarget(sib, file) != "/"
    ensures !EndsWithSlash(AbsoluteTarget(sib, file)) && HasExtension(AbsoluteTarget(sib, file))
  {
    var a := "http://h/../../../../../" + sib + "/";
    AbsoluteTargetSplit(sib, file);
    FileAfterSeparator(a, file);
  }

  /** The absolute-form target needs no `index.html`. */
  lemma AbsoluteUrlPath(sib: string, file: string)
    requires Regular(sib) && Regular(file) && HasExtension(file)
    ensures UrlPath(AbsoluteTarget(sib, file), AbsoluteTarget(sib, file)) == AbsoluteTarget(sib, file)
  {
    AbsoluteShape(sib, file);
  }

  /** The written guard lets such a request read a file of a sibling
      folder whose name extends the root's (`D:\TeknoParrot2` next to
      `D:\TeknoParrot`), which the corrected guard refuses. */
  lemma SiblingFolderServed(drive: string, parent: seq<string>, last: string, extra: string, file: string)
    requires Regular(last + extra) && Regular(file) && HasExtension(file) && extra != ""
    ensures StaticAsWritten(drive, parent + [last], AbsoluteTarget(last + extra, file), Some(AbsoluteTarget(last + extra, file)))
         == Served(parent + [last + extra, file])
    ensures Static(parent + [last], AbsoluteTarget(last + extra, file), Some(AbsoluteTarget(last + extra, file))) == Forbidden
  {
    var sib := last + extra;
    AbsoluteUrlPath(sib, file);
    AbsoluteResolved(parent, last, sib, file);
    SiblingPathText(drive, parent, last, extra, file);
    var root := parent + [last];
    var abs := parent + [sib, file];
    assert abs[|parent|] == sib && root[|parent|] == last && |sib| > |last|;
  }

  lemma ExampleSegments()
    ensures Regular("TeknoParrot2") && Regular("a.txt") && HasExtension("a.txt")
  {
    assert NoSep("TeknoParrot2") && NoSep("a.txt");
    BaseNameAppend("", "a.txt");
    assert "" + "a.txt" == "a.txt";
    assert "a.txt"[1] == '.';
  }

  lemma ExampleSibling()
    ensures "TeknoParrot" + "2" == "TeknoParrot2"
  {
  }

  lemma ExampleEscape()
    ensures "../../../" + "TeknoParrot2" + "/" + "a.txt" == "../../../TeknoParrot2/a.txt"
  {
  }

  lemma ExampleTarget()
    ensures AbsoluteTarget("TeknoParrot" + "2", "a.txt") == "http://h/../../../../../TeknoParrot2/a.txt"
  {
    ExampleSibling();
    ExampleEscape();
    assert "http://h/../../" + "../../../TeknoParrot2/a.txt" == "http://h/../../../../../TeknoParrot2/a.txt";
  }

  /** The same, with the root `D:\TeknoParrot` and the request target
      `http://h/../../../../../TeknoParrot2/a.txt`. */
  lemma SiblingFolderExample()
    ensures StaticAsWritten("D:", ["TeknoParrot"], "http://h/../../../../../TeknoParrot2/a.txt",
                            Some("http://h/../../../../../TeknoParrot2/a.txt"))
         == Served(["TeknoParrot2", "a.txt"])
  {
    ExampleSegments();
    ExampleSibling();
    ExampleTarget();
    ExampleLists();
    SiblingFolderServed("D:", [], "TeknoParrot", "2", "a.txt");
  }

  lemma ExampleLists()
    ensures [] + ["TeknoParrot"] == ["TeknoParrot"]
    ensures [] + ["TeknoParrot" + "2", "a.txt"] == ["TeknoParrot2", "a.txt"]
  {
    ExampleSibling();
  }
}

=== FILE: text.dfy ===
/** String helpers with the behaviour of the JavaScript built-ins the
    application relies on: `trim`, `toLowerCase`, `includes`, `split`,
    `join`, `startsWith`/`endsWith` and `parseInt`.  Strings are sequences
    of characters; letter case is ASCII only. */
module Text {
  import opened Wrappers

  /** The characters `String.prototype.trim` and the `\s` class remove:
      ECMAScript's WhiteSpace (tab, vertical tab, form feed, the byte-order
      mark and every Unicode space separator) and LineTerminator. Tab,
      line feed, vertical tab, form feed and carriage return are the run
      U+0009..U+000D. */
  predicate IsSpace(c: char) {
    if c < '\U{0080}' then '\t' <= c <= '\r' || c == ' '
    else c == '\U{00A0}' || c == '\U{1680}' || '\U{2000}' <= c <= '\U{200A}'
         || c == '\U{2028}' || c == '\U{2029}' || c == '\U{202F}' || c == '\U{205F}'
         || c == '\U{3000}' || c == '\U{FEFF}'
  }

  predicate IsBlank(s: string) {
    forall i :: 0 <= i < |s| ==> IsSpace(s[i])
  }

  predicate IsPrefix(p: string, s: string) {
    |p| <= |s| && s[..|p|] == p
  }

  predicate IsSuffix(p: string, s: string) {
    |p| <= |s| && s[|s| - |p|..] == p
  }

  /** `s.includes(sub)`: `sub` occurs somewhere in `s`. */
  predicate Contains(s: string, sub: string)
    decreases |s|
  {
    IsPrefix(sub, s) || (|s| > 0 && Contains(s[1..], sub))
  }

  /** `s.trimStart()` */
  function TrimStart(s: string): (r: string)
    ensures IsSuffix(r, s)
    ensures |r| == 0 || !IsSpace(r[0])
    ensures IsBlank(s[..|s| - |r|])
    decreases |s|
  {
    if |s| > 0 && IsSpace(s[0]) then
      var r := TrimStart(s[1..]);
      BlankFront(s, |s| - |r|);
      r
    else s
  }

  lemma BlankFront(s: string, n: nat)
    requires 0 < n <= |s| && IsSpace(s[0]) && IsBlank(s[1..][..n - 1])
    ensures IsBlank(s[..n])
  {
    forall i | 0 < i < n ensures IsSpace(s[..n][i]) {
      assert s[..n][i] == s[1..][..n - 1][i - 1];
    }
  }

  /** `s.trimEnd()` */
  function TrimEnd(s: string): (r: string)
    ensures IsPrefix(r, s)
    ensures |r| == 0 || !IsSpace(r[|r| - 1])
    ensures IsBlank(s[|r|..])
    decreases |s|
  {
    if |s| > 0 && IsSpace(s[|s| - 1]) then
      var r := TrimEnd(s[..|s| - 1]);
      BlankBack(s, |r|);
      r
    else s
  }

  lemma BlankBack(s: string, n: nat)
    requires n < |s| && IsSpace(s[|s| - 1]) && IsBlank(s[..|s| - 1][n..])
    ensures IsBlank(s[n..])
  {
    forall i | 0 <= i < |s| - 1 - n ensures IsSpace(s[n..][i]) {
      assert s[n..][i] == s[..|s| - 1][n..][i];
    }
  }

  /** `s.trim()`: the middle slice of `s` that neither starts nor ends with
      whitespace, everything cut off being whitespace. */
  function Trim(s: string): (r: string)
    ensures |r| <= |s|
    ensures |r| == 0 || (!IsSpace(r[0]) && !IsSpace(r[|r| - 1]))
    ensures Contains(s, r)
  {
    var t := TrimStart(s);
    var r := TrimEnd(t);
    assert s[|s| - |t|..|s| - |t| + |r|] == r;
    ContainsSlice(s, |s| - |t|, r);
    r
  }

  lemma {:induction false} ContainsSlice(s: string, k: nat, sub: string)
    requires k + |sub| <= |s| && s[k..k + |sub|] == sub
    ensures Contains(s, sub)
    decreases k
  {
    if k > 0 {
      assert s[1..][k - 1..k - 1 + |sub|] == sub;
      ContainsSlice(s[1..], k - 1, sub);
    }
  }

  lemma TrimBlank(s: string)
    ensures Trim(s) == "" <==> IsBlank(s)
  {
    var t := TrimStart(s);
    if Trim(s) == "" {
      assert IsBlank(t[0..]);
      assert s == s[..|s| - |t|] + t;
    }
  }

  lemma TrimIdempotent(s: string)
    ensures Trim(Trim(s)) == Trim(s)
  {
  }

  function LowerChar(c: char): char {
    if 'A' <= c <= 'Z' then (c as int + 32) as char else c
  }

  function UpperChar(c: char): char {
    if 'a' <= c <= 'z' then (c as int - 32) as char else c
  }

  /** `s.toLowerCase()` restricted to ASCII letters. */
  function Lower(s: string): (r: string)
    ensures |r| == |s|
    ensures forall i :: 0 <= i < |s| ==> r[i] == LowerChar(s[i])
  {
    seq(|s|, i requires 0 <= i < |s| => LowerChar(s[i]))
  }

  /** `s.toUpperCase()` restricted to ASCII letters. */
  function Upper(s: string): (r: string)
    ensures |r| == |s|
    ensures forall i :: 0 <= i < |s| ==> r[i] == UpperChar(s[i])
  {
    seq(|s|, i requires 0 <= i < |s| => UpperChar(s[i]))
  }

  lemma LowerIdempotent(s: string)
    ensures Lower(Lower(s)) == Lower(s)
  {
  }

  /** The position of a character's UTF-16 code units in code-unit order.
      Supplementary characters start with a surrogate (0xD800..0xDBFF), so
      they rank between the characters below 0xD800 and those from 0xE000
      on; among themselves they keep code point order. */
  function UnitRank(c: char): int {
    if c as int < 0xD800 then c as int
    else if c as int >= 0x1_0000 then c as int - 0x1_0000 + 0xD800
    else c as int + 0x10_0000
  }

  lemma UnitRankInjective(a: char, b: char)
    requires a != b
    ensures UnitRank(a) != UnitRank(b)
  {
  }

  /** JavaScript's relational `<` on strings: lexicographic by UTF-16 code
      unit. Comparing characters by `UnitRank` is the same order, because a
      character that differs from another differs from it in its first
      code unit or, for two supplementary characters with the same high
      surrogate, in the low surrogate, which follows the code point. */
  predicate Less(a: string, b: string)
    decreases |a|
  {
    if |a| == 0 then |b| > 0
    else if |b| == 0 then false
    else if a[0] != b[0] then UnitRank(a[0]) < UnitRank(b[0])
    else Less(a[1..], b[1..])
  }

  lemma {:induction false} LessIrreflexive(a: string)
    ensures !Less(a, a)
    decreases |a|
  {
    if |a| > 0 {
      LessIrreflexive(a[1..]);
    }
  }

  lemma {:induction false} LessTransitive(a: string, b: string, c: string)
    requires Less(a, b) && Less(b, c)
    ensures Less(a, c)
    decreases |a|
  {
    if |a| > 0 && a[0] == b[0] && b[0] == c[0] {
      LessTransitive(a[1..], b[1..], c[1..]);
    }
  }

  lemma {:induction false} LessTotal(a: string, b: string)
    ensures a == b || Less(a, b) || Less(b, a)
    decreases |a|
  {
    if |a| > 0 && |b| > 0 && a[0] != b[0] {
      UnitRankInjective(a[0], b[0]);
    } else if |a| > 0 && |b| > 0 {
      LessTotal(a[1..], b[1..]);
      if a[1..] == b[1..] {
        assert a == [a[0]] + a[1..] && b == [b[0]] + b[1..];
      }
    }
  }

  /** `s.split(sep)` for a one-character separator: the pieces between the
      separators, always at least one. */
  function Split(s: string, sep: char): (r: seq<string>)
    ensures |r| >= 1
    ensures forall k, i :: 0 <= k < |r| && 0 <= i < |r[k]| ==> r[k][i] != sep
    decreases |s|
  {
    if |s| == 0 then [""]
    else
      var rest := Split(s[1..], sep);
      if s[0] == sep then [""] + rest
      else [[s[0]] + rest[0]] + rest[1..]
  }

  /** `parts.join(sep)` */
  function Join(parts: seq<string>, sep: string): string
    decreases |parts|
  {
    if |parts| == 0 then ""
    else if |parts| == 1 then parts[0]
    else parts[0] + sep + Join(parts[1..], sep)
  }

  lemma {:induction false} JoinSplit(s: string, sep: char)
    ensures Join(Split(s, sep), [sep]) == s
    decreases |s|
  {
    if |s| > 0 {
      var rest := Split(s[1..], sep);
      JoinSplit(s[1..], sep);
      if s[0] == sep {
        assert s == [sep] + s[1..];
      } else {
        if |rest| == 1 {
          assert s == [s[0]] + rest[0];
        } else {
          assert Join(rest, [sep]) == rest[0] + [sep] + Join(rest[1..], [sep]);
          assert s == [s[0]] + s[1..];
        }
      }
    }
  }

  /** A piece without the separator splits into itself. */
  lemma {:induction false} SplitNoSep(a: string, sep: char)
    requires forall i :: 0 <= i < |a| ==> a[i] != sep
    ensures Split(a, sep) == [a]
    decreases |a|
  {
    if |a| > 0 {
      SplitNoSep(a[1..], sep);
      assert a == [a[0]] + a[1..];
    }
  }

  /** Splitting `a + sep + b` cuts off `a` as the first piece. */
  lemma {:induction false} SplitConcat(a: string, b: string, sep: char)
    requires forall i :: 0 <= i < |a| ==> a[i] != sep
    ensures Split(a + [sep] + b, sep) == [a] + Split(b, sep)
    decreases |a|
  {
    var s := a + [sep] + b;
    if |a| == 0 {
      assert s[1..] == b;
    } else {
      SplitConcat(a[1..], b, sep);
      assert s[1..] == a[1..] + [sep] + b;
      assert a == [a[0]] + a[1..];
    }
  }

  /** Joining pieces that do not contain the separator and splitting the
      result again gives the pieces back. */
  lemma {:induction false} SplitJoin(parts: seq<string>, sep: char)
    requires |parts| >= 1
    requires forall k, i :: 0 <= k < |parts| && 0 <= i < |parts[k]| ==> parts[k][i] != sep
    ensures Split(Join(parts, [sep]), sep) == parts
    decreases |parts|
  {
    if |parts| == 1 {
      SplitNoSep(parts[0], sep);
    } else {
      SplitJoin(parts[1..], sep);
      SplitConcat(parts[0], Join(parts[1..], [sep]), sep);
      assert parts == [parts[0]] + parts[1..];
    }
  }

  /** A string that neither starts nor ends with whitespace is its own
      trim. */
  lemma TrimUnpadded(s: string)
    requires |s| == 0 || (!IsSpace(s[0]) && !IsSpace(s[|s| - 1]))
    ensures Trim(s) == s
  {
  }

  predicate IsDigit(c: char) {
    '0' <= c <= '9'
  }

  predicate IsAsciiLetter(c: char) {
    'a' <= c <= 'z' || 'A' <= c <= 'Z'
  }

  predicate IsAlnum(c: char) {
    IsDigit(c) || IsAsciiLetter(c)
  }

  function DigitValue(c: char): nat
    requires IsDigit(c)
  {
    c as int - '0' as int
  }

  /** The longest prefix of decimal digits. */
  function DigitPrefix(s: string): (r: string)
    ensures IsPrefix(r, s)
    ensures forall i :: 0 <= i < |r| ==> IsDigit(r[i])
    ensures |r| == |s| || !IsDigit(s[|r|])
    decreases |s|
  {
    if |s| > 0 && IsDigit(s[0]) then [s[0]] + DigitPrefix(s[1..]) else ""
  }

  /** The value of a string of decimal digits, most significant first. */
  function DecimalValue(ds: string): nat
    requires forall i :: 0 <= i < |ds| ==> IsDigit(ds[i])
    decreases |ds|
  {
    if |ds| == 0 then 0
    else DecimalValue(ds[..|ds| - 1]) * 10 + DigitValue(ds[|ds| - 1])
  }

  function HexValueOf(c: char): int {
    if IsDigit(c) then c as int - '0' as int
    else if 'a' <= c <= 'f' then c as int - 'a' as int + 10
    else if 'A' <= c <= 'F' then c as int - 'A' as int + 10
    else -1
  }

  /** The longest prefix of hexadecimal digits. */
  function HexPrefix(s: string): (r: string)
    ensures IsPrefix(r, s)
    ensures forall i :: 0 <= i < |r| ==> HexValueOf(r[i]) >= 0
    decreases |s|
  {
    if |s| > 0 && HexValueOf(s[0]) >= 0 then [s[0]] + HexPrefix(s[1..]) else ""
  }

  function HexNumber(ds: string): nat
    requires forall i :: 0 <= i < |ds| ==> HexValueOf(ds[i]) >= 0
    decreases |ds|
  {
    if |ds| == 0 then 0
    else HexNumber(ds[..|ds| - 1]) * 16 + HexValueOf(ds[|ds| - 1])
  }

  /** The unsigned part of `parseInt`: a `0x`/`0X` prefix switches to
      hexadecimal, and the longest run of digits is the value; no digits is
      NaN (here `None`). */
  function ParseUnsigned(body: string): (r: Option<nat>)
    ensures (forall i :: 0 <= i < |body| ==> !IsDigit(body[i])) ==> r.None?
  {
    if |body| >= 2 && body[0] == '0' && (body[1] == 'x' || body[1] == 'X') then
      var hs := HexPrefix(body[2..]);
      if |hs| == 0 then None else Some(HexNumber(hs))
    else
      var ds := DigitPrefix(body);
      if |ds| == 0 then None else Some(DecimalValue(ds))
  }

  /** `parseInt(s)` with no radix: leading whitespace is skipped and an
      optional sign is read before the unsigned part. */
  function ParseInt(s: string): (r: Option<int>)
    ensures (forall i :: 0 <= i < |s| ==> !IsDigit(s[i])) ==> r.None?
  {
    var t := TrimStart(s);
    var signed := |t| > 0 && (t[0] == '-' || t[0] == '+');
    var body := if signed then t[1..] else t;
    assert IsSuffix(body, s);
    match ParseUnsigned(body)
    case None => None
    case Some(v) => var n: int := v; Some(if signed && t[0] == '-' then -n else n)
  }

  /** `parseInt(s, 10)`: as `ParseInt`, but a `0x` prefix is not special,
      so `parseInt("0x7", 10)` is 0. */
  function ParseDecimal(s: string): Option<int> {
    SignedDecimal(TrimStart(s))
  }

  /** The sign and digits of a base-10 `parseInt`, after the leading
      whitespace. */
  function SignedDecimal(t: string): Option<int> {
    if |t| > 0 && t[0] == '-' then
      match UnsignedDecimal(t[1..])
      case None => None
      case Some(n) => Some(-n)
    else if |t| > 0 && t[0] == '+' then UnsignedDecimal(t[1..])
    else UnsignedDecimal(t)
  }

  /** The longest run of leading decimal digits, or NaN (`None`). */
  function UnsignedDecimal(body: string): Option<int> {
    var ds := DigitPrefix(body);
    if |ds| == 0 then None else Some(DecimalValue(ds))
  }

  lemma UnsignedDecimalOf(ds: string, rest: string)
    requires |ds| > 0 && forall i :: 0 <= i < |ds| ==> IsDigit(ds[i])
    requires |rest| == 0 || !IsDigit(rest[0])
    ensures UnsignedDecimal(ds + rest) == Some(DecimalValue(ds))
  {
    DigitPrefixOf(ds, rest);
  }

  /** Printing an integer and reading it back in base 10 gives the
      integer, and so does reading it with anything but a digit after
      it. */
  lemma ParseDecimalToString(n: int)
    ensures ParseDecimal(IntToString(n)) == Some(n)
  {
    ParseDecimalLeading(n, "");
    assert IntToString(n) + "" == IntToString(n);
  }

  lemma ParseDecimalLeading(n: int, rest: string)
    requires |rest| == 0 || !IsDigit(rest[0])
    ensures ParseDecimal(IntToString(n) + rest) == Some(n)
  {
    var s := IntToString(n) + rest;
    if n >= 0 {
      NaturalDigits(n);
      assert IsDigit(s[0]);
      ParseDecimalNatural(n, rest);
    } else {
      assert s[0] == IntToString(n)[0] == '-';
      ParseDecimalNegative(n, rest);
    }
    assert !IsSpace(s[0]);
    assert TrimStart(s) == s;
  }

  lemma ParseDecimalNatural(n: nat, rest: string)
    requires |rest| == 0 || !IsDigit(rest[0])
    ensures SignedDecimal(IntToString(n) + rest) == Some(n)
  {
    NaturalDigits(n);
    var ds := IntToString(n);
    UnsignedDecimalOf(ds, rest);
    assert (ds + rest)[0] == ds[0];
  }

  lemma ParseDecimalNegative(n: int, rest: string)
    requires n < 0
    requires |rest| == 0 || !IsDigit(rest[0])
    ensures SignedDecimal(IntToString(n) + rest) == Some(n)
  {
    NaturalDigits(-n);
    var ds := IntToString(-n);
    IntToStringNegative(n);
    UnsignedDecimalOf(ds, rest);
    var s := IntToString(n) + rest;
    assert s == "-" + (ds + rest);
    assert s[1..] == ds + rest;
  }

  lemma IntToStringNegative(n: int)
    requires n < 0
    ensures IntToString(n) == "-" + IntToString(-n)
  {
  }

  lemma DigitPrefixAll(ds: string)
    requires forall i :: 0 <= i < |ds| ==> IsDigit(ds[i])
    ensures DigitPrefix(ds) == ds
  {
    DigitPrefixOf(ds, "");
    assert ds + "" == ds;
  }

  /** `parseInt` reads the leading digits and ignores what follows them:
      `parseInt("1999 (JP)")` is 1999. */
  lemma ParseIntLeadingDigits(ds: string, rest: string)
    requires |ds| > 0 && forall i :: 0 <= i < |ds| ==> IsDigit(ds[i])
    requires |rest| == 0 || !IsDigit(rest[0])
    requires ds != "0" || |rest| == 0 || (rest[0] != 'x' && rest[0] != 'X')
    ensures ParseInt(ds + rest) == Some(DecimalValue(ds))
  {
    var s := ds + rest;
    assert s[0] == ds[0];
    ParseIntOfDigit(s);
    ParseUnsignedDigits(ds, rest);
  }

  /** A text that starts with a digit is read without a sign. */
  lemma ParseIntOfDigit(s: string)
    requires |s| > 0 && IsDigit(s[0])
    ensures ParseInt(s) == ParseUnsigned(s)
  {
    assert !IsSpace(s[0]);
    assert TrimStart(s) == s;
  }

  lemma ParseUnsignedDigits(ds: string, rest: string)
    requires |ds| > 0 && forall i :: 0 <= i < |ds| ==> IsDigit(ds[i])
    requires |rest| == 0 || !IsDigit(rest[0])
    requires ds != "0" || |rest| == 0 || (rest[0] != 'x' && rest[0] != 'X')
    ensures ParseUnsigned(ds + rest) == Some(DecimalValue(ds))
  {
    var s := ds + rest;
    if |s| >= 2 && s[0] == '0' {
      if |ds| >= 2 {
        assert s[1] == ds[1];
      } else {
        assert s[1] == rest[0];
      }
    }
    DigitPrefixOf(ds, rest);
  }

  lemma {:induction false} DigitPrefixOf(ds: string, rest: string)
    requires forall i :: 0 <= i < |ds| ==> IsDigit(ds[i])
    requires |rest| == 0 || !IsDigit(rest[0])
    ensures DigitPrefix(ds + rest) == ds
    decreases |ds|
  {
    if |ds| > 0 {
      DigitPrefixOf(ds[1..], rest);
      assert (ds + rest)[1..] == ds[1..] + rest;
    }
  }

  /** The decimal rendering of an integer, as template literals print it. */
  function IntToString(n: int): (r: string)
    ensures |r| > 0
    decreases if n < 0 then 1 - n else n
  {
    if n < 0 then "-" + IntToString(-n)
    else if n < 10 then [('0' as int + n) as char]
    else IntToString(n / 10) + [('0' as int + n % 10) as char]
  }

  lemma {:induction false} NaturalDigits(n: nat)
    ensures forall i :: 0 <= i < |IntToString(n)| ==> IsDigit(IntToString(n)[i])
    ensures DecimalValue(IntToString(n)) == n
    decreases n
  {
    if n >= 10 {
      NaturalDigits(n / 10);
      var p := IntToString(n / 10);
      var s := IntToString(n);
      assert s == p + [('0' as int + n % 10) as char];
      assert s[..|s| - 1] == p;
    }
  }

  lemma ParseIntNatural(n: nat)
    ensures ParseInt(IntToString(n)) == Some(n)
  {
    NaturalDigits(n);
    var ds := IntToString(n);
    ParseIntLeadingDigits(ds, "");
    assert ds + "" == ds;
  }

  lemma ParseIntNegative(n: int)
    requires n < 0
    ensures ParseInt(IntToString(n)) == Some(n)
  {
    var ds := IntToString(-n);
    var s := IntToString(n);
    assert s == "-" + ds;
    assert TrimStart(s) == s by {
      assert !IsSpace(s[0]);
    }
    assert s[1..] == ds;
    assert ParseUnsigned(ds) == Some(-n) by {
      NaturalDigits(-n);
      ParseUnsignedDigits(ds, "");
      assert ds + "" == ds;
    }
  }

  /** Printing an integer and reading it back with `parseInt` gives the
      integer. */
  lemma ParseIntToString(n: int)
    ensures ParseInt(IntToString(n)) == Some(n)
  {
    if n >= 0 {
      ParseIntNatural(n);
    } else {
      ParseIntNegative(n);
    }
  }

  /** Both `/` and `\` separate path segments on Windows. */
  predicate IsSeparator(c: char) {
    c == '/' || c == '\\'
  }

  /** `s.replace(/\\/g, '/')` */
  function Slashes(s: string): (r: string)
    ensures |r| == |s| && '\\' !in r
    ensures forall i :: 0 <= i < |s| ==> r[i] == (if s[i] == '\\' then '/' else s[i])
  {
    seq(|s|, i requires 0 <= i < |s| => if s[i] == '\\' then '/' else s[i])
  }
}

=== FILE: ui_rules.dfy ===
/** The decisions the UI manager takes outside the DOM: what a render
    stores, when the clear-filters button shows, how many grid columns
    apply, how the filter options are counted and what a card shows. */
module UiRules {
  import opened Wrappers
  import opened Text
  import opened Seqs
  import opened GameModel
  import opened GameManager
  import opened FilterManager

  // ---------------------------------------------------------------------
  // Rendering
  // ---------------------------------------------------------------------

  /** `render()`: the filtered list becomes the store's view, so the
      statistics count exactly the games shown. */
  function Render(store: GameStore, m: FilterManager.Manager, hidden: set<string>, favorites: set<string>): (r: GameStore)
    ensures r.games == store.games
    ensures GetStats(r).filtered == |ApplyFilters(store.games, m, hidden, favorites)|
    ensures GetStats(r).total == GetStats(store).total && GetStats(r).installed == GetStats(store).installed
  {
    SetFilteredGames(store, ApplyFilters(store.games, m, hidden, favorites))
  }

  /** Every game a render shows is a game of the collection. */
  lemma RenderShowsStoredGames(store: GameStore, m: FilterManager.Manager, hidden: set<string>, favorites: set<string>, g: Game)
    requires g in Render(store, m, hidden, favorites).filteredGames
    ensures g in store.games
  {
    ApplyFiltersMembers(store.games, m, hidden, favorites, g);
    var f := m.filters;
    if !ActiveQuery(f.search) && !f.showHiddenGames {
      WithoutHiddenMembers(store.games, hidden, g);
    }
  }

  /** `render()` with the filter manager the application builds, whose
      preferences slot holds the hidden-games manager: the call to
      `applyFilters()` throws before the view is stored, so a failed render
      leaves the store as it was. */
  function RenderAsWired(store: GameStore, m: FilterManager.Manager, hidden: set<string>): (r: Result<GameStore, string>)
    ensures r.Err? <==> m.filters.favoritesOnly
                        && |RunStages(Base(store.games, m.filters, hidden), m.filters, {}, EarlyStages)| > 0
    ensures r.Err? ==> r.error == IsFavoriteMissing
    ensures r.Ok? ==> r.value.games == store.games
  {
    match ApplyFiltersAsWired(store.games, m, hidden)
    case Ok(view) => Ok(SetFilteredGames(store, view))
    case Err(e) => Err(e)
  }

  /** Without the favourites filter the wiring makes no difference to a
      render. */
  lemma RenderAsWiredAgrees(store: GameStore, m: FilterManager.Manager, hidden: set<string>, favorites: set<string>)
    requires !m.filters.favoritesOnly
    ensures RenderAsWired(store, m, hidden) == Ok(Render(store, m, hidden, favorites))
  {
    AsWiredAgreesWithoutFavorites(store.games, m, hidden, favorites);
  }

  // ---------------------------------------------------------------------
  // The clear-filters button
  // ---------------------------------------------------------------------

  /** The condition `updateClearFiltersButton` shows the button on. */
  predicate HasActiveFilters(f: FilterState) {
    f.search != "" || f.status != "all"
    || |f.genres| > 0 || |f.platforms| > 0 || |f.emulators| > 0
    || f.yearMin.Some? || f.yearMax.Some?
    || f.gpuNvidia || f.gpuAmd || f.gpuIntel
    || f.subscriptionOnly || f.favoritesOnly
    || f.hasTestMode || f.gunGame || f.is64Bit || f.requiresAdmin
    || f.showHiddenGames || f.hideSubscription
  }

  /** The button is hidden exactly when every one of the eighteen fields
      holds its default. */
  lemma NoActiveFiltersIffDefault(f: FilterState)
    ensures !HasActiveFilters(f) <==> f == DefaultFilters
  {
    if !HasActiveFilters(f) {
      assert f.genres == [] && f.platforms == [] && f.emulators == [];
    }
  }

  /** Right after `clearAllFilters` the button hides. */
  lemma ClearHidesButton(m: FilterManager.Manager)
    ensures !HasActiveFilters(GetFilters(ClearAllFilters(m)))
  {
    NoActiveFiltersIffDefault(DefaultFilters);
  }

  // ---------------------------------------------------------------------
  // Grid columns
  // ---------------------------------------------------------------------

  const DefaultColumns := 5
  const MinColumns := 2
  const MaxColumns := 8

  /** The saved value's text: `localStorage.getItem('gridColumns') || '5'`. */
  function SavedText(saved: Option<string>): string {
    if saved.Some? && saved.value != "" then saved.value else "5"
  }

  /** `setupGridControls`: the saved count read in base 10, NaN giving 5,
      and clamped to [2, 8]. */
  function SavedColumns(saved: Option<string>): (r: int)
    ensures MinColumns <= r <= MaxColumns
    ensures ParseDecimal(SavedText(saved)).None? ==> r == DefaultColumns
    ensures forall v :: ParseDecimal(SavedText(saved)) == Some(v) && MinColumns <= v <= MaxColumns ==> r == v
    ensures forall v :: ParseDecimal(SavedText(saved)) == Some(v) && v < MinColumns ==> r == MinColumns
    ensures forall v :: ParseDecimal(SavedText(saved)) == Some(v) && v > MaxColumns ==> r == MaxColumns
  {
    match ParseDecimal(SavedText(saved))
    case None => DefaultColumns
    case Some(v) => if v < MinColumns then MinColumns else if v > MaxColumns then MaxColumns else v
  }

  /** What the slider's input handler stores: `String(parseInt(value, 10))`,
      which is `NaN` when the value does not parse. */
  function StoredColumns(value: string): string {
    match ParseDecimal(value)
    case None => "NaN"
    case Some(v) => IntToString(v)
  }

  /** A count the slider stored reads back unchanged when it is in range;
      nothing the slider can store makes the next load leave [2, 8], and a
      value that did not parse comes back as 5. */
  lemma ColumnsSurviveReload(value: string)
    ensures ParseDecimal(value).None? ==> SavedColumns(Some(StoredColumns(value))) == DefaultColumns
    ensures forall v :: ParseDecimal(value) == Some(v) && MinColumns <= v <= MaxColumns ==>
      SavedColumns(Some(StoredColumns(value))) == v
  {
    if ParseDecimal(value).None? {
      NaNDoesNotParse();
    } else {
      ParseDecimalToString(ParseDecimal(value).value);
    }
  }

  lemma NaNDoesNotParse()
    ensures ParseDecimal("NaN").None? && SavedText(Some("NaN")) == "NaN"
  {
    var s := "NaN";
    assert s[0] == 'N' && !IsSpace(s[0]);
    assert TrimStart(s) == s;
    assert DigitPrefix(s) == "";
  }

  /** `applyGridColumns()`: list view clears the template; grid view
      repeats `gridColumns || 5` equal columns. `columns` is `None` when
      the slider value did not parse. */
  function GridTemplate(view: string, columns: Option<int>): (r: string)
    ensures view == "list" <==> r == ""
  {
    if view == "list" then ""
    else
      var n := if columns.Some? && columns.value != 0 then columns.value else DefaultColumns;
      RepeatHead + IntToString(n) + RepeatTail
  }

  const RepeatHead := "repeat("
  const RepeatTail := ", minmax(0, 1fr))"

  /** The column count a grid template names, read back from after
      `repeat(`. */
  function TemplateColumns(template: string): Option<int> {
    if IsPrefix(RepeatHead, template) then ParseDecimal(template[|RepeatHead|..]) else None
  }

  /** A grid template names the slider's count, or 5 when it has none. */
  lemma GridTemplateColumns(view: string, columns: Option<int>)
    requires view != "list"
    ensures columns.Some? && columns.value != 0 ==> TemplateColumns(GridTemplate(view, columns)) == Some(columns.value)
    ensures columns.None? || columns.value == 0 ==> TemplateColumns(GridTemplate(view, columns)) == Some(DefaultColumns)
  {
    var n := if columns.Some? && columns.value != 0 then columns.value else DefaultColumns;
    var t := GridTemplate(view, columns);
    assert t == RepeatHead + (IntToString(n) + RepeatTail);
    assert t[|RepeatHead|..] == IntToString(n) + RepeatTail;
    assert !IsDigit(RepeatTail[0]);
    ParseDecimalLeading(n, RepeatTail);
  }

  // ---------------------------------------------------------------------
  // Filter option counts
  // ---------------------------------------------------------------------

  /** How many games have `key(g) == v`. */
  function CountKey(games: seq<Game>, key: Game -> string, v: string): (r: nat)
    ensures r <= |games|
    decreases |games|
  {
    if |games| == 0 then 0
    else (if key(games[0]) == v then 1 else 0) + CountKey(games[1..], key, v)
  }

  /** The key each list filter compares against. */
  function StageKey(st: StageName): Game -> string {
    match st
    case GenreStage => GenreKey
    case PlatformStage => PlatformKey
    case EmulatorStage => EmulatorKey
    case _ => (g: Game) => g.id
  }

  /** The list a list filter takes its values from. */
  function StageValues(f: FilterState, st: StageName): seq<string> {
    match st
    case GenreStage => f.genres
    case PlatformStage => f.platforms
    case EmulatorStage => f.emulators
    case _ => []
  }

  predicate ListStage(st: StageName) {
    st == GenreStage || st == PlatformStage || st == EmulatorStage
  }

  /** `populateFilterOptions`: the count shown beside an option is the
      number of games the filter keeps when that option alone is chosen,
      since both use the same key. */
  lemma {:induction false} OptionCountMatchesFilter(games: seq<Game>, f: FilterState, favorites: set<string>, st: StageName, v: string)
    requires ListStage(st) && StageValues(f, st) == [v]
    ensures CountKey(games, StageKey(st), v) == |FilterStage(games, f, favorites, st)|
    decreases |games|
  {
    if |games| > 0 {
      OptionCountMatchesFilter(games[1..], f, favorites, st, v);
      assert StagePass(f, favorites, st, games[0]) <==> StageKey(st)(games[0]) == v;
    }
  }

  // ---------------------------------------------------------------------
  // Cards
  // ---------------------------------------------------------------------

  /** The name on a card: `game.name || game.id`. */
  function CardName(g: Game): (r: string)
    ensures Truthy(g.name) ==> r == g.name
    ensures !Truthy(g.name) ==> r == g.id
  {
    Or(g.name, g.id)
  }

  /** The genre on a card: the genre key, or 'Unknown' when it is
      empty. */
  function CardGenre(g: Game): (r: string)
    ensures r != ""
    ensures r == "Unknown" <==> GenreKey(g) == "" || GenreKey(g) == "Unknown"
    ensures r != "Unknown" ==> r == GenreKey(g)
  {
    Or(GenreKey(g), "Unknown")
  }

  /** A genre a card names is one of the genre filter's options. */
  lemma CardGenreListed(games: seq<Game>, k: int)
    requires 0 <= k < |games| && CardGenre(games[k]) != "Unknown"
    ensures CardGenre(games[k]) in GetGenres(games)
  {
  }
}

=== FILE: uri.dfy ===
/** The query-string contract between the browser client and the local
    servers: the client writes each parameter with `encodeURIComponent`,
    the servers read it back with `URL.searchParams.get`.  Characters are
    Unicode scalar values, so the lone surrogates on which
    `encodeURIComponent` throws do not arise. */
module Uri {
  import opened Wrappers
  import opened Text

  type Byte = b: int | 0 <= b < 256

  // ---------------------------------------------------------------------
  // Encoding

  /** The characters `encodeURIComponent` leaves as they are. */
  predicate Unreserved(c: char) {
    'A' <= c <= 'Z' || 'a' <= c <= 'z' || '0' <= c <= '9' || c in "-_.!~*'()"
  }

  /** The UTF-8 encoding of one scalar value. */
  function Utf8(c: char): (r: seq<Byte>)
    ensures 1 <= |r| <= 4
    ensures |r| == 1 <==> c as int < 0x80
    ensures forall i :: 1 <= i < |r| ==> 0x80 <= r[i] < 0xC0
  {
    var n := c as int;
    if n < 0x80 then [n]
    else if n < 0x800 then [0xC0 + n / 64, 0x80 + n % 64]
    else if n < 0x10000 then [0xE0 + n / 4096, 0x80 + n / 64 % 64, 0x80 + n % 64]
    else [0xF0 + n / 262144, 0x80 + n / 4096 % 64, 0x80 + n / 64 % 64, 0x80 + n % 64]
  }

  /** The UTF-8 encoding of a string. */
  function Utf8Of(s: string): (r: seq<Byte>)
    ensures |r| >= |s|
    decreases |s|
  {
    if |s| == 0 then [] else Utf8(s[0]) + Utf8Of(s[1..])
  }

  /** An upper-case hexadecimal digit. */
  function HexDigit(n: int): (r: char)
    requires 0 <= n < 16
    ensures IsHex(r) && HexValue(r) == n
  {
    if n < 10 then (48 + n) as char else (55 + n) as char
  }

  predicate IsHex(c: char) {
    '0' <= c <= '9' || 'A' <= c <= 'F' || 'a' <= c <= 'f'
  }

  function HexValue(c: char): (r: int)
    requires IsHex(c)
    ensures 0 <= r < 16
  {
    if c <= '9' then c as int - 48
    else if c <= 'F' then c as int - 55
    else c as int - 87
  }

  /** `%HH` for each byte. */
  function Percent(bs: seq<Byte>): (r: string)
    ensures |r| == 3 * |bs|
    ensures forall i :: 0 <= i < |r| ==> r[i] == '%' || IsHex(r[i])
    decreases |bs|
  {
    if |bs| == 0 then ""
    else
      var rest := Percent(bs[1..]);
      var r := ['%', HexDigit(bs[0] / 16), HexDigit(bs[0] % 16)] + rest;
      assert forall i :: 3 <= i < |r| ==> r[i] == rest[i - 3];
      r
  }

  function EncodeChar(c: char): (r: string)
    ensures forall i :: 0 <= i < |r| ==> Unreserved(r[i]) || r[i] == '%' || IsHex(r[i])
  {
    if Unreserved(c) then [c] else Percent(Utf8(c))
  }

  /** `encodeURIComponent(s)`: the result holds only unreserved characters
      and escapes, so no `&`, `=`, `+`, `#` or `?` of the input survives. */
  function Encode(s: string): (r: string)
    ensures forall i :: 0 <= i < |r| ==> Unreserved(r[i]) || r[i] == '%' || IsHex(r[i])
    decreases |s|
  {
    if |s| == 0 then ""
    else
      var head := EncodeChar(s[0]);
      var rest := Encode(s[1..]);
      EncodedAppend(head, rest);
      head + rest
  }

  lemma EncodedAppend(head: string, rest: string)
    requires forall i :: 0 <= i < |head| ==> Unreserved(head[i]) || head[i] == '%' || IsHex(head[i])
    requires forall i :: 0 <= i < |rest| ==> Unreserved(rest[i]) || rest[i] == '%' || IsHex(rest[i])
    ensures forall i :: 0 <= i < |head + rest| ==> Unreserved((head + rest)[i]) || (head + rest)[i] == '%' || IsHex((head + rest)[i])
  {
    forall i | 0 <= i < |head + rest|
      ensures Unreserved((head + rest)[i]) || (head + rest)[i] == '%' || IsHex((head + rest)[i])
    {
      if i >= |head| {
        assert (head + rest)[i] == rest[i - |head|];
      }
    }
  }

  /** Text made of unreserved characters is sent unchanged. */
  lemma {:induction false} EncodeUnreserved(s: string)
    requires forall i :: 0 <= i < |s| ==> Unreserved(s[i])
    ensures Encode(s) == s
    decreases |s|
  {
    if |s| > 0 {
      EncodeUnreserved(s[1..]);
      assert s == [s[0]] + s[1..];
    }
  }

  /** The encoded text never holds a separator of the query syntax. */
  lemma EncodeHasNoSeparator(s: string)
    ensures '&' !in Encode(s) && '=' !in Encode(s) && '+' !in Encode(s) && '?' !in Encode(s) && '#' !in Encode(s)
  {
    var r := Encode(s);
    forall i | 0 <= i < |r|
      ensures r[i] != '&' && r[i] != '=' && r[i] != '+' && r[i] != '?' && r[i] != '#'
    {
      assert Unreserved(r[i]) || r[i] == '%' || IsHex(r[i]);
    }
  }

  // ---------------------------------------------------------------------
  // Decoding

  /** The bytes the form-urlencoded parser works on: the UTF-8 encoding
      of the text with `+` read as a space and each `%HH` read as one
      byte; a `%` without two hex digits after it stands for itself. */
  function Bytes(s: string): (r: seq<Byte>)
    decreases |s|
  {
    if |s| == 0 then []
    else if s[0] == '%' && |s| >= 3 && IsHex(s[1]) && IsHex(s[2]) then
      [HexValue(s[1]) * 16 + HexValue(s[2])] + Bytes(s[3..])
    else if s[0] == '+' then [0x20] + Bytes(s[1..])
    else Utf8(s[0]) + Bytes(s[1..])
  }

  predicate Cont(b: Byte) {
    0x80 <= b < 0xC0
  }

  /** One scalar value from the front of a byte sequence, with the number
      of bytes it takes; none for an ill-formed sequence (overlong forms,
      surrogates and values past U+10FFFF included). */
  function DecodeOne(bs: seq<Byte>): (r: Option<(char, nat)>)
    requires |bs| > 0
    ensures r.Some? ==> 1 <= r.value.1 <= |bs|
  {
    var b0 := bs[0] as int;
    if b0 < 0x80 then Some((b0 as char, 1))
    else if 0xC2 <= b0 < 0xE0 && |bs| >= 2 && Cont(bs[1]) then
      Some((((b0 - 0xC0) * 64 + (bs[1] as int - 0x80)) as char, 2))
    else if 0xE0 <= b0 < 0xF0 && |bs| >= 3 && Cont(bs[1]) && Cont(bs[2]) then
      var n := (b0 - 0xE0) * 4096 + (bs[1] as int - 0x80) * 64 + (bs[2] as int - 0x80);
      if 0x800 <= n && !(0xD800 <= n < 0xE000) then Some((n as char, 3)) else None
    else if 0xF0 <= b0 < 0xF5 && |bs| >= 4 && Cont(bs[1]) && Cont(bs[2]) && Cont(bs[3]) then
      var n := (b0 - 0xF0) * 262144 + (bs[1] as int - 0x80) * 4096 + (bs[2] as int - 0x80) * 64 + (bs[3] as int - 0x80);
      if 0x10000 <= n < 0x110000 then Some((n as char, 4)) else None
    else None
  }

  /** UTF-8 decoding; none where the bytes are ill-formed. */
  function Utf8Decode(bs: seq<Byte>): (r: Option<string>)
    decreases |bs|
  {
    if |bs| == 0 then Some("")
    else match DecodeOne(bs)
      case None => None
      case Some((c, k)) =>
        match Utf8Decode(bs[k..])
        case None => None
        case Some(rest) => Some([c] + rest)
  }

  /** A parameter value as the servers read it. */
  function Decode(s: string): Option<string> {
    Utf8Decode(Bytes(s))
  }

  // ---------------------------------------------------------------------
  // The round trip

  lemma Utf8Two(n: int)
    requires 0x80 <= n < 0x800
    ensures 0xC2 <= 0xC0 + n / 64 < 0xE0
    ensures (n / 64) * 64 + n % 64 == n
  {
  }

  lemma Utf8Three(n: int)
    requires 0x800 <= n < 0x10000
    ensures 0xE0 <= 0xE0 + n / 4096 < 0xF0
    ensures (n / 4096) * 4096 + (n / 64 % 64) * 64 + n % 64 == n
  {
    assert n / 64 == (n / 4096) * 64 + n / 64 % 64;
  }

  lemma Utf8Four(n: int)
    requires 0x10000 <= n < 0x110000
    ensures 0xF0 <= 0xF0 + n / 262144 < 0xF5
    ensures (n / 262144) * 262144 + (n / 4096 % 64) * 4096 + (n / 64 % 64) * 64 + n % 64 == n
  {
    assert n / 4096 == (n / 262144) * 64 + n / 4096 % 64;
    assert n / 64 == (n / 4096) * 64 + n / 64 % 64;
  }

  /** Decoding the encoding of one character gives the character back and
      consumes exactly its bytes. */
  lemma DecodeOneUtf8(c: char, rest: seq<Byte>)
    ensures DecodeOne(Utf8(c) + rest) == Some((c, |Utf8(c)|))
  {
    var n := c as int;
    var bs := Utf8(c) + rest;
    if n < 0x80 {
    } else if n < 0x800 {
      Utf8Two(n);
      assert bs[0] == 0xC0 + n / 64 && bs[1] == 0x80 + n % 64;
    } else if n < 0x10000 {
      Utf8Three(n);
      assert bs[0] == 0xE0 + n / 4096 && bs[1] == 0x80 + n / 64 % 64 && bs[2] == 0x80 + n % 64;
    } else {
      Utf8Four(n);
      assert bs[0] == 0xF0 + n / 262144 && bs[1] == 0x80 + n / 4096 % 64;
      assert bs[2] == 0x80 + n / 64 % 64 && bs[3] == 0x80 + n % 64;
    }
  }

  lemma {:induction false} Utf8DecodeOf(s: string)
    ensures Utf8Decode(Utf8Of(s)) == Some(s)
    decreases |s|
  {
    if |s| > 0 {
      var bs := Utf8Of(s);
      DecodeOneUtf8(s[0], Utf8Of(s[1..]));
      assert bs[|Utf8(s[0])|..] == Utf8Of(s[1..]);
      Utf8DecodeOf(s[1..]);
      assert s == [s[0]] + s[1..];
    }
  }

  /** An escape `%HH` in front reads as its one byte. */
  lemma BytesEscape(h1: char, h2: char, tail: string)
    requires IsHex(h1) && IsHex(h2)
    ensures Bytes(['%', h1, h2] + tail) == [HexValue(h1) * 16 + HexValue(h2)] + Bytes(tail)
  {
    var t := ['%', h1, h2] + tail;
    assert t[3..] == tail;
  }

  lemma ByteDigits(b: Byte)
    ensures (b / 16) * 16 + b % 16 == b
  {
  }

  /** The first escape of `Percent(bs)` reads back as the first byte. */
  lemma PercentStep(bs: seq<Byte>, rest: string)
    requires |bs| > 0
    ensures Bytes(Percent(bs) + rest) == [bs[0]] + Bytes(Percent(bs[1..]) + rest)
  {
    var h1, h2 := HexDigit(bs[0] / 16), HexDigit(bs[0] % 16);
    var tail := Percent(bs[1..]) + rest;
    assert Percent(bs) + rest == ['%', h1, h2] + tail;
    BytesEscape(h1, h2, tail);
    ByteDigits(bs[0]);
  }

  lemma {:induction false} BytesOfPercent(bs: seq<Byte>, rest: string)
    ensures Bytes(Percent(bs) + rest) == bs + Bytes(rest)
    decreases |bs|
  {
    if |bs| > 0 {
      PercentStep(bs, rest);
      BytesOfPercent(bs[1..], rest);
      assert [bs[0]] + (bs[1..] + Bytes(rest)) == bs + Bytes(rest);
    } else {
      assert Percent(bs) + rest == rest;
    }
  }

  lemma BytesOfEncodeChar(c: char, rest: string)
    ensures Bytes(EncodeChar(c) + rest) == Utf8(c) + Bytes(rest)
  {
    if Unreserved(c) {
      assert (EncodeChar(c) + rest)[1..] == rest;
    } else {
      BytesOfPercent(Utf8(c), rest);
    }
  }

  /** Reading an encoded value gives its UTF-8 bytes. */
  lemma {:induction false} BytesOfEncode(s: string)
    ensures Bytes(Encode(s)) == Utf8Of(s)
    decreases |s|
  {
    if |s| > 0 {
      BytesOfEncodeChar(s[0], Encode(s[1..]));
      BytesOfEncode(s[1..]);
    }
  }

  /** What the client encodes the servers read back unchanged. */
  lemma DecodeEncode(s: string)
    ensures Decode(Encode(s)) == Some(s)
  {
    BytesOfEncode(s);
    Utf8DecodeOf(s);
  }

  // ---------------------------------------------------------------------
  // Query strings

  /** `searchParams.get(key)`: absent, or the value of the first
      `&`-separated piece whose name decodes to the key (a piece without
      `=` has the empty value); a value that is not well-formed UTF-8 is
      reported as such. */
  datatype Param = Absent | Value(v: string) | Malformed

  /** The part of a piece before its first `=`, and the part after it. */
  function NameOf(piece: string): (r: string)
    ensures IsPrefix(r, piece)
    decreases |piece|
  {
    if |piece| == 0 || piece[0] == '=' then ""
    else
      var rest := NameOf(piece[1..]);
      assert piece[..1 + |rest|] == [piece[0]] + piece[1..][..|rest|];
      [piece[0]] + rest
  }

  function ValueOf(piece: string): string {
    var n := NameOf(piece);
    if |n| < |piece| then piece[|n| + 1..] else ""
  }

  function GetIn(pieces: seq<string>, key: string): (r: Param)
    decreases |pieces|
  {
    if |pieces| == 0 then Absent
    else if pieces[0] != "" && Decode(NameOf(pieces[0])) == Some(key) then
      match Decode(ValueOf(pieces[0]))
      case Some(v) => Value(v)
      case None => Malformed
    else GetIn(pieces[1..], key)
  }

  function Get(query: string, key: string): Param {
    GetIn(Split(query, '&'), key)
  }

  /** The query of a request path: what follows its first `?`. */
  function QueryOf(path: string): (r: string)
    ensures |r| <= |path|
    decreases |path|
  {
    if |path| == 0 then ""
    else if path[0] == '?' then path[1..]
    else QueryOf(path[1..])
  }

  lemma {:induction false} NameOfPlain(key: string, rest: string)
    requires '=' !in key
    ensures NameOf(key + "=" + rest) == key
    decreases |key|
  {
    if |key| > 0 {
      assert (key + "=" + rest)[1..] == key[1..] + "=" + rest;
      NameOfPlain(key[1..], rest);
    } else {
      assert (key + "=" + rest)[0] == '=';
    }
  }

  lemma {:induction false} QueryOfPlain(path: string, query: string)
    requires '?' !in path
    ensures QueryOf(path + "?" + query) == query
    decreases |path|
  {
    if |path| > 0 {
      assert (path + "?" + query)[1..] == path[1..] + "?" + query;
      QueryOfPlain(path[1..], query);
    } else {
      assert (path + "?" + query)[1..] == query;
    }
  }

  /** A query of one piece. */
  lemma GetPiece(piece: string, key: string, v: string)
    requires '&' !in piece && piece != ""
    requires Decode(NameOf(piece)) == Some(key) && Decode(ValueOf(piece)) == Some(v)
    ensures Get(piece, key) == Value(v)
  {
    SplitNoSep(piece, '&');
  }

  /** The piece `<key>=<encoded value>` splits into the key and the
      encoded value. */
  lemma EncodedPiece(key: string, v: string)
    requires forall i :: 0 <= i < |key| ==> Unreserved(key[i])
    ensures '&' !in key + "=" + Encode(v)
    ensures NameOf(key + "=" + Encode(v)) == key && ValueOf(key + "=" + Encode(v)) == Encode(v)
  {
    assert '=' !in key && '&' !in key by {
      forall i | 0 <= i < |key| ensures key[i] != '=' && key[i] != '&' {
        assert Unreserved(key[i]);
      }
    }
    EncodeHasNoSeparator(v);
    PlainPiece(key, Encode(v));
  }

  lemma PlainPiece(key: string, e: string)
    requires '=' !in key
    ensures NameOf(key + "=" + e) == key && ValueOf(key + "=" + e) == e
  {
    NameOfPlain(key, e);
    assert (key + "=" + e)[|key| + 1..] == e;
  }

  /** The request `<path>?<key>=<encoded value>` carries the value: the
      server reads exactly what the client sent. */
  lemma GetEncoded(path: string, key: string, v: string)
    requires '?' !in path && key != ""
    requires forall i :: 0 <= i < |key| ==> Unreserved(key[i])
    ensures Get(QueryOf(path + "?" + key + "=" + Encode(v)), key) == Value(v)
  {
    var q := key + "=" + Encode(v);
    assert path + "?" + key + "=" + Encode(v) == path + "?" + q;
    QueryOfPlain(path, q);
    EncodedPiece(key, v);
    EncodeUnreserved(key);
    DecodeEncode(key);
    DecodeEncode(v);
    GetPiece(q, key, v);
  }
}

=== FILE: wrappers.dfy ===
/** Optional values and results with an error payload, used wherever the
    JavaScript code returns null/undefined or throws. */
module Wrappers {

  /** A value that may be missing (JavaScript `null` or `undefined`). */
  datatype Option<+T> = None | Some(value: T) {

    /** The wrapped value, or `default` when missing (JavaScript `x ?? d`). */
    function GetOr(default: T): T {
      match this
      case Some(v) => v
      case None => default
    }
  }

  /** The outcome of an operation that may throw. */
  datatype Result<+T, +E> = Ok(value: T) | Err(error: E)
}
